=== FILE: README.md ===
# Chameleon configuration engine in Dafny

Chameleon (Kustom_ai) is an Android chat app. It generates and edits home-screen customisation presets from plain-language requests. This project models its core in Dafny and proves properties of that model.

The heart of the core is a configuration-document engine. Three kinds of persisted preset are read into a generic tree: JSON inside a ZIP (KLWP, KLCK and KWGT), XML inside a ZIP (Total Launcher) and bare XML (Tasker). The engine then lists, searches and edits that tree in memory under a "modified" flag, and writes it back. Around the engine sit:

- the plugin registry;
- the on-device preset store;
- the template preset generator;
- the theme matcher;
- the chat front end with its pending preset;
- the preview pane;
- the onboarding steps;
- the easter egg;
- the sass personality;
- device scoring;
- prompt assembly.

## Layout

One module per file, all flat in this directory.

| file | module | what it models |
|---|---|---|
| wrappers.dfy | Wrappers | Option, Result and the Python exception kinds the core raises |
| text.dfy | Text | the str methods the core uses (ASCII case mapping, strip, in, replace, ordering) |
| seqs.dfy | Seqs | three sequence facts |
| ordered_map.dfy | OrderedMap | Python's insertion-ordered dict: first-match lookup, in-place assignment, update() |
| json.dfy | Json | JSON values as json.load returns them, objects keeping their key order |
| paths.dfy | Paths | the pathlib operations used (name, suffix, with_suffix, joining) |
| files.dfy | Files | the file system as a class over a map of paths; a ZIP archive as its sequence of members |
| sorting.dfy | Sorting | sorted(..., key=...) in both directions as a stable insertion sort |
| value_order.dfy | ValueOrder | Python's ordering of the JSON values it can compare, and sorted() over it |
| storage.dfy | Storage | the persistent key-value store (a class holding a map) |
| json_tree.dfy | JsonTree | the element walk, search and first-match update shared by the KLWP handler and the Kustom plugin |
| xml_tree.dfy | XmlTree | XML elements, their {tag, attributes, text, children} dict form, and the attribute update |
| xml_items.dfy | XmlItems | the item walk and search shared by Tasker and Total Launcher |
| klwp_handler.dfy | KlwpHandler | klwp_mcp_server/klwp_handler.py |
| kustom.dfy | Kustom | app/kustom_handler.py |
| kustom_plugin.dfy | KustomSuite | app/plugins/kustom_plugin.py |
| tasker.dfy | TaskerSupport | app/plugins/tasker_plugin.py |
| total_launcher.dfy | TotalLauncherSupport | app/plugins/total_launcher_plugin.py |
| plugin_interface.dfy | PluginInterface | app/plugins/plugin_interface.py |
| plugin_manager.dfy | PluginRegistry | app/plugins/plugin_manager.py |
| preset_storage.dfy | PresetStorage | app/preset_storage.py |
| preset_generator.dfy | PresetGenerator | app/preset_generator.py |
| theme_matcher.dfy | ThemeMatcher | app/theme_matcher.py |
| chat_handler.dfy | Chat | app/chat_handler.py |
| preview_system.dfy | PreviewSystem | app/preview_system.py |
| onboarding.dfy | Onboarding | app/onboarding.py |
| easter_egg.dfy | EasterEgg | app/easter_egg.py |
| sass_personality.dfy | SassPersonality | app/sass_personality.py |
| device_detector.dfy | DeviceDetector | app/device_detector.py |
| ai_prompts.dfy | AiPrompts | app/ai_prompts.py |

## Conventions

- **Objects whose fields change are classes.** The handlers, plugins, plugin manager, preset store, chat handler, preview manager and the onboarding and easter-egg managers are classes. Their methods say in `modifies` what they change and state the whole new state in `ensures`. The file system and the key-value store are classes too, shared by reference as in the program.
- **Pure code is functions.** Expressions, recursion and straight-line dict building become functions. A loop in the source becomes a method with a loop, proved equal to a function that specifies it.
- **Errors are values.** An exception the source raises on a path the model covers is a `Result` error of the matching kind: `ValueError`, `KeyError`, `FileNotFoundError`, `IsADirectoryError`, `AttributeError`, `TypeError`, `IndexError` and so on. The few inputs on which the model does not raise where Python does, or the other way round, are listed under "Left out". `requires` clauses only state what the program itself assumes.
- **Dict order is kept.** Objects are sequences of entries, because Python dict order decides which element a first-match update finds and in what order a walk reports elements.
- **Archives are member sequences.** A ZIP archive is a sequence of (name, payload) members. The payload is a JSON document, an XML element or other bytes. ZIP, XML and JSON byte encodings are not modelled.
- **Outside inputs are parameters.** Probes of the world and answers from code outside the core become parameters: file-system state, the clock, the answer of the AI model, the install probe, the hardware probe and the sass reply. The chat handler takes the sass reply as a function `sass: Context -> string`, so its contracts hold whatever line the personality picks.
- **Random choices are arbitrary.** Where the source chooses at random, the model picks any member of the candidates.
- **Plugins are classes, not an interface.** The plugin interface is a description datatype holding the base class's defaults. Each plugin is its own class with the same operations.

## Behaviours of the code the model keeps

A few behaviours of the code are easy to misread. The model keeps each of them:

- **Synthetic ids:** every synthetic id ends in "_0". The Kustom, Tasker and Total Launcher walks read the length of a list local to the current call, and that list is still empty when the id is built (app/plugins/kustom_plugin.py:124, app/plugins/tasker_plugin.py:205).
- **Saves and the modified flag:**
  - the Kustom, Tasker and Total Launcher plugins save whatever document they are handed, without consulting the flag, and drop the cache entry after the save returns;
  - the KLWP handler clears its flag only after a successful repack, and it rewrites the archive in place (klwp_mcp_server/klwp_handler.py:327).
- **create_matching_preset** (app/kustom_handler.py:165): the PRESET_TYPES lookup raises KeyError for an unknown target before the `else` branch is reached, so that branch never serves as a fallback. `Kustom.KustomHandler.CreateMatchingPreset` raises KeyError too.
- **get_saved_themes** (app/theme_matcher.py:354): the attribute access inside the `hasattr` guard raises AttributeError before the guard is evaluated. `ThemeMatcher.GetSavedThemes` raises it too (see Findings).

## Model

| member | source | states |
|---|---|---|
| AiPrompts.TypeContext | app/ai_prompts.py:156-159 | klck contributes a blank line and the lock-screen context, kwgt a blank line and the widget context, every other type nothing |
| AiPrompts.GetSystemPrompt | app/ai_prompts.py:142-165 | the prompt begins with the base prompt, continues with the type's context, and ends with the cross-format prompt exactly when a non-empty target type differs from the preset type; its length is the sum of those parts; other types without a target give the base prompt alone |
| AiPrompts.TypeName | app/ai_prompts.py:237-241 | the display-name table is defined exactly for klwp, klck and kwgt and yields one of the three display names |
| AiPrompts.TypeNamesDistinct | app/ai_prompts.py:237-241 | two different known types have different display names |
| AiPrompts.CreateCrossPresetRequest | app/ai_prompts.py:225-258 | succeeds exactly when both types are known; an unknown target type is a KeyError for the target (it is looked up first), otherwise an unknown source type is a KeyError for the source; a request opens with the line naming the target's and the source's display names and the preset name |
| DeviceDetector.RamAssessment | app/device_detector.py:178-202 | the six RAM tiers at 12288/8192/6144/4096/2048 MB give scores 100/80/60/40/20/10 with their largest and recommended model sizes |
| DeviceDetector.RamScoreMonotone | app/device_detector.py:178-202 | more RAM never gives a lower RAM score |
| DeviceDetector.CpuScore | app/device_detector.py:205-219 | 100/80/60/40/20 at 8/6/4/2 cores; an NPU adds 20, capped at 100; the score lies in 20..100 |
| DeviceDetector.AssessCapabilities | app/device_detector.py:164-237 | overall score is the floor of the mean of the RAM and CPU scores and lies in 15..100; local use is possible iff overall is at least 40; tier High from 80, Medium from 60 to 79, Low from 40 to 59 and Very Low below 40, so Very Low iff local use is impossible; NPU flag and model sizes copied from the probes and the RAM tier |
| DeviceDetector.LocalModels | app/device_detector.py:269-286 | 7B/3B offer llama3.2:3b (3B, High, Medium), phi3:mini (3.8B, High, Medium) and llama3.2:1b (1B, Good, Fast) in that order, 1B offers only llama3.2:1b, TinyLlama only tinyllama, any other size none |
| DeviceDetector.Warnings | app/device_detector.py:263-303 | exactly the slow-device warning when local use is impossible, first, then exactly the low-RAM warning naming the RAM in MB when RAM is below 4096 MB; nothing else |
| DeviceDetector.Tips | app/device_detector.py:288-307 | the NPU tips, then the battery tip exactly when the device is Android; each of the five tips is present exactly under its condition, and no other tip appears |
| DeviceDetector.NpuTips | app/device_detector.py:288-299 | with an NPU: the Gemini Nano tip, then for a Tensor chip the chip's own line, then for a G5 the G5 line, then for a 1B maximum the upgrade line; nothing without an NPU |
| DeviceDetector.TipsApart | app/device_detector.py:290-307 | the five tip texts are pairwise distinct, whatever the chip's name |
| DeviceDetector.NpuTipsNoBattery | app/device_detector.py:288-299 | none of the NPU and chip tips is the battery tip |
| DeviceDetector.GenerateRecommendations | app/device_detector.py:239-312 | primary mode Local at 70 and above, Hybrid at 40 and above, else API; local use iff overall at least 40; SSH and API always usable; the local models of the recommended size when local use is possible, none otherwise; the reasons are the mode's reason (with the score for Local) and then the SSH reason; the warnings and tips are exactly those of Warnings and Tips |
| DeviceDetector.LocalAgrees | app/device_detector.py:224-266 | the capability assessment and the recommendations agree on whether a local model can run |
| DeviceDetector.HybridWithoutModels | app/device_detector.py:195-286 | a device with 1024 MB of RAM and eight cores is recommended Hybrid with local use allowed, yet offered no local model (its recommended size is API-only) |
| EasterEgg.Successor | app/easter_egg.py:52 | `count + 1` on a stored value: a number gives its successor, a boolean counts as 0 or 1, anything else is a TypeError |
| EasterEgg.EasterEggManager.constructor | app/easter_egg.py:9-11 | the manager works on the given store |
| EasterEgg.EasterEggManager.ActivateThemeMatching | app/easter_egg.py:22-25 | sets both the shown and the unlocked flag and nothing else, so theme matching reads as unlocked and the trigger as spent |
| EasterEgg.EasterEggManager.IncrementPresetsCreated | app/easter_egg.py:45-54 | stores and returns the previous count plus one; on a TypeError the store is unchanged |
| EasterEgg.EasterEggManager.SetLastCreatedPreset | app/easter_egg.py:65-72 | stores the preset name under the last-preset key and nothing else |
| EasterEgg.EasterEggManager.CheckAndTriggerEasterEgg | app/easter_egg.py:74-96 | always increments the counter and records the name; reports true iff the new count is 1 and the egg was not shown; when the count was already at least 1 it never fires |
| EasterEgg.EasterEggManager.TriggerSeries | app/easter_egg.py:86-96 | over any series of saves the egg fires at most once, because the counter only grows |
| EasterEgg.EasterEggManager.UnlockHiddenFeature | app/easter_egg.py:98-105 | sets the feature's flag, after which the feature reads as unlocked |
| EasterEgg.EasterEggManager.UnlockedAmong | app/easter_egg.py:130-133 | the unlocked features among a list, in list order: exactly those of the list that are unlocked |
| EasterEgg.EasterEggManager.EasterEggStats | app/easter_egg.py:119-134 | reports the stored count and last preset as they are; the unlocked features are exactly the unlocked ones among theme_matching, preset_sync, auto_backup, in that order |
| EasterEgg.EasterEggManager.ResetEasterEggs | app/easter_egg.py:136-141 | zeroes the counter, clears both flags and sets the last preset to the empty string, so the trigger is armed again |
| Onboarding.NamesDistinct | app/onboarding.py:33-56 | distinct steps have distinct names |
| Onboarding.NamesOfComplete | app/onboarding.py:33-56 | only the complete step is named `complete` |
| Onboarding.OnboardingManager.constructor | app/onboarding.py:20-22 | the manager works on the given store |
| Onboarding.OnboardingManager.CurrentStep | app/onboarding.py:33-56 | `complete` iff marked complete or all four step keys are truthy; `backend` iff not complete and no backend; any later step implies every earlier key is truthy |
| Onboarding.OnboardingManager.CompleteBackendSelection | app/onboarding.py:58-67 | stores backend and configuration; a non-empty backend never moves the flow back and leaves the backend step behind, an empty one (falsy) leaves it pending |
| Onboarding.OnboardingManager.CompleteModelSetup | app/onboarding.py:69-77 | stores the model flag and information; never moves the flow back and advances past the model step |
| Onboarding.OnboardingManager.SetKlwpDirectory | app/onboarding.py:79-95 | stores the directory, which reads back; a non-empty one never moves the flow back and advances past the directory step |
| Onboarding.OnboardingManager.CompleteWorkflowIntro | app/onboarding.py:97-114 | marks the workflow shown: from the workflow step the flow is complete, and the voice button appears |
| Onboarding.OnboardingManager.CompleteOnboarding | app/onboarding.py:101-103 | the step is `complete` whatever else is stored |
| Onboarding.OnboardingManager.RunFlow | app/onboarding.py:58-99 | the four steps done in order with a non-empty backend and directory complete the flow from any state |
| Onboarding.OnboardingManager.EnableVoice | app/onboarding.py:116-127 | voice opt-in reads back as on; the step is unchanged |
| Onboarding.OnboardingManager.DisableVoice | app/onboarding.py:116-131 | voice opt-in reads back as off; the step is unchanged |
| Onboarding.OnboardingManager.OnboardingProgress | app/onboarding.py:133-148 | every field agrees with its individual getter; current_step is `complete` iff the step is |
| Onboarding.OnboardingManager.ResetOnboarding | app/onboarding.py:150-157 | clears the six keys: the step is `backend`, the voice button is hidden, voice is off and there is no directory |
| Onboarding.ModelLoading | app/onboarding.py:186-195 | the generic set-up message is given exactly for a backend other than local, ssh and api |
| Onboarding.DefaultDirectories | app/onboarding.py:248-257 | six paths: for each of wallpapers, lockscreens and widgets, the folder under /sdcard/Kustom/ and then under /storage/emulated/0/Kustom/ |
| Onboarding.ValidateDirectory | app/onboarding.py:260-274 | true exactly when the path exists and is a directory; a missing path is never valid |
| SassPersonality.Recent | app/sass_personality.py:304 | the last three history entries (all of them when fewer), each drawn from the history |
| SassPersonality.TemplatesFor | app/sass_personality.py:294-301 | an unknown context falls back to SUCCESS; the level's list when present, otherwise the NEUTRAL list; a missing NEUTRAL list or SUCCESS context is a KeyError |
| SassPersonality.Unrepeated | app/sass_personality.py:304 | exactly the templates not among the recent replies |
| SassPersonality.Candidates | app/sass_personality.py:304-306 | drawn from the templates; none recent when some template is not recent; non-empty for non-empty templates |
| SassPersonality.Record | app/sass_personality.py:311-313 | the reply is appended and becomes the last entry; below ten entries nothing is dropped, at ten the oldest is dropped, so the history never exceeds ten |
| SassPersonality.Personality.constructor | app/sass_personality.py:272-280 | the given default level and an empty history |
| SassPersonality.Personality.GetResponse | app/sass_personality.py:282-315 | the reply is one of the templates for the context at the override level, else the default level; it is not among the last three replies whenever some template is not; the history becomes Record of the old history and the reply and stays within ten; lookup errors and an empty template list (random.choice on an empty list) change nothing |
| SassPersonality.Personality.SetSassLevel | app/sass_personality.py:317-319 | only the default level changes |
| SassPersonality.Personality.GetClearanceText | app/sass_personality.py:321-337 | a reply at the LIGHT level whatever the default level, recorded in the history; the default level is unchanged |
| PluginInterface.Describe | app/plugins/plugin_interface.py:16-34 | each built-in plugin's identity (name, version "1.0.0", app, package, item types) from that plugin's own constants |
| PluginInterface.AppsDistinct | app/plugins/plugin_manager.py:109-111 | two different built-in plugins never support the same app ignoring case, so an app name selects at most one |
| PluginInterface.DefaultElementTypes | app/plugins/plugin_interface.py:142-149 | the base class lists no item types |
| PluginInterface.ElementTypesOverridden | app/plugins/kustom_plugin.py:278 | every built-in plugin replaces the empty default with a non-empty list |
| PluginInterface.ValidateConfig | app/plugins/plugin_interface.py:151-161 | the default accepts every document, with no message |
| PluginInterface.DefaultConfig | app/plugins/plugin_interface.py:163-170 | the default configuration is the empty dict |
| PluginInterface.Show | app/plugins/plugin_interface.py:188-190 | the text starts with "name vversion", ends with " (app)" and has exactly five extra characters |
| PluginInterface.ExportConfig | app/plugins/plugin_interface.py:172-186 | succeeds exactly when shutil.copy2 of the named config would: the source is a file, the copy does not land on it, and its target can be written; the copy lands inside a directory export path under the config's name; the export path is returned; otherwise copy2's error and nothing is written |
| PluginRegistry.RegisteredExactly | app/plugins/plugin_manager.py:20-69 | a first loading pass registers exactly the admitted plugins, in the order kustom, total_launcher, tasker: Kustom whenever it builds, the other two only when built and installed |
| PluginRegistry.RegisteredLookup | app/plugins/plugin_manager.py:35-69 | each plugin is found under its id exactly when the loading pass admits it |
| PluginRegistry.Values | app/plugins/plugin_manager.py:80 | the registered plugins in insertion order |
| PluginRegistry.Installed | app/plugins/plugin_manager.py:123 | exactly the given plugins whose app is installed |
| PluginRegistry.FirstByApp | app/plugins/plugin_manager.py:109-112 | a hit is a given plugin whose app equals the name ignoring case; None exactly when no plugin's app does |
| PluginRegistry.PluginManager.constructor | app/plugins/plugin_manager.py:15-18 | no plugins and not loaded |
| PluginRegistry.PluginManager.LoadKustomPlugin | app/plugins/plugin_manager.py:35-43 | Kustom is put under "kustom" when it builds; otherwise nothing changes |
| PluginRegistry.PluginManager.LoadInstalledPlugin | app/plugins/plugin_manager.py:45-69 | Total Launcher or Tasker is put under its id only when it builds and its app is installed |
| PluginRegistry.PluginManager.LoadPlugins | app/plugins/plugin_manager.py:20-33 | a no-op once loaded; otherwise the three loaders run in order and the manager is loaded |
| PluginRegistry.PluginManager.GetPlugins | app/plugins/plugin_manager.py:71-80 | loads lazily, then returns the registered plugins in order |
| PluginRegistry.PluginManager.GetPlugin | app/plugins/plugin_manager.py:82-94 | loads lazily, then the plugin under the id, or None |
| PluginRegistry.PluginManager.GetPluginByAppName | app/plugins/plugin_manager.py:96-112 | loads lazily, then the first registered plugin whose app matches ignoring case (FirstByApp), by a loop |
| PluginRegistry.PluginManager.GetInstalledPlugins | app/plugins/plugin_manager.py:114-123 | loads lazily, then the registered plugins installed now, in order |
| PluginRegistry.PluginManager.GetPluginInfo | app/plugins/plugin_manager.py:125-145 | loads lazily, then one row per registered plugin in order, with its id, identity and install state |
| PluginRegistry.PluginManager.ReloadPlugins | app/plugins/plugin_manager.py:147-151 | forgets every plugin and ends with exactly a fresh loading pass's plugins |
| PluginRegistry.Globals.constructor | app/plugins/plugin_manager.py:155 | no manager yet |
| PluginRegistry.Globals.GetPluginManager | app/plugins/plugin_manager.py:158-168 | creates a fresh, empty manager on first use and returns the same one afterwards |
| PluginRegistry.Globals.GetTwice | app/plugins/plugin_manager.py:158-168 | two calls in a row return the same manager |
| Chat.RequestedType | app/chat_handler.py:58-64 | always one of klwp, klck, kwgt; klck exactly when "lock screen" or "klck" occurs; kwgt exactly when those do not and "widget" or "kwgt" does |
| Chat.DetectIntent | app/chat_handler.py:43-95 | a creation carries a known preset type and the original message; a modification and a general query carry the original message |
| Chat.IntentPrecedence | app/chat_handler.py:53-95 | the intent is the first of create, confirm, reject, modify and theme matching whose words occur in the lowercased message, otherwise general |
| Chat.AbsentChar | app/chat_handler.py:56 | a word holding a character the text lacks does not occur in it |
| Chat.AbsentWords | app/chat_handler.py:56 | no word of a list occurs when each holds a character the text lacks |
| Chat.LowerKeeps | app/chat_handler.py:53 | lowercasing a text without capitals leaves it unchanged |
| Chat.EditHasNoEarlierWord | app/chat_handler.py:56-77 | "edit" holds none of the create, confirm and reject words |
| Chat.EditCommandIsModify | app/chat_handler.py:80-84 | the message "edit" is read as a modification request |
| Chat.RunEnd | app/chat_handler.py:189 | the end of a run of word characters: every character up to it is a word character and the next is not |
| Chat.FindWordsSound | app/chat_handler.py:189 | every word found is a match of \b[a-z]{4,}\b at or after the scan position |
| Chat.FindWordsComplete | app/chat_handler.py:189 | every such match at or after a boundary scan position is found |
| Chat.Kept | app/chat_handler.py:192 | exactly the words that are not stop words |
| Chat.NameWords | app/chat_handler.py:189-192 | at most two words, each a non-stop-word match of the lowercased description; none exactly when every match is a stop word |
| Chat.KeptMatches | app/chat_handler.py:189-195 | the kept words are the non-stop-word matches, and there are none exactly when every match is a stop word |
| Chat.PresetName | app/chat_handler.py:186-200 | the name ends with "." and the type; its stem is "custom" without name words, the one word, or the two words joined by "_" |
| Chat.EditAnimation | app/chat_handler.py:455-472 | each kind of edit maps to its molt animation and sass context, an unrecognised one to TRANSFORM and PRESET_EDITED |
| Chat.GeneralResponse | app/chat_handler.py:347-360 | the help text exactly when help, how or "what can" occurs, otherwise the default text |
| Chat.OfferText | app/chat_handler.py:396-408 | always "smooth" |
| Chat.ChatHandler.constructor | app/chat_handler.py:29-41 | nothing pending, nothing previewed, and so no preview sharing the pending dict |
| Chat.ChatHandler.ThemeMatchingReply | app/chat_handler.py:325-345 | feigns ignorance exactly when theme matching is locked; "No presets found" exactly when unlocked without a last preset; otherwise names the last preset; never a pane action |
| Chat.ChatHandler.HandlePresetCreation | app/chat_handler.py:136-184 | a failed generation answers the error and changes nothing; otherwise the preset is pending under its generated name; when its colours cannot be sorted the reply is an error line for the TypeError, with no action, and the old preview stays, no longer sharing the new pending dict; otherwise the preview shows that same dict with its sorted colours under that name and type |
| Chat.ChatHandler.SavePendingPreset | app/chat_handler.py:229-296 | without all three pending fields: an error line, nothing changes; otherwise the pane is hidden exactly when the save and the count succeed, the fields are then cleared, and a writable preset path reads back with its metadata; the egg is offered exactly when the count becomes one, the theme trigger holds and the egg was not refused, with the preset's palette; a failure is answered by the ERROR sass line and the error's message and keeps the fields |
| Chat.ChatHandler.SaveAndCount | app/chat_handler.py:243-256 | succeeds exactly when the save succeeds and the count can be incremented; the preset is stored under its sanitized name with its palette and counted; the egg fires exactly when the count becomes one and the trigger holds; the refusal flag is untouched |
| Chat.ChatHandler.HandleEasterEggResponse | app/chat_handler.py:298-323 | accepting unlocks theme matching so the settings button shows; declining records the refusal and leaves the button as it was |
| Chat.ChatHandler.HandlePresetModification | app/chat_handler.py:423-483 | without a pending preset and preview: an error line, nothing changes; otherwise the pending dict is edited in place, partly when the edit raises, and a preview that shares that dict shows the same partial edit; a raise answers the error; a successful edit with sortable colours updates the preview under the same name and type with the edit's molt animation and sass context; otherwise the reply carries no action |
| Chat.ChatHandler.Respond | app/chat_handler.py:111-134 | given the detected intent: with a preset pending, a confirmation is everything SavePendingPreset promises and a refusal clears the fields and hides the pane; otherwise a creation is everything HandlePresetCreation promises, theme matching gives its reply, and all else gets the general response and changes nothing; only a confirmation touches the preset files or the egg store |
| Chat.ChatHandler.RespondToPending | app/chat_handler.py:111-119 | a confirmation is everything SavePendingPreset promises; a refusal clears the three fields and hides the pane without touching the files or the egg store |
| Chat.ChatHandler.RespondFresh | app/chat_handler.py:121-134 | given the detected intent: a creation is everything HandlePresetCreation promises, under the suggested name; theme matching gives its reply; everything else gets the general response and changes nothing |
| Chat.ChatHandler.HandleMessage | app/chat_handler.py:97-134 | as written: an edit while a preview is shown is an AttributeError with nothing changed; every other message gets the reply Respond promises for its detected intent |
| Chat.ChatHandler.HandleMessageIntended | app/chat_handler.py:97-134 | with the modification handler a method: an edit while a preview is shown edits the pending dict in place (partly when the edit raises), keeps the preset name, the files and the egg store, and updates the preview under the same name and type; every other message gets the reply Respond promises for its detected intent |
| KlwpHandler.CandidateDirs | klwp_mcp_server/klwp_handler.py:22-28 | five candidate directories, the configured one first |
| KlwpHandler.FirstOccurrences | klwp_mcp_server/klwp_handler.py:32-38 | positions of the candidates to keep, all within the list |
| KlwpHandler.FirstOccurrencesMembers | klwp_mcp_server/klwp_handler.py:37-39 | a directory is kept exactly when its resolved key has not occurred before it |
| KlwpHandler.FirstOccurrencesAscend | klwp_mcp_server/klwp_handler.py:34-39 | kept directories stay in their original order |
| KlwpHandler.FirstOccurrencesDistinct | klwp_mcp_server/klwp_handler.py:32-39 | kept directories have pairwise distinct resolved keys |
| KlwpHandler.FirstOccurrencesCover | klwp_mcp_server/klwp_handler.py:32-39 | every candidate's key is the key of some kept directory |
| KlwpHandler.DedupDirs | klwp_mcp_server/klwp_handler.py:32-43 | the loop keeps exactly the first directory of each resolved key, in order |
| KlwpHandler.Repack | klwp_mcp_server/klwp_handler.py:318-332 | the new archive holds every original member name once plus preset.json, with the cached document as preset.json and every other member's original bytes |
| KlwpHandler.RepackReads | klwp_mcp_server/klwp_handler.py:318-332 | reading the repacked archive gives the cached document under preset.json and every other member's original bytes |
| KlwpHandler.KLWPHandler.constructor | klwp_mcp_server/klwp_handler.py:14-45 | the search directories are the candidates deduplicated by resolved path (the path itself when it does not exist), in order; empty cache |
| KlwpHandler.KLWPHandler.Resolved | klwp_mcp_server/klwp_handler.py:36 | each directory's key is its resolved path when it exists, else the path |
| KlwpHandler.KLWPHandler.FirstHolder | klwp_mcp_server/klwp_handler.py:65-68 | the first directory holding the file, with none before it holding it; -1 when none does |
| KlwpHandler.KLWPHandler.GetPresetPath | klwp_mcp_server/klwp_handler.py:47-74 | an existing path ending in .klwp in the first directory holding the preset; FileNotFoundError only when no search directory holds it |
| KlwpHandler.KLWPHandler.ReadPreset | klwp_mcp_server/klwp_handler.py:76-109 | the decoded preset.json of the located archive, cached as unmodified; a missing file, a missing preset.json or bad JSON is an error and the cache is unchanged |
| KlwpHandler.KLWPHandler.GetCachedPreset | klwp_mcp_server/klwp_handler.py:111-121 | the cached document exactly when the preset is cached |
| KlwpHandler.KLWPHandler.Load | klwp_mcp_server/klwp_handler.py:133-135 | the cached document, else a fresh read that is cached |
| KlwpHandler.KLWPHandler.ListElements | klwp_mcp_server/klwp_handler.py:123-194 | the elements of the loaded document in walk order, filtered by type; a failed load is the loader's own error |
| KlwpHandler.KLWPHandler.FindElement | klwp_mcp_server/klwp_handler.py:196-218 | the listed elements whose id, text or title holds the term ignoring case, in listing order; a failed load is the loader's own error |
| KlwpHandler.KLWPHandler.ModifyElement | klwp_mcp_server/klwp_handler.py:220-283 | the properties are merged into the first element in walk order whose id is the target, and the preset is marked modified; a miss is a ValueError that leaves the modified flag alone; a failed load is the loader's own error and leaves the cache |
| KlwpHandler.KLWPHandler.SavePreset | klwp_mcp_server/klwp_handler.py:285-341 | an unloaded preset is a ValueError; an unmodified one only returns its path; a modified one succeeds exactly when the backup (if made) succeeds and the file opens as an archive, and is then backed up, rewritten with the cached document and every other member carried over, and marked unmodified; a failed backup changes nothing, an archive that does not open fails after the backup, and the flag stays set |
| KlwpHandler.KLWPHandler.WriteBack | klwp_mcp_server/klwp_handler.py:307-332 | succeeds exactly when the backup (if made) succeeds and the file opens as an archive; then the copy to .klwp.bak and the archive reading back the cached document and the other members' bytes; a failed backup changes nothing; an archive that does not open fails after the backup |
| KlwpHandler.KLWPHandler.Collect | klwp_mcp_server/klwp_handler.py:352-361 | one location per available name, each the first directory holding it; names distinct; every available name listed |
| KlwpHandler.KLWPHandler.ListPresets | klwp_mcp_server/klwp_handler.py:343-363 | sorted, without repeats, and exactly the names of presets in some search directory |
| KlwpHandler.KLWPHandler.ListPresetsWithLocations | klwp_mcp_server/klwp_handler.py:365-390 | sorted by name; each entry is the first directory holding that name; exactly the available names |
| KlwpHandler.AddDir | klwp_mcp_server/klwp_handler.py:355-361 | one directory's presets are added when their name is new, keeping the listing's facts |
| Sorting.PermutationDistinct | klwp_mcp_server/klwp_handler.py:363 | sorting a list without repeats leaves it without repeats |
| KlwpHandler.SortedLocations | klwp_mcp_server/klwp_handler.py:390 | sorting the locations keeps the same entries and names |
| Kustom.PresetTypesKnown | app/kustom_handler.py:13-32 | the known types are exactly klwp, klck and kwgt, each with its own extension "." + type |
| Kustom.SavedReadsBack | app/kustom_handler.py:120-144 | preset.json of a saved archive parses back to the saved document |
| Kustom.SavedKeepsOthers | app/kustom_handler.py:126-134 | a save writes preset.json first, then keeps every other member of the old archive, byte for byte and in order |
| Kustom.ColorValues | app/kustom_handler.py:190-192 | exactly the truthy values the dict holds under the colour keys |
| Kustom.OwnStyle | app/kustom_handler.py:189-200 | TypeError exactly when a truthy colour value or the font cannot be put in a set; otherwise exactly the dict's truthy colour values, its font if any, and its truthy shadow |
| Kustom.ThenAssoc | app/kustom_handler.py:187-211 | combining contributions in visiting order is associative |
| Kustom.ThenNone | app/kustom_handler.py:187-211 | the empty contribution is neutral on both sides |
| Kustom.StyleDicts | app/kustom_handler.py:188-189 | only dicts are reached, and nothing deeper than depth 15 |
| Kustom.SumStylesConcat | app/kustom_handler.py:203-211 | the contributions of two runs of dicts combine in order |
| Kustom.TraverseSums | app/kustom_handler.py:187-211 | the traversal collects exactly what the reached dicts contribute, each before its descendants, in visiting order |
| Kustom.Enumerate | app/kustom_handler.py:216-217 | list(set) holds each member of the set exactly once |
| Kustom.LockScreenShape | app/kustom_handler.py:222-251 | three items: a clock in the first colour and font, a date in the second colour, a battery arc in the first colour, with the stated fallbacks |
| Kustom.WidgetShape | app/kustom_handler.py:253-277 | 400x200: a background in the first colour and a clock in the second colour and first font, with the stated fallbacks |
| Kustom.WallpaperShape | app/kustom_handler.py:279-312 | 1080x1920: a background in the first colour, a clock and a date in the second colour, the clock in the first font, with the stated fallbacks |
| Kustom.LayoutFor | app/kustom_handler.py:168-174 | klck gets the lock screen, kwgt the widget, any other type the wallpaper |
| Kustom.KustomHandler.constructor | app/kustom_handler.py:36-49 | the type's configuration and base directory, and an empty cache |
| Kustom.KustomHandler.Create | app/kustom_handler.py:43-44 | succeeds exactly for klwp, klck and kwgt; otherwise ValueError "Invalid preset type: " + type |
| Kustom.KustomHandler.LoadsSaved | app/kustom_handler.py:75-144 | a preset file holding a saved archive reads back as the saved document |
| Kustom.KustomHandler.ReadPreset | app/kustom_handler.py:75-101 | a missing file is FileNotFoundError, an archive without preset.json ValueError; a success caches the document unmodified under the name with its extension |
| Kustom.KustomHandler.SavePreset | app/kustom_handler.py:103-144 | fails exactly when the backup copy fails, the '.tmp' sibling cannot be written or the old archive cannot be opened; on success the path of the preset, the optional backup, and the archive holding preset.json followed by the old archive's other members, with no '.tmp' file left; a failed backup changes nothing; a '.tmp' that cannot be written fails after the backup; an unreadable old archive fails after the '.tmp' file is written |
| Kustom.KustomHandler.ListPresets | app/kustom_handler.py:51-73 | one entry per preset file of the type in the directory, describing that file, no file twice, sorted by lower-cased name; [] when the directory is missing |
| Kustom.KustomHandler.SortedListing | app/kustom_handler.py:64-73 | a sorted permutation of the globbed files' entries is that listing |
| Kustom.KustomHandler.CreateMatchingPreset | app/kustom_handler.py:146-176 | succeeds exactly when the source loads, its style extracts and the target type is known; reads and caches the source; a load error is the loader's own error and leaves the cache; a style error propagates; an unknown target type is a KeyError; on success the target's layout built from the style's colours and fonts, each listed once |
| KustomSuite.TypeOfName | app/plugins/kustom_plugin.py:81-88 | a type is found only when the name ends with "." + that type, and none when it ends with no known extension |
| KustomSuite.KustomPlugin.constructor | app/plugins/kustom_plugin.py:14-22 | three fresh handlers, one per type, current type klwp, empty cache |
| KustomSuite.KustomPlugin.HandlerForType | app/plugins/kustom_plugin.py:81-88 | the handler chosen is the one named by the extension, else the current type's; a name with a known extension keeps it |
| KustomSuite.KustomPlugin.InstalledIffFolder | app/plugins/kustom_plugin.py:40-47 | installed exactly when one of the three Kustom folders exists |
| KustomSuite.KustomPlugin.SetPresetType | app/plugins/kustom_plugin.py:53-61 | only a known type becomes current; anything else changes nothing |
| KustomSuite.KustomPlugin.ListConfigs | app/plugins/kustom_plugin.py:63-69 | the klwp listing, then the klck, then the kwgt one |
| KustomSuite.KustomPlugin.ReadConfig | app/plugins/kustom_plugin.py:71-93 | reads through the chosen handler and caches the document unmodified under the given name; an error leaves the cache |
| KustomSuite.KustomPlugin.Load | app/plugins/kustom_plugin.py:107-109 | the cached document, else a fresh read |
| KustomSuite.KustomPlugin.ListElements | app/plugins/kustom_plugin.py:95-150 | the Kustom walk of the loaded document from the root, filtered by type; a failed load is the loader's own error |
| KustomSuite.KustomPlugin.FindElement | app/plugins/kustom_plugin.py:152-174 | the listed elements whose id, text or type mentions the term ignoring case, in listing order; a failed load is the loader's own error |
| KustomSuite.KustomPlugin.ModifyElement | app/plugins/kustom_plugin.py:176-226 | the properties merged into the first element in walk order whose id is the target, the cached document marked modified; a miss is ValueError "Element '…' not found"; a failed load is the loader's own error and leaves the cache |
| KustomSuite.KustomPlugin.ReadsBackSaved | app/plugins/kustom_plugin.py:228-257 | after a save, reading the name back gives the saved document |
| KustomSuite.KustomPlugin.SaveConfig | app/plugins/kustom_plugin.py:228-257 | saves through the chosen handler and drops the cache entry; on success the name reads back as the saved document; an error leaves the cache |
| TaskerSupport.KindKeyOrder | app/plugins/tasker_plugin.py:100 | on the three kinds, the flattened key orders entries by type, then by lower-cased name, as the tuple key does |
| TaskerSupport.KindsOrdered | app/plugins/tasker_plugin.py:100 | profiles sort before projects and projects before tasks |
| TaskerSupport.ListedName | app/plugins/tasker_plugin.py:70-96 | a file named n plus a kind's marker, with no dot in n, is listed under the name n and its own file name |
| TaskerSupport.TaskerPlugin.constructor | app/plugins/tasker_plugin.py:14-17 | empty cache on the given file system |
| TaskerSupport.TaskerPlugin.ResolveFrom | app/plugins/tasker_plugin.py:114-119 | the name itself, or the first existing file of a later kind |
| TaskerSupport.TaskerPlugin.Resolve | app/plugins/tasker_plugin.py:113-119 | the loop settles on the resolved name: the first kind whose file exists, else the name as given |
| TaskerSupport.TaskerPlugin.ListedNameResolves | app/plugins/tasker_plugin.py:58-119 | a listed name resolves to a file of its own, the listed one when no earlier kind has that name |
| TaskerSupport.TaskerPlugin.ReadConfig | app/plugins/tasker_plugin.py:102-141 | resolves the name, fails with FileNotFoundError when the file is missing, and caches the parsed document unmodified under the resolved name |
| TaskerSupport.TaskerPlugin.Load | app/plugins/tasker_plugin.py:264-266 | the document cached under the name as given, else a fresh read cached under the resolved name |
| TaskerSupport.TaskerPlugin.ListElements | app/plugins/tasker_plugin.py:170-224 | the Tasker walk of the loaded document from the root, filtered by tag; a failed load is its error |
| TaskerSupport.TaskerPlugin.FindElement | app/plugins/tasker_plugin.py:226-248 | the listed items whose id, name, type or code mentions the term ignoring case, in listing order |
| TaskerSupport.TaskerPlugin.ModifyElement | app/plugins/tasker_plugin.py:250-299 | as written: the first node in pre-order whose sr (else ve) is the target gets the properties; a miss is ValueError; when resolution changed the name the edit lands under the resolved key and marking it modified is a KeyError |
| TaskerSupport.TaskerPlugin.BareNameHomedElsewhere | app/plugins/tasker_plugin.py:113-133 | a bare name whose project file exists is cached under the file's name, not the name as given |
| TaskerSupport.TaskerPlugin.Store | app/plugins/tasker_plugin.py:273-274 | marking the entry under the given name: the edit is kept, and a missing entry is a KeyError |
| TaskerSupport.TaskerPlugin.ModifyElementCorrected | app/plugins/tasker_plugin.py:250-276 | corrected: a hit always succeeds and marks modified the entry that holds the edited document |
| TaskerSupport.TaskerPlugin.SaveConfig | app/plugins/tasker_plugin.py:301-333 | fails exactly when the backup copy fails or the path cannot be opened for writing, with that error and nothing changed; otherwise the path below the Tasker folder, the optional backup copy, the document written as XML and its cache entry dropped; a normal document reads back as saved |
| TaskerSupport.TaskerPlugin.Describe | app/plugins/tasker_plugin.py:70-96 | the entries of one kind describe exactly that kind's files |
| TaskerSupport.TaskerPlugin.ListConfigs | app/plugins/tasker_plugin.py:58-100 | one entry per project, task and profile file, describing that file, no file twice, sorted by type then lower-cased name; [] when the folder is missing |
| TaskerSupport.TaskerPlugin.ListedOnce | app/plugins/tasker_plugin.py:58-100 | a file is listed under one kind only, since the three name patterns exclude each other |
| TaskerSupport.TaskerPlugin.SamePathSameEntry | app/plugins/tasker_plugin.py:70-96 | two entries describing the same file are the same entry |
| TaskerSupport.TaskerPlugin.ConcatDistinct | app/plugins/tasker_plugin.py:58-100 | the projects, tasks and profiles, each without repeats, together hold no entry twice |
| TaskerSupport.ActionNodes | app/plugins/tasker_plugin.py:384-393 | one action per given action, in order, with id act<i> and its code |
| TaskerSupport.CreateSimpleTask | app/plugins/tasker_plugin.py:362-395 | a TaskerData root holding one task named as given with the actions appended in order |
| TaskerSupport.SimpleTaskWalk | app/plugins/tasker_plugin.py:362-395 | the walk of a created task is the task, then its actions |
| TaskerSupport.ActionsListed | app/plugins/tasker_plugin.py:384-393 | the walk of a created task's actions lists action i as an Action with id act<i> and its code |
| TaskerSupport.SimpleTaskListed | app/plugins/tasker_plugin.py:362-395 | listing a created task gives the task (id task1, its name, its action count) and then each action in order |
| TotalLauncherSupport.ElementTypesListed | app/plugins/total_launcher_plugin.py:358-360 | the item types offered are exactly the tags the item walk reports |
| TotalLauncherSupport.XmlNames | app/plugins/total_launcher_plugin.py:101 | exactly the member names ending in .xml, in archive order |
| TotalLauncherSupport.Key | app/plugins/total_launcher_plugin.py:91-92 | the layout's file name always ends with .tl |
| TotalLauncherSupport.TotalLauncherPlugin.constructor | app/plugins/total_launcher_plugin.py:15-18 | empty cache on the given file system |
| TotalLauncherSupport.TotalLauncherPlugin.LoadConfig | app/plugins/total_launcher_plugin.py:81-124 | a missing layout is FileNotFoundError, an archive without XML members ValueError, otherwise the first XML member parsed |
| TotalLauncherSupport.TotalLauncherPlugin.ReadConfig | app/plugins/total_launcher_plugin.py:81-124 | the read's outcome, cached unmodified under the name with .tl |
| TotalLauncherSupport.TotalLauncherPlugin.Load | app/plugins/total_launcher_plugin.py:249-251 | the layout cached under the name as given, else a fresh read cached under the name with .tl |
| TotalLauncherSupport.TotalLauncherPlugin.ListElements | app/plugins/total_launcher_plugin.py:153-209 | the Total Launcher walk of the loaded layout from the root, filtered by tag; a failed load is its error |
| TotalLauncherSupport.TotalLauncherPlugin.FindElement | app/plugins/total_launcher_plugin.py:211-233 | the listed items whose id, label, package or type mentions the term ignoring case, in listing order |
| TotalLauncherSupport.TotalLauncherPlugin.ModifyElement | app/plugins/total_launcher_plugin.py:235-281 | as written: the first node in pre-order whose id (else name) is the target gets the properties; a miss is ValueError; for a name without .tl the edit lands under the name with .tl and marking it modified is a KeyError |
| TotalLauncherSupport.TotalLauncherPlugin.BareNameHomedElsewhere | app/plugins/total_launcher_plugin.py:91-124 | an uncached name without .tl is cached under the name with .tl |
| TotalLauncherSupport.TotalLauncherPlugin.Store | app/plugins/total_launcher_plugin.py:258-259 | marking the entry under the given name: the edit is kept, and a missing entry is a KeyError |
| TotalLauncherSupport.TotalLauncherPlugin.ModifyElementCorrected | app/plugins/total_launcher_plugin.py:235-261 | corrected: a hit always succeeds and marks modified the entry that holds the edited layout |
| TotalLauncherSupport.TotalLauncherPlugin.SavedLayoutFirst | app/plugins/total_launcher_plugin.py:311-320 | in a saved layout, layout.xml is the first XML member and holds the layout's XML text |
| TotalLauncherSupport.TotalLauncherPlugin.SavedReadsBack | app/plugins/total_launcher_plugin.py:101-120 | reading a saved layout finds layout.xml first and gets the document back |
| TotalLauncherSupport.TotalLauncherPlugin.SavedKeepsOthers | app/plugins/total_launcher_plugin.py:314-320 | a save keeps every non-XML member of the old archive, in order, after the layout |
| TotalLauncherSupport.TotalLauncherPlugin.SaveConfig | app/plugins/total_launcher_plugin.py:283-333 | fails exactly when the backup copy fails, the .tmp sibling cannot be written or the old archive cannot be opened; otherwise the optional .tl.backup copy, layout.xml and the old non-XML members through the .tmp sibling, the cache entry dropped; a failed backup changes nothing; an unreadable old archive fails after the .tmp file is written; a normal layout reads back as saved |
| TotalLauncherSupport.TotalLauncherPlugin.ListConfigs | app/plugins/total_launcher_plugin.py:59-79 | one entry per layout file, describing that file, no file twice, sorted by lower-cased name; [] when the folder is missing |
| TotalLauncherSupport.TotalLauncherPlugin.ListingOf | app/plugins/total_launcher_plugin.py:66-79 | a sorted permutation of the globbed files' entries is that listing |
| XmlTree.ToNode | app/plugins/tasker_plugin.py:143-155 | the dict form keeps the tag, the attributes and one child per child; the text is stripped, None when absent or empty |
| XmlTree.ToElement | app/plugins/tasker_plugin.py:157-168 | the element keeps the tag, the attributes and one child per child |
| XmlTree.RoundTrip | app/plugins/total_launcher_plugin.py:126-151 | converting a node to an element and back gives the node exactly when every text is absent or non-empty and already stripped |
| XmlTree.ToNodeStripped | app/plugins/total_launcher_plugin.py:131 | the texts of a converted element are stripped, so a second round trip can only drop empty texts |
| XmlTree.Stringify | app/plugins/tasker_plugin.py:286-291 | the same keys, each value stored as str(value) |
| XmlTree.ReplaceFirst | app/plugins/total_launcher_plugin.py:263-281 | the reference edit on the pre-order sequence of nodes keeps its length |
| XmlTree.UpdateSpec | app/plugins/tasker_plugin.py:278-299 | the update finds a node exactly when some node in pre-order is targeted (sr, else ve, else ''); it returns the first such node with the properties stored; in the new tree that node alone changed; with no target the tree is unchanged |
| XmlTree.UpdateIdempotent | app/plugins/total_launcher_plugin.py:263-281 | repeating an edit that leaves the identifier attributes alone changes nothing further |
| XmlItems.CountTag | app/plugins/tasker_plugin.py:211 | the number of children with the tag: zero exactly when none has it, all when all have it |
| XmlItems.WalkEmits | app/plugins/tasker_plugin.py:189-224 | every listed item is a node of one of the dialect's tags passing the type filter, described from that node |
| XmlItems.WalkVisits | app/plugins/total_launcher_plugin.py:172-209 | the walk reports exactly the reported nodes of the pre-order traversal, in that order |
| XmlItems.FilteredWalk | app/plugins/total_launcher_plugin.py:186 | listing with a type filter is the unfiltered listing restricted to that type, in the same order |
| XmlItems.Search | app/plugins/tasker_plugin.py:226-248 | no more items than listed |
| XmlItems.SearchMembership | app/plugins/total_launcher_plugin.py:211-233 | an item is found exactly when it is listed and its id, name or label, type, or code or package mentions the term ignoring case |
| XmlItems.FindMatching | app/plugins/tasker_plugin.py:240-248 | the loop keeps the listed items the term hits, in listing order |
| XmlItems.ListedIdTargets | app/plugins/tasker_plugin.py:205-281 | an identifier from the listing addresses its node for an edit exactly when the node carries one of the identifier attributes; the '<tag>_0' or 'item_0' fallback never equals the '' the edit compares with |
| XmlItems.WalkLeaf | app/plugins/tasker_plugin.py:200-224 | a reported node without children is listed alone |
| XmlItems.WalkLeaves | app/plugins/tasker_plugin.py:219-222 | walking childless reported nodes describes each one in order at its child path |
| JsonTree.ExtrasGet | klwp_mcp_server/klwp_handler.py:173-179 | a descriptor holds exactly those of the listed properties the element has, with the element's values |
| JsonTree.ExtrasKeys | app/plugins/kustom_plugin.py:133-135 | a descriptor copies no property outside the listed ones |
| JsonTree.WalkEmits | klwp_mcp_server/klwp_handler.py:145-194 | every descriptor is an element passing the type filter, described from its own dict |
| JsonTree.Nodes | klwp_mcp_server/klwp_handler.py:183-192 | only dicts are visited |
| JsonTree.WalkVisitsNodes | app/plugins/kustom_plugin.py:114-150 | the walk describes exactly the element dicts of the pre-order traversal through items, layers, children and modules, in that order |
| JsonTree.FilteredWalk | klwp_mcp_server/klwp_handler.py:165 | listing with a type filter is the unfiltered listing restricted to that type, in the same order |
| JsonTree.Search | klwp_mcp_server/klwp_handler.py:196-218 | no more descriptors than listed |
| JsonTree.SearchMembership | app/plugins/kustom_plugin.py:152-174 | a descriptor is found exactly when it is listed and its id, text, type or (KLWP only) title mentions the term ignoring case |
| JsonTree.FindMatching | klwp_mcp_server/klwp_handler.py:210-218 | the loop keeps the listed descriptors the term hits, in listing order |
| JsonTree.TargetHasId | klwp_mcp_server/klwp_handler.py:264 | a dict is only targeted through an id (or, for KLWP, internal_id) it really has |
| JsonTree.UnknownNeverTargeted | klwp_mcp_server/klwp_handler.py:168-264 | the placeholder id 'unknown' the listing gives an element without ids never selects that element |
| JsonTree.UpdateFinds | klwp_mcp_server/klwp_handler.py:250-283 | the update finds a dict exactly when some visited dict is targeted, and returns the first one merged with the properties; without a target nothing changes |
| JsonTree.UpdateChangesOnlyTarget | app/plugins/kustom_plugin.py:204-226 | for properties without container keys, only the first targeted dict changes, by the merge |
| JsonTree.UpdateFieldsKeepsScalars | klwp_mcp_server/klwp_handler.py:270-275 | the update rewrites only container-key fields of the dicts it descends through |
| JsonTree.UpdateIdempotent | klwp_mcp_server/klwp_handler.py:250-283 | modifying twice with the same properties gives the same document and result as modifying once |
| PresetStorage.WithoutExtension | app/preset_storage.py:244-245 | a name ending with .klwp, .klck, .kwgt or .json loses those five characters; any other name is kept |
| PresetStorage.ReplaceInvalid | app/preset_storage.py:248-250 | the same length, each of <>:"/\|?* replaced by '_' and every other character kept |
| PresetStorage.SafeName | app/preset_storage.py:241-253 | at most 100 characters and none of the invalid ones |
| PresetStorage.ExtensionDot | app/preset_storage.py:245 | for a known extension, the last dot is the one that starts it, so rsplit drops exactly the extension |
| PresetStorage.SanitizeName | app/preset_storage.py:241-253 | the loop over the invalid characters yields SafeName |
| PresetStorage.SafeNameStaysInDirectory | app/preset_storage.py:86-89 | a sanitized name's file is a direct child of the type directory |
| PresetStorage.SafeNameKeepsSafe | app/preset_storage.py:241-253 | a name that is already safe is kept as it is |
| PresetStorage.OwnValues | app/preset_storage.py:261-263 | a dict contributes exactly its truthy values under color, bgcolor and stroke_color |
| PresetStorage.ItemGathered | app/preset_storage.py:267-269 | the colours of every list item are gathered |
| PresetStorage.ExtractColors | app/preset_storage.py:255-272 | succeeds exactly when every colour value can be put in a set and every two of them compared as Python compares them (two strings, or two numbers with booleans as 0 and 1); then at most ten distinct colours in ascending order, none left out smaller than one kept; otherwise TypeError |
| ValueOrder.FirstTen | app/preset_storage.py:272 | the first ten of an ascending list are at most every element cut off |
| PresetStorage.WithMetadata | app/preset_storage.py:92-101 | an object with the metadata record under "metadata" and every other key as in the preset |
| PresetStorage.PresetStore.ThumbnailApart | app/preset_storage.py:55-56 | a thumbnail path is never a preset file path |
| PresetStorage.PresetStore.constructor | app/preset_storage.py:34-58 | the storage directory and its klwp, klck, kwgt and thumbnails sub-directories exist; no file changes |
| PresetStorage.PresetStore.LoadPreset | app/preset_storage.py:127-148 | the stored document; FileNotFoundError "Preset not found: name" when there is no such path; AttributeError for a type without a directory |
| PresetStorage.PresetStore.SavePreset | app/preset_storage.py:60-125 | succeeds exactly when the type is known, the document is an object, the preset path can be opened for writing, the thumbnail copy (when one is made) succeeds and the colours can be sorted; an unknown type is ValueError and a non-object TypeError, writing nothing; a directory at the preset path is IsADirectoryError, writing nothing; otherwise the file under the sanitized name holds the document with its metadata and loads back as such, nothing else but the thumbnail changes, and the metadata names the file, type, time, the copied thumbnail and the palette |
| PresetStorage.PresetStore.SavedPathWritable | app/preset_storage.py:86-89 | the preset path of a known type can be opened for writing exactly when it is not a directory, since its parent is the type directory that always exists |
| PresetStorage.PresetStore.ReadEntry | app/preset_storage.py:168-182 | a file is read exactly when it holds a JSON object whose metadata, if any, is an object; the entry names the file and the type |
| PresetStorage.PresetStore.ListedSound | app/preset_storage.py:167-185 | everything listed comes from a listable file among the globbed paths |
| PresetStorage.PresetStore.ListedCovers | app/preset_storage.py:167-185 | every listable file among the paths is listed |
| PresetStorage.PresetStore.TypesToScan | app/preset_storage.py:162 | the given type, or all three |
| PresetStorage.PresetStore.ReadPreset | app/preset_storage.py:168-185 | a file gives an entry exactly when it is listable (a JSON object with object metadata and sortable colours), with its palette; a failure skips it |
| PresetStorage.PresetStore.ScanType | app/preset_storage.py:167-185 | the entries of the listable files of one type directory, in glob order, each with its palette |
| PresetStorage.PresetStore.ScanMeaning | app/preset_storage.py:167-185 | every entry found comes from a listable file among the globbed paths, and every listable path is found |
| PresetStorage.PresetStore.ListedDistinct | app/preset_storage.py:167-185 | paths globbed once each give entries naming different files |
| PresetStorage.PresetStore.ScanDistinct | app/preset_storage.py:167-185 | a scan of distinct paths finds each file at most once |
| PresetStorage.PresetStore.DistinctStep | app/preset_storage.py:164-185 | the entries of a type directory different from every earlier one name files not listed before |
| PresetStorage.PresetStore.ScannedDirsDistinct | app/preset_storage.py:162-165 | the scanned types have pairwise different directories |
| PresetStorage.PresetStore.CollectPresets | app/preset_storage.py:164-185 | succeeds exactly when every type has a directory, otherwise AttributeError; every listable file of every type is listed and nothing else; the list is one block per type, in the order the types are given, each holding that type's directory's listable files; with different directories no file is listed twice |
| PresetStorage.PresetStore.CoversAll | app/preset_storage.py:164-185 | after the loop, every type has a directory and every listable file of it is listed |
| PresetStorage.PresetStore.ListPresets | app/preset_storage.py:150-190 | succeeds exactly when every scanned type has a directory and every two listable presets have modified_at values Python can compare; AttributeError for a type without a directory, TypeError for incomparable times; on success newest first in Python's order, no file twice, and exactly the listable presets of the scanned types; presets whose times Python sees as equal keep the scan order (klwp, klck, kwgt, one block per type), as the stable sort keeps it |
| PresetStorage.PresetStore.OrderableTimes | app/preset_storage.py:188 | the collected entries can be sorted by modified_at exactly when every two listable files on disk have comparable times |
| PresetStorage.PresetStore.IndexOfListable | app/preset_storage.py:164-185 | a listable file of a scanned type has an index in the collected list |
| PresetStorage.PresetStore.Reordered | app/preset_storage.py:188 | sorting the entries keeps them from the scanned types, without repeats and covering every listable file |
| PresetStorage.PresetStore.ReorderedDistinct | app/preset_storage.py:188 | a permutation of entries naming different files names different files |
| PresetStorage.PresetStore.DeletePreset | app/preset_storage.py:192-216 | removes the preset file and the thumbnail when present and says whether the preset existed; afterwards it no longer loads; unlinking a directory is IsADirectoryError, and when that directory is the thumbnail path the preset file has already been removed |
| PresetStorage.PresetStore.Exported | app/preset_storage.py:232-234 | an object loses only its "metadata" key; one without it is kept unchanged |
| PresetStorage.PresetStore.ExportPreset | app/preset_storage.py:218-239 | succeeds exactly when the preset loads and the export path can be opened for writing (its parent directory exists and it is no directory); then the export path holds the document without its metadata and is returned; otherwise the error open() raises there (FileNotFoundError, NotADirectoryError or IsADirectoryError) and nothing is written |
| PreviewSystem.MoltTypeOf | app/preview_system.py:77-124 | colour words select a colour shift; otherwise size words a scale, then add words a birth, then remove words a fade; only a description with none of them is a transform |
| PreviewSystem.AnyOfConcat | app/preview_system.py:80-111 | a description mentions a word of two lists joined exactly when it mentions one of either |
| PreviewSystem.FromEditType | app/preview_system.py:63-124 | the transition carries the detected molt type, that type's duration (between 600 and 1200 ms), the two presets and no origin |
| PreviewSystem.GenerateClearanceText | app/preview_system.py:202-209 | a wallpaper gives "Editing '<name>'. Continue? 🦎", a lock screen "Lock screen preview. What next? 🦎", a widget "Widget preview loaded. Adjust? 🦎", any other type "Working with this? 🦎" |
| PreviewSystem.ChatWidthPercent | app/preview_system.py:215-234 | the chat takes the whole width exactly while hidden or sliding out and 30% exactly while the pane is showing |
| PreviewSystem.PreviewManager.constructor | app/preview_system.py:137-141 | hidden, nothing shown, nothing pending, so the preview is not active |
| PreviewSystem.PreviewManager.ShowPreview | app/preview_system.py:143-156 | the preset slides in under the given message, or the type's line when none is given; the preview is active and the chat takes 30% |
| PreviewSystem.PreviewManager.HidePreview | app/preview_system.py:158-163 | slides out and keeps the preset and the message; the chat takes the whole width |
| PreviewSystem.PreviewManager.UpdatePreview | app/preview_system.py:165-190 | with nothing shown the new preset slides in; otherwise the molt detected from the description, from the shown preset to the new one, is pending while the shown preset stays |
| PreviewSystem.BackgroundOf | app/preview_system.py:286-294 | black when no shape is a background; otherwise the colour of a background shape |
| PreviewSystem.BackgroundIsLast | app/preview_system.py:290-294 | the background colour is that of the last background shape, since each later one overwrites it |
| PreviewSystem.TextsOf | app/preview_system.py:290-302 | every text element comes from a TEXT item, and there are no more than items |
| PreviewSystem.TextsInOrder | app/preview_system.py:290-302 | one text element per TEXT item, in item order: the TEXT item at position i gives the element whose index is the number of TEXT items before it |
| PreviewSystem.ShapesOf | app/preview_system.py:290-309 | every shape comes from a SHAPE item that is not the background |
| PreviewSystem.ShapesInOrder | app/preview_system.py:290-309 | one shape per SHAPE item that is not the background, in item order, indexed by the number of such items before it |
| PreviewSystem.SortedApart | app/preview_system.py:290-309 | no item is both a text and a shape: the two lists together are no longer than the items |
| PreviewSystem.ItemsOf | app/preview_system.py:283 | the items list of a dict; a non-dict fails |
| PreviewSystem.PlaceholderStep | app/preview_system.py:290-309 | one more item changes exactly the background, the texts or the shapes as its kind says |
| PreviewSystem.AddItem | app/preview_system.py:291-309 | one pass of the loop, as PlaceholderStep states |
| PreviewSystem.BuildPlaceholder | app/preview_system.py:286-317 | when every item is a dict the loop yields the background, texts and shapes of the whole list; otherwise it fails |
| PreviewSystem.CreatePlaceholderPreview | app/preview_system.py:275-317 | the placeholder of the preset's items; fails for a non-dict preset or item |
| PreviewSystem.RenderPreset | app/preview_system.py:247-273 | succeeds exactly when the items are readable dicts, at the requested size |
| PreviewSystem.ClearanceContext | app/preview_system.py:351-380 | the molt type decides first (colour, edited, added, removed); then initial_load and after_edit; the default line exactly otherwise |
| PreviewSystem.GetClearanceText | app/preview_system.py:351-380 | the default line without touching the history, or a light-sass reply for that context |
| PresetGenerator.FirstNamed | app/preset_generator.py:106-110 | the first theme whose name the text contains, none before it contained; none exactly when no theme is named |
| PresetGenerator.ThemeOf | app/preset_generator.py:104-110 | a theme of the table with four colours: the first named one in dict order, or minimal when none is named |
| PresetGenerator.HexCodes | app/preset_generator.py:113 | every code found is seven characters, a hash and six hex digits |
| PresetGenerator.HexCodesSound | app/preset_generator.py:113 | every code found is a match of the pattern at some position of the text |
| PresetGenerator.HexAtShift | app/preset_generator.py:113 | a match in a suffix is a match in the whole text at the shifted position |
| PresetGenerator.HexCodesComplete | app/preset_generator.py:113 | some code is found exactly when the pattern matches somewhere in the text |
| PresetGenerator.Requested | app/preset_generator.py:116-126 | an element is listed exactly when one of its keywords is mentioned |
| PresetGenerator.RequestedElements | app/preset_generator.py:116-126 | for the fixed keyword table, clock, date, weather, battery and music are each requested exactly when their keywords are mentioned |
| PresetGenerator.ElementsOf | app/preset_generator.py:115-130 | a non-empty list in the order clock, date, weather, battery, music, holding the requested elements, or the clock alone when none is requested |
| PresetGenerator.ElementNamesInOrder | app/preset_generator.py:116-130 | the keyword table lists the element names in their order |
| PresetGenerator.Names | app/preset_generator.py:116-126 | the element names of the keyword table, one per entry |
| PresetGenerator.RequestedInOrder | app/preset_generator.py:116-126 | the requested elements keep the order of the keyword table |
| PresetGenerator.ColorsOf | app/preset_generator.py:113-145 | the hex codes of the original text, each occurring in it, when it has any; else the theme's palette; never empty |
| PresetGenerator.ParseDescription | app/preset_generator.py:92-153 | specs with at least one colour and at least one element |
| PresetGenerator.ContainsSlice | app/preset_generator.py:113 | a slice of a text is contained in it |
| PresetGenerator.PositionY | app/preset_generator.py:255-346 | an item's position holds the y it was created at |
| PresetGenerator.ItemFields | app/preset_generator.py:255-346 | the id and the position of a created item are found where they are written, whatever fields follow |
| PresetGenerator.TextItem | app/preset_generator.py:255-346 | a text item carries its id and its y |
| PresetGenerator.Clock | app/preset_generator.py:255-281 | the clock item has id clock at the requested y |
| PresetGenerator.Date | app/preset_generator.py:283-297 | the date item has id date at the requested y |
| PresetGenerator.Weather | app/preset_generator.py:299-313 | the weather item has id weather at the requested y |
| PresetGenerator.Music | app/preset_generator.py:331-346 | the music item has id music at the requested y |
| PresetGenerator.Battery | app/preset_generator.py:315-329 | the battery item has id battery at the requested y in the colour it was given |
| PresetGenerator.ShapeItem | app/preset_generator.py:165-176 | a shape's id, colour and position are found where they are written |
| PresetGenerator.WallpaperBackground | app/preset_generator.py:165-176 | the wallpaper background has id background at y 0 in the first colour |
| PresetGenerator.LockscreenBackground | app/preset_generator.py:208-218 | the lock screen background has id background at y 0 in the first colour |
| PresetGenerator.WidgetBackground | app/preset_generator.py:239-250 | the widget card has id widget_bg at y 0 in the first colour |
| PresetGenerator.Preset | app/preset_generator.py:155-162 | the document's items are the given items |
| PresetGenerator.ElementItem | app/preset_generator.py:178-194 | a known element gives one item with its own id at the given y; an unknown name gives none |
| PresetGenerator.GenerateWallpaper | app/preset_generator.py:155-196 | the loop over the elements builds the wallpaper WallpaperLayout describes |
| PresetGenerator.ElementItemsStep | app/preset_generator.py:178-194 | one more element appends its item at the running offset |
| PresetGenerator.OffsetCons | app/preset_generator.py:178-194 | an element in front shifts every later offset by its step |
| PresetGenerator.AlignedCons | app/preset_generator.py:178-194 | an item aligned at y before items aligned from y plus its step are aligned together |
| PresetGenerator.ItemsAlongAligned | app/preset_generator.py:178-194 | the items made along the elements stand one per element at the running offsets |
| PresetGenerator.ElementsPlaced | app/preset_generator.py:178-194 | known elements each add exactly one item with their id at the running offset |
| PresetGenerator.WallpaperLayout | app/preset_generator.py:155-196 | the background first, then exactly one item per element, in order and with its id, the first at y 800 and each next one lower by its predecessor's step |
| PresetGenerator.LockscreenLayout | app/preset_generator.py:198-227 | exactly four items: the background, the clock at 700, the date at 850 and the battery at 1600 |
| PresetGenerator.WidgetLayout | app/preset_generator.py:229-253 | exactly two items: the card and the clock at 80 |
| PresetGenerator.Layout | app/preset_generator.py:80-89 | the layout of a known type; ValueError naming an unknown type |
| PresetGenerator.GenerateFromDescription | app/preset_generator.py:55-90 | the AI answer when there is one; otherwise the template layout of the parsed description, or ValueError "Unknown preset type" |
| PresetGenerator.ExtractThemeColors | app/preset_generator.py:348-377 | succeeds exactly when every gathered colour value can be put in a set and every two of them compared as Python compares them; then each colour value of the preset once, in ascending order; otherwise TypeError |
| PresetGenerator.MatchingSpecs | app/preset_generator.py:393-401 | the given colours, or black and white when there are none; never empty |
| PresetGenerator.GenerateMatchingPreset | app/preset_generator.py:379-413 | TypeError first when the colours cannot be sorted; then ValueError "Unknown target type"; otherwise the layout of the target type over the source's sorted colours with a clock and a date |
| PresetGenerator.MatchingWallpaper | app/preset_generator.py:395-407 | a matching wallpaper has a background in the first colour (black when there is none), the clock at 800 and the date at 920 |
| PresetGenerator.Elements | app/preset_generator.py:436-444 | iteration visits the elements of a list; the keys of a dict, in order, as strings; the characters of a string, in order, as one-character strings; anything else raises |
| PresetGenerator.MapAll | app/preset_generator.py:436-449 | succeeds exactly when every step does, with one result per item in order; otherwise the error of a failing item |
| PresetGenerator.FirstFailure | app/preset_generator.py:436-449 | the index of the first item whose step raises, or the length: every earlier step succeeds |
| PresetGenerator.LoopedItems | app/preset_generator.py:436-449 | the list an in-place loop leaves: the same length, edited before the first failure, the failing item as the raise left it, untouched after |
| PresetGenerator.LoopedAll | app/preset_generator.py:436-449 | the loop succeeds exactly when no item fails, and then leaves the list MapAll computes; otherwise it raises the first failing item's error |
| PresetGenerator.MapItems | app/preset_generator.py:436-449 | the in-place loop returns MapAll's result, and leaves the list with the items before the first failure edited, the failing item as the raise left it, and the rest untouched |
| PresetGenerator.EachItem | app/preset_generator.py:427-449 | a list keeps its length; a non-list is left as it is |
| PresetGenerator.NewColor | app/preset_generator.py:432-434 | the colour of the first colour name in the command, in dict order, or cyan when none is named |
| PresetGenerator.EditOf | app/preset_generator.py:430-468 | colour words first, then size words, then add with battery, then remove or delete with a target; both directions of each |
| PresetGenerator.RecolorItem | app/preset_generator.py:436-438 | a dict keeps its keys and every field but the colour, which is repainted exactly when it has one and is not the background; a non-dict raises AttributeError |
| PresetGenerator.RecolorItemTwice | app/preset_generator.py:436-438 | repainting twice with the same colour is repainting once |
| PresetGenerator.Scaled | app/preset_generator.py:446-449 | a number (or bool) scales to an integer; anything else raises |
| PresetGenerator.ScaledDirection | app/preset_generator.py:443-449 | growing never shrinks a non-negative size and shrinking never grows it or makes it negative |
| PresetGenerator.RescaleItem | app/preset_generator.py:444-449 | text items get a new font size, shapes other than the background a new width and height, other fields and other items unchanged |
| PresetGenerator.RescaleDirection | app/preset_generator.py:443-446 | a text item with a non-negative font size grows when growing and shrinks when shrinking |
| PresetGenerator.Without | app/preset_generator.py:467 | exactly the items whose id is not the target, in order; a non-dict item raises |
| PresetGenerator.WithoutTwice | app/preset_generator.py:467 | removing the same target twice is removing it once |
| PresetGenerator.FirstItemColor | app/preset_generator.py:456 | KeyError without items, IndexError for an empty list, otherwise the first item's colour |
| PresetGenerator.Edited | app/preset_generator.py:415-471 | the edit type of the command, and every key but items kept; a non-dict preset raises |
| PresetGenerator.EditedInPlace | app/preset_generator.py:415-471 | the preset dict after edit_preset, which edits it in place: the edited preset on success; on failure only a colour or size loop over an items list changes it; every key but items is kept |
| PresetGenerator.PartialEdit | app/preset_generator.py:436-449 | a colour or size edit that raises has edited every item before the failing one, left the failing item as the raise left it (a shape keeps its new width) and the rest untouched, and raises that item's error |
| PresetGenerator.EditPreset | app/preset_generator.py:415-471 | returns Edited's result, and leaves the preset as EditedInPlace says, also when it raises |
| PresetGenerator.EachItemLoop | app/preset_generator.py:436-449 | the per-item loop returns EachItem's result and leaves a list as LoopedItems says; a non-list is left as it is |
| PresetGenerator.EditRecolors | app/preset_generator.py:430-439 | a colour edit repaints exactly the coloured non-background items with the named colour and keeps everything else |
| PresetGenerator.RecolorTwice | app/preset_generator.py:430-439 | applying the same colour edit twice is applying it once |
| PresetGenerator.EditRemoves | app/preset_generator.py:459-468 | a remove edit drops every item with the target id and keeps the others in order |
| PresetGenerator.RemoveTwice | app/preset_generator.py:459-468 | applying the same remove edit twice is applying it once |
| PresetGenerator.EditAddsBattery | app/preset_generator.py:452-457 | an add-battery edit succeeds exactly when there is a first item with a colour, and appends one battery at 1600 after the existing items |
| PresetGenerator.EditKeeps | app/preset_generator.py:426-471 | a command asking for no edit keeps the items and reports transform |
| PresetGenerator.EditRescales | app/preset_generator.py:441-450 | a size edit resizes every item by its own rule, or raises at the first that cannot be resized |
| ThemeMatcher.HexValue | app/theme_matcher.py:150-154 | a hexadecimal digit of either case has a value below 16 |
| ThemeMatcher.ParseByte | app/theme_matcher.py:150-154 | a two-character slice reads exactly when int(x, 16) accepts it: two hex digits give 16 times the first plus the second, a digit with a space gives the digit, a sign or space before a digit gives it signed; anything else is ValueError |
| ThemeMatcher.StripHashes | app/theme_matcher.py:141 | the suffix left after every leading '#', which itself starts with no '#' |
| ThemeMatcher.HexToRgb | app/theme_matcher.py:139-156 | after the leading '#'s, six characters read as three pairs, eight drop the first pair (the alpha) and read the rest, any other length is grey; ValueError when a pair does not read |
| ThemeMatcher.ReadPairs | app/theme_matcher.py:148-153 | six characters read exactly when each of the three pairs reads, giving the three values in order; otherwise ValueError |
| ThemeMatcher.SignedCode | app/theme_matcher.py:139-194 | "#-1-1-1" reads as the channels -1, -1, -1, and lightening it gives "#181818" |
| ThemeMatcher.HexDigit | app/theme_matcher.py:160 | the upper-case digit whose value is d |
| ThemeMatcher.Hex2 | app/theme_matcher.py:160 | two upper-case hex digits |
| ThemeMatcher.RgbToHex | app/theme_matcher.py:158-160 | seven characters, '#' and six upper-case hex digits |
| ThemeMatcher.Hex2Value | app/theme_matcher.py:150-160 | a byte written as two digits reads back as itself |
| ThemeMatcher.HexRoundTrip | app/theme_matcher.py:139-160 | reading back a written colour gives the colour |
| ThemeMatcher.StripHashesStops | app/theme_matcher.py:141 | one '#' before a non-'#' strips to the rest |
| ThemeMatcher.DigitOfValue | app/theme_matcher.py:150-160 | an upper-case digit is the digit of its value |
| ThemeMatcher.ValueHex2 | app/theme_matcher.py:150-160 | two upper-case digits read and written again are the same |
| ThemeMatcher.CanonicalRoundTrip | app/theme_matcher.py:139-160 | an upper-case "#RRGGBB" code read and written again is the same code |
| ThemeMatcher.Ranges | app/theme_matcher.py:162-176 | brightness lies between 0 and 255 and saturation between 0 and 1 |
| ThemeMatcher.RatioAtMostOne | app/theme_matcher.py:167-176 | a share of a positive whole lies between 0 and 1 |
| ThemeMatcher.LightenRgb | app/theme_matcher.py:190-194 | byte channels, from channels int() may have read out of range |
| ThemeMatcher.DarkenRgb | app/theme_matcher.py:196-200 | byte channels, from channels int() may have read out of range |
| ThemeMatcher.LightenChannel | app/theme_matcher.py:193 | a byte, from any channel int() can read from two characters |
| ThemeMatcher.DarkenChannel | app/theme_matcher.py:199 | a byte, from any channel int() can read from two characters |
| ThemeMatcher.LightenDarkenDirection | app/theme_matcher.py:190-200 | lightening never lowers a channel nor the brightness, darkening never raises them |
| ThemeMatcher.Lighten | app/theme_matcher.py:190-194 | an upper-case "#RRGGBB" code |
| ThemeMatcher.Darken | app/theme_matcher.py:196-200 | an upper-case "#RRGGBB" code |
| ThemeMatcher.ColorAt | app/theme_matcher.py:57-63 | a colour taken is a '#' code in upper case |
| ThemeMatcher.OwnColors | app/theme_matcher.py:57-63 | exactly the colours an object holds under the keys, all colour codes |
| ThemeMatcher.Collect | app/theme_matcher.py:52-74 | exactly the colour codes the tree holds under colour keys within the depth limit, and nothing below it |
| ThemeMatcher.CollectFields | app/theme_matcher.py:65-68 | exactly the colour codes the values of the fields hold |
| ThemeMatcher.CollectItems | app/theme_matcher.py:70-72 | exactly the colour codes the items hold |
| ThemeMatcher.CollectAllColors | app/theme_matcher.py:40-77 | exactly the colour codes the preset holds under colour keys within the depth limit, among them every colour of the preset's own colour keys |
| ThemeMatcher.ItemColorsCollected | app/theme_matcher.py:70-72 | every item's colours are collected with the list's |
| ThemeMatcher.ItemsCollected | app/theme_matcher.py:40-77 | the colours of every item of the items list are collected |
| ThemeMatcher.FieldCollected | app/theme_matcher.py:65-68 | the colours under any key are collected with the object's |
| ThemeMatcher.ParseAll | app/theme_matcher.py:93 | one swatch per code, in order, exactly when every code reads; otherwise ValueError |
| Sorting.BelowLastReal | app/theme_matcher.py:96 | in a list sorted by a real key, every key is at most a bound on the last one |
| Sorting.BoundedMembersReal | app/theme_matcher.py:96 | the elements of a bounded list plus a bounded element are bounded |
| Sorting.InsertByReal | app/theme_matcher.py:96 | the list with one more element, still sorted by the real key |
| Sorting.SortByReal | app/theme_matcher.py:96 | sorted by the real key (brightness), a permutation of the input, and stable: elements with equal keys keep their input order |
| Sorting.InsertByRealKeyed | app/theme_matcher.py:96 | inserting an element appends it to the elements that share its key, the others keep their order |
| Sorting.SortedByRealUnique | app/theme_matcher.py:96 | a stable sort by a real key has one answer: two sorted, stable permutations of the same list are equal |
| ThemeMatcher.MostSaturated | app/theme_matcher.py:178-188 | a swatch of the list of greatest saturation, the first such |
| ThemeMatcher.RgbOf | app/theme_matcher.py:139-156 | byte channels |
| ThemeMatcher.SortedCovers | app/theme_matcher.py:93-96 | every code is found among the sorted swatches with its own channels |
| ThemeMatcher.SortedSound | app/theme_matcher.py:93-96 | every sorted swatch is one of the codes with its own channels |
| ThemeMatcher.BrightnessExtremes | app/theme_matcher.py:96-128 | every code lies between the first and the last sorted swatch in brightness |
| ThemeMatcher.SaturationExtreme | app/theme_matcher.py:134 | no code is more saturated than the accent |
| ThemeMatcher.DrawnOfSorted | app/theme_matcher.py:98-134 | background, primary, secondary and accent are codes of the list, the secondary the primary with two colours or fewer |
| ThemeMatcher.AccentOfSorted | app/theme_matcher.py:134 | the accent is the most saturated colour |
| ThemeMatcher.ShadesOfSorted | app/theme_matcher.py:101-131 | a dark theme takes the darkest colour as background and the brightest as primary with light text; a light one the opposite with dark text |
| ThemeMatcher.RolesOfSorted | app/theme_matcher.py:89-136 | the palette's roles fit the colours |
| ThemeMatcher.CategorizeColors | app/theme_matcher.py:79-137 | the default palette for no colours; otherwise succeeds exactly when every code reads, with the roles read off the stable brightness order: for a dark theme the first swatch as background and the last as primary, for a light one the reverse, the middle one as secondary with more than two colours, and the first most saturated as accent; that order is unique; ValueError otherwise |
| ThemeMatcher.BrightnessSortedUnique | app/theme_matcher.py:95-96 | the colours have exactly one stable brightness order, so the middle colour is fixed by the listing |
| ThemeMatcher.ExtractColorPalette | app/theme_matcher.py:19-38 | the default palette for a preset without colours; it succeeds exactly when every collected code reads, with a palette whose roles fit a listing of exactly the preset's colours and whose roles are read off that listing's stable brightness order as in CategorizeColors; otherwise ValueError |
| ThemeMatcher.Closest | app/theme_matcher.py:286-293 | the first item of least distance to the target |
| ThemeMatcher.ClosestMdPalette | app/theme_matcher.py:250-295 | exactly when the code reads, the name of the first Material Design colour, in table order, of least distance to it |
| ThemeMatcher.ZeroDistance | app/theme_matcher.py:286-288 | colours at distance zero are the same |
| ThemeMatcher.MdColorsDistinct | app/theme_matcher.py:262-282 | the Material Design colours are byte colours, pairwise different |
| ThemeMatcher.ClosestExact | app/theme_matcher.py:290-293 | among distinct colours an exact match is the closest |
| ThemeMatcher.MdColorMatchesItself | app/theme_matcher.py:250-295 | each Material Design colour maps to its own name |
| ThemeMatcher.SaveThemePreset | app/theme_matcher.py:312-325 | the store maps "theme_" plus the name to the palette and nothing else changes; loading gives it back |
| ThemeMatcher.LoadThemePreset | app/theme_matcher.py:327-340 | the stored palette, or None |
| ThemeMatcher.GetSavedThemes | app/theme_matcher.py:342-360 | as written: always AttributeError, since the store has no storage attribute |
| ThemeMatcher.SavedThemeNames | app/theme_matcher.py:352-358 | as intended: every name comes from a "theme_" key with the prefix removed |
| ThemeMatcher.RemoveAllAbsent | app/theme_matcher.py:355 | replacing a pattern absent from a string changes nothing |
| ThemeMatcher.SavedThemeListed | app/theme_matcher.py:312-358 | a theme saved under a name without "theme_" in it is listed under that name |
| Files.MemberBlobLast | app/kustom_handler.py:136-139 | reading a name from an archive gives the bytes of the last member stored under it |
| Files.MemberBlobDistinct | app/kustom_handler.py:136-139 | with distinct names, reading a member's name gives exactly its bytes |
| Files.Kept | app/kustom_handler.py:137-138 | only members of the archive the filter does not drop |
| Files.KeptComplete | app/kustom_handler.py:137-138 | every member the filter does not drop is kept |
| Files.CarryOver | app/kustom_handler.py:134-139 | the copy loop writes every kept name again with the bytes the old archive gives for it |
| Files.CarryOverDistinct | app/kustom_handler.py:134-139 | with distinct names the carried-over members are the originals, in order |
| Files.RewrittenReadsHead | app/kustom_handler.py:127-142 | the rewritten archive reads back the new preset.json |
| Files.FileSystem.Copy | app/kustom_handler.py:125 | succeeds exactly when the source is a file, the copy does not land on the source itself and its target can be opened for writing; the copy lands inside a directory destination under the source's name; on failure the error shutil.copy2 raises (SameFileError, IsADirectoryError, FileNotFoundError, NotADirectoryError) and nothing changes |
| Files.CopyFailure | app/plugins/plugin_interface.py:185 | a copy fails exactly when the source is no file, the target is the source, or the target cannot be opened for writing; a missing source is FileNotFoundError and a directory source IsADirectoryError |
| Files.CopyIntoDirectory | app/plugins/plugin_interface.py:185 | a copy onto a directory lands directly inside it, under the source's base name |
| Files.FileSystem.Write | app/preset_storage.py:104 | open(p, 'w') succeeds exactly when p is a file or a new name in an existing directory; then p holds the content; otherwise the error open() raises and nothing changes |
| Files.FileSystem.Backup | app/kustom_handler.py:121-125 | fails exactly when asked, the file exists and the copy fails, with the copy's error and nothing changed; otherwise the copy target gets the file's content when asked and the file exists, and nothing changes else |
| Files.FileSystem.RewriteArchive | app/kustom_handler.py:127-142 | a temporary path that cannot be opened for writing fails with open()'s error and changes nothing; otherwise the temporary file is gone and the preset holds the new member followed by the old archive's other members; a failure to open the old archive leaves the temporary file holding only the new member |
| Files.FileSystem.Glob | app/plugins/total_launcher_plugin.py:73-79 | exactly the files of the directory with the suffix, each once |
| Files.InGlobParent | app/preset_storage.py:167 | a file a glob matches lies directly inside the globbed directory |
| Paths.ParentDir | app/preset_storage.py:236 | the directory part of a path is shorter than it and, when not empty, joined with the base name gives the path back |
| Paths.ParentDirChild | app/preset_storage.py:86-89 | the directory part of dir / name is dir, for a name without '/' |
| Paths.EnsureExtension | app/kustom_handler.py:116-117 | the name ends with the extension, appended only when missing |
| Paths.EnsureExtensionIdempotent | app/kustom_handler.py:116-117 | ensuring the extension twice is ensuring it once |
| Sorting.SortBy | app/kustom_handler.py:73 | sorted by the key, a permutation of the input, and stable: equal keys keep their input order |
| Sorting.InsertByKeyed | app/kustom_handler.py:73 | inserting an element appends it to the elements that share its key, the others keep their order |
| Sorting.SortDescBy | app/preset_storage.py:188 | sorted by descending key, a permutation of the input, and stable: equal keys keep their input order, as with `reverse=True` |
| Sorting.InsertDescByKeyed | app/preset_storage.py:188 | inserting an element appends it to the elements that share its key, the others keep their order |
| Sorting.InsertBy | app/kustom_handler.py:73 | one more element, still sorted |
| Sorting.SortedMembers | app/kustom_handler.py:73 | sorting keeps exactly the elements it was given |
| Sorting.ListOf | app/preset_storage.py:272 | a set listed once per element |
| Sorting.NoRepeatCount | app/preset_storage.py:272 | a list without repeats holds each element at most once |
| ValueOrder.OneKind | app/preset_storage.py:272 | values Python can compare pairwise are all strings or all numbers, unless there are fewer than two |
| ValueOrder.OrderableListing | app/preset_storage.py:272 | a listing of a set without repeats can be sorted exactly when every two distinct members of the set can be compared |
| ValueOrder.PermutationKeeps | app/preset_storage.py:272 | every element of a permutation is an element of the original |
| ValueOrder.SortByValue | app/preset_storage.py:272 | sorted() of values Python can compare: ascending in Python's order, a permutation of the input, and stable: entries Python sees as tied keep their input order |
| ValueOrder.TieIsMutualAtMost | app/preset_storage.py:188 | two values Python can compare are tied (equal, with a boolean as 0 or 1) exactly when each is at most the other |
| ValueOrder.SortDescByValue | app/preset_storage.py:188 | sorted(..., reverse=True) of values Python can compare: descending in Python's order, a permutation of the input, and stable: tied entries keep their input order, as reverse=True does |
| Text.StripIdempotent | app/plugins/tasker_plugin.py:148 | stripping a text twice is stripping it once |
| Text.LessOrEqualTotal | app/kustom_handler.py:73 | string order is total |
| Text.LessOrEqualTransitive | app/kustom_handler.py:73 | string order is transitive |
| Text.LessOrEqualAntisymmetric | app/kustom_handler.py:73 | string order is antisymmetric |
| OrderedMap.PutKeys | app/preset_generator.py:438 | assigning a key keeps the key order and appends a new key at the end |
| OrderedMap.PutPut | app/preset_generator.py:438 | assigning a key twice keeps the second value |
| OrderedMap.MergeIdempotent | app/plugins/kustom_plugin.py:210 | merging the same dict twice is merging once |

## Left out

- **Encodings:** the byte encodings of ZIP, XML and JSON (zipfile, ElementTree, json) are library calls. Archives are member sequences and documents are trees, and a payload that does not parse is a parse error.
- **Indentation:** the output indentation of json.dumps and of ElementTree is not modelled, for the same reason.
- **Probes as inputs:** file-system probes (exists, glob, stat, mtime), `Path.resolve`, the install probe (`pm list packages`, folder checks) and the hardware probes (build.prop, /proc/meminfo, CPU count) are inputs. They are modelled as the state of the file system or as parameters.
- **Glob and set order:** the order in which glob and set iteration yield entries is not modelled. A listing holds exactly the right entries in some order, and its sorted result is then proved.
- **Time:** `datetime.now()` is a parameter.
- **Randomness:** `random.choice` in the sass personality picks an arbitrary candidate.
- **AI model:** the AI model's answer is a parameter. `ai_client.py` and the other network code are not part of this model.
- **UI:** the Kivy UI, the animations, the shader and the PIL renderer are not part of this model. This covers `apply_theme_to_kivy`, `create_smooth_transition` and `MoltTransition.get_duration` (a float conversion).
- **Floating point:**
  - brightness and saturation are computed over exact reals;
  - lighten and darken with amount 0.1 are exact integer arithmetic that matches `int()` truncation for byte channels;
  - the 1.3 and 0.7 size multipliers are ×13/10 and ×7/10 truncated toward zero (see `PresetGenerator.Scaled` below);
  - the Euclidean distance in `_closest_md_palette` is compared by its square, which orders colours the same way.
- PresetGenerator.Scaled: the exact ×7/10 can be one above Python's `int(v * 0.7)`. The binary float product sometimes falls just below a whole number: 90 × 0.7 is 62.99999999999999, so Python gives 62 where the model gives 63. `PresetGenerator.RescaleItem`, `PresetGenerator.RescaleDirection` and `PresetGenerator.EditRescales` inherit this.
- **Prompt texts:** the long prompt texts of ai_prompts.py, the sass template table and the onboarding texts are constants or inputs. How they are selected and joined is modelled; their wording is not.
- **get_user_context** (app/ai_prompts.py:167-223): not modelled. It calls `isinstance` with one argument, so it raises TypeError whenever it reaches that call. It is not used by the rest of the core.
- **_create_preset_preview** (app/chat_handler.py:202-227): not modelled. No code path calls it.
- Chat.NameWords: the `\w` of the name regular expression is approximated by ASCII letters, digits, the underscore and every non-ASCII character, since Python's Unicode categories are not modelled.
- **Case mapping:** case mapping is ASCII only (`Text.Lower`, `Text.Upper`); Unicode case folding is not modelled.
- **Module-level singletons:** the module-level sass personality behind `get_sass_response` and `get_clearance_sass` is not an object of the chat handler. The chat handler receives the reply it would give as the function parameter `sass: Context -> string`, and makes no claim about which template that is; `SassPersonality.Personality` models the personality itself. `get_plugin_manager` is modelled by `PluginRegistry.Globals`.
- **Not in the core:** logging and the `print` diagnostics are not modelled. Neither are `get_summary` and `get_ui_recommendations` of the device detector (display text), nor the onboarding text helpers. `validate_directory` is modelled by `Onboarding.ValidateDirectory`.
- **Kustom.KustomHandler.CreateMatchingPreset:** the colours and fonts of the visual style come from Python sets. The contract fixes their members and that each is listed once, but not their order, which is whatever the set conversion yields.
- Json.Value: numbers are integers (`Num(n: int)`). A JSON float such as `"font_size": 12.5` cannot be represented, so the float arithmetic Python would do on it (`int(v * 1.3)` in `edit_preset`, a float colour or time in a sort) is not modelled.
- ThemeMatcher.ParseByte: `int(x, 16)` also accepts the decimal digits of other scripts (for example Arabic-Indic digits) and the fullwidth Latin letters. The model accepts ASCII hex digits, a sign and the blanks `int` strips, and reads every other two-character slice as ValueError. `ThemeMatcher.HexToRgb`, `ThemeMatcher.ParseAll` and `ThemeMatcher.ExtractColorPalette` inherit this.
- PresetStorage.ExtractColors: Python's set treats 1 and True as one element, so `{"color": 1, "bgcolor": true}` gives `[1]`; the model keeps both values and gives two. `PresetGenerator.ExtractThemeColors` and the colour list of `Kustom.KustomHandler.CreateMatchingPreset` share this.
- PresetStorage.PresetStore.ListPresets: Python compares two lists (and two tuples) element by element; the model treats a list-valued `modified_at` as incomparable and answers TypeError where Python may sort.
- KlwpHandler.KLWPHandler.WriteBack: the staging directory under /tmp that save_preset extracts to, writes preset.json into and removes again is not modelled; the repacked archive is computed from the old members directly. A failure to create or remove that directory is not modelled either.
- Chat.ChatHandler.SavePendingPreset: an error reply ends with the text the model's error carries, not with Python's `str(e)`. Python's texts differ in ways the model does not follow: an OS error starts with its errno (`[Errno 21] Is a directory: '…'`); a TypeError from a sort names the operand types in the order timsort happens to compare them; the unhashable and not-a-mapping TypeErrors and the failed string concatenation have CPython's own wording. `Chat.ChatHandler.HandlePresetCreation`, `Chat.ChatHandler.HandlePresetModification` and the dispatchers that return these replies share this.
- Files.FileInfo: a listing entry has no `size`. The byte size of a file depends on its encoding, which is not modelled, so `Kustom.KustomHandler.ListPresets`, `KustomSuite.KustomPlugin.ListConfigs`, `TaskerSupport.TaskerPlugin.ListConfigs` and `TotalLauncherSupport.TotalLauncherPlugin.ListConfigs` describe each file by name, file name, path and type only.
- Files.FileSystem.Glob: yields files only. Python's glob also yields a directory whose name ends with the pattern's suffix, and the listings above would then describe it (and `stat` it); such directories are not modelled in `Kustom.KustomHandler.ListPresets`, `KustomSuite.KustomPlugin.ListConfigs`, `TaskerSupport.TaskerPlugin.ListConfigs` and `TotalLauncherSupport.TotalLauncherPlugin.ListConfigs`.
- Kustom.KustomHandler.ListPresets: its entries carry no `size`, and a directory whose name ends in the preset suffix is not listed (see `Files.FileInfo` and `Files.FileSystem.Glob` above).
- KustomSuite.KustomPlugin.ListConfigs: inherits the missing `size` and the unlisted directories from `Kustom.KustomHandler.ListPresets`.
- TaskerSupport.TaskerPlugin.ListConfigs: its entries carry no `size`, and a directory named like a project, task or profile file is not listed.
- TotalLauncherSupport.TotalLauncherPlugin.ListConfigs: its entries carry no `size`, and a directory whose name ends in `.tl` is not listed.
- PresetStorage.PresetStore.constructor: `mkdir` raises FileExistsError (or NotADirectoryError) when a file already sits at one of the five directory paths or above the storage root. The constructor cannot fail; it adds the directories and leaves the files as they are, so that case is not modelled.
- Chat.ChatHandler.HandlePresetModification: the reply carries the preview as a value. In Python the UI holds the same PresetPreview object, so a later in-place edit also changes what an earlier reply referred to; the model does not follow a reply once it is returned.

## Findings

| source | as written | input that shows it | evidently intended | confidence | as-written member | corrected member |
|---|---|---|---|---|---|---|
| app/plugins/tasker_plugin.py:250-276 | read_config caches the document under the resolved file name, but modify_element indexes the cache with the name it was given | modify_element("Work", "task1", {...}) when only Work.prj.xml exists: the entry is cached as "Work.prj.xml" and `self._cache["Work"]` raises KeyError (BareNameHomedElsewhere) | mark the entry that read_config filled as modified | not executed | TaskerSupport.TaskerPlugin.ModifyElement | TaskerSupport.TaskerPlugin.ModifyElementCorrected |
| app/plugins/total_launcher_plugin.py:235-261 | read_config caches the layout under the name with ".tl" appended, but modify_element indexes the cache with the name it was given | modify_element("home", "a1", {...}) for home.tl: the entry is cached as "home.tl" and `self._cache["home"]` raises KeyError (BareNameHomedElsewhere) | mark the entry that read_config filled as modified | not executed | TotalLauncherSupport.TotalLauncherPlugin.ModifyElement | TotalLauncherSupport.TotalLauncherPlugin.ModifyElementCorrected |
| app/theme_matcher.py:342-360 | reads `storage.storage`, an attribute SecureStorage does not have | any call, even with themes saved, raises AttributeError | the names of the saved "theme_" keys with the prefix removed; a saved theme is listed (SavedThemeListed) | not executed | ThemeMatcher.GetSavedThemes | ThemeMatcher.SavedThemeNames |
| app/chat_handler.py:127 | handle_message calls `self._handle_preset_modification`, which is defined at module level (line 423) and not on the class | the message "edit" while a preview is shown: it is a modify intent (EditCommandIsModify), and the call raises AttributeError | the preview-update handler runs | not executed | Chat.ChatHandler.HandleMessage | Chat.ChatHandler.HandleMessageIntended |

=== FILE: ai_prompts.dfy ===
// AiPrompts: assembly of the system prompt and of the request for a matching
// preset in another format.  The four long instruction texts are inputs here
// (their wording is not part of the model); how they are put together is.
module AiPrompts {
  import opened Wrappers
  import opened Text

  /** The fixed instruction texts: the base prompt, the lock-screen and widget contexts, and the cross-format prompt. */
  datatype PromptTexts = PromptTexts(system: string, klck: string, kwgt: string, cross: string)

  const Separator := "\n\n"

  /** The context appended for a preset type, if any. */
  function TypeContext(t: PromptTexts, presetType: string): (r: string)
    ensures presetType == "klck" ==> r == Separator + t.klck
    ensures presetType == "kwgt" ==> r == Separator + t.kwgt
    ensures presetType != "klck" && presetType != "kwgt" ==> r == ""
  {
    if presetType == "klck" then Separator + t.klck
    else if presetType == "kwgt" then Separator + t.kwgt
    else ""
  }

  /** `target_type and target_type != preset_type`: a non-empty target other than the preset's own type. */
  predicate CrossFormat(presetType: string, targetType: Option<string>)
  {
    targetType.Some? && targetType.value != "" && targetType.value != presetType
  }

  /**
   * get_system_prompt: the base prompt, then the type's context, then the
   * cross-format prompt when a different target type is given.
   */
  function GetSystemPrompt(t: PromptTexts, presetType: string, targetType: Option<string>): (r: string)
    ensures StartsWith(r, t.system)
    ensures StartsWith(r[|t.system|..], TypeContext(t, presetType))
    ensures CrossFormat(presetType, targetType) ==> EndsWith(r, Separator + t.cross)
    ensures |r| == |t.system| + |TypeContext(t, presetType)| + (if CrossFormat(presetType, targetType) then |Separator + t.cross| else 0)
    ensures presetType != "klck" && presetType != "kwgt" && !CrossFormat(presetType, targetType) ==> r == t.system
  {
    var head := t.system + TypeContext(t, presetType);
    var r := if CrossFormat(presetType, targetType) then head + (Separator + t.cross) else head;
    assert r[..|t.system|] == t.system;
    assert r[|t.system|..][..|TypeContext(t, presetType)|] == TypeContext(t, presetType);
    r
  }

  /** The display name of a preset type: the type_names table. */
  function TypeName(presetType: string): (r: Option<string>)
    ensures r.Some? <==> presetType in {"klwp", "klck", "kwgt"}
    ensures r.Some? ==> r.value in {"Live Wallpaper", "Lock Screen", "Widget"}
  {
    if presetType == "klwp" then Some("Live Wallpaper")
    else if presetType == "klck" then Some("Lock Screen")
    else if presetType == "kwgt" then Some("Widget")
    else None
  }

  /** Distinct types have distinct display names. */
  lemma TypeNamesDistinct(a: string, b: string)
    requires TypeName(a).Some? && TypeName(b).Some? && a != b
    ensures TypeName(a) != TypeName(b)
  {
  }

  /** The opening line of the request: both display names and the source preset's name. */
  function CrossRequestHead(targetName: string, sourceName: string, presetName: string): string
  {
    "\nCreate a matching " + targetName + " preset based on the current " + sourceName + ": " + presetName
  }

  /** The instructions that follow the opening line. */
  function CrossRequestBody(targetName: string, targetType: string): string
  {
    "\n\nPlease:\n1. Analyze the visual style, colors, and design patterns\n2. Create a new " + Upper(targetType)
    + " preset that matches aesthetically\n3. Adapt the layout for " + targetName
    + " format (appropriate dimensions and content)\n4. Maintain consistency in:\n   - Color palette\n   - Typography\n"
    + "   - Visual effects (shadows, glows, etc.)\n   - Overall design language\n\n"
    + "5. Suggest the preset name and provide the complete JSON structure.\n"
  }

  lemma Prefixed(head: string, tail: string)
    ensures StartsWith(head + tail, head)
  {
    assert (head + tail)[..|head|] == head;
  }

  /**
   * create_cross_preset_request: the request naming both formats; an unknown
   * type is a KeyError, the target looked up first.
   */
  function CreateCrossPresetRequest(sourceType: string, targetType: string, presetName: string): (r: Result<string>)
    ensures r.Ok? <==> TypeName(sourceType).Some? && TypeName(targetType).Some?
    ensures TypeName(targetType).None? ==> r == Err(KeyError(targetType))
    ensures TypeName(targetType).Some? && TypeName(sourceType).None? ==> r == Err(KeyError(sourceType))
    ensures r.Ok? ==> StartsWith(r.value, CrossRequestHead(TypeName(targetType).value, TypeName(sourceType).value, presetName))
  {
    match (TypeName(targetType), TypeName(sourceType))
    case (None, _) => Err(KeyError(targetType))
    case (Some(_), None) => Err(KeyError(sourceType))
    case (Some(tn), Some(sn)) =>
      var head := CrossRequestHead(tn, sn, presetName);
      Prefixed(head, CrossRequestBody(tn, targetType));
      Ok(head + CrossRequestBody(tn, targetType))
  }
}

=== FILE: chat_handler.dfy ===
// Chat: the chat front end of the app.  It reads what the user asks for
// from lowercase substrings, names new presets after the words of their
// description, and keeps one generated preset pending until the user saves
// it, edits it or turns it down.  The AI answer, the clock, the reply the
// sass personality picks and the answer of the Kustom bridge are inputs.
module Chat {
  import opened Wrappers
  import opened Text
  import opened Json
  import opened Storage
  import opened PresetGenerator
  import opened PresetStorage
  import opened EasterEgg
  import opened SassPersonality
  import opened PreviewSystem
  import Files

  // ---------------------------------------------------------------------
  // Intents
  // ---------------------------------------------------------------------

  datatype Intent =
    | CreatePreset(presetType: string, description: string)
    | ConfirmSave
    | Reject
    | ModifyPreset(description: string)
    | ThemeMatch
    | General(message: string)

  const CreateWords: seq<string> := ["create", "make", "generate", "build"]
  const ConfirmWords: seq<string> := ["yes", "yeah", "yep", "save", "ok", "sure"]
  const RejectWords: seq<string> := ["no", "cancel", "don't", "nope"]
  const ModifyWords: seq<string> := ["change", "modify", "update", "edit"]

  /** The preset type a creation request asks for: lock screen, then widget, else wallpaper. */
  function RequestedType(m: string): (r: string)
    ensures r in PresetGenerator.PresetTypes
    ensures r == "klck" <==> Contains(m, "lock screen") || Contains(m, "klck")
    ensures r == "kwgt" <==> !(Contains(m, "lock screen") || Contains(m, "klck")) && (Contains(m, "widget") || Contains(m, "kwgt"))
  {
    if Contains(m, "lock screen") || Contains(m, "klck") then "klck"
    else if Contains(m, "widget") || Contains(m, "kwgt") then "kwgt"
    else "klwp"
  }

  /** detect_intent: the intent a message expresses, read from its lowercase text. */
  function DetectIntent(message: string): (r: Intent)
    ensures r.CreatePreset? ==> r.presetType in PresetGenerator.PresetTypes && r.description == message
    ensures r.ModifyPreset? ==> r.description == message
    ensures r.General? ==> r.message == message
  {
    var m := Lower(message);
    if ContainsAny(m, CreateWords) then CreatePreset(RequestedType(m), message)
    else if ContainsAny(m, ConfirmWords) then ConfirmSave
    else if ContainsAny(m, RejectWords) then Reject
    else if ContainsAny(m, ModifyWords) then ModifyPreset(message)
    else if Contains(m, "theme") && Contains(m, "match") then ThemeMatch
    else General(message)
  }

  /**
   * The intent is the first of create, confirm, reject, modify and theme
   * matching whose words occur in the lowercased message; otherwise the
   * message is a general question.
   */
  lemma IntentPrecedence(message: string)
    ensures var r, m := DetectIntent(message), Lower(message);
      && (r.CreatePreset? <==> ContainsAny(m, CreateWords))
      && (r.CreatePreset? ==> r == CreatePreset(RequestedType(m), message))
      && (r.ConfirmSave? <==> !ContainsAny(m, CreateWords) && ContainsAny(m, ConfirmWords))
      && (r.Reject? <==> !ContainsAny(m, CreateWords + ConfirmWords) && ContainsAny(m, RejectWords))
      && (r.ModifyPreset? <==> !ContainsAny(m, CreateWords + ConfirmWords + RejectWords) && ContainsAny(m, ModifyWords))
      && (r.ThemeMatch? <==> !ContainsAny(m, CreateWords + ConfirmWords + RejectWords + ModifyWords)
                             && Contains(m, "theme") && Contains(m, "match"))
  {
    var m := Lower(message);
    ContainsAnyAppend(m, CreateWords, ConfirmWords);
    ContainsAnyAppend(m, CreateWords + ConfirmWords, RejectWords);
    ContainsAnyAppend(m, CreateWords + ConfirmWords + RejectWords, ModifyWords);
  }

  /** A word holding a character the text lacks does not occur in it. */
  lemma {:induction false} AbsentChar(s: string, w: string, c: char)
    requires c in w && c !in s
    ensures !Contains(s, w)
    decreases |s|
  {
    if |w| <= |s| {
      assert forall x :: x in s[..|w|] ==> x in s;
      assert s[..|w|] != w;
    }
    if s != [] {
      assert forall x :: x in s[1..] ==> x in s;
      AbsentChar(s[1..], w, c);
    }
  }

  /** None of the words occurs when each holds a character (given in cs) the text lacks. */
  lemma AbsentWords(s: string, ws: seq<string>, cs: seq<char>)
    requires |cs| == |ws| && forall i :: 0 <= i < |ws| ==> cs[i] in ws[i] && cs[i] !in s
    ensures !ContainsAny(s, ws)
  {
    forall i | 0 <= i < |ws|
      ensures !Contains(s, ws[i])
    {
      AbsentChar(s, ws[i], cs[i]);
    }
  }

  /** Lowercasing leaves a text without capitals as it is. */
  lemma LowerKeeps(s: string)
    requires forall i :: 0 <= i < |s| ==> !IsUpper(s[i])
    ensures Lower(s) == s
  {
  }

  /** "edit" holds none of the create, confirm and reject words. */
  lemma EditHasNoEarlierWord(m: string)
    requires m == "edit"
    ensures !ContainsAny(m, CreateWords + ConfirmWords + RejectWords)
  {
    AbsentWords(m, CreateWords, "cmgb");
    AbsentWords(m, ConfirmWords, "yyysks");
    AbsentWords(m, RejectWords, "ncnn");
    ContainsAnyAppend(m, CreateWords, ConfirmWords);
    ContainsAnyAppend(m, CreateWords + ConfirmWords, RejectWords);
  }

  /** An ordinary edit command is read as a modification request. */
  lemma EditCommandIsModify(m: string)
    requires m == "edit"
    ensures DetectIntent(m) == ModifyPreset(m)
  {
    LowerKeeps(m);
    EditHasNoEarlierWord(m);
    assert Contains(m, ModifyWords[3]) by {
      assert StartsWith(m, "edit");
    }
    IntentPrecedence(m);
  }

  // ---------------------------------------------------------------------
  // Preset names: re.findall(r'\b[a-z]{4,}\b', description.lower())
  // ---------------------------------------------------------------------

  /** A character \w matches: ASCII letters and digits, the underscore, and every non-ASCII character. */
  predicate IsWordChar(c: char)
  {
    'a' <= c <= 'z' || 'A' <= c <= 'Z' || '0' <= c <= '9' || c == '_' || c as int >= 128
  }

  predicate AllLower(w: string)
  {
    forall i :: 0 <= i < |w| ==> IsLower(w[i])
  }

  /** s[a..b] is a match of \b[a-z]{4,}\b: four or more lowercase letters with no word character on either side. */
  predicate MatchAt(s: string, a: int, b: int)
  {
    && 0 <= a && a + 4 <= b <= |s|
    && AllLower(s[a..b])
    && (a == 0 || !IsWordChar(s[a - 1]))
    && (b == |s| || !IsWordChar(s[b]))
  }

  /** Position i is where a scan may start: no word run is cut there. */
  predicate Boundary(s: string, i: int)
    requires 0 <= i <= |s|
  {
    i == 0 || i == |s| || !IsWordChar(s[i - 1]) || !IsWordChar(s[i])
  }

  /** The end of the run of word characters starting at i. */
  function RunEnd(s: string, i: nat): (j: nat)
    requires i <= |s|
    ensures i <= j <= |s|
    ensures forall k :: i <= k < j ==> IsWordChar(s[k])
    ensures j == |s| || !IsWordChar(s[j])
    decreases |s| - i
  {
    if i == |s| || !IsWordChar(s[i]) then i else RunEnd(s, i + 1)
  }

  /** The matches from position i on, left to right. */
  function FindWords(s: string, i: nat): seq<string>
    requires i <= |s|
    decreases |s| - i
  {
    if i == |s| then []
    else if !IsWordChar(s[i]) then FindWords(s, i + 1)
    else
      var j := RunEnd(s, i);
      (if j - i >= 4 && AllLower(s[i..j]) then [s[i..j]] else []) + FindWords(s, j)
  }

  /** Every word found is a match that starts at or after the scan position. */
  lemma {:induction false} FindWordsSound(s: string, i: nat)
    requires i <= |s| && Boundary(s, i)
    ensures forall w :: w in FindWords(s, i) ==> exists a, b :: i <= a && MatchAt(s, a, b) && s[a..b] == w
    decreases |s| - i
  {
    if i == |s| {
    } else if !IsWordChar(s[i]) {
      FindWordsSound(s, i + 1);
    } else {
      var j := RunEnd(s, i);
      FindWordsSound(s, j);
      if j - i >= 4 && AllLower(s[i..j]) {
        assert MatchAt(s, i, j);
      }
    }
  }

  /** Every match that starts at or after a boundary scan position is found. */
  lemma {:induction false} FindWordsComplete(s: string, i: nat, a: int, b: int)
    requires i <= |s| && Boundary(s, i)
    requires i <= a && MatchAt(s, a, b)
    ensures s[a..b] in FindWords(s, i)
    decreases |s| - i
  {
    assert IsLower(s[a..b][0]);
    if !IsWordChar(s[i]) {
      assert i < a;
      FindWordsComplete(s, i + 1, a, b);
    } else {
      var j := RunEnd(s, i);
      if a == i {
        assert forall k :: a <= k < b ==> IsWordChar(s[k]);
        assert j == b;
      } else {
        assert j <= a;
        FindWordsComplete(s, j, a, b);
      }
    }
  }

  const StopWords: seq<string> := ["create", "make", "with", "that", "have", "this"]

  /** w is a match of the text that is not a stop word. */
  ghost predicate NameWordOf(m: string, w: string)
  {
    w !in StopWords && exists a, b :: MatchAt(m, a, b) && m[a..b] == w
  }

  /** Every match of the text is a stop word. */
  ghost predicate OnlyStopWords(m: string)
  {
    forall a, b :: MatchAt(m, a, b) ==> m[a..b] in StopWords
  }

  /** The words of a list that are not stop words, in order. */
  function Kept(ws: seq<string>): (r: seq<string>)
    ensures forall w :: w in r <==> w in ws && w !in StopWords
  {
    if ws == [] then [] else (if ws[0] in StopWords then [] else [ws[0]]) + Kept(ws[1..])
  }

  /**
   * The words a new preset is named after: the first two matches of the
   * lowercased description that are not stop words.  There are none
   * exactly when every match is a stop word.
   */
  function NameWords(description: string): (r: seq<string>)
    ensures |r| <= 2
    ensures forall w :: w in r ==> NameWordOf(Lower(description), w)
    ensures r == [] <==> OnlyStopWords(Lower(description))
  {
    var ws := Kept(FindWords(Lower(description), 0));
    KeptMatches(Lower(description));
    if |ws| <= 2 then ws
    else
      assert forall w :: w in ws[..2] ==> w in ws;
      assert ws[0] in ws;
      ws[..2]
  }

  /** The kept words of a text are its non-stop-word matches; there are none exactly when every match is a stop word. */
  lemma KeptMatches(m: string)
    ensures forall w :: w in Kept(FindWords(m, 0)) ==> NameWordOf(m, w)
    ensures Kept(FindWords(m, 0)) == [] <==> OnlyStopWords(m)
  {
    var ws := Kept(FindWords(m, 0));
    FindWordsSound(m, 0);
    forall a, b | MatchAt(m, a, b)
      ensures m[a..b] in FindWords(m, 0)
    {
      FindWordsComplete(m, 0, a, b);
    }
    if ws != [] {
      assert ws[0] in ws;
    }
  }

  /** _generate_preset_name: the name words joined by `_`, or `custom`, then `.` and the type. */
  function PresetName(description: string, presetType: string): (r: string)
    ensures EndsWith(r, "." + presetType)
    ensures var ws := NameWords(description);
      && (|ws| == 0 ==> r == "custom." + presetType)
      && (|ws| == 1 ==> r == ws[0] + "." + presetType)
      && (|ws| == 2 ==> r == ws[0] + "_" + ws[1] + "." + presetType)
  {
    var ws := NameWords(description);
    var name := if ws == [] then "custom" else Join(ws, "_");
    EndsWithJoined(name, ".", presetType);
    if |ws| == 2 then JoinTwo(ws, "_"); name + "." + presetType
    else name + "." + presetType
  }

  // ---------------------------------------------------------------------
  // Replies
  // ---------------------------------------------------------------------

  /** What the preview pane is asked to do beside a reply ('show', 'update', 'hide', 'hide' with the easter egg). */
  datatype Action =
    | ShowPane(preset: PresetPreview)
    | UpdatePane(preset: PresetPreview, molt: MoltType)
    | HidePane
    | HidePaneWithEgg(presetColors: seq<Value>, presetName: string)

  /** A reply: its text and the pane action, if any. */
  datatype Reply = Reply(text: string, action: Option<Action>)

  /** What the Kustom bridge answers when a saved preset is sent to the app. */
  datatype BridgeAnswer = BridgeAnswer(applied: bool, message: string, installed: bool)

  /** The store key recording that the user declined the easter egg. */
  const RejectedKey := "easter_egg_rejected"

  /** What handle_message raises for an edit: the handler has no such method. */
  const NoModificationMethod := AttributeError("'ChatHandler' object has no attribute '_handle_preset_modification'")

  const HelpWords: seq<string> := ["help", "how", "what can"]

  const AcceptText := "\n✨ Perfect! Theme matching is now unlocked.\n\n"
    + "You'll find a 🎨 button in settings to match Chameleon's interface to any of your presets.\n\n"
    + "I've become part of your ecosystem. 🦎\n"
  const DeclineText := "No worries! Enjoy your new preset. 🦎"
  const NoPresetsText := "No presets found to match theme from."
  const FeignText := "I'm not sure " + "what you mean by theme matching. "
    + "If you're having issues with the app, try clearing the cache in settings - that might help!"
  const DefaultText := "I can help you create KLWP, KLCK, and KWGT presets! "
    + "Try saying something like:\n"
    + "• 'Create a cyberpunk wallpaper with digital clock'\n"
    + "• 'Make a minimal lock screen'\n"
    + "• 'Generate a neon widget'"
  const HelpText := "\n🦎 Chameleon Help\n\n"
    + "I can create custom Android presets from natural language:\n\n"
    + "📱 Preset Types:\n"
    + "  • KLWP - Live wallpapers\n"
    + "  • KLCK - Lock screens\n"
    + "  • KWGT - Widgets\n\n"
    + "🎨 Themes I Know:\n"
    + "  • Cyberpunk (neon, futuristic)\n"
    + "  • Minimal (clean, simple)\n"
    + "  • Dark (modern, sleek)\n"
    + "  • Neon (bright, colorful)\n"
    + "  • Pastel (soft, gentle)\n"
    + "  • Gruvbox (retro, warm)\n\n"
    + "✨ Examples:\n"
    + "  • \"Create a cyberpunk wallpaper with clock\"\n"
    + "  • \"Make a minimal lock screen with battery\"\n"
    + "  • \"Generate a dark widget with weather\"\n\n"
    + "💡 Tip: I'll show you a preview before saving!\n"

  /**
   * The text shown for a raised exception: the message the model's error
   * carries; a KeyError shows its key quoted.
   */
  function Message(e: Error): string
  {
    match e
    case FileNotFound(p) => p
    case ValueError(d) => d
    case KeyError(k) => "'" + k + "'"
    case TypeError(d) => d
    case BadZip(p) => p
    case JsonDecode(d) => d
    case XmlParse(d) => d
    case AttributeError(d) => d
    case IsADirectory(p) => p
    case NotADirectory(p) => p
    case SameFile(p) => p
    case IndexError(d) => d
  }

  /** The reply to an exception caught by a handler: an ERROR sass line, then the message; no pane action. */
  function ErrorReply(sass: Context -> string, e: Error): Reply
  {
    Reply(sass(ErrorContext) + "\n" + Message(e), None)
  }

  /** The lines after the SUCCESS sass line when a preset is saved. */
  function SavedText(name: string, presetType: string, bridge: BridgeAnswer): string
  {
    var install := if bridge.installed then "" else "\n\nInstall " + Upper(presetType) + " to apply presets.";
    "\n\n📋 Saved: " + name
      + (if bridge.applied then "\n✅ Sent to " + Upper(presetType) else "\n⚠️ " + bridge.message + install)
  }

  /** molt_map.get(edit_type, TRANSFORM) */
  function MoltOf(editType: string): MoltType
  {
    if editType == "color" then ColorShift
    else if editType == "scale" then Scale
    else if editType == "birth" then Birth
    else if editType == "fade" then Fade
    else Transform
  }

  /** context_map.get(edit_type, PRESET_EDITED) */
  function ContextOf(editType: string): Context
  {
    if editType == "color" then ColorChange
    else if editType == "birth" then ElementAdded
    else if editType == "fade" then ElementRemoved
    else PresetEdited
  }

  /**
   * The animation and the sass context follow the kind of edit: a recolour
   * shifts colours, a resize scales, an added battery is born, removed items
   * fade, and a command edit_preset does not understand transforms.
   */
  lemma EditAnimation(e: Edit)
    ensures MoltOf(EditType(e)) == match e
      case Recolor(_) => ColorShift
      case Rescale(_) => Scale
      case AddBattery => Birth
      case RemoveItems(_) => Fade
      case Keep => Transform
    ensures ContextOf(EditType(e)) == match e
      case Recolor(_) => ColorChange
      case AddBattery => ElementAdded
      case RemoveItems(_) => ElementRemoved
      case _ => PresetEdited
  {
  }

  /** _generate_general_response: the help text exactly when the message asks for help, else the default text. */
  function GeneralResponse(message: string): (r: string)
    ensures r == HelpText <==> ContainsAny(Lower(message), HelpWords)
    ensures r != HelpText ==> r == DefaultText
  {
    if ContainsAny(Lower(message), HelpWords) then HelpText else DefaultText
  }

  /** get_easter_egg_offer_text: always the automatic "smooth" reveal, whatever the colours. */
  function OfferText(presetColors: seq<Value>): (r: string)
    ensures r == "smooth"
  {
    "smooth"
  }

  // ---------------------------------------------------------------------
  // The handler
  // ---------------------------------------------------------------------

  class ChatHandler {
    /** The preset waiting for confirmation; Null stands for None. */
    var pendingPreset: Value
    var pendingPresetName: Option<string>
    var currentPreview: Option<PresetPreview>
    /**
     * Whether the preview shows the very dict held as the pending preset:
     * Python hands one object to both, so an in-place edit of the one shows
     * in the other.
     */
    var sharesPreset: bool
    const store: PresetStore
    const eggs: EasterEggManager

    /** The preset store's directories exist. */
    ghost predicate Valid()
      reads store.disk
    {
      store.Valid()
    }

    /** __init__: nothing pending, nothing previewed. */
    constructor (store0: PresetStore, eggs0: EasterEggManager)
      ensures store == store0 && eggs == eggs0
      ensures pendingPreset == Null && pendingPresetName == None && currentPreview == None && !sharesPreset
    {
      store := store0;
      eggs := eggs0;
      pendingPreset := Null;
      pendingPresetName := None;
      currentPreview := None;
      sharesPreset := false;
    }

    /** The three pending fields are all truthy: there is a preset to save. */
    predicate Ready()
      reads this
    {
      Truthy(pendingPreset) && pendingPresetName.Some? && pendingPresetName.value != "" && currentPreview.Some?
    }

    /** should_show_theme_button */
    function ShouldShowThemeButton(): Value
      reads eggs.storage
    {
      eggs.IsThemeMatchingUnlocked()
    }

    /**
     * _handle_theme_matching: the feature answers only once it is unlocked,
     * naming the last created preset; otherwise the handler feigns
     * ignorance.
     */
    function ThemeMatchingReply(): (r: Reply)
      reads eggs.storage
      ensures r.action.None?
      ensures r.text == FeignText <==> !Truthy(eggs.IsThemeMatchingUnlocked())
      ensures r.text == NoPresetsText <==> Truthy(eggs.IsThemeMatchingUnlocked()) && !Truthy(eggs.LastCreatedPreset())
      ensures StartsWith(r.text, "🎨 Theme matching from '") <==> Truthy(eggs.IsThemeMatchingUnlocked()) && Truthy(eggs.LastCreatedPreset())
    {
      assert FeignText[0] == 'I' && NoPresetsText[0] == 'N';
      if Truthy(eggs.IsThemeMatchingUnlocked()) then
        var last := eggs.LastCreatedPreset();
        if !Truthy(last) then Reply(NoPresetsText, None)
        else
          var head := "🎨 Theme matching from '";
          var text := head + Show(last) + "' - applying colors now!";
          assert text[..|head|] == head;
          Reply(text, None)
      else Reply(FeignText, None)
    }

    /**
     * What _handle_preset_creation leaves behind: a failed generation is
     * answered with its error and changes nothing; otherwise the preset is
     * pending under its suggested name and, when its colours sort, previewed
     * with them; a failure there leaves the preview as it was.
     */
    twostate predicate Created(description: string, presetType: string, aiAnswer: Option<Value>, sass: Context -> string, r: Reply)
      reads this
    {
      && (var g := Generated(description, presetType, aiAnswer);
        g.Err? ==> r == ErrorReply(sass, g.error) && unchanged(this))
      && (var g := Generated(description, presetType, aiAnswer);
        g.Ok? ==> pendingPreset == g.value && pendingPresetName == Some(PresetName(description, presetType)))
      && (presetType in PresetGenerator.PresetTypes ==> pendingPresetName == Some(PresetName(description, presetType)))
      && (var g := Generated(description, presetType, aiAnswer);
        g.Ok? && !ThemeColorsSortable(g.value) ==>
          && r.action.None? && (exists d :: r == ErrorReply(sass, TypeError(d)))
          && currentPreview == old(currentPreview) && !sharesPreset)
      && (var g := Generated(description, presetType, aiAnswer);
        g.Ok? && ThemeColorsSortable(g.value) ==>
          && currentPreview.Some?
          && var p := currentPreview.value;
          && p.presetName == PresetName(description, presetType) && p.presetType == presetType
          && p.presetData == g.value && p.thumbnailPath.None? && SortedColorsOf(g.value, p.colors) && sharesPreset
          && r == Reply(sass(PresetCreated) + "\n\n📋 " + p.presetName + "\n💾 Say 'yes' to save, or ask for changes",
                        Some(ShowPane(p))))
    }

    /**
     * _handle_preset_creation: generates the preset, makes it pending under
     * its suggested name, and shows a preview with its colours.  A failure
     * is answered with the error; the fields set before it stay set.
     */
    method HandlePresetCreation(description: string, presetType: string, aiAnswer: Option<Value>, sass: Context -> string)
      returns (r: Reply)
      modifies this
      ensures Created(description, presetType, aiAnswer, sass, r)
    {
      var generated := GenerateFromDescription(description, presetType, aiAnswer);
      if generated.Err? {
        return ErrorReply(sass, generated.error);
      }
      pendingPreset := generated.value;
      var name := PresetName(description, presetType);
      pendingPresetName := Some(name);
      sharesPreset := false;
      var colors := ExtractThemeColors(generated.value);
      if colors.Err? {
        r := ErrorReply(sass, colors.error);
        assert r == ErrorReply(sass, TypeError(colors.error.detail));
        return;
      }
      var preview := PresetPreview(name, presetType, generated.value, None, colors.value);
      currentPreview := Some(preview);
      sharesPreset := true;
      return Reply(sass(PresetCreated) + "\n\n📋 " + name + "\n💾 Say 'yes' to save, or ask for changes", Some(ShowPane(preview)));
    }

    /**
     * What _save_pending_preset leaves behind, between the state before it
     * and after it: with a field missing an error line and nothing changed;
     * otherwise the pane is hidden exactly when the save and the count
     * succeed, the fields are then cleared and the preset reads back with
     * its metadata; an error reply keeps the fields.
     */
    twostate predicate SavedPending(now: string, bridge: BridgeAnswer, sass: Context -> string, r: Reply)
      reads this, store.disk, eggs.storage
    {
      && (!old(Ready()) ==>
        && r == Reply(sass(ErrorContext) + "\nNo preset to save.", None)
        && unchanged(this) && store.disk.files == old(store.disk.files) && eggs.storage.data == old(eggs.storage.data))
      && (old(Ready()) ==> (r.action.Some? <==> old(SaveSucceeds(now))))
      && (old(Ready()) && r.action.None? ==> exists e :: r == ErrorReply(sass, e))
      && (r.action.None? ==>
        && pendingPreset == old(pendingPreset) && pendingPresetName == old(pendingPresetName) && currentPreview == old(currentPreview)
        && sharesPreset == old(sharesPreset))
      && (r.action.Some? ==>
        && old(Ready())
        && pendingPreset == Null && pendingPresetName == None && currentPreview == None && !sharesPreset
        && (r.action.value.HidePane? || r.action.value.HidePaneWithEgg?))
      && (old(Ready()) ==>
        var t := old(currentPreview.value.presetType);
        var safe := SafeName(old(pendingPresetName.value));
        && (t !in PresetGenerator.PresetTypes || !old(pendingPreset).Obj? ==>
              r.action.None? && store.disk.files == old(store.disk.files) && eggs.storage.data == old(eggs.storage.data))
        && (t in PresetGenerator.PresetTypes && old(pendingPreset).Obj?
            && Files.Writable(old(store.disk.files), old(store.disk.dirs), store.SavedPath(t, old(pendingPresetName.value))) ==>
              store.LoadPreset(safe, t) == Ok(WithMetadata(old(pendingPreset), safe, now)))
        && (r.action.Some? ==> r.text == sass(Success) + SavedText(safe, t, bridge))
        && (r.action.Some? && r.action.value.HidePaneWithEgg? ==>
              r.action.value.presetName == safe && IsPalette(old(pendingPreset), r.action.value.presetColors)))
      && (r.action.Some? ==>
        (r.action.value.HidePaneWithEgg? <==>
           && old(Successor(eggs.PresetsCreatedCount())) == Ok(1) && old(eggs.CheckThemeMatchingTrigger())
           && !Truthy(old(eggs.storage.Get(RejectedKey, Bool(false))))))
      && (r.action.Some? && r.action.value.HidePaneWithEgg? ==>
        eggs.PresetsCreatedCount() == Num(1) && eggs.CheckThemeMatchingTrigger())
    }

    /**
     * _save_pending_preset: with all three pending fields set, saves the
     * preset, counts it for the easter egg, sends it to the app and clears
     * the fields; the egg is offered only when it fires and the user has
     * not declined it before.  With a field missing nothing changes.  An
     * error is answered with its message and leaves the fields set.
     */
    method SavePendingPreset(now: string, bridge: BridgeAnswer, sass: Context -> string) returns (r: Reply)
      requires Valid()
      modifies this, store.disk, eggs.storage
      ensures Valid() && store.disk.dirs == old(store.disk.dirs)
      ensures SavedPending(now, bridge, sass, r)
    {
      if !Ready() {
        return Reply(sass(ErrorContext) + "\nNo preset to save.", None);
      }
      var t := currentPreview.value.presetType;
      var outcome := SaveAndCount(pendingPresetName.value, pendingPreset, t, currentPreview.value.thumbnailPath, now);
      if outcome.Err? {
        return ErrorReply(sass, outcome.error);
      }
      var (meta, fires) := outcome.value;
      var text := sass(Success) + SavedText(meta.name, t, bridge);
      ClearPending();
      if fires && !Truthy(eggs.storage.Get(RejectedKey, Bool(false))) {
        return Reply(text, Some(HidePaneWithEgg(meta.colors, meta.name)));
      }
      return Reply(text, Some(HidePane));
    }

    /** Drops the pending preset, its name and its preview. */
    method ClearPending()
      modifies this
      ensures pendingPreset == Null && pendingPresetName == None && currentPreview == None && !sharesPreset
    {
      pendingPreset := Null;
      pendingPresetName := None;
      currentPreview := None;
      sharesPreset := false;
    }

    /**
     * Whether _save_pending_preset gets through: the store saves the pending
     * preset and the easter egg's counter can be incremented.
     */
    predicate SaveSucceeds(now: string)
      requires Ready()
      reads this, store.disk, eggs.storage
    {
      && store.SaveSucceeds(pendingPresetName.value, pendingPreset, currentPreview.value.presetType, currentPreview.value.thumbnailPath, now)
      && Successor(eggs.PresetsCreatedCount()).Ok?
    }

    /**
     * The saving half of _save_pending_preset: the preset is written under
     * its sanitized name, then counted for the easter egg, which reports
     * whether the egg fires.  The refusal flag is left alone.
     */
    method SaveAndCount(name: string, data: Value, t: string, thumbnail: Option<string>, now: string)
      returns (r: Result<(PresetMetadata, bool)>)
      requires Valid()
      modifies store.disk, eggs.storage
      ensures Valid() && store.disk.dirs == old(store.disk.dirs)
      ensures r.Ok? <==> old(store.SaveSucceeds(name, data, t, thumbnail, now)) && old(Successor(eggs.PresetsCreatedCount())).Ok?
      ensures t !in PresetGenerator.PresetTypes || !data.Obj? ==>
        r.Err? && store.disk.files == old(store.disk.files) && eggs.storage.data == old(eggs.storage.data)
      ensures t in PresetGenerator.PresetTypes && data.Obj? && Files.Writable(old(store.disk.files), old(store.disk.dirs), store.SavedPath(t, name)) ==>
        store.LoadPreset(SafeName(name), t) == Ok(WithMetadata(data, SafeName(name), now))
      ensures r.Ok? ==> r.value.0.name == SafeName(name) && IsPalette(data, r.value.0.colors)
      ensures r.Ok? ==>
        (r.value.1 <==> old(Successor(eggs.PresetsCreatedCount())) == Ok(1) && old(eggs.CheckThemeMatchingTrigger()))
      ensures r.Ok? && r.value.1 ==> eggs.PresetsCreatedCount() == Num(1) && eggs.CheckThemeMatchingTrigger()
      ensures eggs.storage.Get(RejectedKey, Bool(false)) == old(eggs.storage.Get(RejectedKey, Bool(false)))
    {
      var saved := store.SavePreset(name, data, t, thumbnail, now);
      if saved.Err? {
        return Err(saved.error);
      }
      assert RejectedKey != CountKey && RejectedKey != LastKey;
      var fires := eggs.CheckAndTriggerEasterEgg(saved.value.name);
      if fires.Err? {
        return Err(fires.error);
      }
      return Ok((saved.value, fires.value));
    }

    /**
     * handle_easter_egg_response: accepting unlocks theme matching, so the
     * settings button shows; declining records the refusal and leaves the
     * feature as it was.
     */
    method HandleEasterEggResponse(accepted: bool) returns (r: string)
      modifies eggs.storage
      ensures accepted ==>
        && r == AcceptText
        && eggs.storage.data == old(eggs.storage.data)[ShownKey := Bool(true)][UnlockedKey := Bool(true)]
        && Truthy(ShouldShowThemeButton())
      ensures !accepted ==>
        && r == DeclineText
        && eggs.storage.data == old(eggs.storage.data)[RejectedKey := Bool(true)]
        && ShouldShowThemeButton() == old(ShouldShowThemeButton())
    {
      if accepted {
        eggs.ActivateThemeMatching();
        return AcceptText;
      }
      eggs.storage.Set(RejectedKey, Bool(true));
      return DeclineText;
    }

    /**
     * _handle_preset_modification: applies the edit command to the pending
     * preset and updates the preview under the same name and type, with the
     * molt animation and sass context of the edit.  Without a pending
     * preset and preview nothing changes.  The edit works in place, so when
     * it or the colour extraction raises, the pending preset keeps what the
     * edit did before that, and so does the preview when it shows the same
     * dict.
     */
    method HandlePresetModification(message: string, sass: Context -> string) returns (r: Reply)
      modifies this
      ensures pendingPresetName == old(pendingPresetName)
      ensures !old(Truthy(pendingPreset) && currentPreview.Some?) ==>
        r == Reply(sass(ErrorContext) + "\nNo preset to modify.", None) && unchanged(this)
      ensures old(Truthy(pendingPreset) && currentPreview.Some?) ==>
        var e := Edited(old(pendingPreset), message);
        var after := EditedInPlace(old(pendingPreset), message);
        && pendingPreset == after
        && (e.Err? ==> r == ErrorReply(sass, e.error))
        && (e.Ok? ==> after == e.value.0)
        && (e.Err? || !ThemeColorsSortable(after) ==>
              && r.action.None? && sharesPreset == old(sharesPreset)
              && currentPreview == if old(sharesPreset) then Some(old(currentPreview.value).(presetData := after)) else old(currentPreview))
        && (e.Ok? && ThemeColorsSortable(after) ==>
              && currentPreview.Some? && sharesPreset
              && var p := currentPreview.value;
              && p.presetName == old(currentPreview.value.presetName)
              && p.presetType == old(currentPreview.value.presetType)
              && p.presetData == after && p.thumbnailPath.None?
              && SortedColorsOf(after, p.colors)
              && r == Reply(sass(ContextOf(e.value.1)), Some(UpdatePane(p, MoltOf(e.value.1)))))
    {
      if !Truthy(pendingPreset) || currentPreview.None? {
        return Reply(sass(ErrorContext) + "\nNo preset to modify.", None);
      }
      var edited, after := EditPreset(pendingPreset, message);
      pendingPreset := after;
      if sharesPreset {
        currentPreview := Some(currentPreview.value.(presetData := after));
      }
      if edited.Err? {
        return ErrorReply(sass, edited.error);
      }
      var (updated, editType) := edited.value;
      var colors := ExtractThemeColors(updated);
      if colors.Err? {
        return ErrorReply(sass, colors.error);
      }
      var preview := PresetPreview(currentPreview.value.presetName, currentPreview.value.presetType, updated, None, colors.value);
      currentPreview := Some(preview);
      sharesPreset := true;
      return Reply(sass(ContextOf(editType)), Some(UpdatePane(preview, MoltOf(editType))));
    }

    /**
     * A confirmation with a preset pending is _save_pending_preset; a
     * refusal clears the three fields and hides the pane, leaving the preset
     * files and the easter-egg store alone.
     */
    twostate predicate PendingAnswered(confirm: bool, now: string, bridge: BridgeAnswer, sass: Context -> string, r: Reply)
      reads this, store.disk, eggs.storage
    {
      && (confirm ==> SavedPending(now, bridge, sass, r))
      && (!confirm ==>
            && r == Reply(sass(Success), Some(HidePane))
            && pendingPreset == Null && pendingPresetName == None && currentPreview == None && !sharesPreset
            && store.disk.files == old(store.disk.files) && eggs.storage.data == old(eggs.storage.data))
    }

    /**
     * The intents answered without a pending preset: a creation request is
     * _handle_preset_creation under the suggested name, theme matching
     * answers from the easter-egg flags, and everything else (a stray
     * confirmation or refusal included) gets the general response and
     * changes nothing.
     */
    twostate predicate FreshAnswered(message: string, intent: Intent, aiAnswer: Option<Value>, sass: Context -> string, r: Reply)
      reads this, eggs.storage
    {
      && (intent.CreatePreset? ==>
            && Created(intent.description, intent.presetType, aiAnswer, sass, r)
            && pendingPresetName == Some(PresetName(intent.description, intent.presetType)))
      && (intent.ThemeMatch? ==> r == ThemeMatchingReply() && unchanged(this))
      && (!intent.CreatePreset? && !intent.ThemeMatch? ==> r == Reply(GeneralResponse(message), None) && unchanged(this))
    }

    /**
     * handle_message, given the detected intent, for every message but an
     * edit while a preview is shown: confirm and reject act only on a
     * pending preset, a creation
     * request always creates, theme matching answers from the easter-egg
     * flags, and everything else gets the general response.  Only a
     * confirmation touches the preset files or the easter-egg store.
     */
    method Respond(message: string, intent: Intent, aiAnswer: Option<Value>, now: string, bridge: BridgeAnswer, sass: Context -> string)
      returns (r: Reply)
      requires Valid()
      requires !(intent.ModifyPreset? && currentPreview.Some?)
      requires intent.CreatePreset? ==> intent.presetType in PresetGenerator.PresetTypes
      modifies this, store.disk, eggs.storage
      ensures Valid()
      ensures (intent.ConfirmSave? || intent.Reject?) && old(Truthy(pendingPreset)) ==>
        PendingAnswered(intent.ConfirmSave?, now, bridge, sass, r)
      ensures !((intent.ConfirmSave? || intent.Reject?) && old(Truthy(pendingPreset))) ==>
        && FreshAnswered(message, intent, aiAnswer, sass, r)
        && store.disk.files == old(store.disk.files) && eggs.storage.data == old(eggs.storage.data)
    {
      if (intent.ConfirmSave? || intent.Reject?) && Truthy(pendingPreset) {
        r := RespondToPending(intent.ConfirmSave?, now, bridge, sass);
      } else {
        r := RespondFresh(message, intent, aiAnswer, sass);
      }
    }

    /** A confirmation saves the pending preset; a refusal drops it and hides the pane. */
    method RespondToPending(confirm: bool, now: string, bridge: BridgeAnswer, sass: Context -> string) returns (r: Reply)
      requires Valid() && Truthy(pendingPreset)
      modifies this, store.disk, eggs.storage
      ensures Valid()
      ensures PendingAnswered(confirm, now, bridge, sass, r)
    {
      if confirm {
        r := SavePendingPreset(now, bridge, sass);
      } else {
        ClearPending();
        r := Reply(sass(Success), Some(HidePane));
      }
    }

    /** The intents that need no pending preset: creation, theme matching and the general response. */
    method RespondFresh(message: string, intent: Intent, aiAnswer: Option<Value>, sass: Context -> string) returns (r: Reply)
      requires !((intent.ConfirmSave? || intent.Reject?) && Truthy(pendingPreset)) && !(intent.ModifyPreset? && currentPreview.Some?)
      requires intent.CreatePreset? ==> intent.presetType in PresetGenerator.PresetTypes
      modifies this
      ensures FreshAnswered(message, intent, aiAnswer, sass, r)
    {
      if intent.CreatePreset? {
        r := HandlePresetCreation(intent.description, intent.presetType, aiAnswer, sass);
      } else if intent.ThemeMatch? {
        r := ThemeMatchingReply();
      } else {
        r := Reply(GeneralResponse(message), None);
      }
    }

    /**
     * handle_message as written: an edit while a preview is shown raises
     * AttributeError, because _handle_preset_modification is defined
     * outside the class; every other message gets its reply.
     */
    method HandleMessage(message: string, aiAnswer: Option<Value>, now: string, bridge: BridgeAnswer, sass: Context -> string)
      returns (r: Result<Reply>)
      requires Valid()
      modifies this, store.disk, eggs.storage
      ensures Valid()
      ensures r.Err? <==> DetectIntent(message).ModifyPreset? && old(currentPreview).Some?
      ensures r.Err? ==>
        && r.error == NoModificationMethod && unchanged(this)
        && store.disk.files == old(store.disk.files) && eggs.storage.data == old(eggs.storage.data)
      ensures var i := DetectIntent(message);
        r.Ok? && (i.ConfirmSave? || i.Reject?) && old(Truthy(pendingPreset)) ==> PendingAnswered(i.ConfirmSave?, now, bridge, sass, r.value)
      ensures var i := DetectIntent(message);
        r.Ok? && !((i.ConfirmSave? || i.Reject?) && old(Truthy(pendingPreset))) ==>
          && FreshAnswered(message, i, aiAnswer, sass, r.value)
          && store.disk.files == old(store.disk.files) && eggs.storage.data == old(eggs.storage.data)
    {
      if DetectIntent(message).ModifyPreset? && currentPreview.Some? {
        return Err(NoModificationMethod);
      }
      var reply := Respond(message, DetectIntent(message), aiAnswer, now, bridge, sass);
      return Ok(reply);
    }

    /**
     * handle_message with _handle_preset_modification as a method of the
     * handler: an edit while a preview is shown updates the pending preset
     * under the same name instead of raising, and leaves the preset files
     * and the easter-egg store alone.
     */
    method HandleMessageIntended(message: string, aiAnswer: Option<Value>, now: string, bridge: BridgeAnswer, sass: Context -> string)
      returns (r: Reply)
      requires Valid()
      modifies this, store.disk, eggs.storage
      ensures Valid()
      ensures DetectIntent(message).ModifyPreset? && old(currentPreview).Some? ==>
        && pendingPresetName == old(pendingPresetName)
        && (old(Truthy(pendingPreset)) ==> pendingPreset == EditedInPlace(old(pendingPreset), message))
        && store.disk.files == old(store.disk.files) && eggs.storage.data == old(eggs.storage.data)
        && (r.action.None? || r.action.value.UpdatePane?)
        && (r.action.Some? ==> currentPreview.Some? && r.action.value.preset == currentPreview.value
                               && currentPreview.value.presetName == old(currentPreview.value.presetName)
                               && currentPreview.value.presetType == old(currentPreview.value.presetType))
      ensures var i := DetectIntent(message);
        !(i.ModifyPreset? && old(currentPreview).Some?) && (i.ConfirmSave? || i.Reject?) && old(Truthy(pendingPreset)) ==> PendingAnswered(i.ConfirmSave?, now, bridge, sass, r)
      ensures var i := DetectIntent(message);
        !(i.ModifyPreset? && old(currentPreview).Some?) && !((i.ConfirmSave? || i.Reject?) && old(Truthy(pendingPreset))) ==>
          && FreshAnswered(message, i, aiAnswer, sass, r)
          && store.disk.files == old(store.disk.files) && eggs.storage.data == old(eggs.storage.data)
    {
      if DetectIntent(message).ModifyPreset? && currentPreview.Some? {
        r := HandlePresetModification(message, sass);
      } else {
        r := Respond(message, DetectIntent(message), aiAnswer, now, bridge, sass);
      }
    }
  }
}

=== FILE: device_detector.dfy ===
// DeviceDetector: scoring a device for on-device model hosting and the
// recommendations derived from the score.  The probes of the hardware
// (build.prop, /proc/meminfo, the CPU count) are inputs: a DeviceInfo.
module DeviceDetector {
  import opened Text

  /** What the probes found. */
  datatype DeviceInfo = DeviceInfo(isAndroid: bool, soc: string, ramMb: int, hasNpu: bool, cpuCores: int)

  datatype Capabilities = Capabilities(
    canRunLocal: bool, recommendedModelSize: string, maxModelSize: string, npuAvailable: bool,
    cpuScore: int, ramScore: int, overallScore: int, performanceTier: string)

  datatype LocalModel = LocalModel(name: string, size: string, quality: string, speed: string)

  datatype Recommendations = Recommendations(
    primaryMode: string, canUseLocal: bool, canUseSsh: bool, canUseApi: bool,
    localModels: seq<LocalModel>, reasons: seq<string>, warnings: seq<string>, tips: seq<string>)

  /** The RAM tiers: score, largest model and recommended model size. */
  function RamAssessment(ramMb: int): (r: (int, string, string))
    ensures ramMb >= 12288 ==> r == (100, "7B", "3B")
    ensures 8192 <= ramMb < 12288 ==> r == (80, "3B", "3B")
    ensures 6144 <= ramMb < 8192 ==> r == (60, "3B", "1B")
    ensures 4096 <= ramMb < 6144 ==> r == (40, "1B", "1B")
    ensures 2048 <= ramMb < 4096 ==> r == (20, "1B", "TinyLlama")
    ensures ramMb < 2048 ==> r == (10, "TinyLlama", "API-only")
  {
    if ramMb >= 12288 then (100, "7B", "3B")
    else if ramMb >= 8192 then (80, "3B", "3B")
    else if ramMb >= 6144 then (60, "3B", "1B")
    else if ramMb >= 4096 then (40, "1B", "1B")
    else if ramMb >= 2048 then (20, "1B", "TinyLlama")
    else (10, "TinyLlama", "API-only")
  }

  /** More RAM never scores lower. */
  lemma RamScoreMonotone(a: int, b: int)
    requires a <= b
    ensures RamAssessment(a).0 <= RamAssessment(b).0
  {
  }

  /** The CPU score by core count, with the NPU bonus of 20 capped at 100. */
  function CpuScore(cores: int, npu: bool): (r: int)
    ensures 20 <= r <= 100
    ensures !npu ==> r == (if cores >= 8 then 100 else if cores >= 6 then 80 else if cores >= 4 then 60 else if cores >= 2 then 40 else 20)
    ensures npu ==> r == (if cores >= 6 then 100 else if cores >= 4 then 80 else if cores >= 2 then 60 else 40)
  {
    var base := if cores >= 8 then 100 else if cores >= 6 then 80 else if cores >= 4 then 60 else if cores >= 2 then 40 else 20;
    if npu then (if base + 20 < 100 then base + 20 else 100) else base
  }

  /** The tier for an overall score. */
  function Tier(overall: int): string
  {
    if overall >= 80 then "High" else if overall >= 60 then "Medium" else if overall >= 40 then "Low" else "Very Low"
  }

  /** _assess_capabilities */
  function AssessCapabilities(info: DeviceInfo): (c: Capabilities)
    ensures c.ramScore == RamAssessment(info.ramMb).0 && c.cpuScore == CpuScore(info.cpuCores, info.hasNpu)
    ensures c.overallScore == (c.ramScore + c.cpuScore) / 2 && 15 <= c.overallScore <= 100
    ensures c.canRunLocal <==> c.overallScore >= 40
    ensures c.overallScore >= 80 ==> c.performanceTier == "High"
    ensures 60 <= c.overallScore < 80 ==> c.performanceTier == "Medium"
    ensures 40 <= c.overallScore < 60 ==> c.performanceTier == "Low"
    ensures c.overallScore < 40 ==> c.performanceTier == "Very Low"
    ensures c.performanceTier == "Very Low" <==> !c.canRunLocal
    ensures c.npuAvailable == info.hasNpu
    ensures c.maxModelSize == RamAssessment(info.ramMb).1 && c.recommendedModelSize == RamAssessment(info.ramMb).2
  {
    var (ram, maxSize, recommended) := RamAssessment(info.ramMb);
    var cpu := CpuScore(info.cpuCores, info.hasNpu);
    var overall := (ram + cpu) / 2;
    Capabilities(overall >= 40, recommended, maxSize, info.hasNpu, cpu, ram, overall, Tier(overall))
  }

  const SshReason := "SSH to home network is always available for powerful models"
  const SlowWarning := "Local models may be slow on this device"
  const BatteryTip := "Local models use more battery - use SSH/API when not charging"

  /** The models offered for a recommended size. */
  function LocalModels(recommended: string): (r: seq<LocalModel>)
    ensures recommended in {"7B", "3B"} ==>
              r == [LocalModel("llama3.2:3b", "3B", "High", "Medium"), LocalModel("phi3:mini", "3.8B", "High", "Medium"),
                    LocalModel("llama3.2:1b", "1B", "Good", "Fast")]
    ensures recommended == "1B" ==> r == [LocalModel("llama3.2:1b", "1B", "Good", "Fast")]
    ensures recommended == "TinyLlama" ==> r == [LocalModel("tinyllama", "1.1B", "Basic", "Very Fast")]
    ensures recommended !in {"7B", "3B", "1B", "TinyLlama"} ==> r == []
  {
    var big := if recommended in {"7B", "3B"} then
      [LocalModel("llama3.2:3b", "3B", "High", "Medium"), LocalModel("phi3:mini", "3.8B", "High", "Medium")]
    else [];
    var small := if recommended in {"7B", "3B", "1B"} then big + [LocalModel("llama3.2:1b", "1B", "Good", "Fast")] else big;
    if recommended == "TinyLlama" then [LocalModel("tinyllama", "1.1B", "Basic", "Very Fast")] else small
  }

  const NpuTip := "NPU detected! Use Gemini Nano if available for best performance"
  const G5Tip := "Tensor G5 can handle larger models efficiently"
  const UpgradeTip := "Consider upgrading to 3B model - your chip can handle it"

  /** The tip naming a Tensor chip. */
  function SocTip(soc: string): string
  {
    soc + " detected - optimized for on-device AI"
  }

  /**
   * The tips about the NPU and the chip, in order: the NPU tip when there is
   * an NPU; then, on a Tensor chip, the chip tip; then, on a G5, its tip;
   * then, when the largest model is 1B, the upgrade tip.
   */
  function NpuTips(info: DeviceInfo, c: Capabilities): (r: seq<string>)
    ensures var npu := c.npuAvailable;
            var tensor := npu && Contains(info.soc, "Tensor");
            var g5 := tensor && Contains(info.soc, "G5");
            var upgrade := g5 && c.maxModelSize == "1B";
            && |r| == (if npu then 1 else 0) + (if tensor then 1 else 0) + (if g5 then 1 else 0) + (if upgrade then 1 else 0)
            && (npu ==> r[0] == NpuTip)
            && (tensor ==> r[1] == SocTip(info.soc))
            && (g5 ==> r[2] == G5Tip)
            && (upgrade ==> r[3] == UpgradeTip)
  {
    if !c.npuAvailable then []
    else
      [NpuTip]
      + if !Contains(info.soc, "Tensor") then []
        else
          [SocTip(info.soc)]
          + if !Contains(info.soc, "G5") then []
            else
              [G5Tip] + if c.maxModelSize == "1B" then [UpgradeTip] else []
  }

  /** The low-RAM warning, when there is one. */
  function LowRamWarning(ramMb: int): string
  {
    "Low RAM (" + IntToString(ramMb) + "MB) - local models may cause slowdowns"
  }

  /** The performance reason, by overall score. */
  function Reason(overall: int): string
  {
    if overall >= 70 then "Good device performance (score: " + IntToString(overall) + "/100)"
    else if overall >= 40 then "Medium performance - use local for simple tasks, API for complex"
    else "Low performance - API recommended for best experience"
  }

  /** The warnings: slow local models on a weak device, then low RAM, and nothing else. */
  function Warnings(ramMb: int, local: bool): (r: seq<string>)
    ensures LowRamWarning(ramMb) in r <==> ramMb < 4096
    ensures SlowWarning in r <==> !local
    ensures forall w :: w in r ==> w == SlowWarning || w == LowRamWarning(ramMb)
    ensures |r| == (if local then 0 else 1) + (if ramMb < 4096 then 1 else 0)
    ensures !local ==> r[0] == SlowWarning
  {
    assert LowRamWarning(ramMb) != SlowWarning by { assert LowRamWarning(ramMb)[2] != SlowWarning[2]; }
    (if local then [] else [SlowWarning]) + (if ramMb < 4096 then [LowRamWarning(ramMb)] else [])
  }

  /**
   * The tips: the chip tips, then the battery tip on Android. Each tip is
   * present exactly under its condition, and there are no others.
   */
  function Tips(info: DeviceInfo, c: Capabilities): (r: seq<string>)
    ensures BatteryTip in r <==> info.isAndroid
    ensures NpuTip in r <==> c.npuAvailable
    ensures SocTip(info.soc) in r <==> c.npuAvailable && Contains(info.soc, "Tensor")
    ensures G5Tip in r <==> c.npuAvailable && Contains(info.soc, "Tensor") && Contains(info.soc, "G5")
    ensures UpgradeTip in r <==> c.npuAvailable && Contains(info.soc, "Tensor") && Contains(info.soc, "G5") && c.maxModelSize == "1B"
    ensures forall t :: t in r ==> t in {NpuTip, SocTip(info.soc), G5Tip, UpgradeTip, BatteryTip}
    ensures |r| == |NpuTips(info, c)| + (if info.isAndroid then 1 else 0) && r[..|NpuTips(info, c)|] == NpuTips(info, c)
  {
    NpuTipsNoBattery(info, c);
    TipsApart(info.soc);
    var t := NpuTips(info, c);
    var r := t + if info.isAndroid then [BatteryTip] else [];
    assert r[..|t|] == t;
    r
  }

  /** The five tips differ from each other: each ends in its own letter. */
  lemma TipsApart(soc: string)
    ensures |{NpuTip, SocTip(soc), G5Tip, UpgradeTip, BatteryTip}| == 5
  {
    var s := SocTip(soc);
    assert s[|s| - 1] == 'I';
    assert NpuTip[|NpuTip| - 1] == 'e' && G5Tip[|G5Tip| - 1] == 'y';
    assert UpgradeTip[|UpgradeTip| - 1] == 't' && BatteryTip[|BatteryTip| - 1] == 'g';
  }

  /** _generate_recommendations */
  function GenerateRecommendations(info: DeviceInfo, c: Capabilities): (r: Recommendations)
    ensures r.primaryMode == (if c.overallScore >= 70 then "Local" else if c.overallScore >= 40 then "Hybrid" else "API")
    ensures r.canUseLocal <==> c.overallScore >= 40
    ensures r.canUseSsh && r.canUseApi
    ensures r.localModels == if r.canUseLocal then LocalModels(c.recommendedModelSize) else []
    ensures r.reasons == [Reason(c.overallScore), SshReason]
    ensures r.warnings == Warnings(info.ramMb, r.canUseLocal)
    ensures r.tips == Tips(info, c)
  {
    var local := c.overallScore >= 40;
    var mode := if c.overallScore >= 70 then "Local" else if local then "Hybrid" else "API";
    Recommendations(mode, local, true, true, if local then LocalModels(c.recommendedModelSize) else [],
                    [Reason(c.overallScore), SshReason], Warnings(info.ramMb, local), Tips(info, c))
  }

  /** The battery tip is never one of the chip tips: they all end in another letter. */
  lemma NpuTipsNoBattery(info: DeviceInfo, c: Capabilities)
    ensures BatteryTip !in NpuTips(info, c)
  {
    var t := NpuTips(info, c);
    assert BatteryTip[|BatteryTip| - 1] == 'g';
    forall i | 0 <= i < |t|
      ensures t[i] != [] && t[i][|t[i]| - 1] != 'g'
    {
      var soc := info.soc + " detected - optimized for on-device AI";
      assert soc[|soc| - 1] == 'I';
    }
  }

  /** The capability and recommendation views agree on whether a local model can run. */
  lemma LocalAgrees(info: DeviceInfo)
    ensures AssessCapabilities(info).canRunLocal == GenerateRecommendations(info, AssessCapabilities(info)).canUseLocal
  {
  }

  /**
   * A device with little RAM but many cores is recommended the hybrid mode
   * and yet offered no local model: its recommended size is API-only.
   */
  lemma HybridWithoutModels()
    ensures var info := DeviceInfo(false, "Unknown", 1024, false, 8);
            var c := AssessCapabilities(info);
            var r := GenerateRecommendations(info, c);
            r.primaryMode == "Hybrid" && r.canUseLocal && r.localModels == []
  {
    var info := DeviceInfo(false, "Unknown", 1024, false, 8);
    assert AssessCapabilities(info).overallScore == 55;
  }
}

=== FILE: easter_egg.dfy ===
// EasterEgg: the first-preset easter egg.  A counter of created presets and two
// flags live in the store; the egg is offered when the first preset is saved
// and it has not been shown before.
module EasterEgg {
  import opened Wrappers
  import opened Json
  import opened Storage

  const ShownKey := "theme_easter_egg_shown"
  const UnlockedKey := "theme_matching_unlocked"
  const CountKey := "presets_created_count"
  const LastKey := "last_created_preset"

  /** The features get_easter_egg_stats reports on, in order. */
  const Features: seq<string> := ["theme_matching", "preset_sync", "auto_backup"]

  /** The key recording that a hidden feature is unlocked. */
  function FeatureKey(feature: string): string
  {
    "feature_unlocked_" + feature
  }

  /** `value + 1` for a stored count: numbers and booleans add, anything else is TypeError. */
  function Successor(v: Value): (r: Result<int>)
    ensures v.Num? ==> r == Ok(v.n + 1)
    ensures r.Ok? <==> v.Num? || v.Bool?
  {
    match v
    case Num(n) => Ok(n + 1)
    case Bool(b) => Ok(if b then 2 else 1)
    case _ => Err(TypeError("unsupported operand type(s) for +"))
  }

  /** `a` is `b` with some elements left out, order kept. */
  predicate Subsequence(a: seq<string>, b: seq<string>)
  {
    if a == [] then true
    else if b == [] then false
    else (a[0] == b[0] && Subsequence(a[1..], b[1..])) || Subsequence(a, b[1..])
  }

  /** The statistics get_easter_egg_stats reports; the stored values are returned as they are. */
  datatype Stats = Stats(presetsCreated: Value, themeMatchingDiscovered: Value, lastPreset: Value, unlockedFeatures: seq<string>)

  class EasterEggManager {
    const storage: Store

    constructor (storage0: Store)
      ensures storage == storage0
    {
      storage := storage0;
    }

    /** check_theme_matching_trigger: the egg has not been shown. */
    predicate CheckThemeMatchingTrigger()
      reads storage
    {
      !Truthy(storage.Get(ShownKey, Bool(false)))
    }

    /** activate_theme_matching */
    method ActivateThemeMatching()
      modifies storage
      ensures storage.data == old(storage.data)[ShownKey := Bool(true)][UnlockedKey := Bool(true)]
      ensures Truthy(IsThemeMatchingUnlocked()) && !CheckThemeMatchingTrigger()
    {
      storage.Set(ShownKey, Bool(true));
      storage.Set(UnlockedKey, Bool(true));
    }

    /** is_theme_matching_unlocked */
    function IsThemeMatchingUnlocked(): Value
      reads storage
    {
      storage.Get(UnlockedKey, Bool(false))
    }

    /** get_presets_created_count */
    function PresetsCreatedCount(): Value
      reads storage
    {
      storage.Get(CountKey, Num(0))
    }

    /** increment_presets_created: stores and returns the count plus one. */
    method IncrementPresetsCreated() returns (r: Result<int>)
      modifies storage
      ensures r == old(Successor(PresetsCreatedCount()))
      ensures r.Ok? ==> storage.data == old(storage.data)[CountKey := Num(r.value)] && PresetsCreatedCount() == Num(r.value)
      ensures r.Err? ==> storage.data == old(storage.data)
    {
      r := Successor(PresetsCreatedCount());
      if r.Ok? {
        storage.Set(CountKey, Num(r.value));
      }
    }

    /** get_last_created_preset */
    function LastCreatedPreset(): Value
      reads storage
    {
      storage.Get(LastKey, Str(""))
    }

    /** set_last_created_preset */
    method SetLastCreatedPreset(name: string)
      modifies storage
      ensures storage.data == old(storage.data)[LastKey := Str(name)]
    {
      storage.Set(LastKey, Str(name));
    }

    /**
     * check_and_trigger_easter_egg: counts the preset, records its name, and
     * reports whether this was the first preset and the egg was not shown.
     */
    method CheckAndTriggerEasterEgg(name: string) returns (r: Result<bool>)
      modifies storage
      ensures var next := old(Successor(PresetsCreatedCount()));
        next.Err? ==> r == Err(next.error) && storage.data == old(storage.data)
      ensures var next := old(Successor(PresetsCreatedCount()));
        next.Ok? ==> (r == Ok(next.value == 1 && old(CheckThemeMatchingTrigger()))
          && storage.data == old(storage.data)[CountKey := Num(next.value)][LastKey := Str(name)])
      ensures r == Ok(true) ==> PresetsCreatedCount() == Num(1) && CheckThemeMatchingTrigger()
      ensures old(PresetsCreatedCount()).Num? && old(PresetsCreatedCount()).n >= 1 ==> r != Ok(true)
    {
      var count :- IncrementPresetsCreated();
      SetLastCreatedPreset(name);
      return Ok(count == 1 && CheckThemeMatchingTrigger());
    }

    /**
     * Saves a series of presets, counting how often the egg is offered: at
     * most once, since after it fires the counter stays above one.
     */
    method TriggerSeries(names: seq<string>) returns (fired: nat)
      modifies storage
      ensures fired <= 1
    {
      fired := 0;
      for i := 0 to |names|
        invariant fired <= 1
        invariant fired == 1 ==> PresetsCreatedCount().Num? && PresetsCreatedCount().n >= 1
      {
        var r := CheckAndTriggerEasterEgg(names[i]);
        if r == Ok(true) {
          fired := fired + 1;
        }
      }
    }

    /** unlock_hidden_feature */
    method UnlockHiddenFeature(feature: string)
      modifies storage
      ensures storage.data == old(storage.data)[FeatureKey(feature) := Bool(true)]
      ensures IsFeatureUnlocked(feature)
    {
      storage.Set(FeatureKey(feature), Bool(true));
    }

    /** is_feature_unlocked */
    predicate IsFeatureUnlocked(feature: string)
      reads storage
    {
      Truthy(storage.Get(FeatureKey(feature), Bool(false)))
    }

    /** The unlocked features among fs, in order. */
    function UnlockedAmong(fs: seq<string>): (r: seq<string>)
      reads storage
      ensures forall f :: f in r <==> f in fs && IsFeatureUnlocked(f)
      ensures Subsequence(r, fs)
    {
      if fs == [] then []
      else if IsFeatureUnlocked(fs[0]) then [fs[0]] + UnlockedAmong(fs[1..])
      else UnlockedAmong(fs[1..])
    }

    /** get_easter_egg_stats */
    function EasterEggStats(): (r: Stats)
      reads storage
      ensures r.presetsCreated == PresetsCreatedCount() && r.lastPreset == LastCreatedPreset()
      ensures Subsequence(r.unlockedFeatures, Features)
      ensures forall f :: f in r.unlockedFeatures <==> f in Features && IsFeatureUnlocked(f)
    {
      Stats(PresetsCreatedCount(), IsThemeMatchingUnlocked(), LastCreatedPreset(), UnlockedAmong(Features))
    }

    /** reset_easter_eggs: the counter is zero, both flags are off and the last preset is ''. */
    method ResetEasterEggs()
      modifies storage
      ensures storage.data == old(storage.data)[ShownKey := Bool(false)][UnlockedKey := Bool(false)][CountKey := Num(0)][LastKey := Str("")]
      ensures CheckThemeMatchingTrigger() && !Truthy(IsThemeMatchingUnlocked())
      ensures PresetsCreatedCount() == Num(0) && LastCreatedPreset() == Str("")
    {
      storage.Set(ShownKey, Bool(false));
      storage.Set(UnlockedKey, Bool(false));
      storage.Set(CountKey, Num(0));
      storage.Set(LastKey, Str(""));
    }
  }

}

=== FILE: files.dfy ===
// The file system as the core sees it: paths mapped to contents, plus a set of
// directories.  A ZIP archive is its sequence of members; JSON and XML
// payloads are kept as the documents they encode.
module Files {
  import opened Wrappers
  import opened Text
  import opened Json
  import XmlTree
  import opened Paths

  /** A payload: a JSON document, an XML document, or other bytes. */
  datatype Blob = JsonText(doc: Value) | XmlText(root: XmlTree.Element) | Data(bytes: seq<int>)

  datatype Member = Member(name: string, blob: Blob)

  datatype Content = Archive(members: seq<Member>) | Plain(blob: Blob)

  /** ZipFile.namelist() */
  function Names(ms: seq<Member>): (r: seq<string>)
    ensures |r| == |ms| && forall i {:trigger r[i]} :: 0 <= i < |ms| ==> r[i] == ms[i].name
  {
    if ms == [] then [] else [ms[0].name] + Names(ms[1..])
  }

  /** ZipFile.read(name): the last member stored under the name. */
  function MemberBlob(ms: seq<Member>, name: string): (b: Blob)
    requires name in Names(ms)
    ensures exists i :: 0 <= i < |ms| && ms[i].name == name && ms[i].blob == b
  {
    if ms[|ms| - 1].name == name then ms[|ms| - 1].blob
    else
      assert name in Names(ms[..|ms| - 1]) by {
        var i :| 0 <= i < |ms| && Names(ms)[i] == name;
        assert Names(ms[..|ms| - 1])[i] == name;
      }
      MemberBlob(ms[..|ms| - 1], name)
  }

  /** No two members share a name. */
  predicate DistinctNames(ms: seq<Member>)
  {
    forall i, j :: 0 <= i < j < |ms| ==> ms[i].name != ms[j].name
  }

  /** Reading a name gives the bytes of its last member. */
  lemma {:induction false} MemberBlobLast(ms: seq<Member>, i: int)
    requires 0 <= i < |ms| && forall j :: i < j < |ms| ==> ms[j].name != ms[i].name
    ensures ms[i].name in Names(ms) && MemberBlob(ms, ms[i].name) == ms[i].blob
  {
    assert Names(ms)[i] == ms[i].name;
    if i < |ms| - 1 {
      var ms' := ms[..|ms| - 1];
      assert ms'[i] == ms[i];
      MemberBlobLast(ms', i);
    }
  }

  /** With distinct names, reading a member gives exactly that member's bytes. */
  lemma MemberBlobDistinct(ms: seq<Member>, i: int)
    requires DistinctNames(ms) && 0 <= i < |ms|
    ensures ms[i].name in Names(ms) && MemberBlob(ms, ms[i].name) == ms[i].blob
  {
    MemberBlobLast(ms, i);
  }

  // ----- rewriting an archive: a new first member, then the old members kept -----

  /** The members whose names `drop` does not select, in archive order. */
  function Kept(ms: seq<Member>, drop: string -> bool): (r: seq<Member>)
    ensures forall x :: x in r ==> x in ms && !drop(x.name)
  {
    if ms == [] then []
    else Kept(ms[..|ms| - 1], drop) + (if !drop(ms[|ms| - 1].name) then [ms[|ms| - 1]] else [])
  }

  /** Every member that `drop` does not select is kept. */
  lemma {:induction false} KeptComplete(ms: seq<Member>, drop: string -> bool)
    ensures forall x :: x in ms && !drop(x.name) ==> x in Kept(ms, drop)
  {
    if ms != [] {
      var init := ms[..|ms| - 1];
      KeptComplete(init, drop);
      assert ms == init + [ms[|ms| - 1]];
    }
  }

  /** Every member's name is listed. */
  lemma InNames(ms: seq<Member>, x: Member)
    requires x in ms
    ensures x.name in Names(ms)
  {
    var j :| 0 <= j < |ms| && ms[j] == x;
    assert Names(ms)[j] == x.name;
  }

  /** Each member written again under its name with the bytes the archive yields for that name. */
  function Reread(all: seq<Member>, xs: seq<Member>): (r: seq<Member>)
    requires forall x :: x in xs ==> x in all
    ensures |r| == |xs|
    ensures forall i :: 0 <= i < |xs| ==> xs[i].name in Names(all) && r[i] == Member(xs[i].name, MemberBlob(all, xs[i].name))
  {
    if xs == [] then []
    else
      var x := xs[|xs| - 1];
      InNames(all, x);
      Reread(all, xs[..|xs| - 1]) + [Member(x.name, MemberBlob(all, x.name))]
  }

  lemma KeptSnoc(ms: seq<Member>, drop: string -> bool, i: int)
    requires 0 <= i < |ms|
    ensures Kept(ms[..i + 1], drop) == Kept(ms[..i], drop) + (if !drop(ms[i].name) then [ms[i]] else [])
  {
    assert ms[..i + 1][..i] == ms[..i];
  }

  lemma RereadSnoc(all: seq<Member>, xs: seq<Member>, x: Member)
    requires forall y :: y in xs ==> y in all
    requires x in all
    ensures x.name in Names(all)
    ensures Reread(all, xs + [x]) == Reread(all, xs) + [Member(x.name, MemberBlob(all, x.name))]
  {
    InNames(all, x);
    assert (xs + [x])[..|xs|] == xs;
  }

  /** The copy loop over the old archive's names: every name `drop` does not select, re-read. */
  method CarryOver(ms: seq<Member>, drop: string -> bool) returns (out: seq<Member>)
    ensures out == Reread(ms, Kept(ms, drop))
  {
    out := [];
    for i := 0 to |ms|
      invariant forall x :: x in Kept(ms[..i], drop) ==> x in ms
      invariant out == Reread(ms, Kept(ms[..i], drop))
    {
      KeptSnoc(ms, drop, i);
      assert ms[..i + 1][i] == ms[i];
      if !drop(ms[i].name) {
        RereadSnoc(ms, Kept(ms[..i], drop), ms[i]);
        out := out + [Member(ms[i].name, MemberBlob(ms, ms[i].name))];
      }
    }
    assert ms[..|ms|] == ms;
  }

  /** With distinct names, the carried-over members are the originals, byte for byte and in order. */
  lemma CarryOverDistinct(ms: seq<Member>, drop: string -> bool)
    requires DistinctNames(ms)
    ensures Reread(ms, Kept(ms, drop)) == Kept(ms, drop)
  {
    var ks := Kept(ms, drop);
    var r := Reread(ms, ks);
    forall k | 0 <= k < |ks|
      ensures r[k] == ks[k]
    {
      MemberBlobOf(ms, ks[k]);
    }
  }

  lemma MemberBlobOf(ms: seq<Member>, x: Member)
    requires DistinctNames(ms) && x in ms
    ensures x.name in Names(ms) && MemberBlob(ms, x.name) == x.blob
  {
    var j :| 0 <= j < |ms| && ms[j] == x;
    MemberBlobDistinct(ms, j);
  }

  /** The rewritten archive: `head`, then the old archive's kept members re-read (none when there was no old archive). */
  function Rewritten(head: Member, drop: string -> bool, prior: Option<seq<Member>>): seq<Member>
  {
    [head] + (if prior.Some? then Reread(prior.value, Kept(prior.value, drop)) else [])
  }

  /** When `drop` selects the new member's name, reading that name back gives the new member's bytes. */
  lemma RewrittenReadsHead(head: Member, drop: string -> bool, prior: Option<seq<Member>>)
    requires drop(head.name)
    ensures head.name in Names(Rewritten(head, drop, prior))
    ensures MemberBlob(Rewritten(head, drop, prior), head.name) == head.blob
  {
    var out := Rewritten(head, drop, prior);
    forall j | 0 < j < |out|
      ensures out[j].name != out[0].name
    {
      if prior.Some? {
        var ks := Kept(prior.value, drop);
        assert ks[j - 1] in ks;
      }
    }
    MemberBlobLast(out, 0);
  }

  /** Information about one file, as the listings report it. */
  datatype FileInfo = FileInfo(name: string, filename: string, path: string, kind: string)

  function LowerName(i: FileInfo): string { Lower(i.name) }

  /** json.load */
  function ParseJson(b: Blob): Result<Value>
  {
    if b.JsonText? then Ok(b.doc) else Err(JsonDecode("not a JSON document"))
  }

  /** ElementTree.parse(...).getroot() */
  function ParseXml(b: Blob): Result<XmlTree.Element>
  {
    if b.XmlText? then Ok(b.root) else Err(XmlParse("not an XML document"))
  }

  /** Paths directly inside `dir` whose name ends with `suffix` (what dir.glob('*' + suffix) yields). */
  predicate InGlob(p: string, dir: string, suffix: string)
  {
    StartsWith(p, dir + "/") && '/' !in p[|dir| + 1..] && EndsWith(p[|dir| + 1..], suffix)
  }

  /** Whether open(p, 'w') succeeds: p is an existing file, or a new name in an existing directory. */
  predicate Writable(files: map<string, Content>, dirs: set<string>, p: string)
  {
    p in files || (p !in dirs && (ParentDir(p) == "" || ParentDir(p) in dirs))
  }

  /** The error open(p, 'w') raises when p is not writable. */
  function WriteError(files: map<string, Content>, dirs: set<string>, p: string): Error
  {
    if p in dirs then IsADirectory(p)
    else if ParentDir(p) in files then NotADirectory(p)
    else FileNotFound(p)
  }

  /** Where shutil.copy2(src, dst) puts the copy: inside dst under the source's name when dst is a directory, else dst. */
  function CopyTarget(dirs: set<string>, src: string, dst: string): string
  {
    if dst in dirs then Child(dst, BaseName(src)) else dst
  }

  /**
   * The error shutil.copy2(src, dst) raises, if any: the same file as
   * source and target, then a source that cannot be read, then a target
   * that cannot be written.
   */
  function CopyFailure(files: map<string, Content>, dirs: set<string>, src: string, dst: string): (f: Option<Error>)
    ensures f.None? <==> src in files && CopyTarget(dirs, src, dst) != src && Writable(files, dirs, CopyTarget(dirs, src, dst))
    ensures src !in files ==> f == Some(if src in dirs then IsADirectory(src) else FileNotFound(src))
  {
    var target := CopyTarget(dirs, src, dst);
    if src in files && target == src then Some(SameFile(src))
    else if src !in files then Some(if src in dirs then IsADirectory(src) else FileNotFound(src))
    else if !Writable(files, dirs, target) then Some(WriteError(files, dirs, target))
    else None
  }

  /** A copy onto a directory lands inside it, under the source's name. */
  lemma CopyIntoDirectory(dirs: set<string>, src: string, dst: string)
    requires dst in dirs && dst != ""
    ensures ParentDir(CopyTarget(dirs, src, dst)) == dst
    ensures BaseName(CopyTarget(dirs, src, dst)) == BaseName(src)
  {
    BaseNameChild(dst, BaseName(src));
    ParentDirChild(dst, BaseName(src));
  }

  /** A glob match lies directly inside its directory, so it matches no other directory. */
  lemma InGlobParent(p: string, dir: string, suffix: string)
    requires InGlob(p, dir, suffix)
    ensures ParentDir(p) == dir
  {
    var name := p[|dir| + 1..];
    assert p == Child(dir, name);
    ParentDirChild(dir, name);
  }

  class FileSystem {
    var files: map<string, Content>
    var dirs: set<string>

    constructor (files0: map<string, Content>, dirs0: set<string>)
      ensures files == files0 && dirs == dirs0
    {
      files := files0;
      dirs := dirs0;
    }

    /** Path.exists() */
    predicate Exists(p: string)
      reads this
    {
      p in files || p in dirs
    }

    /** ZipFile(p, 'r') followed by reading its member list. */
    function ArchiveAt(p: string): (r: Result<seq<Member>>)
      reads this
      ensures r.Ok? <==> p in files && files[p].Archive?
    {
      if p in files then
        (if files[p].Archive? then Ok(files[p].members) else Err(BadZip(p)))
      else if p in dirs then Err(IsADirectory(p))
      else Err(FileNotFound(p))
    }

    /** Reading a plain file. */
    function PlainAt(p: string): (r: Result<Blob>)
      reads this
      ensures r.Ok? <==> p in files && files[p].Plain?
    {
      if p in files then
        (if files[p].Plain? then Ok(files[p].blob) else Err(XmlParse(p)))
      else if p in dirs then Err(IsADirectory(p))
      else Err(FileNotFound(p))
    }

    /** open(p, 'w') followed by writing the content: Writable decides whether it succeeds. */
    method Write(p: string, c: Content) returns (r: Result<()>)
      modifies this
      ensures dirs == old(dirs)
      ensures r.Ok? <==> Writable(old(files), old(dirs), p)
      ensures r.Ok? ==> files == old(files)[p := c]
      ensures r.Err? ==> files == old(files) && r.error == WriteError(old(files), old(dirs), p)
    {
      if !Writable(files, dirs, p) {
        return Err(WriteError(files, dirs, p));
      }
      files := files[p := c];
      return Ok(());
    }

    /** shutil.copy2(src, dst): CopyFailure decides whether it fails, CopyTarget where the copy goes. */
    method Copy(src: string, dst: string) returns (r: Result<()>)
      modifies this
      ensures dirs == old(dirs)
      ensures r.Err? <==> CopyFailure(old(files), old(dirs), src, dst).Some?
      ensures r.Err? ==> files == old(files) && r.error == CopyFailure(old(files), old(dirs), src, dst).value
      ensures r.Ok? ==> src in old(files) && files == old(files)[CopyTarget(old(dirs), src, dst) := old(files)[src]]
    {
      var failure := CopyFailure(files, dirs, src, dst);
      if failure.Some? {
        return Err(failure.value);
      }
      files := files[CopyTarget(dirs, src, dst) := files[src]];
      return Ok(());
    }

    /** Path.replace(dst): the source's content moves to dst. */
    method Replace(src: string, dst: string)
      requires src in files
      modifies this
      ensures files == (if src == dst then old(files) else (old(files) - {src})[dst := old(files)[src]])
      ensures dirs == old(dirs)
    {
      if src != dst {
        files := (files - {src})[dst := files[src]];
      }
    }

    /** Path.unlink() when the file exists. */
    method Remove(p: string)
      modifies this
      ensures files == old(files) - {p} && dirs == old(dirs)
    {
      files := files - {p};
    }

    /** The error `if enabled and src.exists(): shutil.copy2(src, dst)` raises, if any. */
    function BackupFailure(src: string, dst: string, enabled: bool): (f: Option<Error>)
      reads this
      ensures f.Some? ==> enabled && Exists(src)
    {
      if enabled && Exists(src) then CopyFailure(files, dirs, src, dst) else None
    }

    /** The files after a successful backup: src's content at the copy's target, when enabled and src exists. */
    function BackedUp(src: string, dst: string, enabled: bool): map<string, Content>
      reads this
    {
      if enabled && src in files then files[CopyTarget(dirs, src, dst) := files[src]] else files
    }

    /** `if enabled and src.exists(): shutil.copy2(src, dst)` */
    method Backup(src: string, dst: string, enabled: bool) returns (r: Result<()>)
      modifies this
      ensures dirs == old(dirs)
      ensures r.Err? <==> old(BackupFailure(src, dst, enabled)).Some?
      ensures r.Ok? ==> files == old(BackedUp(src, dst, enabled))
      ensures r.Err? ==> files == old(files) && r.error == old(BackupFailure(src, dst, enabled)).value
    {
      r := Ok(());
      if enabled && Exists(src) {
        r := Copy(src, dst);
      }
    }

    /** The old archive's members when the file exists; opening it may fail. */
    function OldMembers(p: string): Result<Option<seq<Member>>>
      reads this
    {
      if !Exists(p) then Ok(None)
      else
        var ms :- ArchiveAt(p);
        Ok(Some(ms))
    }

    /**
     * The members of the rewritten archive: `head`, then the old archive's
     * kept members; only `head` when opening the old archive fails.
     */
    method BuildArchive(p: string, head: Member, drop: string -> bool) returns (out: seq<Member>, failure: Option<Error>)
      ensures failure.Some? <==> OldMembers(p).Err?
      ensures failure.Some? ==> failure.value == OldMembers(p).error && out == Rewritten(head, drop, None)
      ensures failure.None? ==> out == Rewritten(head, drop, OldMembers(p).value)
    {
      out := [head];
      failure := None;
      if Exists(p) {
        var prior := ArchiveAt(p);
        if prior.Err? {
          failure := Some(prior.error);
        } else {
          var carried := CarryOver(prior.value, drop);
          out := out + carried;
        }
      }
    }

    /**
     * Writing the rewritten archive to `temp` and moving it over `p`.  A
     * `temp` that cannot be opened for writing fails first, with nothing
     * written.  When the old archive cannot be opened the error escapes
     * after `temp` was written with `head` alone, and `p` is left as it was.
     */
    method RewriteArchive(p: string, temp: string, head: Member, drop: string -> bool) returns (r: Result<()>)
      modifies this
      ensures dirs == old(dirs)
      ensures r.Err? <==> !Writable(old(files), old(dirs), temp) || old(OldMembers(p)).Err?
      ensures !Writable(old(files), old(dirs), temp) ==> r == Err(WriteError(old(files), old(dirs), temp)) && files == old(files)
      ensures r.Ok? ==> files == (old(files) - {temp})[p := Archive(Rewritten(head, drop, old(OldMembers(p)).value))]
      ensures Writable(old(files), old(dirs), temp) && r.Err? ==>
        r.error == old(OldMembers(p)).error && files == old(files)[temp := Archive([head])]
    {
      if !Writable(files, dirs, temp) {
        return Err(WriteError(files, dirs, temp));
      }
      var out, failure := BuildArchive(p, head, drop);
      files := files[temp := Archive(out)];
      if failure.Some? {
        assert out == [head];
        return Err(failure.value);
      }
      Replace(temp, p);
      return Ok(());
    }

    /**
     * dir.glob('*' + suffix): every matching file exactly once, in an order
     * the file system chooses.
     */
    method Glob(dir: string, suffix: string) returns (ps: seq<string>)
      ensures forall p :: p in ps <==> p in files && InGlob(p, dir, suffix)
      ensures forall i, j :: 0 <= i < j < |ps| ==> ps[i] != ps[j]
    {
      var remaining := set p | p in files && InGlob(p, dir, suffix);
      ps := [];
      while remaining != {}
        invariant forall p :: p in ps || p in remaining <==> p in files && InGlob(p, dir, suffix)
        invariant forall p :: p in ps ==> p !in remaining
        invariant forall i, j :: 0 <= i < j < |ps| ==> ps[i] != ps[j]
        decreases remaining
      {
        var p :| p in remaining;
        ps := ps + [p];
        remaining := remaining - {p};
      }
    }
  }
}

=== FILE: json.dfy ===
// JSON documents as the Python values json.load produces: objects keep their
// key order, which drives every traversal in the core.  Numbers are integers.
module Json {
  import opened Wrappers
  import opened Text
  import opened OrderedMap

  datatype Value =
    | Null
    | Bool(b: bool)
    | Num(n: int)
    | Str(s: string)
    | Arr(items: seq<Value>)
    | Obj(fields: Dict<Value>)

  /** Python truthiness (`if v:` / `a or b`). */
  predicate Truthy(v: Value)
  {
    match v
    case Null => false
    case Bool(b) => b
    case Num(n) => n != 0
    case Str(s) => s != ""
    case Arr(xs) => xs != []
    case Obj(fs) => fs != []
  }

  /** `k in v` for a dict value. */
  predicate Has(v: Value, k: string)
  {
    v.Obj? && HasKey(v.fields, k)
  }

  /** v.get(k): None (Null) when absent. */
  function Field(v: Value, k: string): Value
  {
    if v.Obj? then GetOr(v.fields, k, Null) else Null
  }

  /** v.get(k, default) */
  function FieldOr(v: Value, k: string, default: Value): Value
  {
    if v.Obj? then GetOr(v.fields, k, default) else default
  }

  /** `a or b` */
  function Or(a: Value, b: Value): Value
  {
    if Truthy(a) then a else b
  }

  /** Every object, at every depth, has distinct keys (json.load guarantees this). */
  predicate WellFormed(v: Value)
  {
    match v
    case Arr(xs) => forall i :: 0 <= i < |xs| ==> WellFormed(xs[i])
    case Obj(fs) => UniqueKeys(fs) && forall i :: 0 <= i < |fs| ==> WellFormed(fs[i].val)
    case _ => true
  }

  /** Values usable as set members or dict keys (hashable). */
  predicate Hashable(v: Value)
  {
    !v.Arr? && !v.Obj?
  }

  /** repr() of a value. String escaping is not modelled. */
  function Repr(v: Value): string
  {
    match v
    case Str(s) => "'" + s + "'"
    case Arr(xs) => "[" + ReprItems(xs) + "]"
    case Obj(fs) => "{" + ReprFields(fs) + "}"
    case Null => "None"
    case Bool(b) => if b then "True" else "False"
    case Num(n) => IntToString(n)
  }

  function ReprItems(xs: seq<Value>): string
  {
    if xs == [] then ""
    else if |xs| == 1 then Repr(xs[0])
    else Repr(xs[0]) + ", " + ReprItems(xs[1..])
  }

  function ReprFields(fs: Dict<Value>): string
  {
    if fs == [] then ""
    else
      var head := "'" + fs[0].key + "': " + Repr(fs[0].val);
      if |fs| == 1 then head else head + ", " + ReprFields(fs[1..])
  }

  /** str() of a value. */
  function Show(v: Value): string
  {
    match v
    case Str(s) => s
    case _ => Repr(v)
  }

  /** Python's json.dumps/str of a string is the string itself. */
  function Strs(xs: seq<string>): (r: seq<Value>)
    ensures |r| == |xs| && forall i :: 0 <= i < |xs| ==> r[i] == Str(xs[i])
  {
    if xs == [] then [] else [Str(xs[0])] + Strs(xs[1..])
  }
}

=== FILE: json_tree.dfy ===
// The element walk shared by the KLWP adapter and the Kustom plugin.  Both
// descend from a dict only into the values of the container keys (items,
// layers, children, modules) and into every list item, and both emit a
// descriptor for each element dict before the descriptors of its descendants.
// They differ in what makes a dict an element and in how its id is read; the
// `Dialect` selects between the two.
module JsonTree {
  import opened Wrappers
  import opened Text
  import opened OrderedMap
  import opened Json
  import Seqs

  datatype Dialect =
    | Klwp     // klwp_mcp_server/klwp_handler.py
    | Kustom   // app/plugins/kustom_plugin.py

  const ContainerKeys: seq<string> := ["items", "layers", "children", "modules"]

  predicate IsContainerKey(k: string)
  {
    k in ContainerKeys
  }

  /** Klwp: a dict with `type` or `internal_type`; Kustom: a dict with `type`. */
  predicate IsElement(d: Dialect, v: Value)
  {
    v.Obj? && (Has(v, "type") || (d == Klwp && Has(v, "internal_type")))
  }

  /** Klwp: `get('type') or get('internal_type')`; Kustom: `get('type')`. */
  function ElementType(d: Dialect, v: Value): Value
  {
    if d == Klwp then Or(Field(v, "type"), Field(v, "internal_type")) else Field(v, "type")
  }

  /** Klwp: `get('id', get('internal_id', 'unknown'))`; Kustom: `get('id', 'element_0')`. */
  function ElementId(d: Dialect, v: Value): Value
  {
    if d == Klwp then FieldOr(v, "id", FieldOr(v, "internal_id", Str("unknown")))
    else FieldOr(v, "id", Str("element_0"))
  }

  /** The properties a descriptor copies when the element has them. */
  function ExtraKeys(d: Dialect): seq<string>
  {
    if d == Klwp then ["text", "position", "title"] else ["text", "position", "color", "font"]
  }

  function Extras(v: Value, keys: seq<string>): Dict<Value>
  {
    if keys == [] then []
    else (if Has(v, keys[0]) then [Entry(keys[0], Field(v, keys[0]))] else []) + Extras(v, keys[1..])
  }

  /** A descriptor holds exactly those of the listed properties the element has, with the element's values. */
  lemma {:induction false} ExtrasGet(v: Value, keys: seq<string>, k: string)
    requires k in keys
    ensures Get(Extras(v, keys), k) == (if Has(v, k) then Some(Field(v, k)) else None)
  {
    var rest := Extras(v, keys[1..]);
    if k != keys[0] {
      ExtrasGet(v, keys[1..], k);
    } else if k in keys[1..] {
      ExtrasGet(v, keys[1..], k);
    } else {
      ExtrasKeys(v, keys[1..]);
      assert !HasKey(rest, k);
    }
    if Has(v, keys[0]) {
      assert Extras(v, keys) == [Entry(keys[0], Field(v, keys[0]))] + rest;
    } else {
      assert Extras(v, keys) == rest;
    }
  }

  lemma {:induction false} ExtrasKeys(v: Value, keys: seq<string>)
    ensures forall k :: HasKey(Extras(v, keys), k) ==> k in keys
  {
    if keys != [] {
      ExtrasKeys(v, keys[1..]);
      var rest := Extras(v, keys[1..]);
      var r := Extras(v, keys);
      if Has(v, keys[0]) {
        assert r == [Entry(keys[0], Field(v, keys[0]))] + rest;
        assert Keys(r) == [keys[0]] + Keys(rest);
      } else {
        assert r == rest;
      }
      forall k | HasKey(r, k) ensures k in keys {
        if k != keys[0] {
          assert HasKey(rest, k);
        }
      }
    }
  }

  /** A loaded document and whether it has been edited since it was read or saved. */
  datatype CacheEntry = CacheEntry(data: Value, modified: bool)

  /** An element descriptor: id, type, path, the element itself and the copied properties. */
  datatype Descriptor = Descriptor(id: Value, kind: Value, path: string, data: Value, extras: Dict<Value>)

  function Describe(d: Dialect, v: Value, path: string): Descriptor
  {
    Descriptor(ElementId(d, v), ElementType(d, v), path, v, Extras(v, ExtraKeys(d)))
  }

  /** The element itself is emitted: it is an element and passes the type filter. */
  predicate Emitted(d: Dialect, v: Value, filter: Option<string>)
  {
    IsElement(d, v) && (filter.None? || ElementType(d, v) == Str(filter.value))
  }

  /** Path of a container value below `path`. */
  function KeyPath(path: string, key: string): string
  {
    if path == "" then key else path + "/" + key
  }

  /** Path of a list item below `path`. */
  function IndexPath(path: string, i: nat): string
  {
    path + "[" + NatToString(i) + "]"
  }

  /** _find_elements_recursive */
  function Walk(d: Dialect, v: Value, filter: Option<string>, path: string): seq<Descriptor>
  {
    match v
    case Obj(fs) =>
      (if Emitted(d, v, filter) then [Describe(d, v, path)] else []) + WalkFields(d, fs, filter, path)
    case Arr(xs) => WalkItems(d, xs, 0, filter, path)
    case _ => []
  }

  function WalkFields(d: Dialect, fs: Dict<Value>, filter: Option<string>, path: string): seq<Descriptor>
  {
    if fs == [] then []
    else
      (if IsContainerKey(fs[0].key) then Walk(d, fs[0].val, filter, KeyPath(path, fs[0].key)) else [])
      + WalkFields(d, fs[1..], filter, path)
  }

  function WalkItems(d: Dialect, xs: seq<Value>, i: nat, filter: Option<string>, path: string): seq<Descriptor>
  {
    if xs == [] then []
    else Walk(d, xs[0], filter, IndexPath(path, i)) + WalkItems(d, xs[1..], i + 1, filter, path)
  }

  /** Every descriptor is an emitted element described from its own dict. */
  lemma {:induction false} WalkEmits(d: Dialect, v: Value, filter: Option<string>, path: string)
    ensures forall e :: e in Walk(d, v, filter, path) ==> Emitted(d, e.data, filter) && e == Describe(d, e.data, e.path)
  {
    match v
    case Obj(fs) => WalkFieldsEmits(d, fs, filter, path);
    case Arr(xs) => WalkItemsEmits(d, xs, 0, filter, path);
    case _ =>
  }

  lemma {:induction false} WalkFieldsEmits(d: Dialect, fs: Dict<Value>, filter: Option<string>, path: string)
    ensures forall e :: e in WalkFields(d, fs, filter, path) ==> Emitted(d, e.data, filter) && e == Describe(d, e.data, e.path)
  {
    if fs != [] {
      WalkFieldsEmits(d, fs[1..], filter, path);
      if IsContainerKey(fs[0].key) {
        WalkEmits(d, fs[0].val, filter, KeyPath(path, fs[0].key));
      }
    }
  }

  lemma {:induction false} WalkItemsEmits(d: Dialect, xs: seq<Value>, i: nat, filter: Option<string>, path: string)
    ensures forall e :: e in WalkItems(d, xs, i, filter, path) ==> Emitted(d, e.data, filter) && e == Describe(d, e.data, e.path)
  {
    if xs != [] {
      WalkEmits(d, xs[0], filter, IndexPath(path, i));
      WalkItemsEmits(d, xs[1..], i + 1, filter, path);
    }
  }

  // ----- the reference traversal: every dict the walk visits, in pre-order -----

  /** The dicts reachable through container values and list items, each before its descendants. */
  function Nodes(v: Value): (r: seq<Value>)
    ensures forall n :: n in r ==> n.Obj?
  {
    match v
    case Obj(fs) => [v] + FieldNodes(fs)
    case Arr(xs) => ItemNodes(xs)
    case _ => []
  }

  function FieldNodes(fs: Dict<Value>): (r: seq<Value>)
    ensures forall n :: n in r ==> n.Obj?
  {
    if fs == [] then []
    else (if IsContainerKey(fs[0].key) then Nodes(fs[0].val) else []) + FieldNodes(fs[1..])
  }

  function ItemNodes(xs: seq<Value>): (r: seq<Value>)
    ensures forall n :: n in r ==> n.Obj?
  {
    if xs == [] then [] else Nodes(xs[0]) + ItemNodes(xs[1..])
  }

  /** The visited dicts that the walk emits, in order. */
  function EmittedNodes(d: Dialect, ns: seq<Value>, filter: Option<string>): seq<Value>
  {
    if ns == [] then []
    else (if Emitted(d, ns[0], filter) then [ns[0]] else []) + EmittedNodes(d, ns[1..], filter)
  }

  lemma {:induction false} EmittedNodesConcat(d: Dialect, a: seq<Value>, b: seq<Value>, filter: Option<string>)
    ensures EmittedNodes(d, a + b, filter) == EmittedNodes(d, a, filter) + EmittedNodes(d, b, filter)
  {
    if a == [] {
      assert a + b == b;
    } else {
      Seqs.SplitHead(a, b);
      EmittedNodesConcat(d, a[1..], b, filter);
      var h := if Emitted(d, a[0], filter) then [a[0]] else [];
      Seqs.Assoc(h, EmittedNodes(d, a[1..], filter), EmittedNodes(d, b, filter));
    }
  }

  function Datas(es: seq<Descriptor>): (r: seq<Value>)
    ensures |r| == |es| && forall i :: 0 <= i < |es| ==> r[i] == es[i].data
  {
    if es == [] then [] else [es[0].data] + Datas(es[1..])
  }

  lemma DatasConcat(a: seq<Descriptor>, b: seq<Descriptor>)
    ensures Datas(a + b) == Datas(a) + Datas(b)
  {
  }

  /** The walk describes exactly the emitted dicts of the pre-order traversal, in that order. */
  lemma {:induction false} WalkVisitsNodes(d: Dialect, v: Value, filter: Option<string>, path: string)
    ensures Datas(Walk(d, v, filter, path)) == EmittedNodes(d, Nodes(v), filter)
  {
    match v
    case Obj(fs) =>
      WalkFieldsVisitsNodes(d, fs, filter, path);
      EmittedNodesConcat(d, [v], FieldNodes(fs), filter);
      DatasConcat(if Emitted(d, v, filter) then [Describe(d, v, path)] else [], WalkFields(d, fs, filter, path));
    case Arr(xs) =>
      WalkItemsVisitsNodes(d, xs, 0, filter, path);
    case _ =>
  }

  lemma {:induction false} WalkFieldsVisitsNodes(d: Dialect, fs: Dict<Value>, filter: Option<string>, path: string)
    ensures Datas(WalkFields(d, fs, filter, path)) == EmittedNodes(d, FieldNodes(fs), filter)
  {
    if fs != [] {
      WalkFieldsVisitsNodes(d, fs[1..], filter, path);
      if IsContainerKey(fs[0].key) {
        WalkVisitsNodes(d, fs[0].val, filter, KeyPath(path, fs[0].key));
        EmittedNodesConcat(d, Nodes(fs[0].val), FieldNodes(fs[1..]), filter);
        DatasConcat(Walk(d, fs[0].val, filter, KeyPath(path, fs[0].key)), WalkFields(d, fs[1..], filter, path));
      } else {
        assert WalkFields(d, fs, filter, path) == WalkFields(d, fs[1..], filter, path);
        assert FieldNodes(fs) == FieldNodes(fs[1..]);
      }
    }
  }

  lemma {:induction false} WalkItemsVisitsNodes(d: Dialect, xs: seq<Value>, i: nat, filter: Option<string>, path: string)
    ensures Datas(WalkItems(d, xs, i, filter, path)) == EmittedNodes(d, ItemNodes(xs), filter)
  {
    if xs != [] {
      WalkVisitsNodes(d, xs[0], filter, IndexPath(path, i));
      WalkItemsVisitsNodes(d, xs[1..], i + 1, filter, path);
      EmittedNodesConcat(d, Nodes(xs[0]), ItemNodes(xs[1..]), filter);
      DatasConcat(Walk(d, xs[0], filter, IndexPath(path, i)), WalkItems(d, xs[1..], i + 1, filter, path));
    }
  }

  // ----- the type filter -----

  /** The descriptors of one type, in order. */
  function OfKind(es: seq<Descriptor>, t: string): seq<Descriptor>
  {
    if es == [] then []
    else (if es[0].kind == Str(t) then [es[0]] else []) + OfKind(es[1..], t)
  }

  lemma {:induction false} OfKindConcat(a: seq<Descriptor>, b: seq<Descriptor>, t: string)
    ensures OfKind(a + b, t) == OfKind(a, t) + OfKind(b, t)
  {
    if a == [] {
      assert a + b == b;
    } else {
      var rest := a[1..] + b;
      assert a + b == [a[0]] + rest;
      OfKindConcat(a[1..], b, t);
      var h := if a[0].kind == Str(t) then [a[0]] else [];
      assert OfKind(a + b, t) == h + OfKind(rest, t);
      assert OfKind(a, t) == h + OfKind(a[1..], t);
    }
  }

  /** Listing with a type filter is the unfiltered listing restricted to that type, in the same order. */
  lemma {:induction false} FilteredWalk(d: Dialect, v: Value, t: string, path: string)
    ensures Walk(d, v, Some(t), path) == OfKind(Walk(d, v, None, path), t)
  {
    match v
    case Obj(fs) =>
      FilteredWalkFields(d, fs, t, path);
      OfKindConcat(if Emitted(d, v, None) then [Describe(d, v, path)] else [], WalkFields(d, fs, None, path), t);
    case Arr(xs) =>
      FilteredWalkItems(d, xs, 0, t, path);
    case _ =>
  }

  lemma {:induction false} FilteredWalkFields(d: Dialect, fs: Dict<Value>, t: string, path: string)
    ensures WalkFields(d, fs, Some(t), path) == OfKind(WalkFields(d, fs, None, path), t)
  {
    if fs != [] {
      FilteredWalkFields(d, fs[1..], t, path);
      if IsContainerKey(fs[0].key) {
        FilteredWalk(d, fs[0].val, t, KeyPath(path, fs[0].key));
        OfKindConcat(Walk(d, fs[0].val, None, KeyPath(path, fs[0].key)), WalkFields(d, fs[1..], None, path), t);
      } else {
        assert WalkFields(d, fs, None, path) == WalkFields(d, fs[1..], None, path);
        assert WalkFields(d, fs, Some(t), path) == WalkFields(d, fs[1..], Some(t), path);
      }
    }
  }

  lemma {:induction false} FilteredWalkItems(d: Dialect, xs: seq<Value>, i: nat, t: string, path: string)
    ensures WalkItems(d, xs, i, Some(t), path) == OfKind(WalkItems(d, xs, i, None, path), t)
  {
    if xs != [] {
      FilteredWalk(d, xs[0], t, IndexPath(path, i));
      FilteredWalkItems(d, xs[1..], i + 1, t, path);
      OfKindConcat(Walk(d, xs[0], None, IndexPath(path, i)), WalkItems(d, xs[1..], i + 1, None, path), t);
    }
  }

  // ----- search -----

  /** `search_lower in str(x).lower()` */
  predicate Mentions(x: Value, term: string)
  {
    Contains(Lower(Show(x)), Lower(term))
  }

  /** find_element's test: id, text, title (Klwp only) or type mentions the term. */
  predicate Hit(d: Dialect, e: Descriptor, term: string)
  {
    Mentions(e.id, term)
    || Mentions(GetOr(e.extras, "text", Str("")), term)
    || (d == Klwp && Mentions(GetOr(e.extras, "title", Str("")), term))
    || Mentions(e.kind, term)
  }

  /** The listed descriptors that the term hits, in listing order. */
  function Search(d: Dialect, es: seq<Descriptor>, term: string): (r: seq<Descriptor>)
    ensures |r| <= |es|
  {
    if es == [] then []
    else Search(d, es[..|es| - 1], term) + (if Hit(d, es[|es| - 1], term) then [es[|es| - 1]] else [])
  }

  /** A descriptor is found exactly when it is listed and the term hits it. */
  lemma {:induction false} SearchMembership(d: Dialect, es: seq<Descriptor>, term: string)
    ensures forall e :: e in Search(d, es, term) <==> e in es && Hit(d, e, term)
  {
    if es != [] {
      var init := es[..|es| - 1];
      SearchMembership(d, init, term);
      assert es == init + [es[|es| - 1]];
    }
  }

  /** find_element's loop over the listing. */
  method FindMatching(d: Dialect, all: seq<Descriptor>, term: string) returns (matching: seq<Descriptor>)
    ensures matching == Search(d, all, term)
  {
    matching := [];
    for i := 0 to |all|
      invariant matching == Search(d, all[..i], term)
    {
      SearchStep(d, all, i, term);
      if Hit(d, all[i], term) {
        matching := matching + [all[i]];
      }
    }
    assert all[..|all|] == all;
  }

  /** Searching one more descriptor of the listing appends it when the term hits it. */
  lemma SearchStep(d: Dialect, all: seq<Descriptor>, i: int, term: string)
    requires 0 <= i < |all|
    ensures Search(d, all[..i + 1], term) == Search(d, all[..i], term) + (if Hit(d, all[i], term) then [all[i]] else [])
  {
    assert all[..i + 1][..i] == all[..i];
  }

  // ----- first-match update -----

  /** Klwp: `get('id') or get('internal_id')`; Kustom: `get('id')`. */
  function UpdateKey(d: Dialect, v: Value): Value
  {
    if d == Klwp then Or(Field(v, "id"), Field(v, "internal_id")) else Field(v, "id")
  }

  predicate Targets(d: Dialect, v: Value, target: string)
  {
    UpdateKey(d, v) == Str(target)
  }

  /** _find_and_update_element: the updated dict (if any) and the new document. */
  function Update(d: Dialect, v: Value, target: string, props: Dict<Value>): (Option<Value>, Value)
  {
    match v
    case Obj(fs) =>
      if Targets(d, v, target) then
        var v' := Obj(Merge(fs, props));
        (Some(v'), v')
      else
        var (found, fs') := UpdateFields(d, fs, target, props);
        (found, Obj(fs'))
    case Arr(xs) =>
      var (found, xs') := UpdateItems(d, xs, target, props);
      (found, Arr(xs'))
    case _ => (None, v)
  }

  function UpdateFields(d: Dialect, fs: Dict<Value>, target: string, props: Dict<Value>): (Option<Value>, Dict<Value>)
  {
    if fs == [] then (None, [])
    else
      var (found, v') :=
        if IsContainerKey(fs[0].key) then Update(d, fs[0].val, target, props) else (None, fs[0].val);
      if found.Some? then (found, [Entry(fs[0].key, v')] + fs[1..])
      else
        var (found', rest) := UpdateFields(d, fs[1..], target, props);
        (found', [fs[0]] + rest)
  }

  function UpdateItems(d: Dialect, xs: seq<Value>, target: string, props: Dict<Value>): (Option<Value>, seq<Value>)
  {
    if xs == [] then (None, [])
    else
      var (found, x') := Update(d, xs[0], target, props);
      if found.Some? then (found, [x'] + xs[1..])
      else
        var (found', rest) := UpdateItems(d, xs[1..], target, props);
        (found', [xs[0]] + rest)
  }

  /** A dict can only be targeted through an id (or, for Klwp, internal_id) it really has. */
  lemma TargetHasId(d: Dialect, v: Value, target: string)
    requires Targets(d, v, target)
    ensures Has(v, "id") || (d == Klwp && Has(v, "internal_id"))
  {
  }

  /** The placeholder id 'unknown' of an element without ids never selects that element. */
  lemma UnknownNeverTargeted(v: Value)
    requires IsElement(Klwp, v) && !Has(v, "id") && !Has(v, "internal_id")
    ensures ElementId(Klwp, v) == Str("unknown")
    ensures !Targets(Klwp, v, "unknown")
  {
  }

  // ----- the reference definition of the update on the pre-order traversal -----

  predicate AnyTarget(d: Dialect, ns: seq<Value>, target: string)
  {
    ns != [] && (Targets(d, ns[0], target) || AnyTarget(d, ns[1..], target))
  }

  function FirstTarget(d: Dialect, ns: seq<Value>, target: string): Value
    requires AnyTarget(d, ns, target)
  {
    if Targets(d, ns[0], target) then ns[0] else FirstTarget(d, ns[1..], target)
  }

  /** A dict without its container values: what a merge without container keys can change. */
  function Own(v: Value): Value
  {
    if v.Obj? then Obj(StripContainers(v.fields)) else v
  }

  function StripContainers(fs: Dict<Value>): Dict<Value>
  {
    if fs == [] then []
    else if IsContainerKey(fs[0].key) then StripContainers(fs[1..])
    else [fs[0]] + StripContainers(fs[1..])
  }

  function Owns(ns: seq<Value>): (r: seq<Value>)
    ensures |r| == |ns|
  {
    if ns == [] then [] else [Own(ns[0])] + Owns(ns[1..])
  }

  /** dict.update applied to a dict value. */
  function Merged(v: Value, props: Dict<Value>): Value
  {
    if v.Obj? then Obj(Merge(v.fields, props)) else v
  }

  /** The merged dict, seen without container values. */
  function MergeOwn(v: Value, props: Dict<Value>): Value
  {
    if v.Obj? then Own(Obj(Merge(v.fields, props))) else v
  }

  /** Reference definition: only the first targeted dict changes, by the merge. */
  function ReplaceFirst(d: Dialect, ns: seq<Value>, target: string, props: Dict<Value>): (r: seq<Value>)
    ensures |r| == |ns|
  {
    if ns == [] then []
    else if Targets(d, ns[0], target) then [MergeOwn(ns[0], props)] + Owns(ns[1..])
    else [Own(ns[0])] + ReplaceFirst(d, ns[1..], target, props)
  }

  /** The merge carries no container key, so it cannot restructure the document. */
  predicate FlatProps(props: Dict<Value>)
  {
    forall i :: 0 <= i < |props| ==> !IsContainerKey(props[i].key)
  }

  lemma {:induction false} AnyTargetConcat(d: Dialect, a: seq<Value>, b: seq<Value>, target: string)
    ensures AnyTarget(d, a + b, target) <==> AnyTarget(d, a, target) || AnyTarget(d, b, target)
    ensures AnyTarget(d, a, target) ==> FirstTarget(d, a + b, target) == FirstTarget(d, a, target)
    ensures !AnyTarget(d, a, target) && AnyTarget(d, b, target) ==> FirstTarget(d, a + b, target) == FirstTarget(d, b, target)
  {
    if a == [] {
      assert a + b == b;
    } else {
      assert a + b == [a[0]] + (a[1..] + b);
      AnyTargetConcat(d, a[1..], b, target);
    }
  }

  lemma {:induction false} OwnsConcat(a: seq<Value>, b: seq<Value>)
    ensures Owns(a + b) == Owns(a) + Owns(b)
  {
    if a == [] {
      assert a + b == b;
    } else {
      Seqs.SplitHead(a, b);
      OwnsConcat(a[1..], b);
      Seqs.Assoc([Own(a[0])], Owns(a[1..]), Owns(b));
    }
  }

  lemma {:induction false} ReplaceFirstConcat(d: Dialect, a: seq<Value>, b: seq<Value>, target: string, props: Dict<Value>)
    ensures AnyTarget(d, a, target) ==> ReplaceFirst(d, a + b, target, props) == ReplaceFirst(d, a, target, props) + Owns(b)
    ensures !AnyTarget(d, a, target) ==> ReplaceFirst(d, a + b, target, props) == Owns(a) + ReplaceFirst(d, b, target, props)
  {
    if AnyTarget(d, a, target) {
      ReplaceFirstConcatHit(d, a, b, target, props);
    } else {
      ReplaceFirstConcatMiss(d, a, b, target, props);
    }
  }

  /** A target in the first part: the second part is only copied. */
  lemma {:induction false} ReplaceFirstConcatHit(d: Dialect, a: seq<Value>, b: seq<Value>, target: string, props: Dict<Value>)
    requires AnyTarget(d, a, target)
    ensures ReplaceFirst(d, a + b, target, props) == ReplaceFirst(d, a, target, props) + Owns(b)
  {
    Seqs.SplitHead(a, b);
    if Targets(d, a[0], target) {
      OwnsConcat(a[1..], b);
      Seqs.Assoc([MergeOwn(a[0], props)], Owns(a[1..]), Owns(b));
    } else {
      ReplaceFirstConcatHit(d, a[1..], b, target, props);
      Seqs.Assoc([Own(a[0])], ReplaceFirst(d, a[1..], target, props), Owns(b));
    }
  }

  /** No target in the first part: it is copied and the merge happens in the second. */
  lemma {:induction false} ReplaceFirstConcatMiss(d: Dialect, a: seq<Value>, b: seq<Value>, target: string, props: Dict<Value>)
    requires !AnyTarget(d, a, target)
    ensures ReplaceFirst(d, a + b, target, props) == Owns(a) + ReplaceFirst(d, b, target, props)
  {
    if a == [] {
      assert a + b == b;
    } else {
      Seqs.SplitHead(a, b);
      ReplaceFirstConcatMiss(d, a[1..], b, target, props);
      Seqs.Assoc([Own(a[0])], Owns(a[1..]), ReplaceFirst(d, b, target, props));
    }
  }

  lemma {:induction false} ReplaceFirstNone(d: Dialect, ns: seq<Value>, target: string, props: Dict<Value>)
    requires !AnyTarget(d, ns, target)
    ensures ReplaceFirst(d, ns, target, props) == Owns(ns)
  {
    if ns != [] {
      ReplaceFirstNone(d, ns[1..], target, props);
    }
  }

  /** Removing the container entries commutes with a merge that has none. */
  lemma {:induction false} StripPut(fs: Dict<Value>, k: string, x: Value)
    requires !IsContainerKey(k)
    ensures StripContainers(Put(fs, k, x)) == Put(StripContainers(fs), k, x)
  {
    if fs != [] {
      StripPut(fs[1..], k, x);
      if fs[0].key != k && !IsContainerKey(fs[0].key) {
        assert StripContainers(Put(fs, k, x)) == [fs[0]] + StripContainers(Put(fs[1..], k, x));
      }
    }
  }

  lemma {:induction false} StripMerge(fs: Dict<Value>, props: Dict<Value>)
    requires FlatProps(props)
    ensures StripContainers(Merge(fs, props)) == Merge(StripContainers(fs), props)
    decreases props
  {
    if props != [] {
      StripPut(fs, props[0].key, props[0].val);
      StripMerge(Put(fs, props[0].key, props[0].val), props[1..]);
    }
  }

  /** The container entries are untouched by a merge that has none. */
  lemma {:induction false} FieldNodesPut(fs: Dict<Value>, k: string, x: Value)
    requires !IsContainerKey(k)
    ensures FieldNodes(Put(fs, k, x)) == FieldNodes(fs)
  {
    if fs != [] {
      FieldNodesPut(fs[1..], k, x);
      if fs[0].key == k {
        assert FieldNodes(fs) == [] + FieldNodes(fs[1..]);
        assert FieldNodes(Put(fs, k, x)) == [] + FieldNodes(fs[1..]);
      }
    } else {
      assert FieldNodes([Entry(k, x)]) == [] + FieldNodes([]);
    }
  }

  lemma {:induction false} FieldNodesMerge(fs: Dict<Value>, props: Dict<Value>)
    requires FlatProps(props)
    ensures FieldNodes(Merge(fs, props)) == FieldNodes(fs)
    decreases props
  {
    if props != [] {
      FieldNodesPut(fs, props[0].key, props[0].val);
      FieldNodesMerge(Put(fs, props[0].key, props[0].val), props[1..]);
    }
  }

  /** Replacing a container value leaves the dict's own part alone. */
  lemma {:induction false} StripReplaceContainer(k: string, x: Value, y: Value, rest: Dict<Value>)
    requires IsContainerKey(k)
    ensures StripContainers([Entry(k, y)] + rest) == StripContainers([Entry(k, x)] + rest)
  {
  }

  lemma {:induction false} StripCons(e: Entry<Value>, rest: Dict<Value>)
    ensures StripContainers([e] + rest) == (if IsContainerKey(e.key) then [] else [e]) + StripContainers(rest)
  {
    assert ([e] + rest)[1..] == rest;
  }

  /**
   * The update finds a dict exactly when some visited dict is targeted, and it
   * returns the first such dict with the properties merged in.  Without a
   * target nothing changes.
   */
  lemma {:induction false} UpdateFinds(d: Dialect, v: Value, target: string, props: Dict<Value>)
    ensures Update(d, v, target, props).0.Some? <==> AnyTarget(d, Nodes(v), target)
    ensures Update(d, v, target, props).0.Some? ==>
      Update(d, v, target, props).0.value == Merged(FirstTarget(d, Nodes(v), target), props)
    ensures Update(d, v, target, props).0.None? ==> Update(d, v, target, props).1 == v
  {
    match v
    case Obj(fs) =>
      assert Nodes(v) == [v] + FieldNodes(fs);
      AnyTargetConcat(d, [v], FieldNodes(fs), target);
      if !Targets(d, v, target) {
        UpdateFieldsFinds(d, fs, target, props);
      }
    case Arr(xs) =>
      UpdateItemsFinds(d, xs, target, props);
    case _ =>
  }

  lemma {:induction false} UpdateFieldsFinds(d: Dialect, fs: Dict<Value>, target: string, props: Dict<Value>)
    ensures UpdateFields(d, fs, target, props).0.Some? <==> AnyTarget(d, FieldNodes(fs), target)
    ensures UpdateFields(d, fs, target, props).0.Some? ==>
      UpdateFields(d, fs, target, props).0.value == Merged(FirstTarget(d, FieldNodes(fs), target), props)
    ensures UpdateFields(d, fs, target, props).0.None? ==> UpdateFields(d, fs, target, props).1 == fs
  {
    if fs != [] {
      var e, tail := fs[0], fs[1..];
      var here := if IsContainerKey(e.key) then Nodes(e.val) else [];
      assert FieldNodes(fs) == here + FieldNodes(tail);
      AnyTargetConcat(d, here, FieldNodes(tail), target);
      UpdateFieldsFinds(d, tail, target, props);
      if IsContainerKey(e.key) {
        UpdateFinds(d, e.val, target, props);
      }
      Seqs.HeadTail(fs);
    }
  }

  lemma {:induction false} UpdateItemsFinds(d: Dialect, xs: seq<Value>, target: string, props: Dict<Value>)
    ensures UpdateItems(d, xs, target, props).0.Some? <==> AnyTarget(d, ItemNodes(xs), target)
    ensures UpdateItems(d, xs, target, props).0.Some? ==>
      UpdateItems(d, xs, target, props).0.value == Merged(FirstTarget(d, ItemNodes(xs), target), props)
    ensures UpdateItems(d, xs, target, props).0.None? ==> UpdateItems(d, xs, target, props).1 == xs
  {
    if xs != [] {
      var x, tail := xs[0], xs[1..];
      assert ItemNodes(xs) == Nodes(x) + ItemNodes(tail);
      AnyTargetConcat(d, Nodes(x), ItemNodes(tail), target);
      UpdateFinds(d, x, target, props);
      UpdateItemsFinds(d, tail, target, props);
      Seqs.HeadTail(xs);
    }
  }

  /**
   * For properties without container keys, every visited dict other than the
   * first targeted one keeps its own keys and values, and that one becomes its
   * merge with the properties.
   */
  lemma {:induction false} UpdateChangesOnlyTarget(d: Dialect, v: Value, target: string, props: Dict<Value>)
    requires FlatProps(props)
    ensures Owns(Nodes(Update(d, v, target, props).1)) == ReplaceFirst(d, Nodes(v), target, props)
  {
    match v
    case Obj(fs) =>
      ReplaceFirstConcat(d, [v], FieldNodes(fs), target, props);
      assert Nodes(v) == [v] + FieldNodes(fs);
      if Targets(d, v, target) {
        var v' := Obj(Merge(fs, props));
        FieldNodesMerge(fs, props);
        StripMerge(fs, props);
        assert Nodes(v') == [v'] + FieldNodes(fs);
        OwnsConcat([v'], FieldNodes(fs));
        assert Owns([v']) == [MergeOwn(v, props)];
      } else {
        UpdateFieldsChangesOnlyTarget(d, fs, target, props);
        var fs' := UpdateFields(d, fs, target, props).1;
        assert Nodes(Obj(fs')) == [Obj(fs')] + FieldNodes(fs');
        OwnsConcat([Obj(fs')], FieldNodes(fs'));
        assert Own(Obj(fs')) == Own(v);
      }
    case Arr(xs) =>
      UpdateItemsChangesOnlyTarget(d, xs, target, props);
    case _ =>
  }

  lemma {:induction false} UpdateFieldsChangesOnlyTarget(d: Dialect, fs: Dict<Value>, target: string, props: Dict<Value>)
    requires FlatProps(props)
    ensures Owns(FieldNodes(UpdateFields(d, fs, target, props).1)) == ReplaceFirst(d, FieldNodes(fs), target, props)
    ensures StripContainers(UpdateFields(d, fs, target, props).1) == StripContainers(fs)
  {
    if fs != [] {
      var k := fs[0].key;
      var here := if IsContainerKey(k) then Nodes(fs[0].val) else [];
      assert FieldNodes(fs) == here + FieldNodes(fs[1..]);
      ReplaceFirstConcat(d, here, FieldNodes(fs[1..]), target, props);
      UpdateFieldsChangesOnlyTarget(d, fs[1..], target, props);
      StripCons(fs[0], fs[1..]);
      if IsContainerKey(k) {
        UpdateFinds(d, fs[0].val, target, props);
        UpdateChangesOnlyTarget(d, fs[0].val, target, props);
        var (found, v') := Update(d, fs[0].val, target, props);
        if found.Some? {
          var r := [Entry(k, v')] + fs[1..];
          assert r[0] == Entry(k, v') && r[1..] == fs[1..];
          assert FieldNodes(r) == Nodes(v') + FieldNodes(fs[1..]);
          OwnsConcat(Nodes(v'), FieldNodes(fs[1..]));
          StripCons(Entry(k, v'), fs[1..]);
        } else {
          var rest := UpdateFields(d, fs[1..], target, props).1;
          var r := [fs[0]] + rest;
          assert r[0] == fs[0] && r[1..] == rest;
          assert FieldNodes(r) == Nodes(fs[0].val) + FieldNodes(rest);
          OwnsConcat(Nodes(fs[0].val), FieldNodes(rest));
          ReplaceFirstNone(d, Nodes(fs[0].val), target, props);
          StripCons(fs[0], rest);
        }
      } else {
        var rest := UpdateFields(d, fs[1..], target, props).1;
        var r := [fs[0]] + rest;
        assert r[0] == fs[0] && r[1..] == rest;
        assert FieldNodes(r) == FieldNodes(rest);
        assert FieldNodes(fs) == FieldNodes(fs[1..]);
        StripCons(fs[0], rest);
      }
    }
  }

  lemma {:induction false} UpdateItemsChangesOnlyTarget(d: Dialect, xs: seq<Value>, target: string, props: Dict<Value>)
    requires FlatProps(props)
    ensures Owns(ItemNodes(UpdateItems(d, xs, target, props).1)) == ReplaceFirst(d, ItemNodes(xs), target, props)
  {
    if xs != [] {
      assert ItemNodes(xs) == Nodes(xs[0]) + ItemNodes(xs[1..]);
      ReplaceFirstConcat(d, Nodes(xs[0]), ItemNodes(xs[1..]), target, props);
      UpdateFinds(d, xs[0], target, props);
      UpdateChangesOnlyTarget(d, xs[0], target, props);
      UpdateItemsChangesOnlyTarget(d, xs[1..], target, props);
      var (found, x') := Update(d, xs[0], target, props);
      if found.Some? {
        var r := [x'] + xs[1..];
        assert r[0] == x' && r[1..] == xs[1..];
        assert ItemNodes(r) == Nodes(x') + ItemNodes(xs[1..]);
        OwnsConcat(Nodes(x'), ItemNodes(xs[1..]));
      } else {
        var rest := UpdateItems(d, xs[1..], target, props).1;
        var r := [xs[0]] + rest;
        assert r[0] == xs[0] && r[1..] == rest;
        assert ItemNodes(r) == Nodes(xs[0]) + ItemNodes(rest);
        OwnsConcat(Nodes(xs[0]), ItemNodes(rest));
        ReplaceFirstNone(d, Nodes(xs[0]), target, props);
      }
    }
  }

  // ----- repeating an update -----

  /** The properties leave the keys that select the target alone. */
  predicate KeepsIds(d: Dialect, props: Dict<Value>)
  {
    !HasKey(props, "id") && (d == Klwp ==> !HasKey(props, "internal_id"))
  }

  lemma TargetsAfterMerge(d: Dialect, fs: Dict<Value>, target: string, props: Dict<Value>)
    requires KeepsIds(d, props) && UniqueKeys(props)
    ensures Targets(d, Obj(Merge(fs, props)), target) == Targets(d, Obj(fs), target)
  {
    MergeGet(fs, props, "id");
    MergeGet(fs, props, "internal_id");
  }

  /** The update rewrites only container-key fields of the dicts it descends through. */
  lemma {:induction false} UpdateFieldsKeepsScalars(d: Dialect, fs: Dict<Value>, target: string, props: Dict<Value>, k: string)
    requires !IsContainerKey(k)
    ensures Get(UpdateFields(d, fs, target, props).1, k) == Get(fs, k)
  {
    if fs != [] {
      var (found, v') := if IsContainerKey(fs[0].key) then Update(d, fs[0].val, target, props) else (None, fs[0].val);
      if found.Some? {
        var r := [Entry(fs[0].key, v')] + fs[1..];
        assert r[0].key == fs[0].key && r[1..] == fs[1..];
      } else {
        UpdateFieldsKeepsScalars(d, fs[1..], target, props, k);
        var rest := UpdateFields(d, fs[1..], target, props).1;
        var r := [fs[0]] + rest;
        assert r[0] == fs[0] && r[1..] == rest;
      }
    }
  }

  /**
   * Calling modify_element twice with the same properties gives the same
   * document (and the same returned dict) as calling it once.
   */
  lemma {:induction false} UpdateIdempotent(d: Dialect, v: Value, target: string, props: Dict<Value>)
    requires WellFormed(v) && UniqueKeys(props) && KeepsIds(d, props)
    ensures Update(d, Update(d, v, target, props).1, target, props) == Update(d, v, target, props)
  {
    match v
    case Obj(fs) =>
      if Targets(d, v, target) {
        MergedTargetIdempotent(d, fs, target, props);
      } else {
        UpdateFieldsIdempotent(d, fs, target, props);
        UntargetedStaysUntargeted(d, fs, target, props);
      }
    case Arr(xs) =>
      UpdateItemsIdempotent(d, xs, target, props);
    case _ =>
  }

  lemma MergedTargetIdempotent(d: Dialect, fs: Dict<Value>, target: string, props: Dict<Value>)
    requires UniqueKeys(fs) && UniqueKeys(props) && KeepsIds(d, props)
    requires Targets(d, Obj(fs), target)
    ensures Update(d, Obj(Merge(fs, props)), target, props) == Update(d, Obj(fs), target, props)
  {
    TargetsAfterMerge(d, fs, target, props);
    MergeIdempotent(fs, props);
  }

  lemma UntargetedStaysUntargeted(d: Dialect, fs: Dict<Value>, target: string, props: Dict<Value>)
    requires !Targets(d, Obj(fs), target)
    ensures !Targets(d, Obj(UpdateFields(d, fs, target, props).1), target)
  {
    UpdateFieldsKeepsScalars(d, fs, target, props, "id");
    UpdateFieldsKeepsScalars(d, fs, target, props, "internal_id");
  }

  lemma {:induction false} UpdateFieldsIdempotent(d: Dialect, fs: Dict<Value>, target: string, props: Dict<Value>)
    requires forall i :: 0 <= i < |fs| ==> WellFormed(fs[i].val)
    requires UniqueKeys(props) && KeepsIds(d, props)
    ensures UpdateFields(d, UpdateFields(d, fs, target, props).1, target, props) == UpdateFields(d, fs, target, props)
  {
    if fs != [] {
      var k := fs[0].key;
      if IsContainerKey(k) {
        UpdateIdempotent(d, fs[0].val, target, props);
        UpdateFinds(d, fs[0].val, target, props);
      }
      var (found, v') := if IsContainerKey(k) then Update(d, fs[0].val, target, props) else (None, fs[0].val);
      if found.Some? {
        var r := [Entry(k, v')] + fs[1..];
        assert r[0] == Entry(k, v') && r[1..] == fs[1..];
      } else {
        UpdateFieldsIdempotent(d, fs[1..], target, props);
        var rest := UpdateFields(d, fs[1..], target, props).1;
        var r := [fs[0]] + rest;
        assert r[0] == fs[0] && r[1..] == rest;
      }
    }
  }

  lemma {:induction false} UpdateItemsIdempotent(d: Dialect, xs: seq<Value>, target: string, props: Dict<Value>)
    requires forall i :: 0 <= i < |xs| ==> WellFormed(xs[i])
    requires UniqueKeys(props) && KeepsIds(d, props)
    ensures UpdateItems(d, UpdateItems(d, xs, target, props).1, target, props) == UpdateItems(d, xs, target, props)
  {
    if xs != [] {
      UpdateIdempotent(d, xs[0], target, props);
      UpdateFinds(d, xs[0], target, props);
      var (found, x') := Update(d, xs[0], target, props);
      if found.Some? {
        var r := [x'] + xs[1..];
        assert r[0] == x' && r[1..] == xs[1..];
      } else {
        UpdateItemsIdempotent(d, xs[1..], target, props);
        var rest := UpdateItems(d, xs[1..], target, props).1;
        var r := [xs[0]] + rest;
        assert r[0] == xs[0] && r[1..] == rest;
      }
    }
  }
}

=== FILE: klwp_handler.dfy ===
// KLWPHandler: finds .klwp presets across the search directories, reads
// preset.json out of the archive into a cache, lists, searches and updates
// elements of the cached document, and repacks the archive on save.
module KlwpHandler {
  import opened Wrappers
  import opened Text
  import opened OrderedMap
  import opened Json
  import opened Paths
  import opened Files
  import opened JsonTree
  import opened Sorting

  const Extension := ".klwp"
  const PresetFile := "preset.json"
  const BackupSuffix := ".klwp.bak"

  /** The search directories before deduplication, in order. */
  function CandidateDirs(presetsDir: string, home: string): (r: seq<string>)
    ensures |r| == 5 && r[0] == presetsDir
  {
    [presetsDir,
     "/storage/emulated/0/Kustom/wallpapers",
     "/sdcard/Kustom/wallpapers",
     "/storage/emulated/0/Android/data/org.kustom.wallpaper/files",
     Child(home, "storage/shared/Kustom/wallpapers")]
  }

  /** The positions whose key has not occurred earlier: the directories the constructor keeps. */
  function FirstOccurrences(keys: seq<string>): (r: seq<nat>)
    ensures forall a :: 0 <= a < |r| ==> r[a] < |keys|
  {
    if keys == [] then []
    else
      var n := |keys| - 1;
      FirstOccurrences(keys[..n]) + (if keys[n] in keys[..n] then [] else [n])
  }

  /** A position is kept exactly when its key is new there. */
  lemma {:induction false} FirstOccurrencesMembers(keys: seq<string>)
    ensures forall i :: 0 <= i < |keys| ==> (i in FirstOccurrences(keys) <==> keys[i] !in keys[..i])
  {
    if keys != [] {
      var n := |keys| - 1;
      var init := keys[..n];
      var r0 := FirstOccurrences(init);
      FirstOccurrencesMembers(init);
      assert FirstOccurrences(keys) == r0 + (if keys[n] in init then [] else [n]);
      forall i | 0 <= i < |keys|
        ensures i in FirstOccurrences(keys) <==> keys[i] !in keys[..i]
      {
        if i < n {
          assert init[..i] == keys[..i] && init[i] == keys[i];
          assert i in FirstOccurrences(keys) <==> i in r0;
        } else {
          assert n !in r0;
          assert keys[..i] == init;
        }
      }
    }
  }

  /** Kept positions ascend. */
  lemma {:induction false} FirstOccurrencesAscend(keys: seq<string>)
    ensures forall a, b :: 0 <= a < b < |FirstOccurrences(keys)| ==> FirstOccurrences(keys)[a] < FirstOccurrences(keys)[b]
  {
    if keys != [] {
      var n := |keys| - 1;
      FirstOccurrencesAscend(keys[..n]);
    }
  }

  /** The kept directories have pairwise distinct keys. */
  lemma FirstOccurrencesDistinct(keys: seq<string>)
    ensures forall a, b :: 0 <= a < b < |FirstOccurrences(keys)| ==>
      keys[FirstOccurrences(keys)[a]] != keys[FirstOccurrences(keys)[b]]
  {
    var r := FirstOccurrences(keys);
    FirstOccurrencesMembers(keys);
    FirstOccurrencesAscend(keys);
    forall a, b | 0 <= a < b < |r|
      ensures keys[r[a]] != keys[r[b]]
    {
      assert r[b] in r;
      assert keys[..r[b]][r[a]] == keys[r[a]];
    }
  }

  /** Every key is the key of some kept directory. */
  lemma FirstOccurrencesCover(keys: seq<string>, i: int)
    requires 0 <= i < |keys|
    ensures exists a :: 0 <= a < |FirstOccurrences(keys)| && keys[FirstOccurrences(keys)[a]] == keys[i]
  {
    var r := FirstOccurrences(keys);
    FirstOccurrencesMembers(keys);
    var j := FirstIndex(keys, keys[i]);
    assert j in r;
    var a :| 0 <= a < |r| && r[a] == j;
  }

  /** The first position holding x. */
  function FirstIndex(s: seq<string>, x: string): (j: nat)
    requires x in s
    ensures j < |s| && s[j] == x && x !in s[..j]
  {
    if s[0] == x then 0
    else
      var j := FirstIndex(s[1..], x);
      assert s[..j + 1] == [s[0]] + s[1..][..j];
      j + 1
  }

  /** The elements of s at the given positions. */
  function Pick(s: seq<string>, idx: seq<nat>): (r: seq<string>)
    requires forall a :: 0 <= a < |idx| ==> idx[a] < |s|
    ensures |r| == |idx| && forall a :: 0 <= a < |idx| ==> r[a] == s[idx[a]]
  {
    if idx == [] then [] else [s[idx[0]]] + Pick(s, idx[1..])
  }

  lemma FirstOccurrencesSnoc(keys: seq<string>, i: int)
    requires 0 <= i < |keys|
    ensures FirstOccurrences(keys[..i + 1]) ==
      FirstOccurrences(keys[..i]) + (if keys[i] in keys[..i] then [] else [i])
  {
    assert keys[..i + 1][..i] == keys[..i];
  }

  lemma PickSnoc(s: seq<string>, idx: seq<nat>, i: nat)
    requires forall a :: 0 <= a < |idx| ==> idx[a] < |s|
    requires i < |s|
    ensures Pick(s, idx + [i]) == Pick(s, idx) + [s[i]]
  {
  }

  /** The constructor's loop: keep a directory when its key has not been seen. */
  method DedupDirs(ds: seq<string>, keys: seq<string>) returns (valid: seq<string>)
    requires |keys| == |ds|
    ensures valid == Pick(ds, FirstOccurrences(keys))
  {
    var seen: set<string> := {};
    valid := [];
    for i := 0 to |ds|
      invariant forall x :: x in seen <==> x in keys[..i]
      invariant valid == Pick(ds, FirstOccurrences(keys[..i]))
    {
      FirstOccurrencesSnoc(keys, i);
      var idx := FirstOccurrences(keys[..i]);
      if keys[i] !in seen {
        PickSnoc(ds, idx, i);
        valid := valid + [ds[i]];
        seen := seen + {keys[i]};
      }
      assert keys[..i + 1] == keys[..i] + [keys[i]];
    }
    assert keys[..|ds|] == keys;
  }

  /** One preset found by list_presets_with_locations. */
  datatype Location = Location(name: string, directory: string, path: string)

  function LocNames(ls: seq<Location>): (r: seq<string>)
    ensures |r| == |ls| && forall i :: 0 <= i < |ls| ==> r[i] == ls[i].name
  {
    if ls == [] then [] else [ls[0].name] + LocNames(ls[1..])
  }

  /**
   * The member list of a repacked archive: every original name once plus
   * preset.json, holding the cached document under preset.json and the bytes
   * the original archive yields for every other name.
   */
  ghost predicate IsRepack(ms: seq<Member>, data: Value, out: seq<Member>)
  {
    DistinctNames(out)
    && (forall n :: n in Names(out) <==> n in Names(ms) || n == PresetFile)
    && (forall i :: 0 <= i < |out| && out[i].name == PresetFile ==> out[i].blob == JsonText(data))
    && (forall i :: 0 <= i < |out| && out[i].name != PresetFile ==>
          out[i].name in Names(ms) && out[i].blob == MemberBlob(ms, out[i].name))
  }

  /** The bytes a repacked archive stores under a name. */
  function RepackedBlob(ms: seq<Member>, data: Value, n: string): Blob
    requires n in Names(ms) || n == PresetFile
  {
    if n == PresetFile then JsonText(data) else MemberBlob(ms, n)
  }

  /** The zip loop's facts: the names written so far and those still to write split the archive's names. */
  ghost predicate RepackProgress(ms: seq<Member>, data: Value, out: seq<Member>, remaining: set<string>)
  {
    NamesSplit(ms, out, remaining) && BlobsKept(ms, data, out)
  }

  ghost predicate NamesSplit(ms: seq<Member>, out: seq<Member>, remaining: set<string>)
  {
    (forall n :: n in Names(out) || n in remaining <==> n in Names(ms) || n == PresetFile)
    && (forall n :: n in Names(out) ==> n !in remaining)
    && DistinctNames(out)
  }

  ghost predicate BlobsKept(ms: seq<Member>, data: Value, out: seq<Member>)
  {
    (forall i :: 0 <= i < |out| && out[i].name == PresetFile ==> out[i].blob == JsonText(data))
    && (forall i :: 0 <= i < |out| && out[i].name != PresetFile ==>
          out[i].name in Names(ms) && out[i].blob == MemberBlob(ms, out[i].name))
  }

  /** Writing one more remaining name keeps the loop's facts. */
  lemma RepackStep(ms: seq<Member>, data: Value, out: seq<Member>, remaining: set<string>, n: string)
    requires RepackProgress(ms, data, out, remaining) && n in remaining
    ensures n in Names(ms) || n == PresetFile
    ensures RepackProgress(ms, data, out + [Member(n, RepackedBlob(ms, data, n))], remaining - {n})
  {
    var l := Member(n, RepackedBlob(ms, data, n));
    NamesStep(ms, out, remaining, l);
    BlobsStep(ms, data, out, l);
  }

  lemma NamesStep(ms: seq<Member>, out: seq<Member>, remaining: set<string>, l: Member)
    requires NamesSplit(ms, out, remaining) && l.name in remaining
    ensures NamesSplit(ms, out + [l], remaining - {l.name})
  {
    var n := l.name;
    var out', rest := out + [l], remaining - {n};
    assert Names(out') == Names(out) + [n];
    assert n !in Names(out);
    forall m
      ensures m in Names(out') || m in rest <==> m in Names(out) || m in remaining
    {
      assert m in Names(out') <==> m in Names(out) || m == n;
    }
    forall m | m in Names(out')
      ensures m !in rest
    {
      assert m in Names(out) || m == n;
    }
    forall i, j | 0 <= i < j < |out'|
      ensures out'[i].name != out'[j].name
    {
      if j == |out| {
        assert Names(out)[i] == out[i].name;
      }
    }
  }

  lemma BlobsStep(ms: seq<Member>, data: Value, out: seq<Member>, l: Member)
    requires BlobsKept(ms, data, out)
    requires l.name in Names(ms) || l.name == PresetFile
    requires l.blob == RepackedBlob(ms, data, l.name)
    ensures BlobsKept(ms, data, out + [l])
  {
    var out' := out + [l];
    forall i | 0 <= i < |out'|
      ensures out'[i].name == PresetFile ==> out'[i].blob == JsonText(data)
      ensures out'[i].name != PresetFile ==> out'[i].name in Names(ms) && out'[i].blob == MemberBlob(ms, out'[i].name)
    {
      if i < |out| {
        assert out'[i] == out[i];
      } else {
        assert out'[i] == l;
      }
    }
  }

  /**
   * Extract every member into a directory, overwrite preset.json, and zip the
   * directory again: each name once, in the order the directory walk chooses.
   */
  method Repack(ms: seq<Member>, data: Value) returns (out: seq<Member>)
    ensures IsRepack(ms, data, out)
  {
    var remaining := (set n | n in Names(ms)) + {PresetFile};
    out := [];
    while remaining != {}
      invariant RepackProgress(ms, data, out, remaining)
      decreases remaining
    {
      var n :| n in remaining;
      RepackStep(ms, data, out, remaining, n);
      out := out + [Member(n, RepackedBlob(ms, data, n))];
      remaining := remaining - {n};
    }
  }

  /** Reading the repacked archive gives the cached document and every other member's original bytes. */
  lemma {:induction false} RepackReads(ms: seq<Member>, data: Value, out: seq<Member>)
    requires IsRepack(ms, data, out)
    ensures PresetFile in Names(out) && MemberBlob(out, PresetFile) == JsonText(data)
    ensures forall n :: n in Names(ms) && n != PresetFile ==> n in Names(out) && MemberBlob(out, n) == MemberBlob(ms, n)
  {
    forall n | n in Names(out)
      ensures MemberBlob(out, n) == (if n == PresetFile then JsonText(data) else MemberBlob(ms, n))
    {
      var i :| 0 <= i < |out| && Names(out)[i] == n;
      MemberBlobDistinct(out, i);
    }
  }

  /** Key for list_presets_with_locations' sort. */
  function ByName(l: Location): string { l.name }

  /** Key for list_presets' sort. */
  function Itself(s: string): string { s }

  class KLWPHandler {
    var presetsDir: string
    var searchDirs: seq<string>
    var cache: map<string, CacheEntry>
    const disk: FileSystem

    /**
     * The directories are deduplicated by their resolved path (the path
     * itself when it does not exist); `resolve` stands for Path.resolve().
     */
    constructor (presetsDir0: string, home: string, resolve: string -> string, disk0: FileSystem)
      ensures presetsDir == presetsDir0 && disk == disk0 && cache == map[]
      ensures searchDirs == Pick(CandidateDirs(presetsDir0, home),
                                 FirstOccurrences(Resolved(disk0, CandidateDirs(presetsDir0, home), resolve)))
    {
      presetsDir := presetsDir0;
      disk := disk0;
      cache := map[];
      var ds := CandidateDirs(presetsDir0, home);
      var valid := DedupDirs(ds, Resolved(disk0, ds, resolve));
      searchDirs := valid;
    }

    static function Resolved(fs: FileSystem, ds: seq<string>, resolve: string -> string): (r: seq<string>)
      reads fs
      ensures |r| == |ds|
      ensures forall i :: 0 <= i < |ds| ==> r[i] == if fs.Exists(ds[i]) then resolve(ds[i]) else ds[i]
    {
      if ds == [] then []
      else [if fs.Exists(ds[0]) then resolve(ds[0]) else ds[0]] + Resolved(fs, ds[1..], resolve)
    }

    /** The first directory (index) in dirs holding the file, or -1. */
    function FirstHolder(dirs: seq<string>, file: string): (r: int)
      reads disk
      ensures -1 <= r < |dirs|
      ensures r >= 0 ==> disk.Exists(Child(dirs[r], file))
      ensures forall j :: 0 <= j < |dirs| && (r < 0 || j < r) ==> !disk.Exists(Child(dirs[j], file))
    {
      if dirs == [] then -1
      else if disk.Exists(Child(dirs[0], file)) then 0
      else
        var k := FirstHolder(dirs[1..], file);
        if k < 0 then -1 else k + 1
    }

    /** _get_preset_path as a value. */
    function PresetPath(name: string): (r: Result<string>)
      reads this, disk
    {
      var file := EnsureExtension(name, Extension);
      var i := FirstHolder(searchDirs, file);
      if i < 0 then Err(FileNotFound(file)) else Ok(Child(searchDirs[i], file))
    }

    /** _get_preset_path: the first search directory, in order, holding the preset. */
    method GetPresetPath(name: string) returns (r: Result<string>)
      ensures r == PresetPath(name)
      ensures r.Ok? ==> disk.Exists(r.value) && EndsWith(r.value, Extension)
      ensures r.Err? ==> forall j :: 0 <= j < |searchDirs| ==> !disk.Exists(Child(searchDirs[j], EnsureExtension(name, Extension)))
    {
      var file := EnsureExtension(name, Extension);
      for i := 0 to |searchDirs|
        invariant forall j :: 0 <= j < i ==> !disk.Exists(Child(searchDirs[j], file))
      {
        var path := Child(searchDirs[i], file);
        if disk.Exists(path) {
          assert (searchDirs[i] + "/" + file)[|searchDirs[i]| + 1..] == file;
          return Ok(path);
        }
      }
      return Err(FileNotFound(file));
    }

    /** read_preset's outcome: the decoded preset.json of the located archive. */
    function LoadPreset(name: string): (r: Result<Value>)
      reads this, disk
    {
      var path :- PresetPath(name);
      var ms :- disk.ArchiveAt(path);
      if PresetFile !in Names(ms) then Err(ValueError("No preset.json found in " + name))
      else ParseJson(MemberBlob(ms, PresetFile))
    }

    /** The document the element operations work on: the cached one, else a fresh read. */
    function Loaded(name: string): Result<Value>
      reads this, disk
    {
      if name in cache && cache[name].data != Null then Ok(cache[name].data) else LoadPreset(name)
    }

    /** The cache after obtaining the document. */
    function AfterLoad(name: string): map<string, CacheEntry>
      reads this, disk
    {
      if name in cache && cache[name].data != Null then cache
      else match LoadPreset(name)
        case Ok(v) => cache[name := CacheEntry(v, false)]
        case Err(_) => cache
    }

    /** read_preset */
    method ReadPreset(name: string) returns (r: Result<Value>)
      modifies this
      ensures r == old(LoadPreset(name))
      ensures r.Ok? ==> cache == old(cache)[name := CacheEntry(r.value, false)]
      ensures r.Err? ==> cache == old(cache)
      ensures searchDirs == old(searchDirs) && presetsDir == old(presetsDir)
    {
      ghost var expected := LoadPreset(name);
      var path :- GetPresetPath(name);
      var ms :- disk.ArchiveAt(path);
      if PresetFile !in Names(ms) {
        return Err(ValueError("No preset.json found in " + name));
      }
      var data :- ParseJson(MemberBlob(ms, PresetFile));
      assert expected == Ok(data);
      cache := cache[name := CacheEntry(data, false)];
      return Ok(data);
    }

    /** get_cached_preset */
    function GetCachedPreset(name: string): (r: Option<Value>)
      reads this
      ensures r.Some? <==> name in cache
      ensures r.Some? ==> r.value == cache[name].data
    {
      if name in cache then Some(cache[name].data) else None
    }

    /** The cached document, or a fresh read when there is none (or it is null). */
    method Load(name: string) returns (r: Result<Value>)
      modifies this
      ensures r == old(Loaded(name))
      ensures cache == old(AfterLoad(name))
      ensures searchDirs == old(searchDirs) && presetsDir == old(presetsDir)
    {
      var cached := GetCachedPreset(name);
      if cached.Some? && cached.value != Null {
        return Ok(cached.value);
      }
      r := ReadPreset(name);
    }

    /** list_elements */
    method ListElements(name: string, filter: Option<string>) returns (r: Result<seq<Descriptor>>)
      modifies this
      ensures old(Loaded(name)).Err? ==> r == Err(old(Loaded(name)).error)
      ensures old(Loaded(name)).Ok? ==> r == Ok(Walk(Klwp, old(Loaded(name)).value, filter, ""))
      ensures cache == old(AfterLoad(name))
      ensures searchDirs == old(searchDirs) && presetsDir == old(presetsDir)
    {
      var data :- Load(name);
      return Ok(Walk(Klwp, data, filter, ""));
    }

    /** find_element: the listed elements the term hits, case-insensitively, in listing order. */
    method FindElement(name: string, term: string) returns (r: Result<seq<Descriptor>>)
      modifies this
      ensures old(Loaded(name)).Err? ==> r == Err(old(Loaded(name)).error)
      ensures old(Loaded(name)).Ok? ==> r == Ok(Search(Klwp, Walk(Klwp, old(Loaded(name)).value, None, ""), term))
      ensures cache == old(AfterLoad(name))
      ensures searchDirs == old(searchDirs) && presetsDir == old(presetsDir)
    {
      var all :- ListElements(name, None);
      var matching := FindMatching(Klwp, all, term);
      return Ok(matching);
    }

    /**
     * modify_element: merges the properties into the first dict, in walk
     * order, whose id (else internal_id) is the target.  A miss reports
     * ValueError and leaves the modified flag as it was; a hit sets it.
     */
    method ModifyElement(name: string, target: string, props: Dict<Value>) returns (r: Result<Value>)
      modifies this
      ensures old(Loaded(name)).Err? ==> r == Err(old(Loaded(name)).error) && cache == old(cache)
      ensures old(Loaded(name)).Ok? && !AnyTarget(Klwp, Nodes(old(Loaded(name)).value), target) ==>
        r.Err? && r.error.ValueError? && cache == old(AfterLoad(name))
      ensures old(Loaded(name)).Ok? && AnyTarget(Klwp, Nodes(old(Loaded(name)).value), target) ==>
        r == Ok(Merged(FirstTarget(Klwp, Nodes(old(Loaded(name)).value), target), props))
        && cache == old(AfterLoad(name))[name := CacheEntry(Update(Klwp, old(Loaded(name)).value, target, props).1, true)]
      ensures searchDirs == old(searchDirs) && presetsDir == old(presetsDir)
    {
      var data :- Load(name);
      UpdateFinds(Klwp, data, target, props);
      var (found, data') := Update(Klwp, data, target, props);
      if found.None? {
        return Err(ValueError("Element with ID '" + target + "' not found"));
      }
      cache := cache[name := CacheEntry(data', true)];
      return Ok(found.value);
    }

    /** Where save_preset copies the archive before rewriting it. */
    function BackupPath(path: string): string
    {
      WithSuffix(path, BackupSuffix)
    }

    /**
     * save_preset: an unloaded preset is an error; an unmodified one is not
     * written.  Otherwise the archive is backed up (when asked and present),
     * rewritten in place with the cached document as preset.json and every
     * other member carried over, and only then marked unmodified.
     */
    method SavePreset(name: string, backup: bool) returns (r: Result<string>)
      modifies this, disk
      ensures searchDirs == old(searchDirs) && disk.dirs == old(disk.dirs)
      ensures name !in old(cache) ==>
        r.Err? && r.error.ValueError? && cache == old(cache) && disk.files == old(disk.files)
      ensures name in old(cache) && !old(cache)[name].modified ==>
        r == old(PresetPath(name)) && cache == old(cache) && disk.files == old(disk.files)
      ensures name in old(cache) && old(PresetPath(name)).Err? ==>
        r == old(PresetPath(name)) && cache == old(cache) && disk.files == old(disk.files)
      ensures name in old(cache) && old(cache)[name].modified && old(PresetPath(name)).Ok? ==>
        var path := old(PresetPath(name)).value;
        r.Ok? <==> old(disk.BackupFailure(path, BackupPath(path), backup)).None? && old(disk.ArchiveAt(path)).Ok?
      ensures name in old(cache) && old(cache)[name].modified && old(PresetPath(name)).Ok? && r.Err? ==>
        var path := old(PresetPath(name)).value;
        var failure := old(disk.BackupFailure(path, BackupPath(path), backup));
        && r.error == (if failure.Some? then failure.value else old(disk.ArchiveAt(path)).error)
        && disk.files == (if failure.Some? then old(disk.files) else old(disk.BackedUp(path, BackupPath(path), backup)))
      ensures r.Err? ==> cache == old(cache)
      ensures r.Ok? && old(cache)[name].modified ==>
        r == old(PresetPath(name))
        && cache == old(cache)[name := CacheEntry(old(cache)[name].data, false)]
        && old(disk.ArchiveAt(r.value)).Ok?
        && r.value in disk.files && disk.files[r.value].Archive?
        && IsRepack(old(disk.ArchiveAt(r.value)).value, old(cache)[name].data, disk.files[r.value].members)
        && disk.files == old(disk.BackedUp(r.value, BackupPath(r.value), backup))[r.value := disk.files[r.value]]
    {
      if name !in cache {
        return Err(ValueError("Preset '" + name + "' not loaded"));
      }
      var entry := cache[name];
      if !entry.modified {
        r := GetPresetPath(name);
        return;
      }
      var path :- GetPresetPath(name);
      var written := WriteBack(path, entry.data, backup);
      if written.Err? {
        return Err(written.error);
      }
      cache := cache[name := entry.(modified := false)];
      return Ok(path);
    }

    /**
     * The backup copy and the rewrite of the archive at path, for
     * save_preset.  It succeeds exactly when the backup (if one is made)
     * succeeds and the file opens as an archive; a failed backup changes
     * nothing, and an archive that does not open fails after the backup.
     */
    method WriteBack(path: string, data: Value, backup: bool) returns (r: Result<()>)
      modifies disk
      ensures disk.dirs == old(disk.dirs)
      ensures r.Ok? <==> old(disk.BackupFailure(path, BackupPath(path), backup)).None? && old(disk.ArchiveAt(path)).Ok?
      ensures r.Ok? ==>
        && path in disk.files && disk.files[path].Archive?
        && IsRepack(old(disk.ArchiveAt(path)).value, data, disk.files[path].members)
        && disk.files == old(disk.BackedUp(path, BackupPath(path), backup))[path := disk.files[path]]
      ensures old(disk.BackupFailure(path, BackupPath(path), backup)).Some? ==>
        r == Err(old(disk.BackupFailure(path, BackupPath(path), backup)).value) && disk.files == old(disk.files)
      ensures old(disk.BackupFailure(path, BackupPath(path), backup)).None? && old(disk.ArchiveAt(path)).Err? ==>
        r == Err(old(disk.ArchiveAt(path)).error) && disk.files == old(disk.BackedUp(path, BackupPath(path), backup))
    {
      ghost var before := disk.ArchiveAt(path);
      var copied := disk.Backup(path, BackupPath(path), backup);
      if copied.Err? {
        return Err(copied.error);
      }
      assert disk.ArchiveAt(path) == before;
      var ms :- disk.ArchiveAt(path);
      var out := Repack(ms, data);
      var written := disk.Write(path, Archive(out));
      assert written.Ok?;
      return Ok(());
    }

    /** The search directories and the disk as the listing sees them. */
    ghost function View(): Scan
      reads this, disk
    {
      Scan(searchDirs, disk.files, disk.dirs)
    }

    /** The loop shared by list_presets and list_presets_with_locations: the first location of each name. */
    method Collect() returns (r: seq<Location>)
      ensures forall i :: 0 <= i < |r| ==> FirstFound(View(), r[i])
      ensures forall i, j :: 0 <= i < j < |r| ==> r[i].name != r[j].name
      ensures forall n :: Available(View(), n) <==> n in LocNames(r)
    {
      ghost var v := View();
      r := [];
      ghost var at: seq<int> := [];
      for k := 0 to |searchDirs|
        invariant v == View()
        invariant Collected(v, k, k, r, at)
      {
        var dir := searchDirs[k];
        if disk.Exists(dir) {
          var ps := disk.Glob(dir, Extension);
          r, at := AddDir(v, k, dir, ps, r, at);
        } else {
          CollectedSkip(v, k, r, at);
        }
      }
      CollectedDone(v, r, at);
    }

    /** list_presets: the distinct preset names of all search directories, sorted. */
    method ListPresets() returns (r: seq<string>)
      ensures SortedBy(r, Itself)
      ensures forall n :: n in r <==> Available(View(), n)
      ensures forall i, j :: 0 <= i < j < |r| ==> r[i] != r[j]
    {
      var found := Collect();
      var names := LocNames(found);
      r := SortBy(names, Itself);
      SortedMembers(names, r);
      PermutationDistinct(names, r);
    }

    /** list_presets_with_locations: one location per name, the first directory's, sorted by name. */
    method ListPresetsWithLocations() returns (r: seq<Location>)
      ensures SortedBy(r, ByName)
      ensures forall l :: l in r ==> FirstFound(View(), l)
      ensures forall n :: Available(View(), n) <==> n in LocNames(r)
    {
      var found := Collect();
      r := SortBy(found, ByName);
      SortedLocations(found, r);
    }
  }

  /** A snapshot of the search directories and of the disk's files and folders. */
  datatype Scan = Scan(dirs: seq<string>, files: map<string, Content>, folders: set<string>)

  /** A '*.klwp' file directly inside an existing directory. */
  ghost predicate InDir(v: Scan, dir: string, p: string)
  {
    (dir in v.files || dir in v.folders) && p in v.files && InGlob(p, dir, Extension)
  }

  /** No directory before position k holds a preset with this name. */
  ghost predicate NoneBefore(v: Scan, k: int, n: string)
  {
    forall j, p :: 0 <= j < k && j < |v.dirs| && InDir(v, v.dirs[j], p) ==> BaseName(p) != n
  }

  /** The location is a real preset in directory k, and k is the first directory holding its name. */
  ghost predicate HeldAt(v: Scan, k: int, l: Location)
  {
    0 <= k < |v.dirs| && l.directory == v.dirs[k] && InDir(v, l.directory, l.path)
    && BaseName(l.path) == l.name && NoneBefore(v, k, l.name)
  }

  ghost predicate FirstFound(v: Scan, l: Location)
  {
    exists k :: HeldAt(v, k, l)
  }

  /** Some search directory holds a preset with this name. */
  ghost predicate Available(v: Scan, n: string)
  {
    exists j, p :: 0 <= j < |v.dirs| && InDir(v, v.dirs[j], p) && BaseName(p) == n
  }

  /**
   * What the listing loop has established after the directories before k
   * (locations may come from directories before lim): each location is the
   * first one of its name, names are distinct, and every name found so far
   * is listed.
   */
  ghost predicate Collected(v: Scan, k: int, lim: int, r: seq<Location>, at: seq<int>)
  {
    |at| == |r|
    && (forall i :: 0 <= i < |r| ==> at[i] < lim && HeldAt(v, at[i], r[i]))
    && (forall i, j :: 0 <= i < j < |r| ==> r[i].name != r[j].name)
    && (forall j, p :: 0 <= j < k && j < |v.dirs| && InDir(v, v.dirs[j], p) ==> BaseName(p) in LocNames(r))
  }

  /** Adding the first location of a new name keeps the loop's facts. */
  lemma CollectedSnoc(v: Scan, k: int, r: seq<Location>, at: seq<int>, l: Location)
    requires Collected(v, k, k + 1, r, at)
    requires HeldAt(v, k, l) && l.name !in LocNames(r)
    ensures Collected(v, k, k + 1, r + [l], at + [k])
    ensures LocNames(r + [l]) == LocNames(r) + [l.name]
  {
    var r' := r + [l];
    assert LocNames(r') == LocNames(r) + [l.name];
    forall i, j | 0 <= i < j < |r'|
      ensures r'[i].name != r'[j].name
    {
      if j == |r| {
        assert LocNames(r)[i] == r[i].name;
      }
    }
  }

  /** Once every preset of directory k is listed, the facts hold up to k + 1. */
  lemma CollectedNext(v: Scan, k: int, ps: seq<string>, r: seq<Location>, at: seq<int>)
    requires 0 <= k < |v.dirs|
    requires forall q :: q in ps <==> InDir(v, v.dirs[k], q)
    requires Collected(v, k, k + 1, r, at)
    requires forall q :: q in ps ==> BaseName(q) in LocNames(r)
    ensures Collected(v, k + 1, k + 1, r, at)
  {
  }

  /** A directory that does not exist adds nothing. */
  lemma CollectedSkip(v: Scan, k: int, r: seq<Location>, at: seq<int>)
    requires 0 <= k < |v.dirs| && v.dirs[k] !in v.files && v.dirs[k] !in v.folders
    requires Collected(v, k, k, r, at)
    ensures Collected(v, k + 1, k + 1, r, at)
  {
  }

  /** The inner loop's facts after the first m presets of directory k. */
  ghost predicate DirProgress(v: Scan, k: int, ps: seq<string>, m: int, r: seq<Location>, at: seq<int>)
    requires 0 <= m <= |ps|
  {
    Collected(v, k, k + 1, r, at) && forall q :: q in ps[..m] ==> BaseName(q) in LocNames(r)
  }

  /** One step of the inner loop: a new name is added with its location, a known one is skipped. */
  lemma DirStep(v: Scan, k: int, ps: seq<string>, m: int, r: seq<Location>, at: seq<int>)
    requires 0 <= k < |v.dirs| && 0 <= m < |ps|
    requires forall q :: q in ps <==> InDir(v, v.dirs[k], q)
    requires DirProgress(v, k, ps, m, r, at)
    ensures BaseName(ps[m]) in LocNames(r) ==> DirProgress(v, k, ps, m + 1, r, at)
    ensures BaseName(ps[m]) !in LocNames(r) ==>
      DirProgress(v, k, ps, m + 1, r + [Location(BaseName(ps[m]), v.dirs[k], ps[m])], at + [k])
  {
    var n := BaseName(ps[m]);
    if n !in LocNames(r) {
      var l := Location(n, v.dirs[k], ps[m]);
      NewHeld(v, k, ps, m, r, at);
      CollectedSnoc(v, k, r, at, l);
      PrefixNamed(ps, m, LocNames(r + [l]));
    } else {
      PrefixNamed(ps, m, LocNames(r));
    }
  }

  /** A preset of directory k whose name is not listed yet is held first by directory k. */
  lemma NewHeld(v: Scan, k: int, ps: seq<string>, m: int, r: seq<Location>, at: seq<int>)
    requires 0 <= k < |v.dirs| && 0 <= m < |ps|
    requires forall q :: q in ps <==> InDir(v, v.dirs[k], q)
    requires Collected(v, k, k + 1, r, at) && BaseName(ps[m]) !in LocNames(r)
    ensures HeldAt(v, k, Location(BaseName(ps[m]), v.dirs[k], ps[m]))
  {
    assert ps[m] in ps;
  }

  /** When every preset before position m and the one at m have listed names, so do the first m + 1. */
  lemma PrefixNamed(ps: seq<string>, m: int, names: seq<string>)
    requires 0 <= m < |ps|
    requires forall q :: q in ps[..m] ==> BaseName(q) in names
    requires BaseName(ps[m]) in names
    ensures forall q :: q in ps[..m + 1] ==> BaseName(q) in names
  {
    assert ps[..m + 1] == ps[..m] + [ps[m]];
  }

  /** The inner loop: adds the presets ps of directory k whose name is new. */
  method AddDir(ghost v: Scan, k: int, dir: string, ps: seq<string>, r0: seq<Location>, ghost at0: seq<int>)
    returns (r: seq<Location>, ghost at: seq<int>)
    requires 0 <= k < |v.dirs| && dir == v.dirs[k] && (dir in v.files || dir in v.folders)
    requires forall q :: q in ps <==> q in v.files && InGlob(q, dir, Extension)
    requires Collected(v, k, k, r0, at0)
    ensures Collected(v, k + 1, k + 1, r, at)
  {
    r, at := r0, at0;
    assert DirProgress(v, k, ps, 0, r, at);
    for m := 0 to |ps|
      invariant DirProgress(v, k, ps, m, r, at)
    {
      DirStep(v, k, ps, m, r, at);
      var n := BaseName(ps[m]);
      if n !in LocNames(r) {
        r := r + [Location(n, dir, ps[m])];
        at := at + [k];
      }
    }
    assert ps[..|ps|] == ps;
    CollectedNext(v, k, ps, r, at);
  }

  /** After the last directory, every location is the first of its name. */
  lemma CollectedDone(v: Scan, r: seq<Location>, at: seq<int>)
    requires Collected(v, |v.dirs|, |v.dirs|, r, at)
    ensures forall i :: 0 <= i < |r| ==> FirstFound(v, r[i])
    ensures forall n :: Available(v, n) <==> n in LocNames(r)
  {
    forall i | 0 <= i < |r|
      ensures FirstFound(v, r[i])
    {
      assert HeldAt(v, at[i], r[i]);
    }
    CollectedListed(v, r, at);
  }

  /** After the last directory, the listed names are exactly the available ones. */
  lemma CollectedListed(v: Scan, r: seq<Location>, at: seq<int>)
    requires Collected(v, |v.dirs|, |v.dirs|, r, at)
    ensures forall n :: Available(v, n) <==> n in LocNames(r)
  {
    forall n | n in LocNames(r)
      ensures Available(v, n)
    {
      var i :| 0 <= i < |r| && LocNames(r)[i] == n;
      var l, j := r[i], at[i];
      assert HeldAt(v, j, l);
      assert 0 <= j < |v.dirs| && InDir(v, v.dirs[j], l.path) && BaseName(l.path) == n;
    }
    forall n | Available(v, n)
      ensures n in LocNames(r)
    {
      var j, p :| 0 <= j < |v.dirs| && InDir(v, v.dirs[j], p) && BaseName(p) == n;
    }
  }

  /** A permutation of locations has the same elements and the same names. */
  lemma SortedLocations(s: seq<Location>, r: seq<Location>)
    requires multiset(r) == multiset(s)
    ensures forall l :: l in r <==> l in s
    ensures forall n :: n in LocNames(r) <==> n in LocNames(s)
  {
    SortedMembers(s, r);
    forall n
      ensures n in LocNames(r) <==> n in LocNames(s)
    {
      if n in LocNames(r) {
        var i :| 0 <= i < |r| && LocNames(r)[i] == n;
        assert r[i] in s;
        var j :| 0 <= j < |s| && s[j] == r[i];
        assert LocNames(s)[j] == n;
      }
      if n in LocNames(s) {
        var j :| 0 <= j < |s| && LocNames(s)[j] == n;
        assert s[j] in r;
        var i :| 0 <= i < |r| && r[i] == s[j];
        assert LocNames(r)[i] == n;
      }
    }
  }
}

=== FILE: kustom.dfy ===
// KustomHandler: one handler per Kustom preset type (klwp, klck, kwgt).  It
// reads preset.json out of a preset archive, writes a new archive that
// carries the other members over, extracts a visual style from a document,
// and builds a matching preset of another type from that style.
module Kustom {
  import opened Wrappers
  import opened Text
  import opened OrderedMap
  import opened Json
  import opened Paths
  import opened Files
  import opened JsonTree
  import opened Sorting

  const PresetFile := "preset.json"

  datatype TypeConfig = TypeConfig(extension: string, baseDir: string, appName: string, width: int, height: int)

  /** PRESET_TYPES */
  const PresetTypes: Dict<TypeConfig> := [
    Entry("klwp", TypeConfig(".klwp", "/storage/emulated/0/Kustom/wallpapers", "Live Wallpaper", 1080, 1920)),
    Entry("klck", TypeConfig(".klck", "/storage/emulated/0/Kustom/lockscreens", "Lock Screen", 1080, 1920)),
    Entry("kwgt", TypeConfig(".kwgt", "/storage/emulated/0/Kustom/widgets", "Widget", 400, 200))
  ]

  /** The known types are exactly klwp, klck and kwgt, each with its own extension. */
  lemma PresetTypesKnown(t: string)
    ensures HasKey(PresetTypes, t) <==> t in {"klwp", "klck", "kwgt"}
    ensures HasKey(PresetTypes, t) ==> GetOr(PresetTypes, t, TypeConfig("", "", "", 0, 0)).extension == "." + t
  {
  }

  // ----- the archive save_preset writes -----

  predicate IsPresetFile(name: string) { name == PresetFile }

  /** preset.json with the document, then the old archive's other members re-read. */
  function SavedMembers(data: Value, prior: Option<seq<Member>>): seq<Member>
  {
    Rewritten(Member(PresetFile, JsonText(data)), IsPresetFile, prior)
  }

  /** Reading preset.json back from a saved archive gives the saved document. */
  lemma SavedReadsBack(data: Value, prior: Option<seq<Member>>)
    ensures PresetFile in Names(SavedMembers(data, prior))
    ensures ParseJson(MemberBlob(SavedMembers(data, prior), PresetFile)) == Ok(data)
  {
    RewrittenReadsHead(Member(PresetFile, JsonText(data)), IsPresetFile, prior);
  }

  /** With distinct member names, a save keeps every other member of the old archive, byte for byte and in order. */
  lemma SavedKeepsOthers(data: Value, ms: seq<Member>)
    requires DistinctNames(ms)
    ensures SavedMembers(data, Some(ms)) == [Member(PresetFile, JsonText(data))] + Kept(ms, IsPresetFile)
    ensures forall x :: x in ms && x.name != PresetFile <==> x in Kept(ms, IsPresetFile)
  {
    CarryOverDistinct(ms, IsPresetFile);
    KeptComplete(ms, IsPresetFile);
  }

  // ----- _extract_visual_style -----

  const ColorKeys: seq<string> := ["color", "bgcolor", "stroke_color", "shadow_color"]
  const MaxDepth := 15

  /** The collected colours and fonts (sets) and shadow settings (in visiting order). */
  datatype Style = Style(colors: set<Value>, fonts: set<Value>, shadows: seq<Value>)

  const NoStyle := Style({}, {}, [])

  function Combine(a: Style, b: Style): Style
  {
    Style(a.colors + b.colors, a.fonts + b.fonts, a.shadows + b.shadows)
  }

  const Unhashable := TypeError("unhashable type")

  /** The truthy values of the colour keys present in the dict, in key order. */
  function ColorValues(v: Value, keys: seq<string>): (r: seq<Value>)
    ensures forall x :: x in r ==> Truthy(x)
    ensures forall x :: x in r <==> exists i :: 0 <= i < |keys| && Has(v, keys[i]) && Truthy(Field(v, keys[i])) && Field(v, keys[i]) == x
  {
    if keys == [] then []
    else (if Has(v, keys[0]) && Truthy(Field(v, keys[0])) then [Field(v, keys[0])] else []) + ColorValues(v, keys[1..])
  }

  /** What one dict adds: its truthy colours, its font, its truthy shadow.  Adding a list or dict to a set raises TypeError. */
  function OwnStyle(v: Value): (r: Result<Style>)
    ensures r.Err? <==> (exists x :: x in ColorValues(v, ColorKeys) && !Hashable(x)) || (Has(v, "font") && !Hashable(Field(v, "font")))
    ensures r.Err? ==> r.error == Unhashable
    ensures r.Ok? ==> forall x :: x in r.value.colors <==> x in ColorValues(v, ColorKeys)
    ensures r.Ok? ==> forall x :: x in r.value.colors ==> Hashable(x) && Truthy(x)
    ensures r.Ok? ==> forall x :: x in r.value.fonts <==> Has(v, "font") && x == Field(v, "font")
    ensures r.Ok? ==> forall x :: x in r.value.fonts ==> Hashable(x)
    ensures r.Ok? ==> |r.value.shadows| <= 1 && forall x :: x in r.value.shadows <==> Has(v, "shadow") && Truthy(Field(v, "shadow")) && x == Field(v, "shadow")
  {
    var cs := ColorValues(v, ColorKeys);
    if exists i :: 0 <= i < |cs| && !Hashable(cs[i]) then Err(Unhashable)
    else if Has(v, "font") && !Hashable(Field(v, "font")) then Err(Unhashable)
    else
      Ok(Style(set i | 0 <= i < |cs| :: cs[i],
               if Has(v, "font") then {Field(v, "font")} else {},
               if Has(v, "shadow") && Truthy(Field(v, "shadow")) then [Field(v, "shadow")] else []))
  }

  /** Two contributions in visiting order; the first failure wins. */
  function Then(a: Result<Style>, b: Result<Style>): Result<Style>
  {
    if a.Err? then a else if b.Err? then b else Ok(Combine(a.value, b.value))
  }

  lemma ThenAssoc(a: Result<Style>, b: Result<Style>, c: Result<Style>)
    ensures Then(Then(a, b), c) == Then(a, Then(b, c))
  {
    if a.Ok? && b.Ok? && c.Ok? {
      assert Combine(Combine(a.value, b.value), c.value) == Combine(a.value, Combine(b.value, c.value));
    }
  }

  lemma ThenNone(a: Result<Style>)
    ensures Then(a, Ok(NoStyle)) == a && Then(Ok(NoStyle), a) == a
  {
    if a.Ok? {
      assert Combine(a.value, NoStyle) == a.value;
      assert Combine(NoStyle, a.value) == a.value;
    }
  }

  /** traverse(obj, depth) */
  function Traverse(v: Value, depth: nat): Result<Style>
  {
    if depth > MaxDepth then Ok(NoStyle)
    else match v
      case Obj(fs) => Then(OwnStyle(v), TraverseFields(fs, depth + 1))
      case Arr(xs) => TraverseItems(xs, depth + 1)
      case _ => Ok(NoStyle)
  }

  /** The loop over obj.values(): only dicts and lists are visited. */
  function TraverseFields(fs: Dict<Value>, depth: nat): Result<Style>
  {
    if fs == [] then Ok(NoStyle)
    else Then(if fs[0].val.Obj? || fs[0].val.Arr? then Traverse(fs[0].val, depth) else Ok(NoStyle),
              TraverseFields(fs[1..], depth))
  }

  /** The loop over a list's items. */
  function TraverseItems(xs: seq<Value>, depth: nat): Result<Style>
  {
    if xs == [] then Ok(NoStyle) else Then(Traverse(xs[0], depth), TraverseItems(xs[1..], depth))
  }

  /** _extract_visual_style */
  function ExtractVisualStyle(data: Value): Result<Style>
  {
    Traverse(data, 0)
  }

  // The reference definition: list the dicts the traversal reaches, then add up their own contributions.

  /** The dicts reached from v at the given depth, each before its descendants; nothing deeper than MaxDepth. */
  function StyleDicts(v: Value, depth: nat): (r: seq<Value>)
    ensures forall x :: x in r ==> x.Obj?
    ensures depth > MaxDepth ==> r == []
  {
    if depth > MaxDepth then []
    else match v
      case Obj(fs) => [v] + StyleFieldDicts(fs, depth + 1)
      case Arr(xs) => StyleItemDicts(xs, depth + 1)
      case _ => []
  }

  function StyleFieldDicts(fs: Dict<Value>, depth: nat): (r: seq<Value>)
    ensures forall x :: x in r ==> x.Obj?
  {
    if fs == [] then [] else StyleDicts(fs[0].val, depth) + StyleFieldDicts(fs[1..], depth)
  }

  function StyleItemDicts(xs: seq<Value>, depth: nat): (r: seq<Value>)
    ensures forall x :: x in r ==> x.Obj?
  {
    if xs == [] then [] else StyleDicts(xs[0], depth) + StyleItemDicts(xs[1..], depth)
  }

  /** Adds up the own contributions of the dicts in order, failing at the first unhashable value. */
  function SumStyles(ns: seq<Value>): Result<Style>
  {
    if ns == [] then Ok(NoStyle) else Then(OwnStyle(ns[0]), SumStyles(ns[1..]))
  }

  lemma {:induction false} SumStylesConcat(a: seq<Value>, b: seq<Value>)
    ensures SumStyles(a + b) == Then(SumStyles(a), SumStyles(b))
  {
    if a == [] {
      assert a + b == b;
      ThenNone(SumStyles(b));
    } else {
      assert (a + b)[1..] == a[1..] + b;
      SumStylesConcat(a[1..], b);
      ThenAssoc(OwnStyle(a[0]), SumStyles(a[1..]), SumStyles(b));
    }
  }

  /** The traversal collects exactly what the reached dicts contribute, in the same order. */
  lemma {:induction false} TraverseSums(v: Value, depth: nat)
    ensures Traverse(v, depth) == SumStyles(StyleDicts(v, depth))
    decreases v, 1
  {
    if depth > MaxDepth {
      assert StyleDicts(v, depth) == [];
    } else if v.Obj? {
      TraverseObjSums(v.fields, depth);
    } else if v.Arr? {
      TraverseItemsSums(v.items, depth + 1);
      assert StyleDicts(v, depth) == StyleItemDicts(v.items, depth + 1);
    } else {
      assert Traverse(v, depth) == Ok(NoStyle);
      assert StyleDicts(v, depth) == [];
    }
  }

  lemma {:induction false} TraverseObjSums(fs: Dict<Value>, depth: nat)
    requires depth <= MaxDepth
    ensures Traverse(Obj(fs), depth) == SumStyles(StyleDicts(Obj(fs), depth))
    decreases Obj(fs), 0
  {
    var v := Obj(fs);
    var rest := StyleFieldDicts(fs, depth + 1);
    TraverseFieldsSums(fs, depth + 1);
    SumStylesConcat([v], rest);
    assert [v][1..] == [];
    ThenNone(OwnStyle(v));
    assert SumStyles([v]) == OwnStyle(v);
    assert StyleDicts(v, depth) == [v] + rest;
    assert Traverse(v, depth) == Then(OwnStyle(v), SumStyles(rest));
  }

  lemma {:induction false} TraverseFieldsSums(fs: Dict<Value>, depth: nat)
    ensures TraverseFields(fs, depth) == SumStyles(StyleFieldDicts(fs, depth))
  {
    if fs != [] {
      var v := fs[0].val;
      TraverseSums(v, depth);
      TraverseFieldsSums(fs[1..], depth);
      SumStylesConcat(StyleDicts(v, depth), StyleFieldDicts(fs[1..], depth));
    }
  }

  lemma {:induction false} TraverseItemsSums(xs: seq<Value>, depth: nat)
    ensures TraverseItems(xs, depth) == SumStyles(StyleItemDicts(xs, depth))
  {
    if xs != [] {
      TraverseSums(xs[0], depth);
      TraverseItemsSums(xs[1..], depth);
      SumStylesConcat(StyleDicts(xs[0], depth), StyleItemDicts(xs[1..], depth));
    }
  }

  /** list(s): the set's members, each once, in an order the runtime chooses. */
  method Enumerate(s: set<Value>) returns (xs: seq<Value>)
    ensures forall x :: x in xs <==> x in s
    ensures forall i, j :: 0 <= i < j < |xs| ==> xs[i] != xs[j]
  {
    var remaining := s;
    xs := [];
    while remaining != {}
      invariant forall x :: x in xs || x in remaining <==> x in s
      invariant forall x :: x in xs ==> x !in remaining
      invariant forall i, j :: 0 <= i < j < |xs| ==> xs[i] != xs[j]
      decreases remaining
    {
      var x :| x in remaining;
      xs := xs + [x];
      remaining := remaining - {x};
    }
  }

  // ----- the three layouts -----

  function Position(x: Value, y: Value): Value
  {
    Obj([Entry("x", x), Entry("y", y)])
  }

  /** style['colors'][i] if there is one, else the fallback. */
  function ColorAt(colors: seq<Value>, i: nat, fallback: string): Value
  {
    if |colors| > i then colors[i] else Str(fallback)
  }

  function FirstFont(fonts: seq<Value>): Value
  {
    if fonts != [] then fonts[0] else Str("Roboto")
  }

  // _create_lock_screen_layout: a clock, a date and a battery arc.

  function LockClock(colors: seq<Value>, fonts: seq<Value>): Value
  {
    Obj([Entry("type", Str("TEXT")), Entry("text", Str("$df(hh:mm)$")), Entry("font_size", Num(72)),
         Entry("color", ColorAt(colors, 0, "#FFFFFF")), Entry("font", FirstFont(fonts)),
         Entry("position", Position(Str("center"), Num(300)))])
  }

  function LockDate(colors: seq<Value>): Value
  {
    Obj([Entry("type", Str("TEXT")), Entry("text", Str("$df(EEEE, MMMM d)$")), Entry("font_size", Num(18)),
         Entry("color", ColorAt(colors, 1, "#CCCCCC")),
         Entry("position", Position(Str("center"), Num(400)))])
  }

  function LockBattery(colors: seq<Value>): Value
  {
    Obj([Entry("type", Str("SHAPE")), Entry("shape_type", Str("arc")),
         Entry("color", ColorAt(colors, 0, "#FFFFFF")), Entry("formula", Str("$bi(level)$")),
         Entry("position", Position(Str("center"), Num(600)))])
  }

  function LockScreenLayout(colors: seq<Value>, fonts: seq<Value>): Value
  {
    Obj([Entry("version", Num(1)),
         Entry("items", Arr([LockClock(colors, fonts), LockDate(colors), LockBattery(colors)]))])
  }

  // _create_widget_layout: a 400x200 rounded background and a clock.

  function WidgetBackground(colors: seq<Value>): Value
  {
    Obj([Entry("type", Str("SHAPE")), Entry("shape_type", Str("rectangle")),
         Entry("color", ColorAt(colors, 0, "#333333")), Entry("width", Num(400)), Entry("height", Num(200)),
         Entry("corner_radius", Num(20))])
  }

  function WidgetClock(colors: seq<Value>, fonts: seq<Value>): Value
  {
    Obj([Entry("type", Str("TEXT")), Entry("text", Str("$df(hh:mm)$")), Entry("font_size", Num(48)),
         Entry("color", ColorAt(colors, 1, "#FFFFFF")), Entry("font", FirstFont(fonts)),
         Entry("position", Position(Str("center"), Str("center")))])
  }

  function WidgetLayout(colors: seq<Value>, fonts: seq<Value>): Value
  {
    Obj([Entry("version", Num(1)), Entry("width", Num(400)), Entry("height", Num(200)),
         Entry("items", Arr([WidgetBackground(colors), WidgetClock(colors, fonts)]))])
  }

  // _create_wallpaper_layout: a 1080x1920 background, a clock and a date.

  function WallpaperBackground(colors: seq<Value>): Value
  {
    Obj([Entry("type", Str("SHAPE")), Entry("shape_type", Str("rectangle")),
         Entry("color", ColorAt(colors, 0, "#000000")), Entry("width", Num(1080)), Entry("height", Num(1920))])
  }

  function WallpaperClock(colors: seq<Value>, fonts: seq<Value>): Value
  {
    Obj([Entry("type", Str("TEXT")), Entry("text", Str("$df(hh:mm)$")), Entry("font_size", Num(96)),
         Entry("color", ColorAt(colors, 1, "#FFFFFF")), Entry("font", FirstFont(fonts)),
         Entry("position", Position(Str("center"), Num(800)))])
  }

  function WallpaperDate(colors: seq<Value>): Value
  {
    Obj([Entry("type", Str("TEXT")), Entry("text", Str("$df(EEEE, MMMM d)$")), Entry("font_size", Num(24)),
         Entry("color", ColorAt(colors, 1, "#CCCCCC")),
         Entry("position", Position(Str("center"), Num(920)))])
  }

  function WallpaperLayout(colors: seq<Value>, fonts: seq<Value>): Value
  {
    Obj([Entry("version", Num(1)), Entry("width", Num(1080)), Entry("height", Num(1920)),
         Entry("items", Arr([WallpaperBackground(colors), WallpaperClock(colors, fonts), WallpaperDate(colors)]))])
  }

  /** A key of an object reads back the value of its first entry. */
  lemma {:induction false} FieldOf(fs: Dict<Value>, i: int)
    requires 0 <= i < |fs| && forall j :: 0 <= j < i ==> fs[j].key != fs[i].key
    ensures Field(Obj(fs), fs[i].key) == fs[i].val
  {
    if i > 0 {
      FieldOf(fs[1..], i - 1);
    }
  }

  /** The items of a layout, and its size where it has one. */
  function Items(layout: Value): seq<Value>
  {
    if Field(layout, "items").Arr? then Field(layout, "items").items else []
  }

  lemma LockClockShape(colors: seq<Value>, fonts: seq<Value>)
    ensures Field(LockClock(colors, fonts), "type") == Str("TEXT")
    ensures Field(LockClock(colors, fonts), "color") == (if colors != [] then colors[0] else Str("#FFFFFF"))
    ensures Field(LockClock(colors, fonts), "font") == (if fonts != [] then fonts[0] else Str("Roboto"))
  {
    FieldOf(LockClock(colors, fonts).fields, 0);
    FieldOf(LockClock(colors, fonts).fields, 3);
    FieldOf(LockClock(colors, fonts).fields, 4);
  }

  lemma LockDateShape(colors: seq<Value>)
    ensures Field(LockDate(colors), "type") == Str("TEXT")
    ensures Field(LockDate(colors), "color") == (if |colors| > 1 then colors[1] else Str("#CCCCCC"))
  {
    FieldOf(LockDate(colors).fields, 0);
    FieldOf(LockDate(colors).fields, 3);
  }

  lemma LockBatteryShape(colors: seq<Value>)
    ensures Field(LockBattery(colors), "type") == Str("SHAPE")
    ensures Field(LockBattery(colors), "color") == (if colors != [] then colors[0] else Str("#FFFFFF"))
  {
    FieldOf(LockBattery(colors).fields, 0);
    FieldOf(LockBattery(colors).fields, 2);
  }

  /** The lock screen: a clock in the first colour and font, a date in the second colour, a battery arc in the first colour. */
  lemma LockScreenShape(colors: seq<Value>, fonts: seq<Value>)
    ensures var its := Items(LockScreenLayout(colors, fonts));
      |its| == 3
      && Field(its[0], "type") == Str("TEXT") && Field(its[1], "type") == Str("TEXT") && Field(its[2], "type") == Str("SHAPE")
      && Field(its[0], "color") == (if colors != [] then colors[0] else Str("#FFFFFF"))
      && Field(its[1], "color") == (if |colors| > 1 then colors[1] else Str("#CCCCCC"))
      && Field(its[2], "color") == (if colors != [] then colors[0] else Str("#FFFFFF"))
      && Field(its[0], "font") == (if fonts != [] then fonts[0] else Str("Roboto"))
  {
    FieldOf(LockScreenLayout(colors, fonts).fields, 1);
    assert Items(LockScreenLayout(colors, fonts)) == [LockClock(colors, fonts), LockDate(colors), LockBattery(colors)];
    LockClockShape(colors, fonts);
    LockDateShape(colors);
    LockBatteryShape(colors);
  }

  lemma WidgetBackgroundShape(colors: seq<Value>)
    ensures Field(WidgetBackground(colors), "type") == Str("SHAPE")
    ensures Field(WidgetBackground(colors), "color") == (if colors != [] then colors[0] else Str("#333333"))
  {
    FieldOf(WidgetBackground(colors).fields, 0);
    FieldOf(WidgetBackground(colors).fields, 2);
  }

  lemma WidgetClockShape(colors: seq<Value>, fonts: seq<Value>)
    ensures Field(WidgetClock(colors, fonts), "type") == Str("TEXT")
    ensures Field(WidgetClock(colors, fonts), "color") == (if |colors| > 1 then colors[1] else Str("#FFFFFF"))
    ensures Field(WidgetClock(colors, fonts), "font") == (if fonts != [] then fonts[0] else Str("Roboto"))
  {
    FieldOf(WidgetClock(colors, fonts).fields, 0);
    FieldOf(WidgetClock(colors, fonts).fields, 3);
    FieldOf(WidgetClock(colors, fonts).fields, 4);
  }

  /** The widget: 400x200, a background in the first colour, a clock in the second colour and the first font. */
  lemma WidgetShape(colors: seq<Value>, fonts: seq<Value>)
    ensures var r := WidgetLayout(colors, fonts);
      var its := Items(r);
      Field(r, "width") == Num(400) && Field(r, "height") == Num(200)
      && |its| == 2
      && Field(its[0], "type") == Str("SHAPE") && Field(its[1], "type") == Str("TEXT")
      && Field(its[0], "color") == (if colors != [] then colors[0] else Str("#333333"))
      && Field(its[1], "color") == (if |colors| > 1 then colors[1] else Str("#FFFFFF"))
      && Field(its[1], "font") == (if fonts != [] then fonts[0] else Str("Roboto"))
  {
    var r := WidgetLayout(colors, fonts);
    FieldOf(r.fields, 1);
    FieldOf(r.fields, 2);
    FieldOf(r.fields, 3);
    assert Items(r) == [WidgetBackground(colors), WidgetClock(colors, fonts)];
    WidgetBackgroundShape(colors);
    WidgetClockShape(colors, fonts);
  }

  lemma WallpaperBackgroundShape(colors: seq<Value>)
    ensures Field(WallpaperBackground(colors), "type") == Str("SHAPE")
    ensures Field(WallpaperBackground(colors), "color") == (if colors != [] then colors[0] else Str("#000000"))
  {
    FieldOf(WallpaperBackground(colors).fields, 0);
    FieldOf(WallpaperBackground(colors).fields, 2);
  }

  lemma WallpaperClockShape(colors: seq<Value>, fonts: seq<Value>)
    ensures Field(WallpaperClock(colors, fonts), "type") == Str("TEXT")
    ensures Field(WallpaperClock(colors, fonts), "color") == (if |colors| > 1 then colors[1] else Str("#FFFFFF"))
    ensures Field(WallpaperClock(colors, fonts), "font") == (if fonts != [] then fonts[0] else Str("Roboto"))
  {
    FieldOf(WallpaperClock(colors, fonts).fields, 0);
    FieldOf(WallpaperClock(colors, fonts).fields, 3);
    FieldOf(WallpaperClock(colors, fonts).fields, 4);
  }

  lemma WallpaperDateShape(colors: seq<Value>)
    ensures Field(WallpaperDate(colors), "type") == Str("TEXT")
    ensures Field(WallpaperDate(colors), "color") == (if |colors| > 1 then colors[1] else Str("#CCCCCC"))
  {
    FieldOf(WallpaperDate(colors).fields, 0);
    FieldOf(WallpaperDate(colors).fields, 3);
  }

  /** The wallpaper: 1080x1920, a background in the first colour, a clock and a date in the second colour. */
  lemma WallpaperShape(colors: seq<Value>, fonts: seq<Value>)
    ensures var r := WallpaperLayout(colors, fonts);
      var its := Items(r);
      Field(r, "width") == Num(1080) && Field(r, "height") == Num(1920)
      && |its| == 3
      && Field(its[0], "type") == Str("SHAPE") && Field(its[1], "type") == Str("TEXT") && Field(its[2], "type") == Str("TEXT")
      && Field(its[0], "color") == (if colors != [] then colors[0] else Str("#000000"))
      && Field(its[1], "color") == (if |colors| > 1 then colors[1] else Str("#FFFFFF"))
      && Field(its[2], "color") == (if |colors| > 1 then colors[1] else Str("#CCCCCC"))
      && Field(its[1], "font") == (if fonts != [] then fonts[0] else Str("Roboto"))
  {
    var r := WallpaperLayout(colors, fonts);
    FieldOf(r.fields, 1);
    FieldOf(r.fields, 2);
    FieldOf(r.fields, 3);
    assert Items(r) == [WallpaperBackground(colors), WallpaperClock(colors, fonts), WallpaperDate(colors)];
    WallpaperBackgroundShape(colors);
    WallpaperClockShape(colors, fonts);
    WallpaperDateShape(colors);
  }

  /** create_matching_preset's choice: klck gets the lock screen, kwgt the widget, any other type the wallpaper. */
  function LayoutFor(target: string, colors: seq<Value>, fonts: seq<Value>): (r: Value)
    ensures target == "klck" ==> r == LockScreenLayout(colors, fonts)
    ensures target == "kwgt" ==> r == WidgetLayout(colors, fonts)
    ensures target != "klck" && target != "kwgt" ==> r == WallpaperLayout(colors, fonts)
  {
    if target == "klck" then LockScreenLayout(colors, fonts)
    else if target == "kwgt" then WidgetLayout(colors, fonts)
    else WallpaperLayout(colors, fonts)
  }

  /** One entry of list_presets. */
  class KustomHandler {
    const presetType: string
    const config: TypeConfig
    const presetsDir: string
    var cache: map<string, CacheEntry>
    const disk: FileSystem

    constructor (t: string, disk0: FileSystem)
      requires HasKey(PresetTypes, t)
      ensures presetType == t && Get(PresetTypes, t) == Some(config) && presetsDir == config.baseDir
      ensures cache == map[] && disk == disk0
    {
      presetType := t;
      var c := GetOr(PresetTypes, t, TypeConfig("", "", "", 0, 0));
      config := c;
      presetsDir := c.baseDir;
      cache := map[];
      disk := disk0;
    }

    /** KustomHandler(preset_type): ValueError for a type outside PRESET_TYPES. */
    static method Create(t: string, disk0: FileSystem) returns (r: Result<KustomHandler>)
      ensures r.Ok? <==> t in {"klwp", "klck", "kwgt"}
      ensures r.Err? ==> r.error == ValueError("Invalid preset type: " + t)
      ensures r.Ok? ==> fresh(r.value) && r.value.presetType == t && r.value.cache == map[] && r.value.disk == disk0
      ensures r.Ok? ==> r.value.config.extension == "." + t
    {
      PresetTypesKnown(t);
      if !HasKey(PresetTypes, t) {
        return Err(ValueError("Invalid preset type: " + t));
      }
      var h := new KustomHandler(t, disk0);
      return Ok(h);
    }

    /** The archive path of a preset name (the extension is appended when missing). */
    function PathFor(name: string): string
    {
      Child(presetsDir, EnsureExtension(name, config.extension))
    }

    /** read_preset's outcome. */
    function LoadPreset(name: string): Result<Value>
      reads this, disk
    {
      var path := PathFor(name);
      if !disk.Exists(path) then Err(FileNotFound(path))
      else
        var ms :- disk.ArchiveAt(path);
        if PresetFile !in Names(ms) then Err(ValueError("No preset.json found in " + EnsureExtension(name, config.extension)))
        else ParseJson(MemberBlob(ms, PresetFile))
    }

    /** A preset file holding a saved archive loads as the saved document. */
    lemma LoadsSaved(name: string, data: Value, prior: Option<seq<Member>>)
      requires PathFor(name) in disk.files && disk.files[PathFor(name)] == Archive(SavedMembers(data, prior))
      ensures LoadPreset(name) == Ok(data)
    {
      var ms := SavedMembers(data, prior);
      assert disk.Exists(PathFor(name)) && disk.ArchiveAt(PathFor(name)) == Ok(ms);
      SavedReadsBack(data, prior);
    }

    /**
     * read_preset: a missing file is FileNotFoundError, an archive without
     * preset.json is ValueError; on success the document is cached, unmodified,
     * under the name with its extension.
     */
    method ReadPreset(name: string) returns (r: Result<Value>)
      modifies this
      ensures r == old(LoadPreset(name))
      ensures r.Ok? ==> cache == old(cache)[EnsureExtension(name, config.extension) := CacheEntry(r.value, false)]
      ensures r.Err? ==> cache == old(cache)
    {
      ghost var expected := LoadPreset(name);
      var file := EnsureExtension(name, config.extension);
      var path := Child(presetsDir, file);
      if !disk.Exists(path) {
        return Err(FileNotFound(path));
      }
      var ms :- disk.ArchiveAt(path);
      if PresetFile !in Names(ms) {
        return Err(ValueError("No preset.json found in " + file));
      }
      var data :- ParseJson(MemberBlob(ms, PresetFile));
      assert expected == Ok(data);
      cache := cache[file := CacheEntry(data, false)];
      return Ok(data);
    }

    /** Where save_preset copies the old preset: the extension replaced by '<ext>.backup'. */
    function BackupPath(path: string): string
    {
      WithSuffix(path, config.extension + ".backup")
    }

    /** Where save_preset writes the new archive before moving it over the preset. */
    function TempPath(path: string): string
    {
      WithSuffix(path, ".tmp")
    }

    /**
     * Whether save_preset raises: the backup copy fails, the '.tmp' sibling
     * cannot be opened for writing once the backup is made, or an existing
     * old file does not open as an archive.
     */
    predicate SaveFails(name: string, backup: bool)
      reads disk
    {
      var path := PathFor(name);
      || disk.BackupFailure(path, BackupPath(path), backup).Some?
      || !Writable(disk.BackedUp(path, BackupPath(path), backup), disk.dirs, TempPath(path))
      || disk.OldMembers(path).Err?
    }

    /**
     * save_preset: back up (when asked and the file exists), write preset.json
     * followed by the old archive's other members to the '.tmp' sibling, then
     * move it over the preset.  A failed backup, or a '.tmp' sibling that
     * cannot be written, fails before anything more is written; an old file
     * that is no archive fails after the '.tmp' file was written.
     */
    method SavePreset(name: string, data: Value, backup: bool) returns (r: Result<string>)
      modifies disk
      ensures disk.dirs == old(disk.dirs)
      ensures r.Err? <==> old(SaveFails(name, backup))
      ensures r.Ok? ==> r.value == PathFor(name)
      ensures var path := PathFor(name);
              r.Ok? ==>
                disk.files == (old(disk.BackedUp(path, BackupPath(path), backup)) - {TempPath(path)})[path := Archive(SavedMembers(data, old(disk.OldMembers(path)).value))]
      ensures var path := PathFor(name);
              var failure := old(disk.BackupFailure(path, BackupPath(path), backup));
              failure.Some? ==> r == Err(failure.value) && disk.files == old(disk.files)
      ensures var path := PathFor(name);
              var failure := old(disk.BackupFailure(path, BackupPath(path), backup));
              var backed := old(disk.BackedUp(path, BackupPath(path), backup));
              failure.None? && !Writable(backed, old(disk.dirs), TempPath(path)) ==>
                r == Err(WriteError(backed, old(disk.dirs), TempPath(path))) && disk.files == backed
      ensures var path := PathFor(name);
              var failure := old(disk.BackupFailure(path, BackupPath(path), backup));
              var backed := old(disk.BackedUp(path, BackupPath(path), backup));
              failure.None? && Writable(backed, old(disk.dirs), TempPath(path)) && r.Err? ==>
                r.error == old(disk.OldMembers(path)).error
                && disk.files == backed[TempPath(path) := Archive([Member(PresetFile, JsonText(data))])]
    {
      var path := Child(presetsDir, EnsureExtension(name, config.extension));
      ghost var before := disk.OldMembers(path);
      var copied := disk.Backup(path, BackupPath(path), backup);
      if copied.Err? {
        return Err(copied.error);
      }
      assert disk.OldMembers(path) == before;
      var written := disk.RewriteArchive(path, TempPath(path), Member(PresetFile, JsonText(data)), IsPresetFile);
      if written.Err? {
        return Err(written.error);
      }
      return Ok(path);
    }

    /** A preset file of this type directly inside the presets directory. */
    ghost predicate Listed(p: string)
      reads this, disk
    {
      disk.Exists(presetsDir) && p in disk.files && InGlob(p, presetsDir, config.extension)
    }

    function InfoOf(p: string): FileInfo
    {
      FileInfo(Stem(p), BaseName(p), p, presetType)
    }

    /**
     * What list_presets returns: one entry per preset file of this type,
     * describing that file, no file twice, sorted by lower-cased name; []
     * when the directory is missing.
     */
    ghost predicate IsListing(r: seq<FileInfo>)
      reads this, disk
    {
      SortedBy(r, LowerName)
      && (forall x :: x in r ==> Listed(x.path) && x == InfoOf(x.path))
      && (forall i, j :: 0 <= i < j < |r| ==> r[i].path != r[j].path)
      && (forall p :: Listed(p) ==> InfoOf(p) in r)
      && (!disk.Exists(presetsDir) ==> r == [])
    }

    /** list_presets */
    method ListPresets() returns (r: seq<FileInfo>)
      ensures IsListing(r)
    {
      if !disk.Exists(presetsDir) {
        return [];
      }
      var ps := disk.Glob(presetsDir, config.extension);
      var infos := MapInOrder(ps, InfoOf);
      r := SortBy(infos, LowerName);
      SortedListing(ps, infos, r);
    }

    /** A sorted permutation of the infos of the globbed files is the listing. */
    lemma SortedListing(ps: seq<string>, infos: seq<FileInfo>, r: seq<FileInfo>)
      requires disk.Exists(presetsDir)
      requires forall p :: p in ps <==> p in disk.files && InGlob(p, presetsDir, config.extension)
      requires forall i, j :: 0 <= i < j < |ps| ==> ps[i] != ps[j]
      requires |infos| == |ps| && forall k :: 0 <= k < |ps| ==> infos[k] == InfoOf(ps[k])
      requires SortedBy(r, LowerName) && multiset(r) == multiset(infos)
      ensures IsListing(r)
    {
      SortedMembers(infos, r);
      PermutationDistinct(infos, r);
      forall p | Listed(p)
        ensures InfoOf(p) in r
      {
        var k :| 0 <= k < |ps| && ps[k] == p;
        assert infos[k] == InfoOf(p);
      }
      forall x | x in r
        ensures Listed(x.path) && x == InfoOf(x.path)
      {
        var k :| 0 <= k < |infos| && infos[k] == x;
      }
    }

    /**
     * create_matching_preset: reads the source (caching it), extracts its
     * style, rejects a target outside PRESET_TYPES with KeyError, and builds
     * the target's layout from the style's colours and fonts in the order the
     * set conversion produced.
     */
    method CreateMatchingPreset(source: string, target: string)
      returns (r: Result<Value>, ghost colors: seq<Value>, ghost fonts: seq<Value>)
      modifies this
      ensures r.Ok? <==>
        old(LoadPreset(source)).Ok? && ExtractVisualStyle(old(LoadPreset(source)).value).Ok? && HasKey(PresetTypes, target)
      ensures old(LoadPreset(source)).Err? ==> r == Err(old(LoadPreset(source)).error) && cache == old(cache)
      ensures old(LoadPreset(source)).Ok? && ExtractVisualStyle(old(LoadPreset(source)).value).Err? ==>
        r == Err(ExtractVisualStyle(old(LoadPreset(source)).value).error)
      ensures old(LoadPreset(source)).Ok? ==>
        cache == old(cache)[EnsureExtension(source, config.extension) := CacheEntry(old(LoadPreset(source)).value, false)]
      ensures r.Ok? ==>
        old(LoadPreset(source)).Ok? && ExtractVisualStyle(old(LoadPreset(source)).value).Ok?
        && HasKey(PresetTypes, target)
        && (forall x :: x in colors <==> x in ExtractVisualStyle(old(LoadPreset(source)).value).value.colors)
        && (forall x :: x in fonts <==> x in ExtractVisualStyle(old(LoadPreset(source)).value).value.fonts)
        && (forall i, j :: 0 <= i < j < |colors| ==> colors[i] != colors[j])
        && (forall i, j :: 0 <= i < j < |fonts| ==> fonts[i] != fonts[j])
        && r.value == LayoutFor(target, colors, fonts)
      ensures old(LoadPreset(source)).Ok? && ExtractVisualStyle(old(LoadPreset(source)).value).Ok? && !HasKey(PresetTypes, target) ==>
        r == Err(KeyError(target))
    {
      colors, fonts := [], [];
      var data :- ReadPreset(source);
      var style :- ExtractVisualStyle(data);
      if !HasKey(PresetTypes, target) {
        return Err(KeyError(target)), colors, fonts;
      }
      var cs := Enumerate(style.colors);
      var fs := Enumerate(style.fonts);
      colors, fonts := cs, fs;
      return Ok(LayoutFor(target, cs, fs)), colors, fonts;
    }
  }
}

=== FILE: kustom_plugin.dfy ===
// KustomPlugin: the plugin that fronts the three Kustom handlers.  It picks a
// handler by the file's extension (else the current type), keeps its own
// document cache keyed by the name it was given, and edits element trees in
// the Kustom dialect of the element walk.
module KustomSuite {
  import opened Wrappers
  import opened Text
  import opened OrderedMap
  import opened Json
  import opened Files
  import opened JsonTree
  import opened Paths
  import opened Kustom

  const PluginName := "Kustom Suite Support"
  const PluginVersion := "1.0.0"
  const SupportedApp := "Kustom (KLWP/KLCK/KWGT)"
  const AppPackage := "org.kustom.wallpaper"

  /** get_element_types */
  const ElementTypes: seq<string> := ["TEXT", "SHAPE", "IMAGE", "OVERLAP", "KOMPONENT", "PROGRESS", "SERIES", "CURVE", "MAP"]

  const KnownTypes: set<string> := {"klwp", "klck", "kwgt"}

  /** The type a name's extension selects, if any. */
  function TypeOfName(name: string): (r: Option<string>)
    ensures r.Some? ==> r.value in KnownTypes && EndsWith(name, "." + r.value)
    ensures r.None? ==> forall t :: t in KnownTypes ==> !EndsWith(name, "." + t)
  {
    if EndsWith(name, ".klwp") then Some("klwp")
    else if EndsWith(name, ".klck") then Some("klck")
    else if EndsWith(name, ".kwgt") then Some("kwgt")
    else None
  }

  class KustomPlugin {
    const klwp: KustomHandler
    const klck: KustomHandler
    const kwgt: KustomHandler
    var currentType: string
    var cache: map<string, CacheEntry>
    const disk: FileSystem

    /** The three handlers are of their own types, on the plugin's file system; the current type is one of them. */
    ghost predicate Valid()
      reads this, klwp, klck, kwgt
    {
      currentType in KnownTypes
      && klwp.presetType == "klwp" && klck.presetType == "klck" && kwgt.presetType == "kwgt"
      && Get(PresetTypes, "klwp") == Some(klwp.config) && klwp.presetsDir == klwp.config.baseDir
      && Get(PresetTypes, "klck") == Some(klck.config) && klck.presetsDir == klck.config.baseDir
      && Get(PresetTypes, "kwgt") == Some(kwgt.config) && kwgt.presetsDir == kwgt.config.baseDir
      && klwp.disk == disk && klck.disk == disk && kwgt.disk == disk
    }

    constructor (disk0: FileSystem)
      ensures Valid() && fresh(klwp) && fresh(klck) && fresh(kwgt)
      ensures currentType == "klwp" && cache == map[] && disk == disk0
    {
      PresetTypesKnown("klwp");
      PresetTypesKnown("klck");
      PresetTypesKnown("kwgt");
      var a := new KustomHandler("klwp", disk0);
      var b := new KustomHandler("klck", disk0);
      var c := new KustomHandler("kwgt", disk0);
      klwp, klck, kwgt := a, b, c;
      currentType := "klwp";
      cache := map[];
      disk := disk0;
    }

    function Handler(t: string): KustomHandler
      reads this
    {
      if t == "klck" then klck else if t == "kwgt" then kwgt else klwp
    }

    /** The handler for a name: by its extension, else the current type's. */
    function HandlerFor(name: string): KustomHandler
      reads this
    {
      match TypeOfName(name)
      case Some(t) => Handler(t)
      case None => Handler(currentType)
    }

    /** The handler chosen for a name is the one whose type is named by its extension, else the current type. */
    lemma HandlerForType(name: string)
      requires Valid()
      ensures TypeOfName(name).Some? ==> HandlerFor(name).presetType == TypeOfName(name).value
      ensures TypeOfName(name).None? ==> HandlerFor(name).presetType == currentType
      ensures TypeOfName(name).Some? ==> EnsureExtension(name, HandlerFor(name).config.extension) == name
    {
    }

    /** is_app_installed: some handler's presets directory exists. */
    predicate IsAppInstalled()
      reads this, klwp, klck, kwgt, disk, klwp.disk, klck.disk, kwgt.disk
    {
      disk.Exists(klwp.presetsDir) || disk.Exists(klck.presetsDir) || disk.Exists(kwgt.presetsDir)
    }

    /** The apps count as installed exactly when one of the three Kustom folders is on the device. */
    lemma InstalledIffFolder()
      requires Valid()
      ensures IsAppInstalled() <==>
        disk.Exists("/storage/emulated/0/Kustom/wallpapers")
        || disk.Exists("/storage/emulated/0/Kustom/lockscreens")
        || disk.Exists("/storage/emulated/0/Kustom/widgets")
    {
    }

    /** get_config_directory */
    function ConfigDirectory(): string
      reads this, klwp, klck, kwgt
    {
      Handler(currentType).presetsDir
    }

    /** set_preset_type: only a known type is taken. */
    method SetPresetType(t: string)
      requires Valid()
      modifies this
      ensures Valid()
      ensures currentType == (if t in KnownTypes then t else old(currentType))
      ensures cache == old(cache)
    {
      if t == "klwp" || t == "klck" || t == "kwgt" {
        currentType := t;
      }
    }

    /** list_configs: the klwp, then the klck, then the kwgt presets. */
    method ListConfigs() returns (r: seq<FileInfo>, ghost a: seq<FileInfo>, ghost b: seq<FileInfo>, ghost c: seq<FileInfo>)
      ensures r == a + b + c
      ensures klwp.IsListing(a) && klck.IsListing(b) && kwgt.IsListing(c)
    {
      var x := klwp.ListPresets();
      var y := klck.ListPresets();
      var z := kwgt.ListPresets();
      a, b, c := x, y, z;
      r := x + y + z;
    }

    /** read_config's outcome. */
    function LoadConfig(name: string): Result<Value>
      reads this, klwp, klck, kwgt, disk, klwp.disk, klck.disk, kwgt.disk
    {
      HandlerFor(name).LoadPreset(name)
    }

    /** read_config: reads through the chosen handler and caches the document, unmodified, under the given name. */
    method ReadConfig(name: string) returns (r: Result<Value>)
      requires Valid()
      modifies this, klwp, klck, kwgt
      ensures Valid() && currentType == old(currentType)
      ensures r == old(LoadConfig(name))
      ensures r.Ok? ==> cache == old(cache)[name := CacheEntry(r.value, false)]
      ensures r.Err? ==> cache == old(cache)
    {
      var h := HandlerFor(name);
      r := h.ReadPreset(name);
      if r.Ok? {
        cache := cache[name := CacheEntry(r.value, false)];
      }
    }

    /** The document the element operations work on: the cached one, else a fresh read. */
    function Loaded(name: string): Result<Value>
      reads this, klwp, klck, kwgt, disk, klwp.disk, klck.disk, kwgt.disk
    {
      if name in cache && cache[name].data != Null then Ok(cache[name].data) else LoadConfig(name)
    }

    /** The cache after obtaining the document. */
    function AfterLoad(name: string): map<string, CacheEntry>
      reads this, klwp, klck, kwgt, disk, klwp.disk, klck.disk, kwgt.disk
    {
      if name in cache && cache[name].data != Null then cache
      else match LoadConfig(name)
        case Ok(v) => cache[name := CacheEntry(v, false)]
        case Err(_) => cache
    }

    method Load(name: string) returns (r: Result<Value>)
      requires Valid()
      modifies this, klwp, klck, kwgt
      ensures Valid() && currentType == old(currentType)
      ensures r == old(Loaded(name))
      ensures cache == old(AfterLoad(name))
    {
      if name in cache && cache[name].data != Null {
        return Ok(cache[name].data);
      }
      r := ReadConfig(name);
    }

    /** list_elements: the Kustom walk of the document from the root. */
    method ListElements(name: string, filter: Option<string>) returns (r: Result<seq<Descriptor>>)
      requires Valid()
      modifies this, klwp, klck, kwgt
      ensures Valid() && currentType == old(currentType)
      ensures old(Loaded(name)).Err? ==> r == Err(old(Loaded(name)).error)
      ensures old(Loaded(name)).Ok? ==> r == Ok(Walk(Kustom, old(Loaded(name)).value, filter, ""))
      ensures cache == old(AfterLoad(name))
    {
      var data :- Load(name);
      return Ok(Walk(Kustom, data, filter, ""));
    }

    /** find_element: the listed elements whose id, text or type mentions the term, case-insensitively. */
    method FindElement(name: string, term: string) returns (r: Result<seq<Descriptor>>)
      requires Valid()
      modifies this, klwp, klck, kwgt
      ensures Valid() && currentType == old(currentType)
      ensures old(Loaded(name)).Err? ==> r == Err(old(Loaded(name)).error)
      ensures old(Loaded(name)).Ok? ==> r == Ok(Search(Kustom, Walk(Kustom, old(Loaded(name)).value, None, ""), term))
      ensures cache == old(AfterLoad(name))
    {
      var all :- ListElements(name, None);
      var matching := FindMatching(Kustom, all, term);
      return Ok(matching);
    }

    /**
     * modify_element: merges the properties into the first dict, in walk
     * order, whose id is the target, and marks the cached document modified.
     * A miss is ValueError.
     */
    method ModifyElement(name: string, target: string, props: Dict<Value>) returns (r: Result<Value>)
      requires Valid()
      modifies this, klwp, klck, kwgt
      ensures Valid() && currentType == old(currentType)
      ensures old(Loaded(name)).Err? ==> r == Err(old(Loaded(name)).error) && cache == old(cache)
      ensures old(Loaded(name)).Ok? && !AnyTarget(Kustom, Nodes(old(Loaded(name)).value), target) ==>
        r == Err(ValueError("Element '" + target + "' not found")) && cache == old(AfterLoad(name))
      ensures old(Loaded(name)).Ok? && AnyTarget(Kustom, Nodes(old(Loaded(name)).value), target) ==>
        r == Ok(Merged(FirstTarget(Kustom, Nodes(old(Loaded(name)).value), target), props))
        && cache == old(AfterLoad(name))[name := CacheEntry(Update(Kustom, old(Loaded(name)).value, target, props).1, true)]
    {
      var data :- Load(name);
      UpdateFinds(Kustom, data, target, props);
      var (found, data') := Update(Kustom, data, target, props);
      if found.None? {
        return Err(ValueError("Element '" + target + "' not found"));
      }
      cache := cache[name := CacheEntry(data', true)];
      return Ok(found.value);
    }

    /** After a save, the document read back under the name is the one saved. */
    lemma ReadsBackSaved(name: string, data: Value, prior: Option<seq<Member>>)
      requires Valid() && name !in cache
      requires HandlerFor(name).PathFor(name) in disk.files
      requires disk.files[HandlerFor(name).PathFor(name)] == Archive(SavedMembers(data, prior))
      ensures Loaded(name) == Ok(data)
    {
      var h := HandlerFor(name);
      assert h.disk == disk;
      h.LoadsSaved(name, data, prior);
    }

    /** save_config: saves through the chosen handler, then drops the cache entry. */
    method SaveConfig(name: string, data: Value, backup: bool) returns (r: Result<string>)
      requires Valid()
      modifies this, disk
      ensures Valid() && currentType == old(currentType)
      ensures r.Err? <==> old(HandlerFor(name).SaveFails(name, backup))
      ensures r.Ok? ==> r.value == HandlerFor(name).PathFor(name) && cache == old(cache) - {name}
      ensures r.Err? ==> cache == old(cache)
      ensures r.Ok? ==> Loaded(name) == Ok(data)
    {
      var h := HandlerFor(name);
      ghost var prior := disk.OldMembers(h.PathFor(name));
      r := h.SavePreset(name, data, backup);
      if r.Err? {
        return;
      }
      cache := cache - {name};
      ReadsBackSaved(name, data, prior.value);
    }
  }
}

=== FILE: onboarding.dfy ===
// Onboarding: the first-run flow.  Each step's completion is a flag in the
// store, and the current step is the first one whose flag is not truthy:
// backend, model, directory, workflow, then complete.
module Onboarding {
  import opened Json
  import opened Storage
  import opened Files

  const CompleteKey := "onboarding_complete"
  const BackendKey := "backend_selected"
  const BackendConfigKey := "backend_config"
  const ModelKey := "model_loaded"
  const ModelInfoKey := "model_info"
  const DirectoryKey := "klwp_directory"
  const WorkflowKey := "workflow_shown"
  const VoiceKey := "voice_enabled"

  datatype Step = BackendStep | ModelStep | DirectoryStep | WorkflowStep | CompleteStep
  {
    /** The step name get_current_step returns. */
    function Name(): string
    {
      match this
      case BackendStep => "backend"
      case ModelStep => "model"
      case DirectoryStep => "directory"
      case WorkflowStep => "workflow"
      case CompleteStep => "complete"
    }

    /** How far along the flow the step is. */
    function Rank(): nat
    {
      match this
      case BackendStep => 0
      case ModelStep => 1
      case DirectoryStep => 2
      case WorkflowStep => 3
      case CompleteStep => 4
    }
  }

  /** Distinct steps have distinct names. */
  lemma NamesDistinct(s: Step, t: Step)
    requires s != t
    ensures s.Name() != t.Name()
  {
    assert s.Rank() != t.Rank();
  }

  /** What get_onboarding_progress reports; the stored values are returned as they are. */
  datatype Progress = Progress(complete: Value, currentStep: string, backend: Value, modelLoaded: Value,
                               directory: Value, workflowShown: Value, voiceEnabled: Value)

  class OnboardingManager {
    const storage: Store

    constructor (storage0: Store)
      ensures storage == storage0
    {
      storage := storage0;
    }

    /** is_onboarding_complete */
    function IsOnboardingComplete(): Value
      reads storage
    {
      storage.Get(CompleteKey, Bool(false))
    }

    /** get_current_step: 'complete' when so marked, otherwise the first step not done. */
    function CurrentStep(): (r: Step)
      reads storage
      ensures r == CompleteStep <==>
        Truthy(IsOnboardingComplete())
        || (Truthy(storage.Get(BackendKey, Bool(false))) && Truthy(storage.Get(ModelKey, Bool(false)))
            && Truthy(KlwpDirectory()) && Truthy(storage.Get(WorkflowKey, Bool(false))))
      ensures r == BackendStep <==> !Truthy(IsOnboardingComplete()) && !Truthy(storage.Get(BackendKey, Bool(false)))
      ensures r.Rank() > 0 && !Truthy(IsOnboardingComplete()) ==> Truthy(storage.Get(BackendKey, Bool(false)))
      ensures r.Rank() > 1 && !Truthy(IsOnboardingComplete()) ==> Truthy(storage.Get(ModelKey, Bool(false)))
      ensures r.Rank() > 2 && !Truthy(IsOnboardingComplete()) ==> Truthy(KlwpDirectory())
    {
      if Truthy(IsOnboardingComplete()) then CompleteStep
      else if !Truthy(storage.Get(BackendKey, Bool(false))) then BackendStep
      else if !Truthy(storage.Get(ModelKey, Bool(false))) then ModelStep
      else if !Truthy(KlwpDirectory()) then DirectoryStep
      else if !Truthy(storage.Get(WorkflowKey, Bool(false))) then WorkflowStep
      else CompleteStep
    }

    /**
     * complete_backend_selection: records the backend and its configuration.
     * A non-empty backend name never moves the flow backwards and leaves the
     * backend step behind; an empty one is falsy and leaves it pending.
     */
    method CompleteBackendSelection(backend: string, config: Value)
      modifies storage
      ensures storage.data == old(storage.data)[BackendKey := Str(backend)][BackendConfigKey := config]
      ensures backend != "" ==> CurrentStep().Rank() >= old(CurrentStep()).Rank() && CurrentStep() != BackendStep
      ensures backend == "" && !Truthy(IsOnboardingComplete()) ==> CurrentStep() == BackendStep
    {
      storage.Set(BackendKey, Str(backend));
      storage.Set(BackendConfigKey, config);
    }

    /** complete_model_setup: marks the model loaded and records its description. */
    method CompleteModelSetup(modelInfo: Value)
      modifies storage
      ensures storage.data == old(storage.data)[ModelKey := Bool(true)][ModelInfoKey := modelInfo]
      ensures CurrentStep().Rank() >= old(CurrentStep()).Rank()
      ensures old(CurrentStep()) == ModelStep ==> CurrentStep().Rank() > ModelStep.Rank()
    {
      storage.Set(ModelKey, Bool(true));
      storage.Set(ModelInfoKey, modelInfo);
    }

    /** set_klwp_directory: a non-empty path never moves the flow backwards. */
    method SetKlwpDirectory(directory: string)
      modifies storage
      ensures storage.data == old(storage.data)[DirectoryKey := Str(directory)]
      ensures KlwpDirectory() == Str(directory)
      ensures directory != "" ==> CurrentStep().Rank() >= old(CurrentStep()).Rank()
      ensures directory != "" && old(CurrentStep()) == DirectoryStep ==> CurrentStep().Rank() > DirectoryStep.Rank()
    {
      storage.Set(DirectoryKey, Str(directory));
    }

    /** get_klwp_directory: the stored directory, or None. */
    function KlwpDirectory(): Value
      reads storage
    {
      storage.Get(DirectoryKey, Null)
    }

    /** complete_workflow_intro: the workflow step is done and the voice button appears. */
    method CompleteWorkflowIntro()
      modifies storage
      ensures storage.data == old(storage.data)[WorkflowKey := Bool(true)]
      ensures CurrentStep().Rank() >= old(CurrentStep()).Rank()
      ensures old(CurrentStep()) == WorkflowStep ==> CurrentStep() == CompleteStep
      ensures ShouldShowVoiceButton()
    {
      storage.Set(WorkflowKey, Bool(true));
    }

    /** complete_onboarding: the flow is complete whatever else is stored. */
    method CompleteOnboarding()
      modifies storage
      ensures storage.data == old(storage.data)[CompleteKey := Bool(true)]
      ensures CurrentStep() == CompleteStep
    {
      storage.Set(CompleteKey, Bool(true));
    }

    /** Doing the four steps in order, with a non-empty backend and directory, completes the flow from any state. */
    method RunFlow(backend: string, config: Value, modelInfo: Value, directory: string)
      requires backend != "" && directory != ""
      modifies storage
      ensures CurrentStep() == CompleteStep
    {
      CompleteBackendSelection(backend, config);
      CompleteModelSetup(modelInfo);
      SetKlwpDirectory(directory);
      CompleteWorkflowIntro();
    }

    /** should_show_voice_button: the workflow intro was shown. */
    predicate ShouldShowVoiceButton()
      reads storage
    {
      Truthy(storage.Get(WorkflowKey, Bool(false)))
    }

    /** has_voice_opt_in */
    predicate HasVoiceOptIn()
      reads storage
    {
      Truthy(storage.Get(VoiceKey, Bool(false)))
    }

    /** enable_voice */
    method EnableVoice()
      modifies storage
      ensures storage.data == old(storage.data)[VoiceKey := Bool(true)]
      ensures HasVoiceOptIn() && CurrentStep() == old(CurrentStep())
    {
      storage.Set(VoiceKey, Bool(true));
    }

    /** disable_voice */
    method DisableVoice()
      modifies storage
      ensures storage.data == old(storage.data)[VoiceKey := Bool(false)]
      ensures !HasVoiceOptIn() && CurrentStep() == old(CurrentStep())
    {
      storage.Set(VoiceKey, Bool(false));
    }

    /** get_onboarding_progress */
    function OnboardingProgress(): (r: Progress)
      reads storage
      ensures r.currentStep == CurrentStep().Name()
      ensures r.currentStep == "complete" <==> CurrentStep() == CompleteStep
      ensures r.complete == IsOnboardingComplete() && r.directory == KlwpDirectory()
      ensures r.backend == storage.Get(BackendKey, Null)
      ensures Truthy(r.workflowShown) == ShouldShowVoiceButton() && Truthy(r.voiceEnabled) == HasVoiceOptIn()
      ensures r.modelLoaded == storage.Get(ModelKey, Bool(false))
    {
      NamesOfComplete(CurrentStep());
      Progress(IsOnboardingComplete(), CurrentStep().Name(), storage.Get(BackendKey, Null),
               storage.Get(ModelKey, Bool(false)), KlwpDirectory(), storage.Get(WorkflowKey, Bool(false)),
               storage.Get(VoiceKey, Bool(false)))
    }

    /** reset_onboarding: back to the backend step, with the voice button hidden and voice off. */
    method ResetOnboarding()
      modifies storage
      ensures storage.data == old(storage.data)[CompleteKey := Bool(false)][BackendKey := Bool(false)][ModelKey := Bool(false)]
                                [DirectoryKey := Null][WorkflowKey := Bool(false)][VoiceKey := Bool(false)]
      ensures CurrentStep() == BackendStep && !ShouldShowVoiceButton() && !HasVoiceOptIn()
      ensures KlwpDirectory() == Null
    {
      storage.Set(CompleteKey, Bool(false));
      storage.Set(BackendKey, Bool(false));
      storage.Set(ModelKey, Bool(false));
      storage.Set(DirectoryKey, Null);
      storage.Set(WorkflowKey, Bool(false));
      storage.Set(VoiceKey, Bool(false));
    }
  }

  /** Only the complete step is named 'complete'. */
  lemma NamesOfComplete(s: Step)
    ensures s.Name() == "complete" <==> s == CompleteStep
  {
    if s != CompleteStep {
      NamesDistinct(s, CompleteStep);
    }
  }

  /** OnboardingMessages.model_loading: one message per known backend, a generic one otherwise. */
  function ModelLoading(backend: string): (r: string)
    ensures r == "Setting up AI backend..." <==> backend !in {"local", "ssh", "api"}
  {
    if backend == "local" then "Loading on-device model... This may take a moment on first run."
    else if backend == "ssh" then "Connecting to your home server..."
    else if backend == "api" then "Connecting to cloud API..."
    else "Setting up AI backend..."
  }

  /** The three Kustom folders the default directories cover. */
  const KustomFolders := ["wallpapers", "lockscreens", "widgets"]

  /**
   * OnboardingMessages.get_default_directories: each Kustom folder under
   * /sdcard, then the same folder under /storage/emulated/0.
   */
  function DefaultDirectories(): (r: seq<string>)
    ensures |r| == 6
    ensures forall i :: 0 <= i < 3 ==>
              r[2 * i] == "/sdcard/Kustom/" + KustomFolders[i] && r[2 * i + 1] == "/storage/emulated/0/Kustom/" + KustomFolders[i]
  {
    var r := [
      "/sdcard/Kustom/wallpapers",
      "/storage/emulated/0/Kustom/wallpapers",
      "/sdcard/Kustom/lockscreens",
      "/storage/emulated/0/Kustom/lockscreens",
      "/sdcard/Kustom/widgets",
      "/storage/emulated/0/Kustom/widgets"
    ];
    r
  }

  /** OnboardingMessages.validate_directory: the path exists and is a directory. */
  function ValidateDirectory(disk: FileSystem, path: string): (r: bool)
    reads disk
    ensures r <==> disk.Exists(path) && path in disk.dirs
    ensures !disk.Exists(path) ==> !r
  {
    path in disk.dirs
  }
}

=== FILE: ordered_map.dfy ===
// Python's insertion-ordered dict as a sequence of entries: lookup finds the
// first entry with the key, assignment replaces that entry in place or appends
// a new one, and update() assigns the argument's entries in order.
module OrderedMap {
  import opened Wrappers

  datatype Entry<V> = Entry(key: string, val: V)

  type Dict<V> = seq<Entry<V>>

  function Keys<V>(d: Dict<V>): (r: seq<string>)
    ensures |r| == |d|
    ensures forall i {:trigger r[i]} :: 0 <= i < |d| ==> r[i] == d[i].key
  {
    if d == [] then [] else [d[0].key] + Keys(d[1..])
  }

  predicate HasKey<V>(d: Dict<V>, k: string)
  {
    k in Keys(d)
  }

  /** Every key occurs once, as in every Python dict. */
  predicate UniqueKeys<V>(d: Dict<V>)
  {
    forall i, j :: 0 <= i < j < |d| ==> d[i].key != d[j].key
  }

  /** d.get(k) */
  function Get<V>(d: Dict<V>, k: string): (r: Option<V>)
    ensures r.Some? <==> HasKey(d, k)
  {
    if d == [] then None
    else if d[0].key == k then Some(d[0].val)
    else Get(d[1..], k)
  }

  /** d.get(k, default) */
  function GetOr<V>(d: Dict<V>, k: string, default: V): V
  {
    match Get(d, k)
    case Some(v) => v
    case None => default
  }

  /** d[k] = v */
  function Put<V>(d: Dict<V>, k: string, v: V): (r: Dict<V>)
    ensures Get(r, k) == Some(v)
    ensures forall k' :: k' != k ==> Get(r, k') == Get(d, k')
  {
    if d == [] then [Entry(k, v)]
    else if d[0].key == k then [Entry(k, v)] + d[1..]
    else [d[0]] + Put(d[1..], k, v)
  }

  /** Assignment keeps an existing key in its place and appends a new one. */
  lemma {:induction false} PutKeys<V>(d: Dict<V>, k: string, v: V)
    ensures HasKey(d, k) ==> Keys(Put(d, k, v)) == Keys(d)
    ensures !HasKey(d, k) ==> Keys(Put(d, k, v)) == Keys(d) + [k]
  {
    if d != [] {
      assert Keys(d) == [d[0].key] + Keys(d[1..]);
      if d[0].key != k {
        PutKeys(d[1..], k, v);
        assert Keys(Put(d, k, v)) == [d[0].key] + Keys(Put(d[1..], k, v));
      } else {
        assert Keys(Put(d, k, v)) == [k] + Keys(d[1..]);
      }
    }
  }

  /** Assigning a key twice leaves the dict as the second assignment alone would. */
  lemma {:induction false} PutPut<V>(d: Dict<V>, k: string, v: V, w: V)
    ensures Put(Put(d, k, v), k, w) == Put(d, k, w)
  {
    if d != [] && d[0].key != k {
      PutPut(d[1..], k, v, w);
    }
  }

  /** Assigning a new key appends its entry at the end. */
  lemma {:induction false} PutAbsent<V>(d: Dict<V>, k: string, v: V)
    requires !HasKey(d, k)
    ensures Put(d, k, v) == d + [Entry(k, v)]
  {
    if d != [] {
      assert Keys(d) == [d[0].key] + Keys(d[1..]);
      PutAbsent(d[1..], k, v);
      assert d == [d[0]] + d[1..];
    }
  }

  /** Lookup finds an entry whose key no earlier entry has. */
  lemma {:induction false} GetFirst<V>(d: Dict<V>, i: int)
    requires 0 <= i < |d| && forall j :: 0 <= j < i ==> d[j].key != d[i].key
    ensures Get(d, d[i].key) == Some(d[i].val)
  {
    if i > 0 {
      GetFirst(d[1..], i - 1);
    }
  }

  /** A key is in two dicts put together exactly when it is in one of them. */
  lemma HasKeyAppend<V>(d: Dict<V>, e: Dict<V>, k: string)
    ensures HasKey(d + e, k) <==> HasKey(d, k) || HasKey(e, k)
  {
    assert Keys(d + e) == Keys(d) + Keys(e);
  }

  /** Lookup in two dicts laid end to end finds the first one's entry when it has the key. */
  lemma {:induction false} GetAppend<V>(d: Dict<V>, e: Dict<V>, k: string)
    ensures Get(d + e, k) == if HasKey(d, k) then Get(d, k) else Get(e, k)
  {
    if d == [] {
      assert d + e == e;
    } else {
      assert Keys(d) == [d[0].key] + Keys(d[1..]);
      assert (d + e)[1..] == d[1..] + e;
      GetAppend(d[1..], e, k);
    }
  }

  /** d.update(p) */
  function Merge<V>(d: Dict<V>, p: Dict<V>): Dict<V>
    decreases p
  {
    if p == [] then d else Merge(Put(d, p[0].key, p[0].val), p[1..])
  }

  /** del d[k] (a no-op when k is absent). */
  function Remove<V>(d: Dict<V>, k: string): (r: Dict<V>)
    ensures !HasKey(r, k)
    ensures forall k' :: k' != k ==> Get(r, k') == Get(d, k')
  {
    if d == [] then []
    else if d[0].key == k then Remove(d[1..], k)
    else [d[0]] + Remove(d[1..], k)
  }

  lemma {:induction false} GetUnique<V>(d: Dict<V>, i: int)
    requires UniqueKeys(d) && 0 <= i < |d|
    ensures Get(d, d[i].key) == Some(d[i].val)
  {
    if i > 0 {
      GetUnique(d[1..], i - 1);
    }
  }

  lemma UniqueByKeys<V>(d: Dict<V>, e: Dict<V>)
    requires Keys(d) == Keys(e) && UniqueKeys(d)
    ensures UniqueKeys(e)
  {
    forall i, j | 0 <= i < j < |e| ensures e[i].key != e[j].key {
      assert e[i].key == Keys(e)[i] == d[i].key;
      assert e[j].key == Keys(e)[j] == d[j].key;
    }
  }

  /** Two duplicate-free dicts with the same key order and the same lookups are equal. */
  lemma Extensionality<V>(d: Dict<V>, e: Dict<V>)
    requires UniqueKeys(d) && Keys(d) == Keys(e)
    requires forall k :: Get(d, k) == Get(e, k)
    ensures d == e
  {
    UniqueByKeys(d, e);
    forall i | 0 <= i < |d| ensures d[i] == e[i] {
      assert d[i].key == Keys(d)[i] == e[i].key;
      GetUnique(d, i);
      GetUnique(e, i);
    }
  }

  lemma PutUnique<V>(d: Dict<V>, k: string, v: V)
    requires UniqueKeys(d)
    ensures UniqueKeys(Put(d, k, v))
  {
    var r := Put(d, k, v);
    PutKeys(d, k, v);
    if HasKey(d, k) {
      UniqueByKeys(d, r);
    } else {
      forall i, j | 0 <= i < j < |r| ensures r[i].key != r[j].key {
        assert r[i].key == Keys(r)[i];
        assert r[j].key == Keys(r)[j];
        if j == |d| {
          assert Keys(d)[i] != k;
        } else {
          assert Keys(r)[i] == Keys(d)[i] && Keys(r)[j] == Keys(d)[j];
        }
      }
    }
  }

  /** update() keeps keys unique. */
  lemma {:induction false} MergeUnique<V>(d: Dict<V>, p: Dict<V>)
    requires UniqueKeys(d)
    ensures UniqueKeys(Merge(d, p))
    decreases p
  {
    if p != [] {
      PutUnique(d, p[0].key, p[0].val);
      MergeUnique(Put(d, p[0].key, p[0].val), p[1..]);
    }
  }

  /** After update(p) every key of p maps to p's value and every other key is untouched. */
  lemma {:induction false} MergeGet<V>(d: Dict<V>, p: Dict<V>, k: string)
    requires UniqueKeys(p)
    ensures Get(Merge(d, p), k) == if HasKey(p, k) then Get(p, k) else Get(d, k)
    decreases p
  {
    if p != [] {
      var d' := Put(d, p[0].key, p[0].val);
      assert UniqueKeys(p[1..]);
      MergeGet(d', p[1..], k);
      if k != p[0].key {
        assert HasKey(p, k) == HasKey(p[1..], k) by {
          assert Keys(p) == [p[0].key] + Keys(p[1..]);
        }
      } else {
        assert !HasKey(p[1..], k) by {
          forall j | 0 <= j < |p[1..]| ensures Keys(p[1..])[j] != k {
            assert p[1..][j] == p[j + 1];
          }
        }
      }
    }
  }

  /** update(p) keeps the existing keys in place and appends the new ones. */
  lemma {:induction false} MergeKeysPrefix<V>(d: Dict<V>, p: Dict<V>)
    ensures Keys(d) <= Keys(Merge(d, p))
    ensures forall k :: HasKey(Merge(d, p), k) <==> HasKey(d, k) || HasKey(p, k)
    decreases p
  {
    if p != [] {
      var d' := Put(d, p[0].key, p[0].val);
      PutKeys(d, p[0].key, p[0].val);
      MergeKeysPrefix(d', p[1..]);
      assert Keys(p) == [p[0].key] + Keys(p[1..]);
    }
  }

  /** update(p) with keys that are all present changes no key position. */
  lemma {:induction false} MergeKeysPresent<V>(d: Dict<V>, p: Dict<V>)
    requires forall k :: HasKey(p, k) ==> HasKey(d, k)
    ensures Keys(Merge(d, p)) == Keys(d)
    decreases p
  {
    if p != [] {
      assert Keys(p) == [p[0].key] + Keys(p[1..]);
      var d' := Put(d, p[0].key, p[0].val);
      PutKeys(d, p[0].key, p[0].val);
      forall k | HasKey(p[1..], k) ensures HasKey(d', k) {
        assert HasKey(p, k);
      }
      MergeKeysPresent(d', p[1..]);
    }
  }

  /** Applying the same update twice is applying it once. */
  lemma MergeIdempotent<V>(d: Dict<V>, p: Dict<V>)
    requires UniqueKeys(d) && UniqueKeys(p)
    ensures Merge(Merge(d, p), p) == Merge(d, p)
  {
    var m := Merge(d, p);
    MergeUnique(d, p);
    MergeKeysPrefix(d, p);
    MergeKeysPresent(m, p);
    MergeUnique(m, p);
    forall k ensures Get(Merge(m, p), k) == Get(m, k) {
      MergeGet(m, p, k);
      MergeGet(d, p, k);
    }
    Extensionality(m, Merge(m, p));
  }
}

=== FILE: paths.dfy ===
// The pathlib operations the core relies on, over '/'-separated path strings.
module Paths {
  import opened Text

  /** Index of the last occurrence of c in s, or -1. */
  function LastIndex(s: string, c: char): (r: int)
    ensures -1 <= r < |s|
    ensures r >= 0 ==> s[r] == c
    ensures forall j :: r < j < |s| ==> s[j] != c
  {
    if s == [] then -1
    else if s[|s| - 1] == c then |s| - 1
    else LastIndex(s[..|s| - 1], c)
  }

  /** Characters other than c appended after s leave its last c where it was. */
  lemma {:induction false} LastIndexAppend(s: string, t: string, c: char)
    requires c !in t
    ensures LastIndex(s + t, c) == LastIndex(s, c)
  {
    if t == [] {
      assert s + t == s;
    } else {
      var u := t[..|t| - 1];
      assert (s + t)[..|s + t| - 1] == s + u && (s + t)[|s + t| - 1] == t[|t| - 1];
      LastIndexAppend(s, u, c);
    }
  }

  /** A c with no c after it is the last c. */
  lemma LastIndexAt(s: string, c: char, k: int)
    requires 0 <= k < |s| && s[k] == c
    requires forall j :: k < j < |s| ==> s[j] != c
    ensures LastIndex(s, c) == k
  {
  }

  /** dir / name */
  function Child(dir: string, name: string): string
  {
    dir + "/" + name
  }

  /** The directory part of a path: everything before its last '/', or "" (the working directory) when it has none. */
  function ParentDir(p: string): (r: string)
    ensures |r| < |p| || r == ""
    ensures r != "" ==> p == Child(r, BaseName(p))
  {
    var i := LastIndex(p, '/');
    if i >= 0 then
      assert p == p[..i] + "/" + p[i + 1..];
      p[..i]
    else ""
  }

  /** The directory part of dir / name is dir, for a name without '/'. */
  lemma ParentDirChild(dir: string, name: string)
    requires '/' !in name
    ensures ParentDir(Child(dir, name)) == dir
  {
    BaseNameChild(dir, name);
    var p := Child(dir, name);
    assert LastIndex(p, '/') == |dir| by {
      assert p[|dir|] == '/';
      forall j | |dir| < j < |p| ensures p[j] != '/' {
        assert p[j] == name[j - |dir| - 1];
      }
    }
    assert p[..|dir|] == dir;
  }

  /** Path.name: the final component. */
  function BaseName(p: string): (r: string)
    ensures '/' !in r
    ensures EndsWith(p, r)
  {
    p[LastIndex(p, '/') + 1..]
  }

  /** Where Path.suffix starts in a final component: at its last dot, unless that dot leads or ends it. */
  function SuffixStart(name: string): (r: nat)
    ensures r <= |name|
  {
    var i := LastIndex(name, '.');
    if 0 < i < |name| - 1 then i else |name|
  }

  /** Path.stem */
  function Stem(p: string): string
  {
    var name := BaseName(p);
    name[..SuffixStart(name)]
  }

  /** Path.with_suffix(suffix) */
  function WithSuffix(p: string, suffix: string): string
  {
    var name := BaseName(p);
    p[..|p| - |name| + SuffixStart(name)] + suffix
  }

  /** A file extension such as ".klwp": a dot followed by at least one character, with no further dot or slash. */
  predicate IsExtension(ext: string)
  {
    |ext| >= 2 && ext[0] == '.' && forall i :: 1 <= i < |ext| ==> ext[i] != '.' && ext[i] != '/'
  }

  lemma BaseNameChild(dir: string, name: string)
    requires '/' !in name
    ensures BaseName(Child(dir, name)) == name
  {
    var p := Child(dir, name);
    var i := LastIndex(p, '/');
    assert p[|dir|] == '/';
    assert i == |dir| by {
      forall j | |dir| < j < |p| ensures p[j] != '/' {
        assert p[j] == name[j - |dir| - 1];
      }
    }
    assert p[i + 1..] == name;
  }

  /** For a name that ends with an extension and has something before it, the suffix is that extension. */
  lemma SuffixOfExtension(name: string, ext: string)
    requires IsExtension(ext) && EndsWith(name, ext) && |name| > |ext|
    ensures SuffixStart(name) == |name| - |ext|
  {
    var k := |name| - |ext|;
    assert name[k] == ext[0] == '.';
    forall j | k < j < |name| ensures name[j] != '.' {
      assert name[j] == ext[j - k];
    }
    assert LastIndex(name, '.') == k;
  }

  /** with_suffix on a path whose name ends with an extension replaces exactly that extension. */
  lemma WithSuffixOfExtension(p: string, ext: string, suffix: string)
    requires IsExtension(ext) && EndsWith(BaseName(p), ext) && |BaseName(p)| > |ext|
    ensures EndsWith(p, ext)
    ensures WithSuffix(p, suffix) == p[..|p| - |ext|] + suffix
    ensures Stem(p) == BaseName(p)[..|BaseName(p)| - |ext|]
  {
    var name := BaseName(p);
    SuffixOfExtension(name, ext);
    assert p[|p| - |name|..] == name;
    assert p[|p| - |ext|..] == name[|name| - |ext|..];
  }

  /** The name with the extension appended unless it already ends with it. */
  function EnsureExtension(name: string, ext: string): (r: string)
    ensures EndsWith(r, ext)
    ensures r == name || r == name + ext
  {
    if EndsWith(name, ext) then name
    else
      assert (name + ext)[|name|..] == ext;
      name + ext
  }

  /** Normalising a name twice is the same as once. */
  lemma EnsureExtensionIdempotent(name: string, ext: string)
    ensures EnsureExtension(EnsureExtension(name, ext), ext) == EnsureExtension(name, ext)
  {
  }
}

=== FILE: plugin_interface.dfy ===
// PluginInterface: what every customisation plugin exposes to the rest of the
// app.  A plugin is described by its identity strings and its item types; the
// operations each plugin implements are the classes of KustomSuite,
// TotalLauncherSupport and TaskerSupport.  The defaults of the base class are
// modelled here.
module PluginInterface {
  import opened Wrappers
  import opened Text
  import opened Json
  import opened Files
  import opened Paths
  import KustomSuite
  import TotalLauncherSupport
  import TaskerSupport

  /** The three built-in plugins. */
  datatype PluginKind = KustomApp | TotalLauncherApp | TaskerApp

  /** What get_plugin_name, get_plugin_version, get_supported_app, get_app_package and get_element_types return. */
  datatype Plugin = Plugin(kind: PluginKind, name: string, version: string, app: string, package: string, elementTypes: seq<string>)

  /** The description of each built-in plugin, from its own constants. */
  function Describe(k: PluginKind): (p: Plugin)
    ensures p.kind == k && p.version == "1.0.0"
  {
    match k
    case KustomApp =>
      Plugin(k, KustomSuite.PluginName, KustomSuite.PluginVersion, KustomSuite.SupportedApp, KustomSuite.AppPackage, KustomSuite.ElementTypes)
    case TotalLauncherApp =>
      Plugin(k, TotalLauncherSupport.PluginName, TotalLauncherSupport.PluginVersion, TotalLauncherSupport.SupportedApp, TotalLauncherSupport.AppPackage, TotalLauncherSupport.ElementTypes)
    case TaskerApp =>
      Plugin(k, TaskerSupport.PluginName, TaskerSupport.PluginVersion, TaskerSupport.SupportedApp, TaskerSupport.AppPackage, TaskerSupport.ElementTypes)
  }

  /** The built-in plugins support different apps, case-insensitively, so an app name selects at most one of them. */
  lemma AppsDistinct(j: PluginKind, k: PluginKind)
    requires j != k
    ensures Lower(Describe(j).app) != Lower(Describe(k).app)
  {
    assert |Describe(j).app| != |Describe(k).app|;
  }

  /** get_element_types in the base class: no item types. */
  function DefaultElementTypes(): (r: seq<string>)
    ensures |r| == 0
  {
    []
  }

  /** Every built-in plugin overrides the default with its own, non-empty, list. */
  lemma ElementTypesOverridden(k: PluginKind)
    ensures |Describe(k).elementTypes| > 0 && Describe(k).elementTypes != DefaultElementTypes()
  {
    assert |Describe(k).elementTypes| >= 6;
  }

  /** validate_config in the base class: every document is valid and there is no message. */
  function ValidateConfig(data: Value): (r: (bool, Option<string>))
    ensures r.0 && r.1.None?
  {
    (true, None)
  }

  /** get_default_config in the base class: the empty dict. */
  function DefaultConfig(): (r: Value)
    ensures r.Obj? && |r.fields| == 0
  {
    Obj([])
  }

  /** __str__: "<name> v<version> (<app>)". */
  function Show(p: Plugin): (r: string)
    ensures StartsWith(r, p.name + " v" + p.version)
    ensures EndsWith(r, " (" + p.app + ")")
    ensures |r| == |p.name| + |p.version| + |p.app| + 5
  {
    var head := p.name + " v" + p.version;
    var tail := " (" + p.app + ")";
    assert (head + tail)[..|head|] == head;
    assert (head + tail)[|head|..] == tail;
    head + tail
  }

  /**
   * export_config: shutil.copy2 of the named file of the configuration
   * directory to the export path, which is returned as given.  A directory
   * as export path receives the copy under the file's own name.  A missing
   * or directory source, a copy onto the source itself, or a target that
   * cannot be opened for writing fails and nothing is written.
   */
  method ExportConfig(disk: FileSystem, dir: string, configName: string, exportPath: string) returns (r: Result<string>)
    modifies disk
    ensures disk.dirs == old(disk.dirs)
    ensures var src := Child(dir, configName);
            r.Ok? <==> CopyFailure(old(disk.files), old(disk.dirs), src, exportPath).None?
    ensures var src := Child(dir, configName);
            r.Ok? ==> (r.value == exportPath
              && disk.files == old(disk.files)[CopyTarget(old(disk.dirs), src, exportPath) := old(disk.files)[src]])
    ensures var src := Child(dir, configName);
            r.Err? ==> (disk.files == old(disk.files) && r.error == CopyFailure(old(disk.files), old(disk.dirs), src, exportPath).value)
  {
    var copied := disk.Copy(Child(dir, configName), exportPath);
    if copied.Err? {
      return Err(copied.error);
    }
    return Ok(exportPath);
  }
}

=== FILE: plugin_manager.dfy ===
// PluginRegistry: the plugin manager.  It registers the built-in plugins once,
// lazily, under fixed ids in a fixed order: Kustom always, Total Launcher and
// Tasker only when their app is installed.  A plugin whose construction fails
// is skipped.  Construction and the install probe are inputs.
module PluginRegistry {
  import opened Wrappers
  import opened Text
  import opened OrderedMap
  import opened PluginInterface

  /**
   * The environment the manager consults: whether a plugin's module imports
   * and its constructor succeeds, and whether its app is installed now.
   */
  datatype Probe = Probe(builds: PluginKind -> bool, installed: PluginKind -> bool)

  /** The id a plugin is registered under. */
  function IdOf(k: PluginKind): string
  {
    match k
    case KustomApp => "kustom"
    case TotalLauncherApp => "total_launcher"
    case TaskerApp => "tasker"
  }

  /** _load_kustom_plugin: registers Kustom when it can be built, whatever the probe says. */
  function WithKustom(d: Dict<Plugin>, probe: Probe): Dict<Plugin>
  {
    if probe.builds(KustomApp) then Put(d, IdOf(KustomApp), Describe(KustomApp)) else d
  }

  /** _load_total_launcher_plugin and _load_tasker_plugin: register when built and installed. */
  function WithInstalled(d: Dict<Plugin>, k: PluginKind, probe: Probe): Dict<Plugin>
  {
    if probe.builds(k) && probe.installed(k) then Put(d, IdOf(k), Describe(k)) else d
  }

  /** The plugins dict after the three loaders ran in order. */
  function Registered(d: Dict<Plugin>, probe: Probe): Dict<Plugin>
  {
    WithInstalled(WithInstalled(WithKustom(d, probe), TotalLauncherApp, probe), TaskerApp, probe)
  }

  /** Whether a loading pass registers the plugin. */
  predicate Admitted(k: PluginKind, probe: Probe)
  {
    probe.builds(k) && (k == KustomApp || probe.installed(k))
  }

  /** The entry a loading pass adds for a plugin, if it admits it. */
  function EntryIf(k: PluginKind, probe: Probe): Dict<Plugin>
  {
    if Admitted(k, probe) then [Entry(IdOf(k), Describe(k))] else []
  }

  /**
   * Starting from an empty dict, a loading pass registers exactly the
   * admitted plugins, each under its id, in the order kustom,
   * total_launcher, tasker.
   */
  lemma RegisteredExactly(probe: Probe)
    ensures Registered([], probe) == EntryIf(KustomApp, probe) + EntryIf(TotalLauncherApp, probe) + EntryIf(TaskerApp, probe)
  {
    var a, b := EntryIf(KustomApp, probe), EntryIf(TotalLauncherApp, probe);
    assert WithKustom([], probe) == a;
    EntryIfLookup(KustomApp, probe, TotalLauncherApp);
    InstalledAppends(a, TotalLauncherApp, probe);
    EntryIfLookup(KustomApp, probe, TaskerApp);
    EntryIfLookup(TotalLauncherApp, probe, TaskerApp);
    HasKeyAppend(a, b, IdOf(TaskerApp));
    InstalledAppends(a + b, TaskerApp, probe);
  }

  /** A loader adds its entry at the end of a dict that does not hold its id yet. */
  lemma InstalledAppends(d: Dict<Plugin>, k: PluginKind, probe: Probe)
    requires k != KustomApp && !HasKey(d, IdOf(k))
    ensures WithInstalled(d, k, probe) == d + EntryIf(k, probe)
  {
    if Admitted(k, probe) {
      PutAbsent(d, IdOf(k), Describe(k));
    }
  }

  /** Each plugin is found under its id exactly when the loading pass admits it. */
  lemma RegisteredLookup(probe: Probe, k: PluginKind)
    ensures Get(Registered([], probe), IdOf(k)) == (if Admitted(k, probe) then Some(Describe(k)) else None)
  {
    RegisteredExactly(probe);
    var a, b, c := EntryIf(KustomApp, probe), EntryIf(TotalLauncherApp, probe), EntryIf(TaskerApp, probe);
    GetAppend(a + b, c, IdOf(k));
    GetAppend(a, b, IdOf(k));
    EntryIfLookup(KustomApp, probe, k);
    EntryIfLookup(TotalLauncherApp, probe, k);
    EntryIfLookup(TaskerApp, probe, k);
  }

  /** The entry of one plugin holds the key of another only when it is the same plugin. */
  lemma EntryIfLookup(j: PluginKind, probe: Probe, k: PluginKind)
    ensures HasKey(EntryIf(j, probe), IdOf(k)) <==> j == k && Admitted(j, probe)
    ensures HasKey(EntryIf(j, probe), IdOf(k)) ==> Get(EntryIf(j, probe), IdOf(k)) == Some(Describe(k))
  {
    assert Keys(EntryIf(j, probe)) == if Admitted(j, probe) then [IdOf(j)] else [];
  }

  /** The plugins of a dict, in order: list(plugins.values()). */
  function Values(d: Dict<Plugin>): (r: seq<Plugin>)
    ensures |r| == |d| && forall i :: 0 <= i < |d| ==> r[i] == d[i].val
  {
    if d == [] then [] else [d[0].val] + Values(d[1..])
  }

  /** get_installed_plugins: the plugins whose app is installed now, in order. */
  function Installed(ps: seq<Plugin>, installed: PluginKind -> bool): (r: seq<Plugin>)
    ensures forall p :: p in r <==> p in ps && installed(p.kind)
    ensures |r| <= |ps|
  {
    if ps == [] then []
    else (if installed(ps[0].kind) then [ps[0]] else []) + Installed(ps[1..], installed)
  }

  /** The first plugin whose supported app matches the name, case-insensitively. */
  function FirstByApp(ps: seq<Plugin>, appName: string): (r: Option<Plugin>)
    ensures r.Some? ==> r.value in ps && Lower(r.value.app) == Lower(appName)
    ensures r.None? <==> forall p :: p in ps ==> Lower(p.app) != Lower(appName)
  {
    if ps == [] then None
    else if Lower(ps[0].app) == Lower(appName) then Some(ps[0])
    else FirstByApp(ps[1..], appName)
  }

  /** One row of get_plugin_info. */
  datatype PluginInfo = PluginInfo(id: string, name: string, version: string, app: string, package: string, installed: bool)

  function InfoOf(e: Entry<Plugin>, installed: PluginKind -> bool): PluginInfo
  {
    PluginInfo(e.key, e.val.name, e.val.version, e.val.app, e.val.package, installed(e.val.kind))
  }

  class PluginManager {
    var plugins: Dict<Plugin>
    var loaded: bool

    /** Nothing is registered before the first loading pass. */
    ghost predicate Valid()
      reads this
    {
      !loaded ==> plugins == []
    }

    constructor ()
      ensures Valid() && plugins == [] && !loaded
    {
      plugins := [];
      loaded := false;
    }

    /** The plugins dict as a query sees it, after the lazy load. */
    function Current(probe: Probe): Dict<Plugin>
      reads this
    {
      if loaded then plugins else Registered(plugins, probe)
    }

    method LoadKustomPlugin(probe: Probe)
      modifies this
      ensures plugins == WithKustom(old(plugins), probe) && loaded == old(loaded)
    {
      if probe.builds(KustomApp) {
        plugins := Put(plugins, IdOf(KustomApp), Describe(KustomApp));
      }
    }

    method LoadInstalledPlugin(k: PluginKind, probe: Probe)
      modifies this
      ensures plugins == WithInstalled(old(plugins), k, probe) && loaded == old(loaded)
    {
      if probe.builds(k) && probe.installed(k) {
        plugins := Put(plugins, IdOf(k), Describe(k));
      }
    }

    /** load_plugins: a no-op once loaded; otherwise the three loaders run in order and the manager is marked loaded. */
    method LoadPlugins(probe: Probe)
      requires Valid()
      modifies this
      ensures Valid() && loaded
      ensures plugins == old(Current(probe))
      ensures old(loaded) ==> plugins == old(plugins)
    {
      if loaded {
        return;
      }
      LoadKustomPlugin(probe);
      LoadInstalledPlugin(TotalLauncherApp, probe);
      LoadInstalledPlugin(TaskerApp, probe);
      loaded := true;
    }

    /** get_plugins */
    method GetPlugins(probe: Probe) returns (r: seq<Plugin>)
      requires Valid()
      modifies this
      ensures Valid() && loaded && plugins == old(Current(probe))
      ensures r == Values(plugins)
    {
      LoadPlugins(probe);
      r := Values(plugins);
    }

    /** get_plugin */
    method GetPlugin(id: string, probe: Probe) returns (r: Option<Plugin>)
      requires Valid()
      modifies this
      ensures Valid() && loaded && plugins == old(Current(probe))
      ensures r == Get(plugins, id)
    {
      LoadPlugins(probe);
      r := Get(plugins, id);
    }

    /** get_plugin_by_app_name: the first registered plugin whose supported app equals the name, ignoring case. */
    method GetPluginByAppName(appName: string, probe: Probe) returns (r: Option<Plugin>)
      requires Valid()
      modifies this
      ensures Valid() && loaded && plugins == old(Current(probe))
      ensures r == FirstByApp(Values(plugins), appName)
    {
      LoadPlugins(probe);
      var ps := Values(plugins);
      var target := Lower(appName);
      var i := 0;
      while i < |ps|
        invariant 0 <= i <= |ps|
        invariant FirstByApp(ps, appName) == FirstByApp(ps[i..], appName)
      {
        assert ps[i..][1..] == ps[i + 1..];
        if Lower(ps[i].app) == target {
          return Some(ps[i]);
        }
        i := i + 1;
      }
      return None;
    }

    /** get_installed_plugins: the registered plugins whose app the probe reports installed now. */
    method GetInstalledPlugins(probe: Probe) returns (r: seq<Plugin>)
      requires Valid()
      modifies this
      ensures Valid() && loaded && plugins == old(Current(probe))
      ensures r == Installed(Values(plugins), probe.installed)
    {
      LoadPlugins(probe);
      r := Installed(Values(plugins), probe.installed);
    }

    /** get_plugin_info: one row per registered plugin, in order. */
    method GetPluginInfo(probe: Probe) returns (info: seq<PluginInfo>)
      requires Valid()
      modifies this
      ensures Valid() && loaded && plugins == old(Current(probe))
      ensures |info| == |plugins| && forall i :: 0 <= i < |plugins| ==> info[i] == InfoOf(plugins[i], probe.installed)
    {
      LoadPlugins(probe);
      info := [];
      for i := 0 to |plugins|
        invariant |info| == i
        invariant forall j :: 0 <= j < i ==> info[j] == InfoOf(plugins[j], probe.installed)
      {
        info := info + [InfoOf(plugins[i], probe.installed)];
      }
    }

    /** reload_plugins: forgets every plugin and loads afresh. */
    method ReloadPlugins(probe: Probe)
      requires Valid()
      modifies this
      ensures Valid() && loaded
      ensures plugins == Registered([], probe)
    {
      loaded := false;
      plugins := [];
      LoadPlugins(probe);
    }
  }

  /** The module-level `_plugin_manager` slot. */
  class Globals {
    var manager: PluginManager?

    constructor ()
      ensures manager == null
    {
      manager := null;
    }

    /** get_plugin_manager: creates the manager on first use and returns the same one afterwards. */
    method GetPluginManager() returns (m: PluginManager)
      modifies this
      ensures manager == m
      ensures old(manager) != null ==> m == old(manager)
      ensures old(manager) == null ==> fresh(m) && m.Valid() && m.plugins == [] && !m.loaded
    {
      if manager == null {
        manager := new PluginManager();
      }
      m := manager;
    }

    /** Two calls in a row give the same manager. */
    method GetTwice() returns (a: PluginManager, b: PluginManager)
      modifies this
      ensures a == b && manager == a
    {
      a := GetPluginManager();
      b := GetPluginManager();
    }
  }
}

=== FILE: preset_generator.dfy ===
// PresetGenerator: the template side of the preset generator.  A description
// is parsed into specs (theme, colours, elements, style hints), the specs are
// laid out as a wallpaper, lock screen or widget document, a preset can be
// re-laid out in another format with its own colours, and simple edit
// commands recolour, rescale, add or remove items.  Presets are JSON
// documents; the AI model's answer is an input.
module PresetGenerator {
  import opened Wrappers
  import opened Text
  import opened Json
  import opened OrderedMap
  import opened Sorting
  import PresetStorage
  import opened ValueOrder

  // ---------------------------------------------------------------------
  // Themes and specs
  // ---------------------------------------------------------------------

  /** One entry of THEMES. */
  datatype Theme = Theme(name: string, colors: seq<string>, font: string, style: string, glow: bool)

  /** THEMES, in the dict's order. */
  const Themes: seq<Theme> := [
    Theme("cyberpunk", ["#000000", "#00FFFF", "#FF00FF", "#00FF00"], "Orbitron", "digital", true),
    Theme("minimal", ["#FFFFFF", "#000000", "#333333", "#666666"], "Roboto Thin", "clean", false),
    Theme("neon", ["#0A0A0A", "#FF006E", "#00F5FF", "#FFBE0B"], "Roboto", "bright", true),
    Theme("dark", ["#000000", "#FFFFFF", "#888888", "#444444"], "Roboto", "modern", false),
    Theme("pastel", ["#FFE5E5", "#E5F5FF", "#FFF5E5", "#E5FFE5"], "Roboto Light", "soft", false),
    Theme("gruvbox", ["#282828", "#EBDBB2", "#FB4934", "#B8BB26"], "Roboto", "retro", false)
  ]

  /** The theme used when the description names none. */
  const DefaultTheme: Theme := Themes[1]

  /** What the generators read: the specs dict. */
  datatype Specs = Specs(theme: string, colors: seq<Value>, font: string, elements: seq<string>,
                         style: string, glow: bool, hints: Dict<bool>)

  /** The index of the first theme whose name the text contains. */
  function FirstNamed(desc: string, ts: seq<Theme>): (r: Option<nat>)
    ensures r.Some? ==> r.value < |ts| && Contains(desc, ts[r.value].name)
    ensures r.Some? ==> forall j :: 0 <= j < r.value ==> !Contains(desc, ts[j].name)
    ensures r.None? <==> forall j :: 0 <= j < |ts| ==> !Contains(desc, ts[j].name)
  {
    if ts == [] then None
    else if Contains(desc, ts[0].name) then Some(0)
    else match FirstNamed(desc, ts[1..])
      case None => None
      case Some(i) => Some(i + 1)
  }

  /**
   * The theme of a lower-cased description: the first of THEMES, in dict
   * order, whose name it contains, or minimal when it names none.
   */
  function ThemeOf(desc: string): (r: Theme)
    ensures r in Themes && |r.colors| == 4
    ensures || (exists i :: 0 <= i < |Themes| && Themes[i] == r && Contains(desc, r.name)
                  && forall j :: 0 <= j < i ==> !Contains(desc, Themes[j].name))
            || (r == DefaultTheme && forall j :: 0 <= j < |Themes| ==> !Contains(desc, Themes[j].name))
  {
    match FirstNamed(desc, Themes)
    case None => DefaultTheme
    case Some(i) => Themes[i]
  }

  predicate IsHexDigit(c: char)
  {
    '0' <= c <= '9' || 'a' <= c <= 'f' || 'A' <= c <= 'F'
  }

  /** `#[0-9A-Fa-f]{6}` matches at position i. */
  predicate HexAt(s: string, i: nat)
  {
    i + 7 <= |s| && s[i] == '#' && forall k :: i + 1 <= k < i + 7 ==> IsHexDigit(s[k])
  }

  /** re.findall(r'#[0-9A-Fa-f]{6}', s): leftmost matches, the scan resuming after each. */
  function HexCodes(s: string): (r: seq<string>)
    ensures forall c :: c in r ==> |c| == 7 && HexAt(c, 0)
    decreases |s|
  {
    if |s| < 7 then []
    else if HexAt(s, 0) then [s[..7]] + HexCodes(s[7..])
    else HexCodes(s[1..])
  }

  /** The seven characters from position i, or "" past the end. */
  function CodeAt(s: string, i: nat): string
  {
    if i + 7 <= |s| then s[i..i + 7] else ""
  }

  /** Every code found is a match of the pattern in the text. */
  lemma {:induction false} HexCodesSound(s: string)
    ensures forall c :: c in HexCodes(s) ==> exists i :: 0 <= i <= |s| - 7 && HexAt(s, i) && CodeAt(s, i) == c
    decreases |s|
  {
    if |s| >= 7 {
      var shift := if HexAt(s, 0) then 7 else 1;
      var rest := s[shift..];
      HexCodesSound(rest);
      forall c | c in HexCodes(rest)
        ensures exists i :: 0 <= i <= |s| - 7 && HexAt(s, i) && CodeAt(s, i) == c
      {
        var i :| 0 <= i <= |rest| - 7 && HexAt(rest, i) && CodeAt(rest, i) == c;
        HexAtShift(s, shift, i);
      }
      if HexAt(s, 0) {
        assert CodeAt(s, 0) == s[..7];
      }
    }
  }

  /** A match in a suffix of the text is a match in the text, further on by the suffix's offset. */
  lemma HexAtShift(s: string, shift: nat, i: nat)
    requires shift <= |s| && HexAt(s[shift..], i)
    ensures HexAt(s, i + shift) && CodeAt(s, i + shift) == CodeAt(s[shift..], i)
  {
    var rest := s[shift..];
    forall k | i + shift + 1 <= k < i + shift + 7
      ensures IsHexDigit(s[k])
    {
      assert s[k] == rest[k - shift];
    }
    assert s[i + shift..i + shift + 7] == rest[i..i + 7];
  }

  /** Some code is found exactly when the pattern matches somewhere. */
  lemma {:induction false} HexCodesComplete(s: string)
    ensures HexCodes(s) == [] <==> forall i :: 0 <= i <= |s| - 7 ==> !HexAt(s, i)
    decreases |s|
  {
    if |s| >= 7 && !HexAt(s, 0) {
      var t := s[1..];
      HexCodesComplete(t);
      forall i | 1 <= i <= |s| - 7
        ensures HexAt(s, i) == HexAt(t, i - 1)
      {
        assert forall k :: i + 1 <= k < i + 7 ==> s[k] == t[k - 1];
      }
      if HexCodes(t) == [] {
        forall i | 0 <= i <= |s| - 7
          ensures !HexAt(s, i)
        {
          if i > 0 {
            assert !HexAt(t, i - 1);
          }
        }
      } else {
        var i :| 0 <= i <= |t| - 7 && HexAt(t, i);
        assert HexAt(s, i + 1);
      }
    }
  }

  /** The element keywords, in the order _parse_description tests them. */
  const ElementWords: seq<(string, seq<string>)> := [
    ("clock", ["clock", "time"]),
    ("date", ["date", "calendar"]),
    ("weather", ["weather", "temperature"]),
    ("battery", ["battery"]),
    ("music", ["music", "player"])
  ]

  const ElementNames: seq<string> := ["clock", "date", "weather", "battery", "music"]

  /** The elements whose keywords the text mentions, in keyword order. */
  function Requested(desc: string, ws: seq<(string, seq<string>)>): (r: seq<string>)
    ensures forall e :: e in r <==> exists i :: 0 <= i < |ws| && ws[i].0 == e && ContainsAny(desc, ws[i].1)
  {
    if ws == [] then []
    else
      var rest := Requested(desc, ws[1..]);
      assert forall i :: 1 <= i < |ws| ==> ws[i] == ws[1..][i - 1];
      (if ContainsAny(desc, ws[0].1) then [ws[0].0] else []) + rest
  }

  /** An element is requested exactly when one of its keywords is mentioned. */
  lemma RequestedElements(desc: string)
    ensures forall i :: 0 <= i < |ElementWords| ==>
              (ElementWords[i].0 in Requested(desc, ElementWords) <==> ContainsAny(desc, ElementWords[i].1))
    ensures Requested(desc, ElementWords) != [] ==> exists j :: 0 <= j < |ElementWords| && ContainsAny(desc, ElementWords[j].1)
  {
    var els := Requested(desc, ElementWords);
    if els != [] {
      assert els[0] in els;
    }
    forall i | 0 <= i < |ElementWords|
      ensures ElementWords[i].0 in els <==> ContainsAny(desc, ElementWords[i].1)
    {
      if ElementWords[i].0 in els {
        var k :| 0 <= k < |ElementWords| && ElementWords[k].0 == ElementWords[i].0 && ContainsAny(desc, ElementWords[k].1);
        assert k == i;
      }
    }
  }

  /**
   * The element list of a lower-cased description: the elements whose
   * keywords it mentions, in the fixed order clock, date, weather, battery,
   * music, or the clock alone when it mentions none.
   */
  function ElementsOf(desc: string): (r: seq<string>)
    ensures r != [] && Subsequence(r, ElementNames)
    ensures forall i :: 0 <= i < |ElementWords| ==>
              (ElementWords[i].0 in r <==> (ContainsAny(desc, ElementWords[i].1)
                 || (i == 0 && forall j :: 0 <= j < |ElementWords| ==> !ContainsAny(desc, ElementWords[j].1))))
  {
    var els := Requested(desc, ElementWords);
    RequestedElements(desc);
    RequestedInOrder(desc, ElementWords);
    ElementNamesInOrder();
    if els == [] then
      ClockFirst();
      ["clock"]
    else els
  }

  /** The clock is the first element of the keyword table and no other. */
  lemma ClockFirst()
    ensures forall i :: 0 <= i < |ElementWords| ==> (ElementWords[i].0 in ["clock"] <==> i == 0)
  {
  }

  /** The keyword table lists the element names in order, and the clock alone is among them. */
  lemma ElementNamesInOrder()
    ensures Names(ElementWords) == ElementNames
    ensures Subsequence(["clock"], ElementNames)
  {
    assert ["clock"][1..] == [];
  }

  /** a is b with some entries left out. */
  predicate Subsequence<T(==)>(a: seq<T>, b: seq<T>)
  {
    a == [] || (b != [] && ((a[0] == b[0] && Subsequence(a[1..], b[1..])) || Subsequence(a, b[1..])))
  }

  function Names(ws: seq<(string, seq<string>)>): (r: seq<string>)
    ensures |r| == |ws| && forall i :: 0 <= i < |ws| ==> r[i] == ws[i].0
  {
    if ws == [] then [] else [ws[0].0] + Names(ws[1..])
  }

  /** The requested elements keep the keyword order. */
  lemma {:induction false} RequestedInOrder(desc: string, ws: seq<(string, seq<string>)>)
    ensures Subsequence(Requested(desc, ws), Names(ws))
  {
    if ws != [] {
      var a, b := Requested(desc, ws), Names(ws);
      RequestedInOrder(desc, ws[1..]);
      assert b[1..] == Names(ws[1..]);
      if ContainsAny(desc, ws[0].1) {
        assert a[0] == b[0] && a[1..] == Requested(desc, ws[1..]);
      } else {
        assert a == Requested(desc, ws[1..]);
      }
    }
  }

  /** The style_hints dict. */
  function StyleHints(desc: string): Dict<bool>
  {
    [Entry("digital", Contains(desc, "digital") || Contains(desc, "lcd")),
     Entry("analog", Contains(desc, "analog") || Contains(desc, "traditional")),
     Entry("minimal", Contains(desc, "minimal") || Contains(desc, "simple")),
     Entry("complex", Contains(desc, "complex") || Contains(desc, "detailed")),
     Entry("large", Contains(desc, "large") || Contains(desc, "big")),
     Entry("small", Contains(desc, "small") || Contains(desc, "compact"))]
  }

  /**
   * The colours of a description: the hex codes of the original text when it
   * has any, each occurring in it, else the theme's palette.
   */
  function ColorsOf(description: string, palette: seq<string>): (r: seq<string>)
    requires palette != []
    ensures |r| >= 1
    ensures (exists i :: 0 <= i <= |description| - 7 && HexAt(description, i)) ==>
              r == HexCodes(description) && forall c :: c in r ==> Contains(description, c)
    ensures (forall i :: 0 <= i <= |description| - 7 ==> !HexAt(description, i)) ==> r == palette
  {
    HexCodesComplete(description);
    HexCodesSound(description);
    assert forall c :: c in HexCodes(description) ==> Contains(description, c) by {
      forall c | c in HexCodes(description)
        ensures Contains(description, c)
      {
        var i :| 0 <= i <= |description| - 7 && HexAt(description, i) && CodeAt(description, i) == c;
        ContainsSlice(description, i, i + 7);
      }
    }
    var custom := HexCodes(description);
    if custom != [] then custom else palette
  }

  /** _parse_description */
  function ParseDescription(description: string): (r: Specs)
    ensures |r.colors| >= 1 && r.elements != []
  {
    var desc := Lower(description);
    var theme := ThemeOf(desc);
    Specs(theme.name, Strs(ColorsOf(description, theme.colors)), theme.font, ElementsOf(desc),
          theme.style, theme.glow, StyleHints(desc))
  }

  /** A slice of a text is contained in it. */
  lemma {:induction false} ContainsSlice(s: string, i: nat, j: nat)
    requires i <= j <= |s|
    ensures Contains(s, s[i..j])
    decreases i
  {
    if i > 0 {
      ContainsSlice(s[1..], i - 1, j - 1);
      assert s[1..][i - 1..j - 1] == s[i..j];
    }
  }

  // ---------------------------------------------------------------------
  // Items and layouts
  // ---------------------------------------------------------------------

  /** specs['colors'][i] if len(specs['colors']) > i else default */
  function ColorOr(colors: seq<Value>, i: nat, default: string): Value
  {
    if |colors| > i then colors[i] else Str(default)
  }

  function Position(x: Value, y: int): Value
  {
    Obj([Entry("x", x), Entry("y", Num(y))])
  }

  /** item.get('id') */
  function ItemId(item: Value): Value
  {
    Field(item, "id")
  }

  /** item['position']['y'] */
  function ItemY(item: Value): Value
  {
    Field(Field(item, "position"), "y")
  }

  lemma PositionY(x: Value, y: int)
    ensures Field(Position(x, y), "y") == Num(y)
  {
    var fields := [Entry("x", x), Entry("y", Num(y))];
    GetFirst(fields, 1);
  }

  /** Fields holding the id at 1 and the position at 6 are found there whatever follows them. */
  lemma ItemFields(base: Dict<Value>, extras: Dict<Value>, id: string, pos: Value)
    requires |base| > 6 && base[1] == Entry("id", Str(id)) && base[6] == Entry("position", pos)
    requires base[0].key == "type" && forall j :: 2 <= j < 6 ==> |base[j].key| != 8 && base[j].key != "id"
    ensures Field(Obj(base + extras), "id") == Str(id)
    ensures Field(Obj(base + extras), "position") == pos
  {
    var d := base + extras;
    assert d[1] == base[1] && d[6] == base[6];
    GetFirst(d, 1);
    GetFirst(d, 6);
  }

  /** A text item: type, id, text, size, colour and font, then position and alignment, then extras. */
  function TextItem(id: string, text: string, size: int, color: Value, font: string, x: Value, y: int, align: string,
                    extras: Dict<Value>): (r: Value)
    ensures ItemId(r) == Str(id) && ItemY(r) == Num(y)
  {
    var base := [Entry("type", Str("TEXT")), Entry("id", Str(id)), Entry("text", Str(text)), Entry("font_size", Num(size)),
                 Entry("color", color), Entry("font", Str(font)), Entry("position", Position(x, y)), Entry("align", Str(align))];
    ItemFields(base, extras, id, Position(x, y));
    PositionY(x, y);
    Obj(base + extras)
  }

  /** _create_clock: centred unless told otherwise, with a glow shadow when the theme has one. */
  function Clock(specs: Specs, y: int, size: int, centered: bool): (r: Value)
    ensures ItemId(r) == Str("clock") && ItemY(r) == Num(y)
  {
    var c := ColorOr(specs.colors, 1, "#FFFFFF");
    var shadow := Obj([Entry("color", c), Entry("radius", Num(20)), Entry("dx", Num(0)), Entry("dy", Num(0))]);
    TextItem("clock", "$df(hh:mm)$", size, c, specs.font, if centered then Str("center") else Num(540), y,
             if centered then "center" else "left", if specs.glow then [Entry("shadow", shadow)] else [])
  }

  /** _create_date */
  function Date(specs: Specs, y: int): (r: Value)
    ensures ItemId(r) == Str("date") && ItemY(r) == Num(y)
  {
    TextItem("date", "$df(EEEE, MMMM d)$", 24, ColorOr(specs.colors, 2, "#CCCCCC"), specs.font, Str("center"), y, "center", [])
  }

  /** _create_weather */
  function Weather(specs: Specs, y: int): (r: Value)
    ensures ItemId(r) == Str("weather") && ItemY(r) == Num(y)
  {
    TextItem("weather", "$wi(temp)$°", 36, ColorOr(specs.colors, 1, "#FFFFFF"), specs.font, Str("center"), y, "center", [])
  }

  /** _create_music */
  function Music(specs: Specs, y: int): (r: Value)
    ensures ItemId(r) == Str("music") && ItemY(r) == Num(y)
  {
    TextItem("music", "$mi(title)$", 20, ColorOr(specs.colors, 1, "#FFFFFF"), specs.font, Str("center"), y, "center",
             [Entry("max_lines", Num(1))])
  }

  /** _create_battery, given the colour it reads (specs['colors'][1], or white). */
  function Battery(color: Value, y: int): (r: Value)
    ensures ItemId(r) == Str("battery") && ItemY(r) == Num(y) && Field(r, "color") == color
  {
    var fields := [Entry("type", Str("SHAPE")), Entry("id", Str("battery")), Entry("shape_type", Str("arc")), Entry("color", color),
                  Entry("formula", Str("$bi(level)$")), Entry("width", Num(100)), Entry("height", Num(100)),
                  Entry("position", Position(Str("center"), y))];
    PositionY(Str("center"), y);
    ShapeItem(fields, 1, 3)
  }

  /** A shape item whose id, colour and position are found where they are written, the position last. */
  function ShapeItem(fields: Dict<Value>, i: nat, c: nat): (r: Value)
    requires i < c < |fields| - 1 && fields[i].key == "id" && fields[c].key == "color" && fields[|fields| - 1].key == "position"
    requires forall j :: 0 <= j < |fields| - 1 ==> fields[j].key != "position"
    requires forall j :: 0 <= j < c ==> fields[j].key != "color"
    requires forall j :: 0 <= j < i ==> fields[j].key != "id"
    ensures ItemId(r) == fields[i].val && Field(r, "color") == fields[c].val && Field(r, "position") == fields[|fields| - 1].val
  {
    GetFirst(fields, i);
    GetFirst(fields, c);
    GetFirst(fields, |fields| - 1);
    Obj(fields)
  }

  /** The wallpaper's full-screen background in the first colour. */
  function WallpaperBackground(specs: Specs): (r: Value)
    requires |specs.colors| >= 1
    ensures ItemId(r) == Str("background") && ItemY(r) == Num(0) && Field(r, "color") == specs.colors[0]
  {
    PositionY(Num(0), 0);
    ShapeItem([Entry("type", Str("SHAPE")), Entry("internal_type", Str("RectModule")), Entry("id", Str("background")),
               Entry("shape_type", Str("rectangle")), Entry("color", specs.colors[0]), Entry("width", Num(1080)),
               Entry("height", Num(1920)), Entry("position", Position(Num(0), 0))], 2, 4)
  }

  /** The lock screen's full-screen background in the first colour. */
  function LockscreenBackground(specs: Specs): (r: Value)
    requires |specs.colors| >= 1
    ensures ItemId(r) == Str("background") && ItemY(r) == Num(0) && Field(r, "color") == specs.colors[0]
  {
    PositionY(Num(0), 0);
    ShapeItem([Entry("type", Str("SHAPE")), Entry("id", Str("background")), Entry("shape_type", Str("rectangle")),
               Entry("color", specs.colors[0]), Entry("width", Num(1080)), Entry("height", Num(1920)),
               Entry("position", Position(Num(0), 0))], 1, 3)
  }

  /** The widget's rounded card in the first colour. */
  function WidgetBackground(specs: Specs): (r: Value)
    requires |specs.colors| >= 1
    ensures ItemId(r) == Str("widget_bg") && ItemY(r) == Num(0) && Field(r, "color") == specs.colors[0]
  {
    PositionY(Num(0), 0);
    ShapeItem([Entry("type", Str("SHAPE")), Entry("id", Str("widget_bg")), Entry("shape_type", Str("rectangle")),
               Entry("color", specs.colors[0]), Entry("width", Num(400)), Entry("height", Num(200)),
               Entry("corner_radius", Num(20)), Entry("position", Position(Num(0), 0))], 1, 3)
  }

  /** The preset document: version, size and items. */
  function Preset(w: int, h: int, items: seq<Value>): (r: Value)
    ensures Field(r, "items") == Arr(items)
  {
    var fields := [Entry("version", Num(1)), Entry("width", Num(w)), Entry("height", Num(h)), Entry("items", Arr(items))];
    GetFirst(fields, 3);
    Obj(fields)
  }

  /** preset['items'] */
  function ItemsOf(preset: Value): Value
  {
    Field(preset, "items")
  }

  /** The item a wallpaper element adds at height y; None for a name the generator ignores. */
  function ElementItem(specs: Specs, e: string, y: int): (r: Option<Value>)
    ensures r.Some? <==> e in ElementNames
    ensures r.Some? ==> ItemId(r.value) == Str(e) && ItemY(r.value) == Num(y)
  {
    if e == "clock" then Some(Clock(specs, y, 96, true))
    else if e == "date" then Some(Date(specs, y))
    else if e == "weather" then Some(Weather(specs, y))
    else if e == "battery" then Some(Battery(ColorOr(specs.colors, 1, "#FFFFFF"), y))
    else if e == "music" then Some(Music(specs, y))
    else None
  }

  /** How far an element moves the wallpaper's running y offset. */
  function Step(e: string): int
  {
    if e == "clock" then 120
    else if e == "date" then 60
    else if e == "weather" || e == "battery" then 80
    else if e == "music" then 100
    else 0
  }

  /** The items `item` makes for the elements, from height y down, each next one lower by its predecessor's step. */
  function ItemsAlong(item: (string, int) -> Option<Value>, step: string -> int, els: seq<string>, y: int): seq<Value>
  {
    if els == [] then []
    else
      var head := item(els[0], y);
      (if head.Some? then [head.value] else []) + ItemsAlong(item, step, els[1..], y + step(els[0]))
  }

  /** The items the elements add from height y down. */
  function ElementItems(specs: Specs, els: seq<string>, y: int): seq<Value>
  {
    ItemsAlong((e, y) => ElementItem(specs, e, y), Step, els, y)
  }

  /** What _generate_wallpaper builds. */
  function WallpaperOf(specs: Specs): Value
    requires |specs.colors| >= 1
  {
    Preset(1080, 1920, [WallpaperBackground(specs)] + ElementItems(specs, specs.elements, 800))
  }

  /**
   * _generate_wallpaper: the background, then one item per element in
   * order, the first at y 800 and each next one lower by its predecessor's
   * step.
   */
  method GenerateWallpaper(specs: Specs) returns (preset: Value)
    requires |specs.colors| >= 1
    ensures preset == WallpaperOf(specs)
  {
    var els := specs.elements;
    var items := [WallpaperBackground(specs)];
    var y := 800;
    for i := 0 to |els|
      invariant items + ElementItems(specs, els[i..], y) == [WallpaperBackground(specs)] + ElementItems(specs, els, 800)
    {
      ElementItemsStep(specs, els, i, y);
      ghost var items0, y0 := items, y;
      ghost var rest := ElementItems(specs, els[i + 1..], y + Step(els[i]));
      if els[i] == "clock" {
        items := items + [Clock(specs, y, 96, true)];
        y := y + 120;
      } else if els[i] == "date" {
        items := items + [Date(specs, y)];
        y := y + 60;
      } else if els[i] == "weather" {
        items := items + [Weather(specs, y)];
        y := y + 80;
      } else if els[i] == "battery" {
        items := items + [Battery(ColorOr(specs.colors, 1, "#FFFFFF"), y)];
        y := y + 80;
      } else if els[i] == "music" {
        items := items + [Music(specs, y)];
        y := y + 100;
      }
      ghost var e := ElementItem(specs, els[i], y0);
      assert items == items0 + (if e.Some? then [e.value] else []);
      ConcatAssoc(items0, if e.Some? then [e.value] else [], rest);
    }
    assert els[|els|..] == [];
    assert items + [] == items;
    assert items == [WallpaperBackground(specs)] + ElementItems(specs, els, 800);
    preset := Preset(1080, 1920, items);
  }

  lemma ConcatAssoc<T>(a: seq<T>, b: seq<T>, c: seq<T>)
    ensures a + b + c == a + (b + c)
  {
  }

  lemma ElementItemsStep(specs: Specs, els: seq<string>, i: int, y: int)
    requires 0 <= i < |els|
    ensures ElementItems(specs, els[i..], y)
            == (if ElementItem(specs, els[i], y).Some? then [ElementItem(specs, els[i], y).value] else [])
               + ElementItems(specs, els[i + 1..], y + Step(els[i]))
  {
    assert els[i..][1..] == els[i + 1..];
  }

  /** The running y offset after the first k elements: the sum of their steps. */
  function Offset(els: seq<string>, k: nat, step: string -> int): int
    requires k <= |els|
  {
    if k == 0 then 0 else Offset(els, k - 1, step) + step(els[k - 1])
  }

  /** Putting an element in front shifts every later offset by its step. */
  lemma {:induction false} OffsetCons(e: string, rest: seq<string>, k: nat, step: string -> int)
    requires k <= |rest|
    ensures Offset([e] + rest, k + 1, step) == step(e) + Offset(rest, k, step)
  {
    if k > 0 {
      OffsetCons(e, rest, k - 1, step);
      assert ([e] + rest)[k] == rest[k - 1];
    }
  }

  /** Item k satisfies `at` for element k at y plus the element's running offset. */
  ghost predicate Aligned<T>(items: seq<T>, els: seq<string>, y: int, step: string -> int, at: (T, string, int) -> bool)
  {
    |items| == |els| && forall k {:trigger items[k]} :: 0 <= k < |els| ==> at(items[k], els[k], y + Offset(els, k, step))
  }

  /** An element's item aligned at y, put before the items of the rest aligned from y plus its step. */
  lemma AlignedCons<T>(head: T, tail: seq<T>, e: string, rest: seq<string>, y: int, step: string -> int, at: (T, string, int) -> bool)
    requires at(head, e, y)
    requires Aligned(tail, rest, y + step(e), step, at)
    ensures Aligned([head] + tail, [e] + rest, y, step, at)
  {
    var items, els := [head] + tail, [e] + rest;
    forall k | 0 <= k < |els|
      ensures at(items[k], els[k], y + Offset(els, k, step))
    {
      if k == 0 {
        assert items[k] == head && els[k] == e;
      } else {
        OffsetCons(e, rest, k - 1, step);
        assert items[k] == tail[k - 1] && els[k] == rest[k - 1];
      }
    }
  }

  /** The item has the element's id and sits at y. */
  predicate ItemAt(item: Value, e: string, y: int)
  {
    ItemId(item) == Str(e) && ItemY(item) == Num(y)
  }

  /** The items stand one per element, in order and with the element's id, element k at y plus its offset. */
  ghost predicate PlacedAt(items: seq<Value>, els: seq<string>, y: int, step: string -> int)
  {
    Aligned(items, els, y, step, ItemAt)
  }

  /** When `item` makes an item satisfying `at` for every element, the items are aligned one per element at the running offsets. */
  lemma {:induction false} ItemsAlongAligned(item: (string, int) -> Option<Value>, step: string -> int, els: seq<string>, y: int,
                                             at: (Value, string, int) -> bool)
    requires forall e, y' :: e in els ==> item(e, y').Some? && at(item(e, y').value, e, y')
    ensures Aligned(ItemsAlong(item, step, els, y), els, y, step, at)
  {
    if els != [] {
      var e, rest := els[0], els[1..];
      assert forall x :: x in rest ==> x in els;
      ItemsAlongAligned(item, step, rest, y + step(e), at);
      assert e in els;
      var head, tail := item(e, y), ItemsAlong(item, step, rest, y + step(e));
      assert head.Some? && at(head.value, e, y);
      AlignedCons(head.value, tail, e, rest, y, step, at);
      assert ItemsAlong(item, step, els, y) == [head.value] + tail;
      assert els == [e] + rest;
    }
  }

  /** Known elements each add one item, with their own id, at the running offset. */
  lemma ElementsPlaced(specs: Specs, els: seq<string>, y: int)
    requires forall e :: e in els ==> e in ElementNames
    ensures PlacedAt(ElementItems(specs, els, y), els, y, Step)
  {
    var item := (e, y) => ElementItem(specs, e, y);
    forall e, y' | e in els
      ensures item(e, y').Some? && ItemAt(item(e, y').value, e, y')
    {
    }
    ItemsAlongAligned(item, Step, els, y, ItemAt);
  }

  /**
   * A wallpaper of known elements holds the background and then exactly one
   * item per element, in order and with the element's id; the first sits at
   * y 800 and each next one lower by its predecessor's step.
   */
  lemma WallpaperLayout(specs: Specs)
    requires |specs.colors| >= 1 && forall e :: e in specs.elements ==> e in ElementNames
    ensures ItemsOf(WallpaperOf(specs)).Arr?
    ensures var items, els := ItemsOf(WallpaperOf(specs)).items, specs.elements;
            && |items| == |els| + 1
            && ItemId(items[0]) == Str("background")
            && PlacedAt(items[1..], els, 800, Step)
  {
    var els := specs.elements;
    var bg := WallpaperBackground(specs);
    var tail := ElementItems(specs, els, 800);
    ElementsPlaced(specs, els, 800);
    var items := ItemsOf(WallpaperOf(specs)).items;
    assert items == [bg] + tail;
    assert items[1..] == tail;
  }

  /** _generate_lockscreen: background, a large clock, the date below it and the battery. */
  function Lockscreen(specs: Specs): Value
    requires |specs.colors| >= 1
  {
    Preset(1080, 1920, [LockscreenBackground(specs), Clock(specs, 700, 100, true),
                        Date(specs, 850), Battery(ColorOr(specs.colors, 1, "#FFFFFF"), 1600)])
  }

  /** A lock screen has exactly four items: background, clock at 700, date at 850, battery at 1600. */
  lemma LockscreenLayout(specs: Specs)
    requires |specs.colors| >= 1
    ensures ItemsOf(Lockscreen(specs)).Arr?
    ensures var items := ItemsOf(Lockscreen(specs)).items;
            && |items| == 4
            && ItemId(items[0]) == Str("background") && ItemId(items[1]) == Str("clock")
            && ItemId(items[2]) == Str("date") && ItemId(items[3]) == Str("battery")
            && ItemY(items[1]) == Num(700) && ItemY(items[2]) == Num(850) && ItemY(items[3]) == Num(1600)
  {
  }

  /** _generate_widget: a rounded card and a compact clock. */
  function Widget(specs: Specs): Value
    requires |specs.colors| >= 1
  {
    Preset(400, 200, [WidgetBackground(specs), Clock(specs, 80, 48, true)])
  }

  /** A widget has exactly two items: its card and a clock at 80. */
  lemma WidgetLayout(specs: Specs)
    requires |specs.colors| >= 1
    ensures ItemsOf(Widget(specs)).Arr?
    ensures var items := ItemsOf(Widget(specs)).items;
            |items| == 2 && ItemId(items[0]) == Str("widget_bg") && ItemId(items[1]) == Str("clock") && ItemY(items[1]) == Num(80)
  {
  }

  /** The preset types the generators know. */
  const PresetTypes := ["klwp", "klck", "kwgt"]

  /** The layout of each preset type. */
  function LayoutOf(specs: Specs, t: string): Value
    requires |specs.colors| >= 1 && t in PresetTypes
  {
    if t == "klwp" then WallpaperOf(specs) else if t == "klck" then Lockscreen(specs) else Widget(specs)
  }

  /** Lays the specs out as the given type; an unknown type raises ValueError with the given prefix. */
  method Layout(specs: Specs, t: string, prefix: string) returns (r: Result<Value>)
    requires |specs.colors| >= 1
    ensures t in PresetTypes ==> r == Ok(LayoutOf(specs, t))
    ensures t !in PresetTypes ==> r == Err(ValueError(prefix + t))
  {
    if t == "klwp" {
      var p := GenerateWallpaper(specs);
      assert LayoutOf(specs, t) == p;
      return Ok(p);
    } else if t == "klck" {
      var p := Lockscreen(specs);
      assert LayoutOf(specs, t) == p;
      return Ok(p);
    } else if t == "kwgt" {
      var p := Widget(specs);
      assert LayoutOf(specs, t) == p;
      return Ok(p);
    }
    assert t !in PresetTypes;
    return Err(ValueError(prefix + t));
  }

  /** The preset generate_from_description returns or the error it raises. */
  function Generated(description: string, presetType: string, aiAnswer: Option<Value>): Result<Value>
  {
    if aiAnswer.Some? then Ok(aiAnswer.value)
    else if presetType in PresetTypes then Ok(LayoutOf(ParseDescription(description), presetType))
    else Err(ValueError("Unknown preset type: " + presetType))
  }

  /**
   * generate_from_description: the AI model's preset when it answered
   * (aiAnswer is None when AI is off or its call failed), else the template
   * layout of the parsed description; an unknown type raises ValueError.
   */
  method GenerateFromDescription(description: string, presetType: string, aiAnswer: Option<Value>) returns (r: Result<Value>)
    ensures aiAnswer.Some? ==> r == Ok(aiAnswer.value)
    ensures aiAnswer.None? && presetType in PresetTypes ==> r == Ok(LayoutOf(ParseDescription(description), presetType))
    ensures aiAnswer.None? && presetType !in PresetTypes ==> r == Err(ValueError("Unknown preset type: " + presetType))
    ensures r == Generated(description, presetType, aiAnswer)
  {
    if aiAnswer.Some? {
      return Ok(aiAnswer.value);
    }
    var specs := ParseDescription(description);
    r := Layout(specs, presetType, "Unknown preset type: ");
  }

  // ---------------------------------------------------------------------
  // Matching presets
  // ---------------------------------------------------------------------

  /** The keys extract_theme_colors reads. */
  const ThemeColorKeys := ["color", "bgcolor", "stroke_color", "shadow_color"]

  /** The distinct colour values extract_theme_colors gathers. */
  function ThemeColors(data: Value): set<Value>
  {
    PresetStorage.Gather(data, ThemeColorKeys)
  }

  /**
   * Whether sorted(set(...)) of the gathered colours succeeds: every value
   * can be put in a set, and every two of them can be compared.
   */
  predicate ThemeColorsSortable(data: Value)
  {
    (forall x :: x in ThemeColors(data) ==> Hashable(x)) && OrderableSet(ThemeColors(data))
  }

  /** cs lists the preset's colours once each, in ascending order. */
  ghost predicate SortedColorsOf(data: Value, cs: seq<Value>)
  {
    && AscendingBy(cs, Itself)
    && (forall i, j :: 0 <= i < j < |cs| ==> cs[i] != cs[j])
    && forall c :: c in cs <==> c in ThemeColors(data)
  }

  /**
   * extract_theme_colors: the distinct colour values found anywhere in the
   * preset, sorted.  A value that cannot be put in a set, or two values
   * that cannot be compared, raise TypeError.
   */
  method ExtractThemeColors(data: Value) returns (r: Result<seq<Value>>)
    ensures r.Ok? <==> ThemeColorsSortable(data)
    ensures r.Ok? ==> SortedColorsOf(data, r.value)
    ensures r.Err? ==> r.error.TypeError?
  {
    var gathered := ThemeColors(data);
    if exists x :: x in gathered && !Hashable(x) {
      return Err(TypeError("unhashable type"));
    }
    var values := ListOf(gathered);
    OrderableListing(gathered, values);
    if !OrderableBy(values, Itself) {
      return Err(TypeError("'<' not supported between instances"));
    }
    var sorted := SortByValue(values, Itself);
    SortedMembers(values, sorted);
    PermutationDistinct(values, sorted);
    return Ok(sorted);
  }

  /** The specs generate_matching_preset lays out: the source's colours, or black and white. */
  function MatchingSpecs(colors: seq<Value>): (r: Specs)
    ensures |r.colors| >= 1
  {
    Specs("custom", if colors != [] then colors else [Str("#000000"), Str("#FFFFFF")], "Roboto", ["clock", "date"], "modern", false, [])
  }

  /**
   * generate_matching_preset: the source's colours laid out as the target
   * type with a clock and a date.  The colours are extracted first, so a
   * colour TypeError wins over an unknown target type.
   */
  method GenerateMatchingPreset(source: Value, targetType: string) returns (r: Result<Value>)
    ensures !ThemeColorsSortable(source) ==> r.Err? && r.error.TypeError?
    ensures ThemeColorsSortable(source) && targetType !in PresetTypes ==> r == Err(ValueError("Unknown target type: " + targetType))
    ensures ThemeColorsSortable(source) && targetType in PresetTypes ==>
              r.Ok? && exists cs :: SortedColorsOf(source, cs) && r.value == LayoutOf(MatchingSpecs(cs), targetType)
  {
    var colors := ExtractThemeColors(source);
    if colors.Err? {
      return Err(colors.error);
    }
    r := Layout(MatchingSpecs(colors.value), targetType, "Unknown target type: ");
  }

  /**
   * A matching wallpaper has the background in the smallest source colour
   * (black when there is none), a clock at 800 and the date at 920.
   */
  lemma MatchingWallpaper(cs: seq<Value>)
    ensures var items := ItemsOf(WallpaperOf(MatchingSpecs(cs))).items;
            && ItemsOf(WallpaperOf(MatchingSpecs(cs))).Arr? && |items| == 3
            && ItemId(items[0]) == Str("background") && ItemId(items[1]) == Str("clock") && ItemId(items[2]) == Str("date")
            && ItemY(items[1]) == Num(800) && ItemY(items[2]) == Num(920)
            && Field(items[0], "color") == (if cs != [] then cs[0] else Str("#000000"))
  {
    var specs := MatchingSpecs(cs);
    WallpaperLayout(specs);
    var items := ItemsOf(WallpaperOf(specs)).items;
    assert items[0] == WallpaperBackground(specs);
    assert specs.elements == ["clock", "date"];
    assert ItemId(items[0 + 1]) == Str(specs.elements[0]);
    assert ItemId(items[1 + 1]) == Str(specs.elements[1]);
    assert ItemY(items[0 + 2]).n == ItemY(items[0 + 1]).n + Step(specs.elements[0]);
  }

  // ---------------------------------------------------------------------
  // Editing
  // ---------------------------------------------------------------------

  /** type(v).__name__ */
  function PyType(v: Value): string
  {
    match v
    case Null => "NoneType"
    case Bool(_) => "bool"
    case Num(_) => "int"
    case Str(_) => "str"
    case Arr(_) => "list"
    case Obj(_) => "dict"
  }

  /** The error of calling a dict method on something that is not a dict. */
  function NoAttribute(v: Value, name: string): Error
  {
    AttributeError("'" + PyType(v) + "' object has no attribute '" + name + "'")
  }

  /** What `for item in v` visits: list elements, dict keys or the characters of a string. */
  function Elements(v: Value): (r: Result<seq<Value>>)
    ensures v.Arr? ==> r == Ok(v.items)
    ensures v.Obj? ==> r.Ok? && |r.value| == |v.fields| && forall i :: 0 <= i < |v.fields| ==> r.value[i] == Str(v.fields[i].key)
    ensures v.Str? ==> r.Ok? && |r.value| == |v.s| && forall i :: 0 <= i < |v.s| ==> r.value[i] == Str([v.s[i]])
    ensures r.Ok? && !v.Arr? ==> forall x :: x in r.value ==> x.Str?
    ensures r.Err? <==> !(v.Arr? || v.Obj? || v.Str?)
  {
    match v
    case Arr(xs) => Ok(xs)
    case Obj(fs) => Ok(Strs(Keys(fs)))
    case Str(s) => Ok(seq(|s|, i requires 0 <= i < |s| => Str([s[i]])))
    case _ => Err(TypeError("'" + PyType(v) + "' object is not iterable"))
  }

  /**
   * Applies a per-item step to every item in order, stopping at the first
   * step that raises.
   */
  function MapAll(xs: seq<Value>, f: Value -> Result<Value>): (r: Result<seq<Value>>)
    ensures r.Ok? <==> forall i :: 0 <= i < |xs| ==> f(xs[i]).Ok?
    ensures r.Ok? ==> |r.value| == |xs| && forall i :: 0 <= i < |xs| ==> r.value[i] == f(xs[i]).value
    ensures r.Err? ==> exists i :: 0 <= i < |xs| && f(xs[i]).Err? && r.error == f(xs[i]).error
                                   && forall j :: 0 <= j < i ==> f(xs[j]).Ok?
  {
    if xs == [] then Ok([])
    else
      match f(xs[0])
      case Err(e) => Err(e)
      case Ok(y) =>
        match MapAll(xs[1..], f)
        case Err(e) =>
          assert forall i :: 1 <= i < |xs| ==> xs[1..][i - 1] == xs[i];
          Err(e)
        case Ok(ys) => Ok([y] + ys)
  }

  /** The position of the first item the step raises on, or the length of the list when it raises on none. */
  function FirstFailure(xs: seq<Value>, f: Value -> Result<Value>): (k: nat)
    ensures k <= |xs|
    ensures forall j :: 0 <= j < k ==> f(xs[j]).Ok?
    ensures k < |xs| ==> f(xs[k]).Err?
  {
    if xs == [] || f(xs[0]).Err? then 0
    else
      assert forall j :: 1 <= j < |xs| ==> xs[1..][j - 1] == xs[j];
      1 + FirstFailure(xs[1..], f)
  }

  /**
   * The list after a loop that edits its items in place and stops at the
   * first step that raises: the items before that one edited, that one as
   * the raising step left it (`raised`), the rest untouched.
   */
  function LoopedItems(xs: seq<Value>, f: Value -> Result<Value>, raised: Value -> Value): (r: seq<Value>)
    ensures |r| == |xs|
    ensures var k := FirstFailure(xs, f);
            && (forall j :: 0 <= j < k ==> r[j] == f(xs[j]).value)
            && (k < |xs| ==> r[k] == raised(xs[k]))
            && (forall j :: k < j < |xs| ==> r[j] == xs[j])
  {
    if xs == [] then []
    else
      match f(xs[0])
      case Err(_) =>
        assert FirstFailure(xs, f) == 0;
        [raised(xs[0])] + xs[1..]
      case Ok(y) =>
        var rest := LoopedItems(xs[1..], f, raised);
        assert FirstFailure(xs, f) == 1 + FirstFailure(xs[1..], f);
        assert forall j :: 1 <= j < |xs| ==> xs[1..][j - 1] == xs[j];
        [y] + rest
  }

  /** The loop completes exactly when no step raises, and then it has edited every item; otherwise it raises the first step's error. */
  lemma {:induction false} LoopedAll(xs: seq<Value>, f: Value -> Result<Value>, raised: Value -> Value)
    ensures MapAll(xs, f).Ok? <==> FirstFailure(xs, f) == |xs|
    ensures MapAll(xs, f).Ok? ==> LoopedItems(xs, f, raised) == MapAll(xs, f).value
    ensures MapAll(xs, f).Err? ==> MapAll(xs, f).error == f(xs[FirstFailure(xs, f)]).error
  {
    if xs != [] && f(xs[0]).Ok? {
      LoopedAll(xs[1..], f, raised);
    }
  }

  /**
   * The `for item in items:` loop of a recolour or a rescale, editing the
   * list in place one item at a time; `after` is the list when the loop
   * ends, whether it completes or raises.
   */
  method MapItems(xs: seq<Value>, f: Value -> Result<Value>, raised: Value -> Value) returns (r: Result<seq<Value>>, after: seq<Value>)
    ensures r == MapAll(xs, f)
    ensures after == LoopedItems(xs, f, raised)
  {
    LoopedAll(xs, f, raised);
    after := xs;
    for i := 0 to |xs|
      invariant |after| == |xs| && i <= FirstFailure(xs, f)
      invariant forall j :: 0 <= j < i ==> after[j] == f(xs[j]).value
      invariant forall j :: i <= j < |xs| ==> after[j] == xs[j]
    {
      var step := f(xs[i]);
      if step.Err? {
        after := after[i := raised(xs[i])];
        return Err(step.error), after;
      }
      after := after[i := step.value];
    }
    assert after == LoopedItems(xs, f, raised);
    return Ok(after), after;
  }

  /** Runs the per-item loop over `items` and gives the value preset['items'] then holds. */
  function EachItem(items: Value, f: Value -> Result<Value>): (r: Result<Value>)
    ensures r.Ok? && items.Arr? ==> r.value.Arr? && |r.value.items| == |items.items|
    ensures r.Ok? && !items.Arr? ==> r.value == items
  {
    match Elements(items)
    case Err(e) => Err(e)
    case Ok(xs) =>
      match MapAll(xs, f)
      case Err(e) => Err(e)
      case Ok(ys) => Ok(if items.Arr? then Arr(ys) else items)
  }

  /** The trigger words and colour names of a colour edit. */
  const ColorTriggers := ["color", "blue", "red", "green", "orange", "purple"]
  const ColorMap: seq<(string, string)> := [("blue", "#00D9FF"), ("red", "#FF4136"), ("green", "#2ECC40"),
                                            ("orange", "#FF851B"), ("purple", "#B10DC9"), ("pink", "#FF00FF")]
  const FallbackColor := "#00FFFF"
  const SizeTriggers := ["bigger", "smaller", "larger"]

  /** next((v for k, v in color_map.items() if k in cmd), '#00FFFF') */
  function NewColor(cmd: string, m: seq<(string, string)>): (r: string)
    ensures (forall i :: 0 <= i < |m| ==> !Contains(cmd, m[i].0)) ==> r == FallbackColor
    ensures (exists i :: 0 <= i < |m| && Contains(cmd, m[i].0)) ==>
              exists i :: 0 <= i < |m| && Contains(cmd, m[i].0) && r == m[i].1 && forall j :: 0 <= j < i ==> !Contains(cmd, m[j].0)
  {
    if m == [] then FallbackColor
    else if Contains(cmd, m[0].0) then m[0].1
    else
      var r := NewColor(cmd, m[1..]);
      assert forall i :: 1 <= i < |m| ==> m[1..][i - 1] == m[i];
      r
  }

  /** The edits edit_preset can make. */
  datatype Edit = Recolor(color: string) | Rescale(up: bool) | AddBattery | RemoveItems(target: string) | Keep

  /** Which edit a lower-cased command asks for: colour, then size, then add, then remove. */
  function EditOf(cmd: string): (r: Edit)
    ensures r.Recolor? <==> ContainsAny(cmd, ColorTriggers)
    ensures r.Recolor? ==> r.color == NewColor(cmd, ColorMap)
    ensures r.Rescale? <==> !ContainsAny(cmd, ColorTriggers) && ContainsAny(cmd, SizeTriggers)
    ensures r.Rescale? ==> (r.up <==> Contains(cmd, "bigger") || Contains(cmd, "larger"))
    ensures r.AddBattery? <==> !ContainsAny(cmd, ColorTriggers + SizeTriggers) && Contains(cmd, "add") && Contains(cmd, "battery")
    ensures r.RemoveItems? <==>
              (!ContainsAny(cmd, ColorTriggers + SizeTriggers) && !Contains(cmd, "add")
               && (Contains(cmd, "remove") || Contains(cmd, "delete"))
               && (Contains(cmd, "clock") || Contains(cmd, "date") || Contains(cmd, "battery")))
    ensures r.RemoveItems? ==> r.target == if Contains(cmd, "clock") then "clock" else if Contains(cmd, "date") then "date" else "battery"
  {
    ContainsAnyAppend(cmd, ColorTriggers, SizeTriggers);
    if ContainsAny(cmd, ColorTriggers) then Recolor(NewColor(cmd, ColorMap))
    else if ContainsAny(cmd, SizeTriggers) then Rescale(Contains(cmd, "bigger") || Contains(cmd, "larger"))
    else if Contains(cmd, "add") then (if Contains(cmd, "battery") then AddBattery else Keep)
    else if Contains(cmd, "remove") || Contains(cmd, "delete") then
      if Contains(cmd, "clock") then RemoveItems("clock")
      else if Contains(cmd, "date") then RemoveItems("date")
      else if Contains(cmd, "battery") then RemoveItems("battery")
      else Keep
    else Keep
  }

  /** The edit type handed to the molt animation. */
  function EditType(e: Edit): string
  {
    match e
    case Recolor(_) => "color"
    case Rescale(_) => "scale"
    case AddBattery => "birth"
    case RemoveItems(_) => "fade"
    case Keep => "transform"
  }

  /** Whether a colour edit repaints the item: it has a colour and is not the background. */
  predicate Repainted(item: Value)
  {
    ItemId(item) != Str("background") && Has(item, "color")
  }

  /** One step of the colour loop. */
  function RecolorItem(item: Value, c: string): (r: Result<Value>)
    ensures r.Ok? <==> item.Obj?
    ensures r.Err? ==> r.error == NoAttribute(item, "get")
    ensures r.Ok? ==> r.value.Obj? && Keys(r.value.fields) == Keys(item.fields)
    ensures r.Ok? ==> forall k :: k != "color" ==> Get(r.value.fields, k) == Get(item.fields, k)
    ensures r.Ok? ==> Field(r.value, "color") == if Repainted(item) then Str(c) else Field(item, "color")
  {
    if !item.Obj? then Err(NoAttribute(item, "get"))
    else if Repainted(item) then
      PutKeys(item.fields, "color", Str(c));
      Ok(Obj(Put(item.fields, "color", Str(c))))
    else Ok(item)
  }

  /** Repainting an item a second time with the same colour changes nothing. */
  lemma RecolorItemTwice(item: Value, c: string)
    requires item.Obj?
    ensures RecolorItem(RecolorItem(item, c).value, c) == RecolorItem(item, c)
  {
    if Repainted(item) {
      var once := RecolorItem(item, c).value;
      assert ItemId(once) == ItemId(item);
      assert Has(once, "color");
      PutPut(item.fields, "color", Str(c), Str(c));
    }
  }

  /** int(n * k / 10): the product truncated toward zero, as int() does. */
  function Truncated(n: int, k: nat): int
  {
    if n * k >= 0 then n * k / 10 else -((-(n * k)) / 10)
  }

  /** int(v * 1.3) when growing, int(v * 0.7) when shrinking. */
  function Scaled(v: Value, up: bool): (r: Result<Value>)
    ensures r.Ok? <==> v.Num? || v.Bool?
    ensures r.Ok? ==> r.value.Num?
  {
    var k := if up then 13 else 7;
    match v
    case Num(n) => Ok(Num(Truncated(n, k)))
    case Bool(b) => Ok(Num(Truncated(if b then 1 else 0, k)))
    case Str(_) => Err(TypeError("can't multiply sequence by non-int of type 'float'"))
    case Arr(_) => Err(TypeError("can't multiply sequence by non-int of type 'float'"))
    case _ => Err(TypeError("unsupported operand type(s) for *: '" + PyType(v) + "' and 'float'"))
  }

  /** Growing never shrinks a non-negative size and shrinking never grows it. */
  lemma ScaledDirection(n: nat)
    ensures Truncated(n, 13) >= n && Truncated(n, 7) <= n
    ensures Truncated(n, 7) >= 0
  {
  }

  /** Whether a size edit resizes the item as a shape. */
  predicate ResizedShape(item: Value)
  {
    Field(item, "type") == Str("SHAPE") && ItemId(item) != Str("background")
  }

  /** One step of the size loop: text items get a new font size, shapes other than the background a new width and height. */
  function RescaleItem(item: Value, up: bool): (r: Result<Value>)
    ensures r.Ok? ==> item.Obj? && r.value.Obj?
    ensures !item.Obj? ==> r == Err(NoAttribute(item, "get"))
    ensures r.Ok? ==> forall k :: k !in ["font_size", "width", "height"] ==> Get(r.value.fields, k) == Get(item.fields, k)
    ensures r.Ok? && Field(item, "type") == Str("TEXT") ==>
              Scaled(FieldOr(item, "font_size", Num(24)), up).Ok?
              && Field(r.value, "font_size") == Scaled(FieldOr(item, "font_size", Num(24)), up).value
              && Get(r.value.fields, "width") == Get(item.fields, "width") && Get(r.value.fields, "height") == Get(item.fields, "height")
    ensures r.Ok? && ResizedShape(item) ==>
              Scaled(FieldOr(item, "width", Num(100)), up).Ok? && Scaled(FieldOr(item, "height", Num(100)), up).Ok?
              && Field(r.value, "width") == Scaled(FieldOr(item, "width", Num(100)), up).value
              && Field(r.value, "height") == Scaled(FieldOr(item, "height", Num(100)), up).value
              && Get(r.value.fields, "font_size") == Get(item.fields, "font_size")
    ensures r.Ok? && Field(item, "type") != Str("TEXT") && !ResizedShape(item) ==> r.value == item
    ensures item.Obj? && Field(item, "type") == Str("TEXT") ==> (r.Ok? <==> Scaled(FieldOr(item, "font_size", Num(24)), up).Ok?)
  {
    if !item.Obj? then Err(NoAttribute(item, "get"))
    else if Field(item, "type") == Str("TEXT") then TextRescaled(item, up)
    else if ResizedShape(item) then ShapeRescaled(item, up)
    else Ok(item)
  }

  /** The size step of a text item: a new font size, nothing else changed. */
  function TextRescaled(item: Value, up: bool): (r: Result<Value>)
    requires item.Obj?
    ensures r.Ok? <==> Scaled(FieldOr(item, "font_size", Num(24)), up).Ok?
    ensures r.Ok? ==>
              && r.value.Obj? && Field(r.value, "font_size") == Scaled(FieldOr(item, "font_size", Num(24)), up).value
              && forall k :: k != "font_size" ==> Get(r.value.fields, k) == Get(item.fields, k)
  {
    match Scaled(FieldOr(item, "font_size", Num(24)), up)
    case Err(e) => Err(e)
    case Ok(size) => Ok(Obj(Put(item.fields, "font_size", size)))
  }

  /** The size step of a shape: a new width, then a new height, nothing else changed. */
  function ShapeRescaled(item: Value, up: bool): (r: Result<Value>)
    requires item.Obj?
    ensures r.Ok? ==>
              && Scaled(FieldOr(item, "width", Num(100)), up).Ok? && Scaled(FieldOr(item, "height", Num(100)), up).Ok?
              && r.value.Obj?
              && Field(r.value, "width") == Scaled(FieldOr(item, "width", Num(100)), up).value
              && Field(r.value, "height") == Scaled(FieldOr(item, "height", Num(100)), up).value
              && forall k :: k != "width" && k != "height" ==> Get(r.value.fields, k) == Get(item.fields, k)
  {
    match Scaled(FieldOr(item, "width", Num(100)), up)
    case Err(e) => Err(e)
    case Ok(w) =>
      match Scaled(FieldOr(item, "height", Num(100)), up)
      case Err(e) => Err(e)
      case Ok(h) =>
        assert "width" != "height";
        Ok(Obj(Put(Put(item.fields, "width", w), "height", h)))
  }

  /**
   * A size edit of a text item whose font size is a non-negative number (or
   * absent) makes it at least as large when growing and at most as large
   * when shrinking.
   */
  lemma RescaleDirection(item: Value, up: bool)
    requires item.Obj? && Field(item, "type") == Str("TEXT")
    requires FieldOr(item, "font_size", Num(24)).Num? && FieldOr(item, "font_size", Num(24)).n >= 0
    ensures RescaleItem(item, up).Ok?
    ensures var before, after := FieldOr(item, "font_size", Num(24)).n, Field(RescaleItem(item, up).value, "font_size").n;
            (up ==> after >= before) && (!up ==> 0 <= after <= before)
  {
    ScaledDirection(FieldOr(item, "font_size", Num(24)).n);
  }

  /**
   * The comprehension of a remove edit: the items whose id is not the
   * target, in their order; an item that is not a dict raises.
   */
  function Without(xs: seq<Value>, target: string): (r: Result<seq<Value>>)
    ensures r.Ok? <==> forall i :: 0 <= i < |xs| ==> xs[i].Obj?
    ensures r.Err? ==> exists i :: 0 <= i < |xs| && !xs[i].Obj? && r.error == NoAttribute(xs[i], "get")
    ensures r.Ok? ==> forall v :: v in r.value <==> v in xs && ItemId(v) != Str(target)
    ensures r.Ok? ==> Subsequence(r.value, xs)
  {
    if xs == [] then Ok([])
    else if !xs[0].Obj? then Err(NoAttribute(xs[0], "get"))
    else
      var rest := Without(xs[1..], target);
      assert forall i :: 1 <= i < |xs| ==> xs[1..][i - 1] == xs[i];
      assert forall v :: v in xs <==> v == xs[0] || v in xs[1..];
      if rest.Err? then rest
      else if ItemId(xs[0]) != Str(target) then
        assert Subsequence([xs[0]] + rest.value, xs) by {
          assert ([xs[0]] + rest.value)[1..] == rest.value;
        }
        Ok([xs[0]] + rest.value)
      else
        Ok(rest.value)
  }

  /** Removing the same element a second time changes nothing. */
  lemma {:induction false} WithoutTwice(xs: seq<Value>, target: string)
    requires Without(xs, target).Ok?
    ensures Without(Without(xs, target).value, target) == Without(xs, target)
  {
    if xs != [] {
      WithoutTwice(xs[1..], target);
      var rest := Without(xs[1..], target).value;
      if ItemId(xs[0]) != Str(target) {
        assert ([xs[0]] + rest)[1..] == rest;
      }
    }
  }

  /** preset['items'][0]['color'], evaluated for the battery an add edit creates. */
  function FirstItemColor(preset: Value): (r: Result<Value>)
    requires preset.Obj?
    ensures !Has(preset, "items") ==> r == Err(KeyError("items"))
    ensures r.Ok? ==> Field(preset, "items").Arr? && Field(preset, "items").items != []
                      && Has(Field(preset, "items").items[0], "color")
    ensures Has(preset, "items") && Field(preset, "items").Arr? && Field(preset, "items").items == [] ==>
              r == Err(IndexError("list index out of range"))
  {
    if !Has(preset, "items") then Err(KeyError("items"))
    else
      match Field(preset, "items")
      case Arr(xs) =>
        if xs == [] then Err(IndexError("list index out of range"))
        else
          (match xs[0]
           case Obj(fs) => if HasKey(fs, "color") then Ok(Field(xs[0], "color")) else Err(KeyError("color"))
           case Str(_) => Err(TypeError("string indices must be integers, not 'str'"))
           case Arr(_) => Err(TypeError("list indices must be integers or slices, not str"))
           case _ => Err(TypeError("'" + PyType(xs[0]) + "' object is not subscriptable")))
      case Obj(fs) => Err(KeyError("0"))
      case Str(s) => if s == "" then Err(IndexError("string index out of range")) else Err(TypeError("string indices must be integers, not 'str'"))
      case v => Err(TypeError("'" + PyType(v) + "' object is not subscriptable"))
  }

  /** The value preset['items'] holds after the edit. */
  function EditedItems(preset: Value, e: Edit): Result<Value>
    requires preset.Obj?
  {
    var items := FieldOr(preset, "items", Arr([]));
    match e
    case Recolor(_) => EachItem(items, StepOf(e))
    case Rescale(_) => EachItem(items, StepOf(e))
    case AddBattery =>
      if !items.Arr? then Err(NoAttribute(items, "append"))
      else if FirstItemColor(preset).Err? then Err(FirstItemColor(preset).error)
      else Ok(Arr(items.items + [Battery(Str(FallbackColor), 1600)]))
    case RemoveItems(t) =>
      (match Elements(items)
       case Err(err) => Err(err)
       case Ok(xs) =>
         (match Without(xs, t)
          case Err(err) => Err(err)
          case Ok(kept) => Ok(Arr(kept))))
    case Keep => Ok(items)
  }

  /**
   * edit_preset: the preset with its items edited as the command asks, and
   * the edit type; every other key of the preset is left as it was.
   */
  function Edited(preset: Value, command: string): (r: Result<(Value, string)>)
    ensures !preset.Obj? ==> r == Err(NoAttribute(preset, "get"))
    ensures r.Ok? ==> r.value.0.Obj? && r.value.1 == EditType(EditOf(Lower(command)))
    ensures r.Ok? ==> forall k :: k != "items" ==> Get(r.value.0.fields, k) == Get(preset.fields, k)
    ensures r.Ok? ==> preset.Obj? && EditedItems(preset, EditOf(Lower(command))).Ok?
                      && Field(r.value.0, "items") == EditedItems(preset, EditOf(Lower(command))).value
  {
    if !preset.Obj? then Err(NoAttribute(preset, "get"))
    else
      var e := EditOf(Lower(command));
      match EditedItems(preset, e)
      case Err(err) => Err(err)
      case Ok(items) => Ok((Obj(Put(preset.fields, "items", items)), EditType(e)))
  }

  /**
   * What a size step that raises leaves of the item: a shape other than
   * the background whose new width was stored before its height failed
   * keeps that width.  A step raising on anything else changed nothing.
   */
  function RescaleRaised(item: Value, up: bool): (r: Value)
    ensures !(item.Obj? && ResizedShape(item)) ==> r == item
  {
    if item.Obj? && ResizedShape(item) && Scaled(FieldOr(item, "width", Num(100)), up).Ok? then
      Obj(Put(item.fields, "width", Scaled(FieldOr(item, "width", Num(100)), up).value))
    else item
  }

  /** One step of a colour or size loop. */
  function LoopStep(e: Edit, item: Value): Result<Value>
    requires e.Recolor? || e.Rescale?
  {
    if e.Recolor? then RecolorItem(item, e.color) else RescaleItem(item, e.up)
  }

  /** What a raising step of a colour or size loop leaves of its item. */
  function LoopRaised(e: Edit, item: Value): Value
    requires e.Recolor? || e.Rescale?
  {
    if e.Recolor? then item else RescaleRaised(item, e.up)
  }

  /** The step of a colour or size loop, as a function of the item. */
  function StepOf(e: Edit): Value -> Result<Value>
    requires e.Recolor? || e.Rescale?
  {
    (v: Value) => LoopStep(e, v)
  }

  /** What a raising step of a colour or size loop leaves, as a function of the item. */
  function RaisedOf(e: Edit): Value -> Value
    requires e.Recolor? || e.Rescale?
  {
    (v: Value) => LoopRaised(e, v)
  }

  /**
   * The preset after edit_preset, which edits the dict it is given in
   * place: the edited preset when the edit returns; when a colour or size
   * loop over a list of items raises, the preset holding that list as far
   * as the loop got; after any other error the preset as it was.
   */
  function EditedInPlace(preset: Value, command: string): (r: Value)
    ensures Edited(preset, command).Ok? ==> r == Edited(preset, command).value.0
    ensures preset.Obj? <==> r.Obj?
    ensures !preset.Obj? ==> r == preset
    ensures preset.Obj? ==> forall k :: k != "items" ==> Get(r.fields, k) == Get(preset.fields, k)
    ensures Edited(preset, command).Err? && !(ItemsOr(preset).Arr? && (EditOf(Lower(command)).Recolor? || EditOf(Lower(command)).Rescale?)) ==>
              r == preset
  {
    if !preset.Obj? then preset
    else
      var items := ItemsOr(preset);
      match Edited(preset, command)
      case Ok(edited) => edited.0
      case Err(_) =>
        if !items.Arr? then preset
        else
          match EditOf(Lower(command))
          case Recolor(_) => Obj(Put(preset.fields, "items", Arr(LoopedItems(items.items, StepOf(EditOf(Lower(command))), RaisedOf(EditOf(Lower(command)))))))
          case Rescale(_) => Obj(Put(preset.fields, "items", Arr(LoopedItems(items.items, StepOf(EditOf(Lower(command))), RaisedOf(EditOf(Lower(command)))))))
          case _ => preset
  }

  /**
   * When a colour or size edit raises on a list of items, the preset keeps
   * a partial edit: the items before the one the loop raised on are edited,
   * that one is as the raising step left it, the later ones are untouched,
   * and the error is that step's.
   */
  lemma PartialEdit(preset: Value, command: string)
    requires preset.Obj? && ItemsOr(preset).Arr? && Edited(preset, command).Err?
    requires EditOf(Lower(command)).Recolor? || EditOf(Lower(command)).Rescale?
    ensures var xs, e := ItemsOr(preset).items, EditOf(Lower(command));
            var step, raised := StepOf(e), RaisedOf(e);
            var ys := Field(EditedInPlace(preset, command), "items");
            && ys.Arr? && |ys.items| == |xs|
            && exists k :: 0 <= k < |xs| && step(xs[k]).Err? && Edited(preset, command).error == step(xs[k]).error
                 && ys.items[k] == raised(xs[k])
                 && (forall j :: 0 <= j < k ==> step(xs[j]).Ok? && ys.items[j] == step(xs[j]).value)
                 && (forall j :: k < j < |xs| ==> ys.items[j] == xs[j])
  {
    var xs, e := ItemsOr(preset).items, EditOf(Lower(command));
    LoopInPlace(preset, command);
    RaisedList(xs, StepOf(e), RaisedOf(e), Field(EditedInPlace(preset, command), "items"), Edited(preset, command).error);
  }

  /** Where a loop raised on a list, stated for the list value the preset holds and the error it raised. */
  lemma RaisedList(xs: seq<Value>, f: Value -> Result<Value>, raised: Value -> Value, ys: Value, err: Error)
    requires MapAll(xs, f).Err? && err == MapAll(xs, f).error
    requires ys == Arr(LoopedItems(xs, f, raised))
    ensures && ys.Arr? && |ys.items| == |xs|
            && exists k :: 0 <= k < |xs| && f(xs[k]).Err? && err == f(xs[k]).error
                 && ys.items[k] == raised(xs[k])
                 && (forall j :: 0 <= j < k ==> f(xs[j]).Ok? && ys.items[j] == f(xs[j]).value)
                 && (forall j :: k < j < |xs| ==> ys.items[j] == xs[j])
  {
    var k := RaisedAt(xs, f, raised);
  }

  /** The step a loop that raises on a list raised at, and the list it leaves. */
  lemma RaisedAt(xs: seq<Value>, f: Value -> Result<Value>, raised: Value -> Value) returns (k: nat)
    requires MapAll(xs, f).Err?
    ensures var ys := LoopedItems(xs, f, raised);
            && k < |xs| && f(xs[k]).Err? && MapAll(xs, f).error == f(xs[k]).error
            && ys[k] == raised(xs[k])
            && (forall j :: 0 <= j < k ==> f(xs[j]).Ok? && ys[j] == f(xs[j]).value)
            && (forall j :: k < j < |xs| ==> ys[j] == xs[j])
  {
    LoopedAll(xs, f, raised);
    k := FirstFailure(xs, f);
  }

  /** A colour or size loop that raises on a list leaves the list as far as the loop got, and its error is the edit's. */
  lemma LoopInPlace(preset: Value, command: string)
    requires preset.Obj? && ItemsOr(preset).Arr? && Edited(preset, command).Err?
    requires EditOf(Lower(command)).Recolor? || EditOf(Lower(command)).Rescale?
    ensures var xs, e := ItemsOr(preset).items, EditOf(Lower(command));
            && MapAll(xs, StepOf(e)).Err? && Edited(preset, command).error == MapAll(xs, StepOf(e)).error
            && Field(EditedInPlace(preset, command), "items") == Arr(LoopedItems(xs, StepOf(e), RaisedOf(e)))
  {
  }

  /**
   * edit_preset, running the item loops one item at a time; `after` is the
   * preset dict once it returns or raises, since the loops edit it in place.
   */
  method EditPreset(preset: Value, command: string) returns (r: Result<(Value, string)>, after: Value)
    ensures r == Edited(preset, command)
    ensures after == EditedInPlace(preset, command)
  {
    if !preset.Obj? {
      return Err(NoAttribute(preset, "get")), preset;
    }
    var e := EditOf(Lower(command));
    var items := FieldOr(preset, "items", Arr([]));
    var updated, looped := EditItems(preset, e);
    if updated.Err? {
      if items.Arr? && (e.Recolor? || e.Rescale?) {
        return Err(updated.error), Obj(Put(preset.fields, "items", looped));
      }
      return Err(updated.error), preset;
    }
    r := Ok((Obj(Put(preset.fields, "items", updated.value)), EditType(e)));
    return r, r.value.0;
  }

  /**
   * The branch of edit_preset that edits preset['items']: what the items
   * become, and the list a colour or size loop leaves behind.
   */
  method EditItems(preset: Value, e: Edit) returns (updated: Result<Value>, looped: Value)
    requires preset.Obj?
    ensures updated == EditedItems(preset, e)
    ensures ItemsOr(preset).Arr? && (e.Recolor? || e.Rescale?) ==>
              looped == Arr(LoopedItems(ItemsOr(preset).items, StepOf(e), RaisedOf(e)))
  {
    var items := FieldOr(preset, "items", Arr([]));
    looped := items;
    match e {
      case Recolor(_) =>
        updated, looped := EachItemLoop(items, StepOf(e), RaisedOf(e));
      case Rescale(_) =>
        updated, looped := EachItemLoop(items, StepOf(e), RaisedOf(e));
      case AddBattery =>
        if !items.Arr? {
          updated := Err(NoAttribute(items, "append"));
        } else {
          var first := FirstItemColor(preset);
          if first.Err? {
            updated := Err(first.error);
          } else {
            updated := Ok(Arr(items.items + [Battery(Str(FallbackColor), 1600)]));
          }
        }
      case RemoveItems(t) =>
        var xs := Elements(items);
        if xs.Err? {
          updated := Err(xs.error);
        } else {
          var kept := Without(xs.value, t);
          updated := if kept.Err? then Err(kept.error) else Ok(Arr(kept.value));
        }
      case Keep =>
        updated := Ok(items);
    }
  }

  /** The per-item loop over preset.get('items', []). */
  method EachItemLoop(items: Value, f: Value -> Result<Value>, raised: Value -> Value) returns (r: Result<Value>, after: Value)
    ensures r == EachItem(items, f)
    ensures after == if items.Arr? then Arr(LoopedItems(items.items, f, raised)) else items
  {
    var xs := Elements(items);
    if xs.Err? {
      return Err(xs.error), items;
    }
    var ys, looped := MapItems(xs.value, f, raised);
    LoopedAll(xs.value, f, raised);
    after := if items.Arr? then Arr(looped) else items;
    if ys.Err? {
      return Err(ys.error), after;
    }
    return Ok(after), after;
  }

  /** The items of a preset, as edit_preset reads them. */
  function ItemsOr(preset: Value): Value
  {
    FieldOr(preset, "items", Arr([]))
  }

  /**
   * A colour edit repaints, with the colour the command names, exactly the
   * items that have a colour and are not the background; every item keeps
   * its other fields, and the list keeps its length.
   */
  lemma EditRecolors(preset: Value, command: string)
    requires Edited(preset, command).Ok? && EditOf(Lower(command)).Recolor? && ItemsOr(preset).Arr?
    ensures var (p, t) := Edited(preset, command).value;
            var xs, c := ItemsOr(preset).items, NewColor(Lower(command), ColorMap);
            && t == "color" && Field(p, "items").Arr? && |Field(p, "items").items| == |xs|
            && forall i :: 0 <= i < |xs| ==>
                 var y := Field(p, "items").items[i];
                 && Field(y, "color") == (if Repainted(xs[i]) then Str(c) else Field(xs[i], "color"))
                 && forall k :: k != "color" ==> Field(y, k) == Field(xs[i], k)
  {
    var c := NewColor(Lower(command), ColorMap);
    var f := StepOf(EditOf(Lower(command)));
    var xs := ItemsOr(preset).items;
    var ys := MapAll(xs, f);
    assert ys.Ok?;
    forall i | 0 <= i < |xs|
      ensures forall k :: k != "color" ==> Field(ys.value[i], k) == Field(xs[i], k)
    {
      assert ys.value[i] == RecolorItem(xs[i], c).value;
    }
  }

  /** Applying the same colour edit twice gives what applying it once gave. */
  lemma RecolorTwice(preset: Value, command: string)
    requires Edited(preset, command).Ok? && EditOf(Lower(command)).Recolor?
    ensures Edited(Edited(preset, command).value.0, command) == Edited(preset, command)
  {
    var c := NewColor(Lower(command), ColorMap);
    var f := StepOf(EditOf(Lower(command)));
    var items := ItemsOr(preset);
    var once := Edited(preset, command).value.0;
    var updated := EachItem(items, f).value;
    assert once == Obj(Put(preset.fields, "items", updated));
    assert ItemsOr(once) == updated;
    if items.Arr? {
      var ys := MapAll(items.items, f).value;
      assert updated == Arr(ys);
      forall i | 0 <= i < |ys|
        ensures f(ys[i]) == Ok(ys[i])
      {
        RecolorItemTwice(items.items[i], c);
      }
      var again := MapAll(ys, f);
      assert again.Ok? && again.value == ys;
    } else {
      assert EachItem(updated, f) == Ok(updated);
    }
    PutPut(preset.fields, "items", updated, updated);
  }

  /**
   * A remove edit of a target drops every item with that id and keeps every
   * other item, in order.
   */
  lemma EditRemoves(preset: Value, command: string)
    requires Edited(preset, command).Ok? && EditOf(Lower(command)).RemoveItems? && ItemsOr(preset).Arr?
    ensures var (p, t) := Edited(preset, command).value;
            var xs, target := ItemsOr(preset).items, EditOf(Lower(command)).target;
            && t == "fade" && Field(p, "items").Arr?
            && (forall y :: y in Field(p, "items").items <==> y in xs && ItemId(y) != Str(target))
            && Subsequence(Field(p, "items").items, xs)
  {
  }

  /** Applying the same remove edit twice gives what applying it once gave. */
  lemma RemoveTwice(preset: Value, command: string)
    requires Edited(preset, command).Ok? && EditOf(Lower(command)).RemoveItems?
    ensures Edited(Edited(preset, command).value.0, command) == Edited(preset, command)
  {
    var target := EditOf(Lower(command)).target;
    var items := ItemsOr(preset);
    var once := Edited(preset, command).value.0;
    var kept := Without(Elements(items).value, target).value;
    assert once == Obj(Put(preset.fields, "items", Arr(kept)));
    assert ItemsOr(once) == Arr(kept);
    WithoutTwice(Elements(items).value, target);
    PutPut(preset.fields, "items", Arr(kept), Arr(kept));
  }

  /**
   * An add-battery edit appends one battery, cyan at y 1600, after the
   * existing items; it needs a first item with a colour.
   */
  lemma EditAddsBattery(preset: Value, command: string)
    requires preset.Obj? && EditOf(Lower(command)).AddBattery?
    ensures Edited(preset, command).Ok? <==> ItemsOr(preset).Arr? && FirstItemColor(preset).Ok?
    ensures Edited(preset, command).Ok? ==>
              var (p, t) := Edited(preset, command).value;
              var xs := ItemsOr(preset).items;
              && t == "birth" && Field(p, "items").Arr?
              && |Field(p, "items").items| == |xs| + 1 && Field(p, "items").items[..|xs|] == xs
              && ItemId(Field(p, "items").items[|xs|]) == Str("battery")
              && ItemY(Field(p, "items").items[|xs|]) == Num(1600)
              && Field(Field(p, "items").items[|xs|], "color") == Str(FallbackColor)
  {
    var e := EditOf(Lower(command));
    if Edited(preset, command).Ok? {
      var xs := ItemsOr(preset).items;
      var b := Battery(Str(FallbackColor), 1600);
      assert EditedItems(preset, e) == Ok(Arr(xs + [b]));
      assert (xs + [b])[..|xs|] == xs && (xs + [b])[|xs|] == b;
    }
  }

  /** A command that asks for no edit leaves the items as they were and reports a transform. */
  lemma EditKeeps(preset: Value, command: string)
    requires preset.Obj? && EditOf(Lower(command)).Keep?
    ensures Edited(preset, command).Ok?
    ensures Edited(preset, command).value.1 == "transform"
    ensures Field(Edited(preset, command).value.0, "items") == ItemsOr(preset)
  {
  }

  /**
   * A size edit resizes every item of the list by its own rule, or raises
   * at the first item that cannot be resized.
   */
  lemma EditRescales(preset: Value, command: string)
    requires preset.Obj? && EditOf(Lower(command)).Rescale? && ItemsOr(preset).Arr?
    ensures var xs, up := ItemsOr(preset).items, EditOf(Lower(command)).up;
            Edited(preset, command).Ok? <==> forall i :: 0 <= i < |xs| ==> RescaleItem(xs[i], up).Ok?
    ensures var xs, up := ItemsOr(preset).items, EditOf(Lower(command)).up;
            Edited(preset, command).Ok? ==>
              var p := Edited(preset, command).value.0;
              && Edited(preset, command).value.1 == "scale"
              && Field(p, "items").Arr? && |Field(p, "items").items| == |xs|
              && forall i :: 0 <= i < |xs| ==> Field(p, "items").items[i] == RescaleItem(xs[i], up).value
  {
  }
}

=== FILE: preset_storage.dfy ===
// PresetStorage: saved presets on the device.  Each preset is a JSON file
// <root>/<type>/<name>.json for type klwp, klck or kwgt, with an optional
// thumbnail <root>/thumbnails/<name>.png.  Saving adds a "metadata" object;
// listing reads every preset back, newest first.  The clock is an input.
module PresetStorage {
  import opened Wrappers
  import opened Text
  import opened Json
  import opened OrderedMap
  import opened Paths
  import opened Files
  import opened Sorting
  import opened ValueOrder

  const PresetTypes := ["klwp", "klck", "kwgt"]

  // ---------------------------------------------------------------------
  // Names
  // ---------------------------------------------------------------------

  /** The characters a preset name may not keep. */
  const InvalidChars := "<>:\"/\\|?*"

  /** Longest name kept. */
  const MaxNameLength := 100

  const KnownExtensions := [".klwp", ".klck", ".kwgt", ".json"]

  predicate HasKnownExtension(name: string)
  {
    exists e :: e in KnownExtensions && EndsWith(name, e)
  }

  /** `name.rsplit('.', 1)[0]` for a name with a known extension: all four are a dot and four letters. */
  function WithoutExtension(name: string): (r: string)
    ensures HasKnownExtension(name) ==> |name| >= 5 && r == name[..|name| - 5]
    ensures !HasKnownExtension(name) ==> r == name
  {
    if HasKnownExtension(name) then
      var e :| e in KnownExtensions && EndsWith(name, e);
      name[..|name| - 5]
    else name
  }

  /** Every invalid character replaced by '_'. */
  function ReplaceInvalid(s: string): (r: string)
    ensures |r| == |s|
    ensures forall i :: 0 <= i < |s| ==> r[i] == (if s[i] in InvalidChars then '_' else s[i])
  {
    if s == [] then [] else [if s[0] in InvalidChars then '_' else s[0]] + ReplaceInvalid(s[1..])
  }

  /** The name _sanitize_name produces. */
  function SafeName(name: string): (r: string)
    ensures |r| <= MaxNameLength
    ensures forall i :: 0 <= i < |r| ==> r[i] !in InvalidChars
  {
    var t := ReplaceInvalid(WithoutExtension(name));
    if |t| <= MaxNameLength then t else t[..MaxNameLength]
  }

  /** The extension, when the name has one, begins at the name's last dot. */
  lemma ExtensionDot(name: string, e: string)
    requires e in KnownExtensions && EndsWith(name, e)
    ensures |name| >= 5 && LastIndex(name, '.') == |name| - 5
  {
    ExtensionShape(e);
    SuffixDot(name, e);
  }

  /** Each known extension is a dot and four other characters. */
  lemma ExtensionShape(e: string)
    requires e in KnownExtensions
    ensures |e| == 5 && e[0] == '.' && forall i :: 1 <= i < 5 ==> e[i] != '.'
  {
  }

  /** A name ending in a dot and four other characters has its last dot five from the end. */
  lemma SuffixDot(name: string, e: string)
    requires |e| == 5 && e[0] == '.' && forall i :: 1 <= i < 5 ==> e[i] != '.'
    requires EndsWith(name, e)
    ensures |name| >= 5 && LastIndex(name, '.') == |name| - 5
  {
    var k := |name| - 5;
    var tail := name[k..];
    assert tail == e;
    assert name[k] == '.' by { assert tail[0] == name[k]; }
    forall j | k < j < |name|
      ensures name[j] != '.'
    {
      assert tail[j - k] == name[j];
    }
    LastIndexAt(name, '.', k);
  }

  /** _sanitize_name: the extension dropped, each invalid character replaced in turn, the result cut to 100 characters. */
  method SanitizeName(name: string) returns (r: string)
    ensures r == SafeName(name)
  {
    var n := name;
    if HasKnownExtension(n) {
      var e :| e in KnownExtensions && EndsWith(n, e);
      ExtensionDot(n, e);
      n := n[..LastIndex(n, '.')];
    }
    ghost var stem := n;
    assert stem == WithoutExtension(name);
    for i := 0 to |InvalidChars|
      invariant ReplacedUpTo(n, stem, i)
    {
      ReplacedStep(n, stem, i);
      n := ReplaceChar(n, InvalidChars[i], '_');
    }
    ReplacedAll(n, stem);
    r := if |n| <= MaxNameLength then n else n[..MaxNameLength];
  }

  /** `n` is `stem` with the first `i` invalid characters replaced. */
  ghost predicate ReplacedUpTo(n: string, stem: string, i: nat)
    requires i <= |InvalidChars|
  {
    |n| == |stem| && forall k :: 0 <= k < |n| ==> n[k] == (if stem[k] in InvalidChars[..i] then '_' else stem[k])
  }

  lemma ReplacedStep(n: string, stem: string, i: nat)
    requires i < |InvalidChars| && ReplacedUpTo(n, stem, i)
    ensures ReplacedUpTo(ReplaceChar(n, InvalidChars[i], '_'), stem, i + 1)
  {
    assert forall c :: c in InvalidChars[..i + 1] <==> c in InvalidChars[..i] || c == InvalidChars[i];
  }

  lemma ReplacedAll(n: string, stem: string)
    requires ReplacedUpTo(n, stem, |InvalidChars|)
    ensures n == ReplaceInvalid(stem)
  {
    assert InvalidChars[..|InvalidChars|] == InvalidChars;
  }

  /** A sanitized name never leaves its directory: the file it names is a direct child. */
  lemma SafeNameStaysInDirectory(dir: string, name: string)
    ensures BaseName(Child(dir, SafeName(name) + ".json")) == SafeName(name) + ".json"
  {
    var f := SafeName(name) + ".json";
    assert '/' in InvalidChars;
    assert '/' !in f;
    BaseNameChild(dir, f);
  }

  /** A name that is already safe is kept as it is. */
  lemma SafeNameKeepsSafe(name: string)
    requires !HasKnownExtension(name) && |name| <= MaxNameLength
    requires forall i :: 0 <= i < |name| ==> name[i] !in InvalidChars
    ensures SafeName(name) == name
  {
  }

  // ---------------------------------------------------------------------
  // Colours of a preset
  // ---------------------------------------------------------------------

  /** The keys _extract_colors reads. */
  const ColorKeys := ["color", "bgcolor", "stroke_color"]

  /** The truthy values an object holds under the given keys. */
  function OwnValues(v: Value, keys: seq<string>): (r: set<Value>)
    ensures forall x :: x in r ==> Truthy(x)
    ensures forall k :: k in keys && Truthy(Field(v, k)) ==> Field(v, k) in r
  {
    if keys == [] then {}
    else (if Truthy(Field(v, keys[0])) then {Field(v, keys[0])} else {}) + OwnValues(v, keys[1..])
  }

  /** traverse(obj): every truthy value under one of the keys, at any depth. */
  function Gather(v: Value, keys: seq<string>): set<Value>
  {
    match v
    case Obj(fs) => OwnValues(v, keys) + GatherFields(fs, keys)
    case Arr(xs) => GatherItems(xs, keys)
    case _ => {}
  }

  function GatherFields(fs: seq<Entry<Value>>, keys: seq<string>): set<Value>
  {
    if fs == [] then {} else Gather(fs[0].val, keys) + GatherFields(fs[1..], keys)
  }

  function GatherItems(xs: seq<Value>, keys: seq<string>): set<Value>
  {
    if xs == [] then {} else Gather(xs[0], keys) + GatherItems(xs[1..], keys)
  }

  /** The colour values of every item of a list are gathered. */
  lemma {:induction false} ItemGathered(xs: seq<Value>, i: nat, keys: seq<string>)
    requires i < |xs|
    ensures Gather(xs[i], keys) <= GatherItems(xs, keys)
  {
    if i > 0 {
      ItemGathered(xs[1..], i - 1, keys);
    }
  }

  /** The distinct colour values of a preset: truthy values under the colour keys, at any depth. */
  function Colors(data: Value): set<Value>
  {
    Gather(data, ColorKeys)
  }

  /**
   * A palette of a preset: at most ten distinct colour values of the
   * preset in ascending order, and none left out that is smaller than one
   * kept.
   */
  ghost predicate IsPalette(data: Value, cs: seq<Value>)
  {
    && |cs| <= 10
    && AscendingBy(cs, Itself)
    && (forall i, j :: 0 <= i < j < |cs| ==> cs[i] != cs[j])
    && (forall c :: c in cs ==> c in Colors(data))
    && (forall c :: c in Colors(data) && c !in cs ==> |cs| == 10 && forall d :: d in cs ==> AtMost(d, c))
  }

  /**
   * Whether sorted(set(...))[:10] succeeds: every colour value can be put
   * in a set, and every two of them can be compared.
   */
  predicate ColorsSortable(data: Value)
  {
    (forall x :: x in Colors(data) ==> Hashable(x)) && OrderableSet(Colors(data))
  }

  /**
   * _extract_colors: the distinct colour values in ascending order, at most
   * ten.  A value that cannot be put in a set, or two values that cannot be
   * compared, raise TypeError.
   */
  method ExtractColors(data: Value) returns (r: Result<seq<Value>>)
    ensures r.Ok? <==> ColorsSortable(data)
    ensures r.Ok? ==> IsPalette(data, r.value)
    ensures r.Err? ==> r.error.TypeError?
  {
    var gathered := Gather(data, ColorKeys);
    if exists x :: x in gathered && !Hashable(x) {
      return Err(TypeError("unhashable type"));
    }
    var values := ListOf(gathered);
    OrderableListing(gathered, values);
    if !OrderableBy(values, Itself) {
      return Err(TypeError("'<' not supported between instances"));
    }
    var sorted := SortByValue(values, Itself);
    SortedMembers(values, sorted);
    PermutationDistinct(values, sorted);
    FirstTenPalette(data, sorted);
    return Ok(sorted[..if |sorted| <= 10 then |sorted| else 10]);
  }

  /** The first ten of the distinct colour values, in ascending order, are a palette of the preset. */
  lemma FirstTenPalette(data: Value, sorted: seq<Value>)
    requires AscendingBy(sorted, Itself)
    requires forall i, j :: 0 <= i < j < |sorted| ==> sorted[i] != sorted[j]
    requires forall x :: x in sorted <==> x in Colors(data)
    ensures IsPalette(data, sorted[..if |sorted| <= 10 then |sorted| else 10])
  {
    var cs := sorted[..if |sorted| <= 10 then |sorted| else 10];
    FirstTen(sorted, cs);
    assert forall i :: 0 <= i < |cs| ==> cs[i] == sorted[i];
    assert forall c :: c in cs ==> c in sorted;
  }

  // ---------------------------------------------------------------------
  // The store
  // ---------------------------------------------------------------------

  /** What save_preset returns and list_presets lists (PresetMetadata). */
  datatype PresetMetadata = PresetMetadata(
    name: string,
    presetType: string,
    createdAt: Value,
    modifiedAt: Value,
    filePath: string,
    thumbnailPath: Option<string>,
    colors: seq<Value>)

  /** The metadata object save_preset stores with a preset. */
  function MetadataDoc(safe: string, now: string): Value
  {
    Obj([Entry("name", Str(safe)), Entry("created_at", Str(now)), Entry("modified_at", Str(now)),
         Entry("app", Str("Chameleon")), Entry("version", Str("0.2.1"))])
  }

  /** `{**preset_data, 'metadata': {...}}` */
  function WithMetadata(data: Value, safe: string, now: string): (r: Value)
    requires data.Obj?
    ensures r.Obj? && Get(r.fields, "metadata") == Some(MetadataDoc(safe, now))
    ensures forall k :: k != "metadata" ==> Get(r.fields, k) == Get(data.fields, k)
  {
    Obj(Put(data.fields, "metadata", MetadataDoc(safe, now)))
  }

  /** The file paths of listed presets, in order. */
  function FilePaths(ms: seq<PresetMetadata>): (r: seq<string>)
    ensures |r| == |ms| && forall i :: 0 <= i < |ms| ==> r[i] == ms[i].filePath
  {
    if ms == [] then [] else [ms[0].filePath] + FilePaths(ms[1..])
  }

  /** The metadata.modified_at of a listed preset: list_presets' sort key. */
  function ModifiedAt(m: PresetMetadata): Value
  {
    m.modifiedAt
  }

  class PresetStore {
    const disk: FileSystem
    const root: string

    /** `getattr(self, f'{t}_dir')`: the directories the store has attributes for. */
    function DirAttribute(t: string): (r: Option<string>)
    {
      if t in PresetTypes || t == "thumbnails" then Some(Child(root, t))
      else if t == "storage" then Some(root)
      else None
    }

    function PresetPath(dir: string, name: string): string
    {
      Child(dir, name + ".json")
    }

    function ThumbnailPath(name: string): string
    {
      Child(Child(root, "thumbnails"), name + ".png")
    }

    /** A thumbnail is never a preset file. */
    lemma ThumbnailApart(t: string, name: string)
      requires t in PresetTypes
      ensures ThumbnailPath(name) != PresetPath(Child(root, t), name)
    {
      var k := |root| + 1;
      assert ThumbnailPath(name)[k] == 't';
      assert PresetPath(Child(root, t), name)[k] == t[0] == 'k';
    }

    /** The storage directory and its four sub-directories exist. */
    ghost predicate Valid()
      reads disk
    {
      root in disk.dirs && Child(root, "thumbnails") in disk.dirs
      && forall t :: t in PresetTypes ==> Child(root, t) in disk.dirs
    }

    /** __init__: creates the storage directory and its sub-directories. */
    constructor (disk0: FileSystem, root0: string)
      modifies disk0
      ensures disk == disk0 && root == root0
      ensures disk.files == old(disk0.files)
      ensures disk.dirs == old(disk0.dirs) + {root0, Child(root0, "klwp"), Child(root0, "klck"), Child(root0, "kwgt"), Child(root0, "thumbnails")}
      ensures Valid()
    {
      disk := disk0;
      root := root0;
      new;
      disk0.dirs := disk0.dirs + {root0, Child(root0, "klwp"), Child(root0, "klck"), Child(root0, "kwgt"), Child(root0, "thumbnails")};
    }

    /**
     * load_preset: the document stored for the name, FileNotFoundError when
     * there is no such path, and AttributeError for a type the store has no
     * directory attribute for.
     */
    function LoadPreset(name: string, t: string): (r: Result<Value>)
      reads disk
      ensures DirAttribute(t).None? ==> r.Err? && r.error.AttributeError?
      ensures DirAttribute(t).Some? && !disk.Exists(PresetPath(DirAttribute(t).value, name)) ==> r == Err(FileNotFound("Preset not found: " + name))
      ensures r.Ok? <==> DirAttribute(t).Some? && var p := PresetPath(DirAttribute(t).value, name);
                         p in disk.files && disk.files[p].Plain? && disk.files[p].blob.JsonText?
      ensures r.Ok? ==> disk.files[PresetPath(DirAttribute(t).value, name)] == Plain(JsonText(r.value))
    {
      match DirAttribute(t)
      case None => Err(AttributeError("'PresetStorage' object has no attribute '" + t + "_dir'"))
      case Some(dir) =>
        var p := PresetPath(dir, name);
        if p in disk.files then
          (if disk.files[p].Plain? && disk.files[p].blob.JsonText? then Ok(disk.files[p].blob.doc)
           else Err(JsonDecode(p)))
        else if p in disk.dirs then Err(IsADirectory(p))
        else Err(FileNotFound("Preset not found: " + name))
    }

    /** The file save_preset writes for the name and type. */
    function SavedPath(t: string, name: string): string
    {
      PresetPath(Child(root, t), SafeName(name))
    }

    /** The files right after save_preset's write, before the thumbnail copy. */
    function SavedFiles(name: string, data: Value, t: string, now: string): map<string, Content>
      requires data.Obj?
      reads disk
    {
      disk.files[SavedPath(t, name) := Plain(JsonText(WithMetadata(data, SafeName(name), now)))]
    }

    /** Whether save_preset copies the thumbnail: a non-empty path that exists once the preset is written. */
    predicate CopiesThumbnail(files: map<string, Content>, thumbnail: Option<string>)
      reads disk
    {
      thumbnail.Some? && thumbnail.value != "" && (thumbnail.value in files || thumbnail.value in disk.dirs)
    }

    /** Where the thumbnail copy lands: inside the thumbnail path when that is a directory. */
    function ThumbnailTarget(name: string, thumbnail: Option<string>): string
      reads disk
    {
      if thumbnail.Some? then CopyTarget(disk.dirs, thumbnail.value, ThumbnailPath(SafeName(name))) else ThumbnailPath(SafeName(name))
    }

    /**
     * Whether save_preset returns metadata: a known type, an object
     * document, a preset path that can be opened for writing, a thumbnail
     * copy that succeeds when one is made, and colours that can be sorted.
     */
    predicate SaveSucceeds(name: string, data: Value, t: string, thumbnail: Option<string>, now: string)
      reads disk
    {
      && t in PresetTypes && data.Obj? && Writable(disk.files, disk.dirs, SavedPath(t, name))
      && (CopiesThumbnail(SavedFiles(name, data, t, now), thumbnail) ==>
            CopyFailure(SavedFiles(name, data, t, now), disk.dirs, thumbnail.value, ThumbnailPath(SafeName(name))).None?)
      && ColorsSortable(data)
    }

    /** The preset path of a known type can be written unless it is a directory. */
    lemma SavedPathWritable(t: string, name: string)
      requires Valid() && t in PresetTypes
      ensures Writable(disk.files, disk.dirs, SavedPath(t, name)) <==>
                SavedPath(t, name) in disk.files || SavedPath(t, name) !in disk.dirs
    {
      var dir := Child(root, t);
      assert '/' !in SafeName(name) + ".json" by {
        var n := SafeName(name) + ".json";
        forall i | 0 <= i < |n| ensures n[i] != '/' {
          if i < |SafeName(name)| {
            assert n[i] == SafeName(name)[i] && InvalidChars[4] == '/';
          }
        }
      }
      ParentDirChild(dir, SafeName(name) + ".json");
    }

    /**
     * save_preset: writes the document with its metadata to the sanitized
     * name's file, copies an existing thumbnail beside the others, and
     * returns the metadata.  An unknown type raises ValueError before
     * anything is written; a document that is not an object cannot be
     * spread and raises TypeError; a directory at the preset path raises
     * IsADirectoryError.  The thumbnail copy and the colour extraction come
     * after the write, so their errors leave the file written.
     */
    method SavePreset(name: string, data: Value, t: string, thumbnail: Option<string>, now: string)
      returns (r: Result<PresetMetadata>)
      requires Valid()
      modifies disk
      ensures Valid() && disk.dirs == old(disk.dirs)
      ensures r.Ok? <==> old(SaveSucceeds(name, data, t, thumbnail, now))
      ensures t !in PresetTypes ==> r == Err(ValueError("Invalid preset type: " + t)) && disk.files == old(disk.files)
      ensures t in PresetTypes && !data.Obj? ==> r.Err? && r.error.TypeError? && disk.files == old(disk.files)
      ensures t in PresetTypes && data.Obj? && !Writable(old(disk.files), old(disk.dirs), SavedPath(t, name)) ==>
        r == Err(IsADirectory(SavedPath(t, name))) && disk.files == old(disk.files)
      ensures t in PresetTypes && data.Obj? && Writable(old(disk.files), old(disk.dirs), SavedPath(t, name)) ==>
        var path := SavedPath(t, name);
        && path in disk.files && disk.files[path] == Plain(JsonText(WithMetadata(data, SafeName(name), now)))
        && LoadPreset(SafeName(name), t) == Ok(WithMetadata(data, SafeName(name), now))
        && (forall p :: p != path && p != old(ThumbnailTarget(name, thumbnail)) ==>
              (p in disk.files <==> p in old(disk.files)) && (p in disk.files ==> disk.files[p] == old(disk.files)[p]))
      ensures r.Ok? ==>
        && r.value.name == SafeName(name) && r.value.presetType == t
        && r.value.createdAt == Str(now) && r.value.modifiedAt == Str(now)
        && r.value.filePath == SavedPath(t, name)
        && IsPalette(data, r.value.colors)
        && (r.value.thumbnailPath.Some? <==> old(CopiesThumbnail(SavedFiles(name, data, t, now), thumbnail)))
        && (r.value.thumbnailPath.Some? ==>
              && r.value.thumbnailPath.value == ThumbnailPath(SafeName(name))
              && disk.files == old(SavedFiles(name, data, t, now))[old(ThumbnailTarget(name, thumbnail)) := old(SavedFiles(name, data, t, now))[thumbnail.value]])
        && (r.value.thumbnailPath.None? ==> disk.files == old(SavedFiles(name, data, t, now)))
    {
      if t !in PresetTypes {
        return Err(ValueError("Invalid preset type: " + t));
      }
      var safe := SanitizeName(name);
      var path := PresetPath(Child(root, t), safe);
      if !data.Obj? {
        return Err(TypeError("'" + t + "' document is not a mapping"));
      }
      var doc := WithMetadata(data, safe, now);
      ThumbnailApart(t, safe);
      SavedPathWritable(t, name);
      ghost var saved := SavedFiles(name, data, t, now);
      ghost var target := ThumbnailTarget(name, thumbnail);
      var written := disk.Write(path, Plain(JsonText(doc)));
      if written.Err? {
        return Err(written.error);
      }
      assert disk.files == saved;
      var thumbDest: Option<string> := None;
      if thumbnail.Some? && thumbnail.value != "" && disk.Exists(thumbnail.value) {
        var dest := ThumbnailPath(safe);
        var copied := disk.Copy(thumbnail.value, dest);
        if copied.Err? {
          return Err(copied.error);
        }
        thumbDest := Some(dest);
      }
      var colors := ExtractColors(data);
      if colors.Err? {
        return Err(colors.error);
      }
      return Ok(PresetMetadata(safe, t, Str(now), Str(now), path, thumbDest, colors.value));
    }

    /** The document a JSON file of the snapshot holds (null for anything else). */
    static function DocAt(files: map<string, Content>, path: string): Value
    {
      if path in files && files[path].Plain? && files[path].blob.JsonText? then files[path].blob.doc else Null
    }

    /** A preset file's metadata.modified_at, "" when absent. */
    static function TimeOf(files: map<string, Content>, path: string): Value
    {
      FieldOr(FieldOr(DocAt(files, path), "metadata", Obj([])), "modified_at", Str(""))
    }

    /** Whether the file holds a JSON object whose metadata, if present, is an object. */
    static predicate ReadsAsPreset(files: map<string, Content>, path: string)
    {
      DocAt(files, path).Obj? && FieldOr(DocAt(files, path), "metadata", Obj([])).Obj?
    }

    /**
     * One listed preset read from its file, or None when reading it fails in
     * any way.  It reads a snapshot of the disk: its files and directories.
     * The colours are filled in afterwards.
     */
    function ReadEntry(files: map<string, Content>, dirs: set<string>, path: string, t: string): (r: Option<(Value, PresetMetadata)>)
      ensures r.Some? <==> ReadsAsPreset(files, path)
      ensures r.Some? ==> r.value.0 == DocAt(files, path)
      ensures r.Some? ==> r.value.1.filePath == path && r.value.1.presetType == t && r.value.1.colors == []
      ensures r.Some? ==> r.value.1.modifiedAt == TimeOf(files, path)
    {
      if path in files && files[path].Plain? && files[path].blob.JsonText? then
        var data := files[path].blob.doc;
        if !data.Obj? then None
        else
          var meta := FieldOr(data, "metadata", Obj([]));
          if !meta.Obj? then None
          else
            var name := Stem(path);
            var thumb := ThumbnailPath(name);
            Some((data, PresetMetadata(name, t, FieldOr(meta, "created_at", Str("")), FieldOr(meta, "modified_at", Str("")),
                                       path, if thumb in files || thumb in dirs then Some(thumb) else None, [])))
      else None
    }

    /** Whether list_presets keeps the file: it reads as a preset and its colours can be extracted. */
    predicate Listable(files: map<string, Content>, dirs: set<string>, path: string, t: string)
    {
      ReadsAsPreset(files, path) && ColorsSortable(DocAt(files, path))
    }

    /** The metadata list_presets builds for a listable file: what it reads, with the file's palette. */
    ghost predicate Lists(files: map<string, Content>, dirs: set<string>, m: PresetMetadata, path: string, t: string)
    {
      && Listable(files, dirs, path, t)
      && m.(colors := []) == ReadEntry(files, dirs, path, t).value.1
      && IsPalette(DocAt(files, path), m.colors)
    }

    /** What list_presets reads, before the colours, from the listable files among `paths`, in order. */
    function Listed(files: map<string, Content>, dirs: set<string>, paths: seq<string>, t: string): (r: seq<PresetMetadata>)
      ensures |r| <= |paths|
    {
      if paths == [] then []
      else
        var p := paths[|paths| - 1];
        Listed(files, dirs, paths[..|paths| - 1], t) + (if Listable(files, dirs, p, t) then [ReadEntry(files, dirs, p, t).value.1] else [])
    }

    /** Everything listed comes from a listable file among the paths, read as ReadEntry reads it. */
    lemma {:induction false} ListedSound(files: map<string, Content>, dirs: set<string>, paths: seq<string>, t: string)
      ensures forall k :: 0 <= k < |Listed(files, dirs, paths, t)| ==>
        && Listed(files, dirs, paths, t)[k].filePath in paths
        && Listable(files, dirs, Listed(files, dirs, paths, t)[k].filePath, t)
        && Listed(files, dirs, paths, t)[k] == ReadEntry(files, dirs, Listed(files, dirs, paths, t)[k].filePath, t).value.1
    {
      if paths != [] {
        var init := paths[..|paths| - 1];
        ListedSound(files, dirs, init, t);
        assert forall q :: q in init ==> q in paths;
      }
    }

    /** The listable file at index j of the paths is listed. */
    lemma {:induction false} ListedCoversAt(files: map<string, Content>, dirs: set<string>, paths: seq<string>, t: string, j: int)
      requires 0 <= j < |paths| && Listable(files, dirs, paths[j], t)
      ensures paths[j] in FilePaths(Listed(files, dirs, paths, t))
      decreases |paths|
    {
      var init := paths[..|paths| - 1];
      var r := Listed(files, dirs, paths, t);
      var l := Listed(files, dirs, init, t);
      if j < |paths| - 1 {
        assert init[j] == paths[j];
        ListedCoversAt(files, dirs, init, t, j);
        var k :| 0 <= k < |l| && FilePaths(l)[k] == paths[j];
        assert r[k] == l[k];
        assert FilePaths(r)[k] == paths[j];
      } else {
        assert r[|l|].filePath == paths[j];
        assert FilePaths(r)[|l|] == paths[j];
      }
    }

    /** Every listable file among the paths is listed. */
    lemma ListedCovers(files: map<string, Content>, dirs: set<string>, paths: seq<string>, t: string)
      ensures forall p :: p in paths && Listable(files, dirs, p, t) ==> p in FilePaths(Listed(files, dirs, paths, t))
    {
      forall p | p in paths && Listable(files, dirs, p, t)
        ensures p in FilePaths(Listed(files, dirs, paths, t))
      {
        var j :| 0 <= j < |paths| && paths[j] == p;
        ListedCoversAt(files, dirs, paths, t, j);
      }
    }

    /** Reading distinct files lists each file at most once. */
    lemma {:induction false} ListedDistinct(files: map<string, Content>, dirs: set<string>, paths: seq<string>, t: string)
      requires forall i, j :: 0 <= i < j < |paths| ==> paths[i] != paths[j]
      ensures forall i, j :: 0 <= i < j < |Listed(files, dirs, paths, t)| ==>
        Listed(files, dirs, paths, t)[i].filePath != Listed(files, dirs, paths, t)[j].filePath
    {
      if paths != [] {
        var init := paths[..|paths| - 1];
        var last := paths[|paths| - 1];
        ListedDistinct(files, dirs, init, t);
        ListedSound(files, dirs, init, t);
        var l := Listed(files, dirs, init, t);
        forall k | 0 <= k < |l| ensures l[k].filePath != last {
          var j :| 0 <= j < |init| && init[j] == l[k].filePath;
        }
      }
    }

    /** The types list_presets scans. */
    function TypesToScan(t: Option<string>): (r: seq<string>)
      ensures |r| >= 1
    {
      if t.Some? && t.value != "" then [t.value] else PresetTypes
    }

    /** The preset one file contributes to the listing, if any. */
    method ReadPreset(path: string, t: string) returns (m: Option<PresetMetadata>)
      ensures m.Some? <==> Listable(disk.files, disk.dirs, path, t)
      ensures m.Some? ==> m.value.(colors := []) == ReadEntry(disk.files, disk.dirs, path, t).value.1
      ensures m.Some? ==> IsPalette(DocAt(disk.files, path), m.value.colors)
    {
      var entry := ReadEntry(disk.files, disk.dirs, path, t);
      if entry.None? {
        return None;
      }
      var colors := ExtractColors(entry.value.0);
      if colors.Err? {
        return None;
      }
      m := Some(entry.value.1.(colors := colors.value));
    }

    /** The presets read from the given files of one type directory, in order, each with its palette. */
    method ScanType(t: string, paths: seq<string>) returns (found: seq<PresetMetadata>)
      ensures |found| == |Listed(disk.files, disk.dirs, paths, t)|
      ensures forall k :: 0 <= k < |found| ==> found[k].(colors := []) == Listed(disk.files, disk.dirs, paths, t)[k]
      ensures forall k :: 0 <= k < |found| ==> IsPalette(DocAt(disk.files, found[k].filePath), found[k].colors)
    {
      var files, dirs := disk.files, disk.dirs;
      found := [];
      for i := 0 to |paths|
        invariant |found| == |Listed(files, dirs, paths[..i], t)|
        invariant forall k :: 0 <= k < |found| ==> found[k].(colors := []) == Listed(files, dirs, paths[..i], t)[k]
        invariant forall k :: 0 <= k < |found| ==> IsPalette(DocAt(files, found[k].filePath), found[k].colors)
      {
        assert paths[..i + 1][..i] == paths[..i];
        var m := ReadPreset(paths[i], t);
        if m.Some? {
          found := found + [m.value];
        }
      }
      assert paths[..|paths|] == paths;
    }

    /** What ScanType's result means, file by file. */
    lemma ScanMeaning(files: map<string, Content>, dirs: set<string>, paths: seq<string>, t: string, found: seq<PresetMetadata>)
      requires |found| == |Listed(files, dirs, paths, t)|
      requires forall k :: 0 <= k < |found| ==> found[k].(colors := []) == Listed(files, dirs, paths, t)[k]
      requires forall k :: 0 <= k < |found| ==> IsPalette(DocAt(files, found[k].filePath), found[k].colors)
      ensures forall m :: m in found ==> m.filePath in paths && Lists(files, dirs, m, m.filePath, t)
      ensures forall p :: p in paths && Listable(files, dirs, p, t) ==> p in FilePaths(found)
    {
      var l := Listed(files, dirs, paths, t);
      ListedSound(files, dirs, paths, t);
      ListedCovers(files, dirs, paths, t);
      forall m | m in found
        ensures m.filePath in paths && Lists(files, dirs, m, m.filePath, t)
      {
        var k :| 0 <= k < |found| && found[k] == m;
        assert m.filePath == l[k].filePath;
      }
      forall p | p in paths && Listable(files, dirs, p, t)
        ensures p in FilePaths(found)
      {
        var k :| 0 <= k < |l| && FilePaths(l)[k] == p;
        assert FilePaths(found)[k] == found[k].filePath == l[k].filePath;
      }
    }

    /** Scanning distinct files finds each file at most once. */
    lemma ScanDistinct(files: map<string, Content>, dirs: set<string>, paths: seq<string>, t: string, found: seq<PresetMetadata>)
      requires |found| == |Listed(files, dirs, paths, t)|
      requires forall k :: 0 <= k < |found| ==> found[k].(colors := []) == Listed(files, dirs, paths, t)[k]
      requires forall i, j :: 0 <= i < j < |paths| ==> paths[i] != paths[j]
      ensures DistinctFiles(found)
    {
      var l := Listed(files, dirs, paths, t);
      ListedDistinct(files, dirs, paths, t);
      assert forall k :: 0 <= k < |found| ==> found[k].filePath == l[k].filePath;
    }

    /** Every listable preset file of the directory is among the list's files. */
    ghost predicate Covered(files: map<string, Content>, dirs: set<string>, ms: seq<PresetMetadata>, dir: string, u: string)
    {
      forall p :: p in files && InGlob(p, dir, ".json") && Listable(files, dirs, p, u) ==> p in FilePaths(ms)
    }

    /** Every preset of the list is read from a file of one of the types' directories. */
    ghost predicate FromTypes(files: map<string, Content>, dirs: set<string>, ms: seq<PresetMetadata>, types: seq<string>)
    {
      forall m :: m in ms ==>
        exists u :: u in types && DirAttribute(u).Some? && InGlob(m.filePath, DirAttribute(u).value, ".json") && Lists(files, dirs, m, m.filePath, u)
    }

    /** A list keeps covering a directory when anything is appended to it. */
    lemma CoveredGrows(files: map<string, Content>, dirs: set<string>, xs: seq<PresetMetadata>, ys: seq<PresetMetadata>, dir: string, u: string)
      requires Covered(files, dirs, xs, dir, u)
      ensures Covered(files, dirs, xs + ys, dir, u)
    {
      assert FilePaths(xs + ys) == FilePaths(xs) + FilePaths(ys);
    }

    /** A list covers a directory when a list it draws on does: every preset of one is in the other. */
    lemma CoveredMoves(files: map<string, Content>, dirs: set<string>, xs: seq<PresetMetadata>, ys: seq<PresetMetadata>, dir: string, u: string)
      requires Covered(files, dirs, xs, dir, u)
      requires forall m :: m in xs ==> m in ys
      ensures Covered(files, dirs, ys, dir, u)
    {
      forall p | p in files && InGlob(p, dir, ".json") && Listable(files, dirs, p, u)
        ensures p in FilePaths(ys)
      {
        var k :| 0 <= k < |xs| && FilePaths(xs)[k] == p;
        assert xs[k] in ys;
        var l :| 0 <= l < |ys| && ys[l] == xs[k];
        assert FilePaths(ys)[l] == p;
      }
    }

    /** The list covers the directories of the first n types, which all have one. */
    ghost predicate CoversFirst(files: map<string, Content>, dirs: set<string>, ms: seq<PresetMetadata>, types: seq<string>, n: nat)
      requires n <= |types|
    {
      forall j :: 0 <= j < n ==> DirAttribute(types[j]).Some? && Covered(files, dirs, ms, DirAttribute(types[j]).value, types[j])
    }

    /** Appending a scan of the next type extends what the list covers by that type. */
    lemma CoversNext(files: map<string, Content>, dirs: set<string>, presets: seq<PresetMetadata>, found: seq<PresetMetadata>, types: seq<string>, i: nat)
      requires i < |types| && CoversFirst(files, dirs, presets, types, i)
      requires DirAttribute(types[i]).Some? && Covered(files, dirs, presets + found, DirAttribute(types[i]).value, types[i])
      ensures CoversFirst(files, dirs, presets + found, types, i + 1)
    {
      forall j | 0 <= j < i
        ensures Covered(files, dirs, presets + found, DirAttribute(types[j]).value, types[j])
      {
        CoveredGrows(files, dirs, presets, found, DirAttribute(types[j]).value, types[j]);
      }
    }

    /** One type's scan, appended to the list, keeps every preset accounted for and covers that type's directory. */
    lemma ScanStep(files: map<string, Content>, dirs: set<string>, presets: seq<PresetMetadata>, found: seq<PresetMetadata>,
                   paths: seq<string>, types: seq<string>, i: nat)
      requires i < |types| && DirAttribute(types[i]).Some?
      requires forall p :: p in paths <==> p in files && InGlob(p, DirAttribute(types[i]).value, ".json")
      requires forall m :: m in found ==> m.filePath in paths && Lists(files, dirs, m, m.filePath, types[i])
      requires forall p :: p in paths && Listable(files, dirs, p, types[i]) ==> p in FilePaths(found)
      requires FromTypes(files, dirs, presets, types)
      ensures FromTypes(files, dirs, presets + found, types)
      ensures Covered(files, dirs, presets + found, DirAttribute(types[i]).value, types[i])
    {
      var dir := DirAttribute(types[i]).value;
      assert types[i] in types;
      assert Covered(files, dirs, found, dir, types[i]);
      assert forall m :: m in found ==> m in presets + found;
      CoveredMoves(files, dirs, found, presets + found, dir, types[i]);
    }

    /** The types name different directories. */
    predicate DistinctDirs(types: seq<string>)
    {
      forall i, j :: 0 <= i < j < |types| && DirAttribute(types[i]).Some? ==> DirAttribute(types[i]) != DirAttribute(types[j])
    }

    /** Each preset of the list lies in the directory of one of the first n types. */
    ghost predicate InFirstDirs(ms: seq<PresetMetadata>, types: seq<string>, n: nat)
      requires n <= |types|
    {
      forall m :: m in ms ==> exists j :: 0 <= j < n && DirAttribute(types[j]).Some? && InGlob(m.filePath, DirAttribute(types[j]).value, ".json")
    }

    /** No two presets of the list come from the same file. */
    ghost predicate DistinctFiles(ms: seq<PresetMetadata>)
    {
      forall i, j :: 0 <= i < j < |ms| ==> ms[i].filePath != ms[j].filePath
    }

    /** Appending the next type's scan keeps the files distinct when the directories are. */
    lemma DistinctStep(presets: seq<PresetMetadata>, found: seq<PresetMetadata>, types: seq<string>, i: nat)
      requires i < |types| && DistinctDirs(types) && DirAttribute(types[i]).Some?
      requires InFirstDirs(presets, types, i) && DistinctFiles(presets) && DistinctFiles(found)
      requires forall m :: m in found ==> InGlob(m.filePath, DirAttribute(types[i]).value, ".json")
      ensures DistinctFiles(presets + found)
    {
      var all := presets + found;
      forall a, b | 0 <= a < b < |all|
        ensures all[a].filePath != all[b].filePath
      {
        if a < |presets| <= b {
          assert presets[a] in presets && found[b - |presets|] in found;
          var j :| 0 <= j < i && DirAttribute(types[j]).Some? && InGlob(presets[a].filePath, DirAttribute(types[j]).value, ".json");
          InGlobParent(presets[a].filePath, DirAttribute(types[j]).value, ".json");
          InGlobParent(found[b - |presets|].filePath, DirAttribute(types[i]).value, ".json");
        } else if |presets| <= a {
          assert all[a] == found[a - |presets|] && all[b] == found[b - |presets|];
        }
      }
    }

    /** The blocks joined in order. */
    function Concat(blocks: seq<seq<PresetMetadata>>): seq<PresetMetadata>
    {
      if blocks == [] then [] else Concat(blocks[..|blocks| - 1]) + blocks[|blocks| - 1]
    }

    /**
     * The presets come in n blocks, one per type in the order the types are
     * given: block j holds presets read from files of type j's directory,
     * and every listable file of that directory.
     */
    ghost predicate ScanBlocks(files: map<string, Content>, dirs: set<string>, blocks: seq<seq<PresetMetadata>>, types: seq<string>, n: nat)
      requires n <= |types|
    {
      && |blocks| == n
      && forall j :: 0 <= j < n ==>
           && DirAttribute(types[j]).Some?
           && Covered(files, dirs, blocks[j], DirAttribute(types[j]).value, types[j])
           && forall m :: m in blocks[j] ==>
                InGlob(m.filePath, DirAttribute(types[j]).value, ".json") && Lists(files, dirs, m, m.filePath, types[j])
    }

    /** One more type's scan extends the blocks by one. */
    lemma ScanBlocksNext(files: map<string, Content>, dirs: set<string>, blocks: seq<seq<PresetMetadata>>, found: seq<PresetMetadata>,
                         types: seq<string>, i: nat)
      requires i < |types| && ScanBlocks(files, dirs, blocks, types, i) && DirAttribute(types[i]).Some?
      requires Covered(files, dirs, found, DirAttribute(types[i]).value, types[i])
      requires forall m :: m in found ==>
        InGlob(m.filePath, DirAttribute(types[i]).value, ".json") && Lists(files, dirs, m, m.filePath, types[i])
      ensures ScanBlocks(files, dirs, blocks + [found], types, i + 1)
      ensures Concat(blocks + [found]) == Concat(blocks) + found
    {
      assert (blocks + [found])[..i] == blocks;
      forall j | 0 <= j < i
        ensures (blocks + [found])[j] == blocks[j]
      {
      }
    }

    /**
     * The scanning loop of list_presets: every type's directory in turn.  A
     * type without a directory attribute raises AttributeError.  When the
     * types name different directories, no file is listed twice.
     */
    method CollectPresets(types: seq<string>) returns (r: Result<seq<PresetMetadata>>, ghost blocks: seq<seq<PresetMetadata>>)
      ensures r.Ok? <==> forall u :: u in types ==> DirAttribute(u).Some?
      ensures r.Ok? ==> ScanBlocks(disk.files, disk.dirs, blocks, types, |types|) && r.value == Concat(blocks)
      ensures r.Err? ==> r.error.AttributeError?
      ensures r.Ok? ==> FromTypes(disk.files, disk.dirs, r.value, types)
      ensures r.Ok? ==> CoversFirst(disk.files, disk.dirs, r.value, types, |types|)
      ensures r.Ok? && DistinctDirs(types) ==> DistinctFiles(r.value)
    {
      var files, dirs := disk.files, disk.dirs;
      var presets: seq<PresetMetadata> := [];
      blocks := [];
      for i := 0 to |types|
        invariant ScanBlocks(files, dirs, blocks, types, i) && presets == Concat(blocks)
        invariant FromTypes(files, dirs, presets, types)
        invariant CoversFirst(files, dirs, presets, types, i)
        invariant InFirstDirs(presets, types, i)
        invariant DistinctDirs(types) ==> DistinctFiles(presets)
      {
        var dir := DirAttribute(types[i]);
        if dir.None? {
          assert types[i] in types;
          return Err(AttributeError("'PresetStorage' object has no attribute '" + types[i] + "_dir'")), blocks;
        }
        var paths := disk.Glob(dir.value, ".json");
        var found := ScanType(types[i], paths);
        ScanMeaning(files, dirs, paths, types[i], found);
        ScanBlocksNext(files, dirs, blocks, found, types, i);
        ScanStep(files, dirs, presets, found, paths, types, i);
        CoversNext(files, dirs, presets, found, types, i);
        if DistinctDirs(types) {
          ScanDistinct(files, dirs, paths, types[i], found);
          DistinctStep(presets, found, types, i);
        }
        presets := presets + found;
        blocks := blocks + [found];
      }
      CoversAll(files, dirs, presets, types);
      return Ok(presets), blocks;
    }

    /** Every type with a directory attribute has one. */
    lemma CoversAll(files: map<string, Content>, dirs: set<string>, ms: seq<PresetMetadata>, types: seq<string>)
      requires CoversFirst(files, dirs, ms, types, |types|)
      ensures forall u :: u in types ==> DirAttribute(u).Some? && Covered(files, dirs, ms, DirAttribute(u).value, u)
    {
      forall u | u in types
        ensures DirAttribute(u).Some? && Covered(files, dirs, ms, DirAttribute(u).value, u)
      {
        var j :| 0 <= j < |types| && types[j] == u;
      }
    }

    /** A listable preset file in the directory of one of the types. */
    ghost predicate ListableIn(files: map<string, Content>, dirs: set<string>, p: string, types: seq<string>)
    {
      exists u :: u in types && DirAttribute(u).Some? && InGlob(p, DirAttribute(u).value, ".json") && Listable(files, dirs, p, u)
    }

    /**
     * Whether list_presets can sort what it reads: the modification times
     * of every two different listable files can be compared.
     */
    ghost predicate TimesOrderable(files: map<string, Content>, dirs: set<string>, types: seq<string>)
    {
      forall p, q :: ListableIn(files, dirs, p, types) && ListableIn(files, dirs, q, types) && p != q ==>
        Comparable(TimeOf(files, p), TimeOf(files, q))
    }

    /** The collected presets can be sorted by modification time exactly when the files' times can be compared. */
    lemma OrderableTimes(files: map<string, Content>, dirs: set<string>, ms: seq<PresetMetadata>, types: seq<string>)
      requires FromTypes(files, dirs, ms, types) && DistinctFiles(ms)
      requires forall u :: u in types ==> DirAttribute(u).Some? && Covered(files, dirs, ms, DirAttribute(u).value, u)
      ensures OrderableBy(ms, ModifiedAt) <==> TimesOrderable(files, dirs, types)
    {
      forall m | m in ms
        ensures ListableIn(files, dirs, m.filePath, types) && m.modifiedAt == TimeOf(files, m.filePath)
      {
        var u :| u in types && DirAttribute(u).Some? && InGlob(m.filePath, DirAttribute(u).value, ".json") && Lists(files, dirs, m, m.filePath, u);
      }
      if OrderableBy(ms, ModifiedAt) {
        forall p, q | ListableIn(files, dirs, p, types) && ListableIn(files, dirs, q, types) && p != q
          ensures Comparable(TimeOf(files, p), TimeOf(files, q))
        {
          var i := IndexOfListable(files, dirs, ms, types, p);
          var j := IndexOfListable(files, dirs, ms, types, q);
          assert ms[i] in ms && ms[j] in ms;
          if i < j {
            assert Comparable(ModifiedAt(ms[i]), ModifiedAt(ms[j]));
          } else {
            assert Comparable(ModifiedAt(ms[j]), ModifiedAt(ms[i]));
          }
        }
      }
      if TimesOrderable(files, dirs, types) {
        forall i, j | 0 <= i < j < |ms|
          ensures Comparable(ModifiedAt(ms[i]), ModifiedAt(ms[j]))
        {
          assert ms[i] in ms && ms[j] in ms;
        }
      }
    }

    /** Where a listable file of the types sits in a list that covers their directories. */
    lemma IndexOfListable(files: map<string, Content>, dirs: set<string>, ms: seq<PresetMetadata>, types: seq<string>, p: string)
      returns (i: int)
      requires forall u :: u in types ==> DirAttribute(u).Some? && Covered(files, dirs, ms, DirAttribute(u).value, u)
      requires ListableIn(files, dirs, p, types)
      ensures 0 <= i < |ms| && ms[i].filePath == p
    {
      var u :| u in types && DirAttribute(u).Some? && InGlob(p, DirAttribute(u).value, ".json") && Listable(files, dirs, p, u);
      assert p in files;
      assert p in FilePaths(ms);
      i :| 0 <= i < |ms| && FilePaths(ms)[i] == p;
    }

    /** A reordering of a list without repeated files has none. */
    lemma ReorderedDistinct(ms: seq<PresetMetadata>, rs: seq<PresetMetadata>)
      requires multiset(rs) == multiset(ms) && DistinctFiles(ms)
      ensures DistinctFiles(rs)
    {
      SortedMembers(ms, rs);
      assert forall i, j :: 0 <= i < j < |ms| ==> ms[i] != ms[j] by {
        forall i, j | 0 <= i < j < |ms| ensures ms[i] != ms[j] {
          assert ms[i].filePath != ms[j].filePath;
        }
      }
      PermutationDistinct(ms, rs);
      forall i, j | 0 <= i < j < |rs|
        ensures rs[i].filePath != rs[j].filePath
      {
        assert rs[i] in ms && rs[j] in ms;
        var a :| 0 <= a < |ms| && ms[a] == rs[i];
        var b :| 0 <= b < |ms| && ms[b] == rs[j];
        assert a != b;
      }
    }

    /** A reordering of the collected presets keeps what the collection promises. */
    lemma Reordered(files: map<string, Content>, dirs: set<string>, ms: seq<PresetMetadata>, rs: seq<PresetMetadata>, types: seq<string>)
      requires multiset(rs) == multiset(ms)
      requires FromTypes(files, dirs, ms, types) && DistinctFiles(ms)
      requires forall u :: u in types ==> DirAttribute(u).Some? && Covered(files, dirs, ms, DirAttribute(u).value, u)
      ensures FromTypes(files, dirs, rs, types) && DistinctFiles(rs)
      ensures forall u :: u in types ==> DirAttribute(u).Some? && Covered(files, dirs, rs, DirAttribute(u).value, u)
    {
      SortedMembers(ms, rs);
      ReorderedDistinct(ms, rs);
      forall u | u in types
        ensures DirAttribute(u).Some? && Covered(files, dirs, rs, DirAttribute(u).value, u)
      {
        CoveredMoves(files, dirs, ms, rs, DirAttribute(u).value, u);
      }
    }

    /** The types list_presets scans name different directories. */
    lemma ScannedDirsDistinct(t: Option<string>)
      ensures DistinctDirs(TypesToScan(t))
    {
      if !(t.Some? && t.value != "") {
        assert (Child(root, PresetTypes[0]))[|root| + 2] == 'l';
        assert (Child(root, PresetTypes[1]))[|root| + 2] == 'l';
        assert (Child(root, PresetTypes[2]))[|root| + 2] == 'w';
        assert (Child(root, PresetTypes[0]))[|root| + 3] == 'w';
        assert (Child(root, PresetTypes[1]))[|root| + 3] == 'c';
      }
    }

    /**
     * list_presets: the presets of the given type (all three when none is
     * given) whose files read back, newest first by metadata.modified_at,
     * each file once.  A type without a directory attribute raises
     * AttributeError; modification times that cannot be compared with each
     * other raise TypeError.
     */
    method ListPresets(t: Option<string>) returns (r: Result<seq<PresetMetadata>>, ghost blocks: seq<seq<PresetMetadata>>)
      ensures r.Ok? <==> (forall u :: u in TypesToScan(t) ==> DirAttribute(u).Some?)
                         && TimesOrderable(disk.files, disk.dirs, TypesToScan(t))
      ensures (exists u :: u in TypesToScan(t) && DirAttribute(u).None?) ==> r.Err? && r.error.AttributeError?
      ensures r.Err? ==> r.error.AttributeError? || r.error.TypeError?
      ensures r.Ok? ==> DescendingBy(r.value, ModifiedAt) && DistinctFiles(r.value)
      ensures r.Ok? ==> FromTypes(disk.files, disk.dirs, r.value, TypesToScan(t))
      ensures r.Ok? ==> forall u :: u in TypesToScan(t) ==>
        DirAttribute(u).Some? && Covered(disk.files, disk.dirs, r.value, DirAttribute(u).value, u)
      ensures r.Ok? ==>
        && ScanBlocks(disk.files, disk.dirs, blocks, TypesToScan(t), |TypesToScan(t)|)
        && multiset(r.value) == multiset(Concat(blocks))
        && StableBy(Concat(blocks), r.value, TieKey(ModifiedAt))
    {
      var types := TypesToScan(t);
      ScannedDirsDistinct(t);
      var collected;
      collected, blocks := CollectPresets(types);
      if collected.Err? {
        return Err(collected.error), blocks;
      }
      var presets := collected.value;
      CoversAll(disk.files, disk.dirs, presets, types);
      OrderableTimes(disk.files, disk.dirs, presets, types);
      if !OrderableBy(presets, ModifiedAt) {
        return Err(TypeError("'<' not supported between instances")), blocks;
      }
      var sorted := SortDescByValue(presets, ModifiedAt);
      Reordered(disk.files, disk.dirs, presets, sorted, types);
      return Ok(sorted), blocks;
    }

    /**
     * delete_preset: removes the preset's file and its thumbnail when they
     * exist and says whether the preset file was there.  Unlinking a
     * directory fails; when the thumbnail is the directory, the preset
     * file is already gone.
     */
    method DeletePreset(name: string, t: string) returns (r: Result<bool>)
      requires Valid()
      modifies disk
      ensures Valid() && disk.dirs == old(disk.dirs)
      ensures DirAttribute(t).None? ==> r.Err? && r.error.AttributeError? && disk.files == old(disk.files)
      ensures DirAttribute(t).Some? ==>
        var p := PresetPath(DirAttribute(t).value, name);
        var thumb := ThumbnailPath(name);
        (r.Ok? <==> (p in old(disk.files) || p !in disk.dirs) && (thumb in old(disk.files) || thumb !in disk.dirs))
        && (r.Ok? ==> r.value == (p in old(disk.files)) && disk.files == old(disk.files) - {p, thumb})
        && (r.Err? ==>
              && r.error == IsADirectory(if p !in old(disk.files) && p in disk.dirs then p else thumb)
              && disk.files == old(disk.files) - {p})
      ensures r.Ok? ==> LoadPreset(name, t).Err?
    {
      var dir := DirAttribute(t);
      if dir.None? {
        return Err(AttributeError("'PresetStorage' object has no attribute '" + t + "_dir'"));
      }
      var p := PresetPath(dir.value, name);
      var thumb := ThumbnailPath(name);
      var deleted := false;
      if p in disk.files {
        disk.Remove(p);
        deleted := true;
      } else if p in disk.dirs {
        return Err(IsADirectory(p));
      }
      if thumb in disk.files {
        disk.Remove(thumb);
      } else if thumb in disk.dirs {
        return Err(IsADirectory(thumb));
      }
      return Ok(deleted);
    }

    /**
     * The document export_preset writes: an object loses its "metadata" key;
     * `'metadata' in doc` on a list or a string is a membership or substring
     * test, and when it holds the `.items()` call that follows fails.
     */
    static function Exported(doc: Value): (r: Result<Value>)
      ensures doc.Obj? ==>
        && r.Ok? && r.value.Obj? && !HasKey(r.value.fields, "metadata")
        && forall k :: k != "metadata" ==> Get(r.value.fields, k) == Get(doc.fields, k)
      ensures doc.Obj? && !HasKey(doc.fields, "metadata") ==> r == Ok(doc)
    {
      match doc
      case Obj(fs) => if HasKey(fs, "metadata") then Ok(Obj(Remove(fs, "metadata"))) else Ok(doc)
      case Arr(xs) => if Str("metadata") in xs then Err(AttributeError("'list' object has no attribute 'items'")) else Ok(doc)
      case Str(s) => if Contains(s, "metadata") then Err(AttributeError("'str' object has no attribute 'items'")) else Ok(doc)
      case _ => Err(TypeError("argument of type is not iterable"))
    }

    /**
     * export_preset: writes the loaded document without its metadata to the
     * export path and returns the path.  It succeeds exactly when the preset
     * loads, its document can be cleaned and the export path can be opened
     * for writing; otherwise nothing is written.
     */
    method ExportPreset(name: string, t: string, exportPath: string) returns (r: Result<string>)
      modifies disk
      ensures disk.dirs == old(disk.dirs)
      ensures r.Ok? <==> old(LoadPreset(name, t)).Ok? && Exported(old(LoadPreset(name, t)).value).Ok?
                         && Writable(old(disk.files), old(disk.dirs), exportPath)
      ensures r.Ok? ==>
        && r.value == exportPath
        && disk.files == old(disk.files)[exportPath := Plain(JsonText(Exported(old(LoadPreset(name, t)).value).value))]
      ensures old(LoadPreset(name, t)).Ok? && Exported(old(LoadPreset(name, t)).value).Ok? && r.Err? ==>
        r.error == WriteError(old(disk.files), old(disk.dirs), exportPath)
      ensures r.Err? ==> disk.files == old(disk.files)
    {
      var doc := LoadPreset(name, t);
      if doc.Err? {
        return Err(doc.error);
      }
      var cleaned := Exported(doc.value);
      if cleaned.Err? {
        return Err(cleaned.error);
      }
      var written := disk.Write(exportPath, Plain(JsonText(cleaned.value)));
      if written.Err? {
        return Err(written.error);
      }
      return Ok(exportPath);
    }
  }
}

=== FILE: preview_system.dfy ===
// PreviewSystem: the preview pane beside the chat.  A small state machine
// (hidden, sliding in, visible, molting, sliding out), the choice of molt
// animation for an edit, the line of text under the preview, and the
// placeholder rendering of a preset's items.
module PreviewSystem {
  import opened Wrappers
  import opened Text
  import opened Json
  import SassPersonality

  datatype PreviewState = Hidden | SlidingIn | Visible | Molting | SlidingOut

  datatype MoltType = ColorShift | Scale | Birth | Fade | Transform

  /** The preset shown in the pane. */
  datatype PresetPreview = PresetPreview(presetName: string, presetType: string, presetData: Value,
                                         thumbnailPath: Option<string>, colors: seq<Value>)

  datatype MoltTransition = MoltTransition(moltType: MoltType, durationMs: int, current: PresetPreview,
                                           target: PresetPreview, originPoint: Option<(int, int)>)

  const ColorWords := ["color", "blue", "red", "green", "darker", "lighter", "theme"]
  const SizeWords := ["bigger", "smaller", "larger", "size", "scale", "grow", "shrink"]
  const AddWords := ["add", "create", "new", "insert"]
  const RemoveWords := ["remove", "delete", "hide"]

  /** The animation length of each molt type, in milliseconds. */
  function Duration(m: MoltType): int
  {
    match m
    case ColorShift => 800
    case Scale => 600
    case Birth => 1000
    case Fade => 600
    case Transform => 1200
  }

  /** The molt type an edit description selects: colour, then size, then add, then remove, else transform. */
  function MoltTypeOf(desc: string): (m: MoltType)
    ensures ContainsAny(Lower(desc), ColorWords) ==> m == ColorShift
    ensures m == Scale <==> !ContainsAny(Lower(desc), ColorWords) && ContainsAny(Lower(desc), SizeWords)
    ensures m == Birth <==> !ContainsAny(Lower(desc), ColorWords) && !ContainsAny(Lower(desc), SizeWords) && ContainsAny(Lower(desc), AddWords)
    ensures m == Fade <==> !ContainsAny(Lower(desc), ColorWords) && !ContainsAny(Lower(desc), SizeWords)
                           && !ContainsAny(Lower(desc), AddWords) && ContainsAny(Lower(desc), RemoveWords)
    ensures m == Transform <==> !ContainsAny(Lower(desc), ColorWords + SizeWords + AddWords + RemoveWords)
  {
    var d := Lower(desc);
    AnyOfConcat(d, ColorWords, SizeWords);
    AnyOfConcat(d, ColorWords + SizeWords, AddWords);
    AnyOfConcat(d, ColorWords + SizeWords + AddWords, RemoveWords);
    if ContainsAny(d, ColorWords) then ColorShift
    else if ContainsAny(d, SizeWords) then Scale
    else if ContainsAny(d, AddWords) then Birth
    else if ContainsAny(d, RemoveWords) then Fade
    else Transform
  }

  /** A word of a concatenated list is a word of one part. */
  lemma AnyOfConcat(text: string, a: seq<string>, b: seq<string>)
    ensures ContainsAny(text, a + b) <==> ContainsAny(text, a) || ContainsAny(text, b)
  {
    if ContainsAny(text, a + b) {
      var i :| 0 <= i < |a + b| && Contains(text, (a + b)[i]);
      if i >= |a| {
        assert b[i - |a|] == (a + b)[i];
      }
    }
    if ContainsAny(text, a) {
      var i :| 0 <= i < |a| && Contains(text, a[i]);
      assert (a + b)[i] == a[i];
    }
    if ContainsAny(text, b) {
      var i :| 0 <= i < |b| && Contains(text, b[i]);
      assert (a + b)[|a| + i] == b[i];
    }
  }

  /** MoltTransition.from_edit_type: the molt type of the description and its duration. */
  function FromEditType(desc: string, current: PresetPreview, target: PresetPreview): (t: MoltTransition)
    ensures t.moltType == MoltTypeOf(desc) && t.durationMs == Duration(t.moltType)
    ensures t.current == current && t.target == target && t.originPoint.None?
    ensures 600 <= t.durationMs <= 1200
  {
    MoltTransition(MoltTypeOf(desc), Duration(MoltTypeOf(desc)), current, target, None)
  }

  /** _generate_clearance_text: a line by preset type. */
  function GenerateClearanceText(p: PresetPreview): (r: string)
    ensures p.presetType == "klwp" ==> r == "Editing '" + p.presetName + "'. Continue? \U{1F98E}"
    ensures p.presetType == "klwp" ==> StartsWith(r, "Editing '" + p.presetName + "'")
    ensures p.presetType == "klck" ==> r == "Lock screen preview. What next? \U{1F98E}"
    ensures p.presetType == "kwgt" ==> r == "Widget preview loaded. Adjust? \U{1F98E}"
    ensures p.presetType !in {"klwp", "klck", "kwgt"} ==> r == "Working with this? \U{1F98E}"
    ensures r != ""
  {
    if p.presetType == "klwp" then
      var head := "Editing '" + p.presetName + "'";
      assert head + ". Continue? \U{1F98E}" == "Editing '" + p.presetName + "'. Continue? \U{1F98E}";
      assert (head + ". Continue? \U{1F98E}")[..|head|] == head;
      head + ". Continue? \U{1F98E}"
    else if p.presetType == "klck" then "Lock screen preview. What next? \U{1F98E}"
    else if p.presetType == "kwgt" then "Widget preview loaded. Adjust? \U{1F98E}"
    else "Working with this? \U{1F98E}"
  }

  /** get_chat_width_fraction, as a percentage: all chat while hidden or leaving, 30% otherwise. */
  function ChatWidthPercent(s: PreviewState): (r: int)
    ensures r == 100 <==> s == Hidden || s == SlidingOut
    ensures r == 30 <==> s == Visible || s == Molting || s == SlidingIn
  {
    match s
    case Hidden => 100
    case Visible => 30
    case Molting => 30
    case SlidingIn => 30
    case SlidingOut => 100
  }

  class PreviewManager {
    var state: PreviewState
    var currentPreview: Option<PresetPreview>
    var pendingMolt: Option<MoltTransition>
    var clearanceText: string

    /** A pending molt always starts from the preset on show, and the pane is showing whenever one is pending. */
    ghost predicate Valid()
      reads this
    {
      pendingMolt.Some? ==> currentPreview.Some? && state != Hidden
    }

    /** __init__: hidden, with nothing shown and nothing pending. */
    constructor ()
      ensures Valid() && state == Hidden && currentPreview.None? && pendingMolt.None? && clearanceText == ""
      ensures !IsPreviewActive()
    {
      state := Hidden;
      currentPreview := None;
      pendingMolt := None;
      clearanceText := "";
    }

    /** show_preview: the preset is shown, sliding in, under the given message or the one for its type. */
    method ShowPreview(preset: PresetPreview, clearanceMsg: string)
      requires Valid()
      modifies this
      ensures Valid()
      ensures state == SlidingIn && currentPreview == Some(preset) && pendingMolt == old(pendingMolt)
      ensures clearanceText == if clearanceMsg != "" then clearanceMsg else GenerateClearanceText(preset)
      ensures clearanceText != "" && IsPreviewActive() && ChatWidthPercent(state) == 30
    {
      currentPreview := Some(preset);
      clearanceText := if clearanceMsg != "" then clearanceMsg else GenerateClearanceText(preset);
      state := SlidingIn;
    }

    /** hide_preview: slides out and keeps the preset. */
    method HidePreview()
      requires Valid()
      modifies this
      ensures Valid()
      ensures state == SlidingOut && currentPreview == old(currentPreview) && pendingMolt == old(pendingMolt)
      ensures clearanceText == old(clearanceText) && ChatWidthPercent(state) == 100
    {
      state := SlidingOut;
    }

    /**
     * update_preview: with nothing shown it shows the preset; otherwise the
     * molt towards it is pending and the shown preset stays until it ends.
     */
    method UpdatePreview(newPreset: PresetPreview, editDescription: string)
      requires Valid()
      modifies this
      ensures Valid()
      ensures old(currentPreview).None? ==> (state == SlidingIn && currentPreview == Some(newPreset)
        && pendingMolt == old(pendingMolt) && clearanceText == GenerateClearanceText(newPreset))
      ensures old(currentPreview).Some? ==> (state == Molting && currentPreview == old(currentPreview)
        && pendingMolt == Some(FromEditType(editDescription, old(currentPreview).value, newPreset))
        && clearanceText == old(clearanceText))
      ensures pendingMolt.Some? && pendingMolt != old(pendingMolt) ==> pendingMolt.value.target == newPreset
    {
      if currentPreview.None? {
        ShowPreview(newPreset, "");
        return;
      }
      pendingMolt := Some(FromEditType(editDescription, currentPreview.value, newPreset));
      state := Molting;
    }

    /** is_preview_active */
    predicate IsPreviewActive()
      reads this
    {
      state != Hidden
    }
  }

  /** A text item of the placeholder. */
  datatype TextElement = TextElement(text: Value, color: Value, size: Value, position: Value)

  /** A shape item of the placeholder. */
  datatype ShapeElement = ShapeElement(shapeType: Value, color: Value, position: Value)

  datatype Placeholder = Placeholder(width: int, height: int, backgroundColor: Value,
                                     textElements: seq<TextElement>, shapes: seq<ShapeElement>)

  const Black := Str("#000000")
  const White := Str("#FFFFFF")

  predicate IsBackgroundShape(item: Value)
  {
    FieldOr(item, "type", Str("")) == Str("SHAPE") && Field(item, "id") == Str("background")
  }

  predicate IsText(item: Value)
  {
    FieldOr(item, "type", Str("")) == Str("TEXT")
  }

  predicate IsShape(item: Value)
  {
    FieldOr(item, "type", Str("")) == Str("SHAPE") && Field(item, "id") != Str("background")
  }

  /** The background colour: that of the last background shape, else black. */
  function BackgroundOf(items: seq<Value>): (r: Value)
    ensures (forall i :: 0 <= i < |items| ==> !IsBackgroundShape(items[i])) ==> r == Black
    ensures r == Black || exists i :: 0 <= i < |items| && IsBackgroundShape(items[i]) && r == FieldOr(items[i], "color", Black)
  {
    if items == [] then Black
    else
      var last := items[|items| - 1];
      if IsBackgroundShape(last) then FieldOr(last, "color", Black)
      else
        var r := BackgroundOf(items[..|items| - 1]);
        assert forall i :: 0 <= i < |items| - 1 ==> items[..|items| - 1][i] == items[i];
        r
  }

  function TextOf(item: Value): TextElement
  {
    TextElement(FieldOr(item, "text", Str("")), FieldOr(item, "color", White), FieldOr(item, "font_size", Num(24)),
                FieldOr(item, "position", Obj([])))
  }

  function ShapeOf(item: Value): ShapeElement
  {
    ShapeElement(FieldOr(item, "shape_type", Str("rectangle")), FieldOr(item, "color", White), FieldOr(item, "position", Obj([])))
  }

  /** The text elements, one per TEXT item, in order. */
  function TextsOf(items: seq<Value>): (r: seq<TextElement>)
    ensures |r| <= |items|
    ensures forall t :: t in r ==> exists i :: 0 <= i < |items| && IsText(items[i]) && t == TextOf(items[i])
  {
    if items == [] then []
    else
      var init := items[..|items| - 1];
      var last := items[|items| - 1];
      assert forall i :: 0 <= i < |init| ==> init[i] == items[i];
      TextsOf(init) + if IsText(last) then [TextOf(last)] else []
  }

  /** The shapes, one per SHAPE item other than the background, in order. */
  function ShapesOf(items: seq<Value>): (r: seq<ShapeElement>)
    ensures |r| <= |items|
    ensures forall s :: s in r ==> exists i :: 0 <= i < |items| && IsShape(items[i]) && s == ShapeOf(items[i])
  {
    if items == [] then []
    else
      var init := items[..|items| - 1];
      var last := items[|items| - 1];
      assert forall i :: 0 <= i < |init| ==> init[i] == items[i];
      ShapesOf(init) + if IsShape(last) then [ShapeOf(last)] else []
  }

  /** The background colour is that of the last background shape: later ones overwrite earlier ones. */
  lemma {:induction false} BackgroundIsLast(items: seq<Value>, i: int)
    requires 0 <= i < |items| && IsBackgroundShape(items[i])
    requires forall j :: i < j < |items| ==> !IsBackgroundShape(items[j])
    ensures BackgroundOf(items) == FieldOr(items[i], "color", Black)
  {
    if i < |items| - 1 {
      var init := items[..|items| - 1];
      assert init[i] == items[i];
      BackgroundIsLast(init, i);
    }
  }

  /** The number of items p holds for. */
  function CountOf(items: seq<Value>, p: Value -> bool): (r: nat)
    ensures r <= |items|
  {
    if items == [] then 0 else CountOf(items[..|items| - 1], p) + if p(items[|items| - 1]) then 1 else 0
  }

  /** One text element per TEXT item, in item order: the TEXT item at i gives the element after those of the TEXT items before it. */
  lemma {:induction false} TextsInOrder(items: seq<Value>)
    ensures |TextsOf(items)| == CountOf(items, IsText)
    ensures forall i :: 0 <= i < |items| && IsText(items[i]) ==>
      CountOf(items[..i], IsText) < |TextsOf(items)| && TextsOf(items)[CountOf(items[..i], IsText)] == TextOf(items[i])
  {
    if items != [] {
      var init := items[..|items| - 1];
      TextsInOrder(init);
      forall i | 0 <= i < |items| && IsText(items[i])
        ensures CountOf(items[..i], IsText) < |TextsOf(items)| && TextsOf(items)[CountOf(items[..i], IsText)] == TextOf(items[i])
      {
        if i < |items| - 1 {
          assert items[..i] == init[..i] && items[i] == init[i];
        } else {
          assert items[..i] == init;
        }
      }
    }
  }

  /** One shape per SHAPE item other than the background, in item order. */
  lemma {:induction false} ShapesInOrder(items: seq<Value>)
    ensures |ShapesOf(items)| == CountOf(items, IsShape)
    ensures forall i :: 0 <= i < |items| && IsShape(items[i]) ==>
      CountOf(items[..i], IsShape) < |ShapesOf(items)| && ShapesOf(items)[CountOf(items[..i], IsShape)] == ShapeOf(items[i])
  {
    if items != [] {
      var init := items[..|items| - 1];
      ShapesInOrder(init);
      forall i | 0 <= i < |items| && IsShape(items[i])
        ensures CountOf(items[..i], IsShape) < |ShapesOf(items)| && ShapesOf(items)[CountOf(items[..i], IsShape)] == ShapeOf(items[i])
      {
        if i < |items| - 1 {
          assert items[..i] == init[..i] && items[i] == init[i];
        } else {
          assert items[..i] == init;
        }
      }
    }
  }

  /** A TEXT item is never a shape, so each item feeds at most one list. */
  lemma {:induction false} SortedApart(items: seq<Value>)
    ensures |TextsOf(items)| + |ShapesOf(items)| <= |items|
  {
    if items != [] {
      SortedApart(items[..|items| - 1]);
    }
  }

  /** The items an iteration of `preset_data.get('items', [])` visits, or the error Python raises. */
  function ItemsOf(data: Value): (r: Result<seq<Value>>)
    ensures data.Obj? && FieldOr(data, "items", Arr([])).Arr? ==> r == Ok(FieldOr(data, "items", Arr([])).items)
    ensures !data.Obj? ==> r.Err?
  {
    if !data.Obj? then Err(AttributeError("'" + "object' has no attribute 'get'"))
    else
      match FieldOr(data, "items", Arr([]))
      case Arr(xs) => Ok(xs)
      case Str(s) => if s == "" then Ok([]) else Err(AttributeError("'str' object has no attribute 'get'"))
      case Obj(fs) => if fs == [] then Ok([]) else Err(AttributeError("'str' object has no attribute 'get'"))
      case _ => Err(TypeError("object is not iterable"))
  }

  /** Every item is a dict. */
  predicate AllDicts(items: seq<Value>)
  {
    forall i :: 0 <= i < |items| ==> items[i].Obj?
  }

  /** What one more item adds to the placeholder's parts. */
  lemma PlaceholderStep(items: seq<Value>, i: nat)
    requires i < |items|
    ensures BackgroundOf(items[..i + 1]) == if IsBackgroundShape(items[i]) then FieldOr(items[i], "color", Black) else BackgroundOf(items[..i])
    ensures TextsOf(items[..i + 1]) == TextsOf(items[..i]) + if IsText(items[i]) then [TextOf(items[i])] else []
    ensures ShapesOf(items[..i + 1]) == ShapesOf(items[..i]) + if IsShape(items[i]) then [ShapeOf(items[i])] else []
  {
    assert items[..i + 1][..i] == items[..i];
  }

  /** One pass of the loop: a background shape sets the colour, a text or another shape is appended. */
  method AddItem(background: Value, texts: seq<TextElement>, shapes: seq<ShapeElement>, item: Value)
    returns (background': Value, texts': seq<TextElement>, shapes': seq<ShapeElement>)
    ensures background' == if IsBackgroundShape(item) then FieldOr(item, "color", Black) else background
    ensures texts' == texts + if IsText(item) then [TextOf(item)] else []
    ensures shapes' == shapes + if IsShape(item) then [ShapeOf(item)] else []
  {
    background', texts', shapes' := background, texts, shapes;
    if IsBackgroundShape(item) {
      background' := FieldOr(item, "color", Black);
    } else if IsText(item) {
      texts' := texts + [TextOf(item)];
    } else if IsShape(item) {
      shapes' := shapes + [ShapeOf(item)];
    }
  }

  /** The loop of _create_placeholder_preview over the items. */
  method BuildPlaceholder(items: seq<Value>, width: int, height: int) returns (r: Result<Placeholder>)
    ensures AllDicts(items) ==> r == Ok(Placeholder(width, height, BackgroundOf(items), TextsOf(items), ShapesOf(items)))
    ensures !AllDicts(items) ==> r.Err?
  {
    var background := Black;
    var texts: seq<TextElement> := [];
    var shapes: seq<ShapeElement> := [];
    for i := 0 to |items|
      invariant AllDicts(items[..i])
      invariant background == BackgroundOf(items[..i])
      invariant texts == TextsOf(items[..i]) && shapes == ShapesOf(items[..i])
    {
      var item := items[i];
      if !item.Obj? {
        return Err(AttributeError("object has no attribute 'get'"));
      }
      PlaceholderStep(items, i);
      background, texts, shapes := AddItem(background, texts, shapes, item);
      assert items[..i + 1][i] == item;
    }
    assert items[..|items|] == items;
    return Ok(Placeholder(width, height, background, texts, shapes));
  }

  /**
   * _create_placeholder_preview: the background colour, the text items and
   * the other shapes, in item order; an item that is not a dict fails.
   */
  method CreatePlaceholderPreview(data: Value, width: int, height: int) returns (r: Result<Placeholder>)
    ensures ItemsOf(data).Err? ==> r == Err(ItemsOf(data).error)
    ensures ItemsOf(data).Ok? && AllDicts(ItemsOf(data).value) ==>
      var items := ItemsOf(data).value;
      r == Ok(Placeholder(width, height, BackgroundOf(items), TextsOf(items), ShapesOf(items)))
    ensures ItemsOf(data).Ok? && !AllDicts(ItemsOf(data).value) ==> r.Err?
  {
    var items :- ItemsOf(data);
    r := BuildPlaceholder(items, width, height);
  }

  /** render_preset: the placeholder at the given size (360 by 640 by default). */
  method RenderPreset(data: Value, width: int, height: int) returns (r: Result<Placeholder>)
    ensures r.Ok? ==> r.value.width == width && r.value.height == height
    ensures r.Ok? <==> ItemsOf(data).Ok? && AllDicts(ItemsOf(data).value)
  {
    r := CreatePlaceholderPreview(data, width, height);
  }

  /**
   * The sass context get_clearance_text asks for: by molt type first, then
   * by context name; None means the fixed default line.
   */
  function ClearanceContext(context: string, molt: Option<MoltType>): (r: Option<SassPersonality.Context>)
    ensures molt == Some(ColorShift) ==> r == Some(SassPersonality.ColorChange)
    ensures molt == Some(Scale) ==> r == Some(SassPersonality.PresetEdited)
    ensures molt == Some(Birth) ==> r == Some(SassPersonality.ElementAdded)
    ensures molt == Some(Fade) ==> r == Some(SassPersonality.ElementRemoved)
    ensures r.None? <==> (molt.None? || molt == Some(Transform)) && context != "initial_load" && context != "after_edit"
  {
    match molt
    case Some(ColorShift) => Some(SassPersonality.ColorChange)
    case Some(Scale) => Some(SassPersonality.PresetEdited)
    case Some(Birth) => Some(SassPersonality.ElementAdded)
    case Some(Fade) => Some(SassPersonality.ElementRemoved)
    case _ =>
      if context == "initial_load" then Some(SassPersonality.Greeting)
      else if context == "after_edit" then Some(SassPersonality.PresetEdited)
      else None
  }

  /** get_clearance_text: a light-sass reply for the context, or the default line. */
  method GetClearanceText(personality: SassPersonality.Personality, context: string, molt: Option<MoltType>) returns (r: Result<string>)
    requires personality.Valid()
    modifies personality
    ensures personality.Valid()
    ensures ClearanceContext(context, molt).None? ==> r == Ok("Working with this? \U{1F98E}") && personality.history == old(personality.history)
    ensures ClearanceContext(context, molt).Some? ==>
      var ts := SassPersonality.TemplatesFor(personality.table, ClearanceContext(context, molt).value, SassPersonality.Light);
      ts.Ok? && ts.value != [] ==> r.Ok? && r.value in ts.value
  {
    var c := ClearanceContext(context, molt);
    if c.None? {
      return Ok("Working with this? \U{1F98E}");
    }
    r := personality.GetClearanceText(c.value);
  }
}

=== FILE: sass_personality.dfy ===
// SassPersonality: canned replies chosen by context and attitude level,
// avoiding the last three replies when it can, with a history of at most ten.
// The template table is an input (its wording is not part of the model) and
// the random choice is any member of the candidates.
module SassPersonality {
  import opened Wrappers

  datatype Level = Neutral | Light | Medium | Spicy

  datatype Context = Greeting | PresetCreated | PresetEdited | ColorChange | ElementAdded
                   | ElementRemoved | ErrorContext | Success | Waiting | EasterEgg

  /** SASS_TEMPLATES: the replies by context and level. */
  type Templates = map<Context, map<Level, seq<string>>>

  const HistoryLimit := 10
  const RecentWindow := 3

  /** response_history[-3:] */
  function Recent(history: seq<string>): (r: seq<string>)
    ensures |r| == if |history| < RecentWindow then |history| else RecentWindow
    ensures forall s :: s in r ==> s in history
  {
    if |history| < RecentWindow then history else history[|history| - RecentWindow..]
  }

  /**
   * The templates for a context and level: an unknown context falls back to
   * SUCCESS, a missing level to NEUTRAL.  The NEUTRAL list is looked up
   * first, as Python evaluates the default before the call.
   */
  function TemplatesFor(table: Templates, context: Context, level: Level): (r: Result<seq<string>>)
    ensures context in table && Neutral in table[context] && level in table[context] ==> r == Ok(table[context][level])
    ensures context in table && Neutral in table[context] && level !in table[context] ==> r == Ok(table[context][Neutral])
    ensures context in table && Neutral !in table[context] ==> r.Err?
    ensures context !in table && Success !in table ==> r.Err?
  {
    var c := if context in table then context else Success;
    if c !in table then Err(KeyError("SUCCESS"))
    else if Neutral !in table[c] then Err(KeyError("NEUTRAL"))
    else Ok(if level in table[c] then table[c][level] else table[c][Neutral])
  }

  /** The templates not among the recent replies. */
  function Unrepeated(templates: seq<string>, recent: seq<string>): (r: seq<string>)
    ensures forall t :: t in r <==> t in templates && t !in recent
  {
    if templates == [] then []
    else (if templates[0] in recent then [] else [templates[0]]) + Unrepeated(templates[1..], recent)
  }

  /** The candidates: the unrepeated templates, or all of them when every one was used recently. */
  function Candidates(templates: seq<string>, history: seq<string>): (r: seq<string>)
    ensures (exists t :: t in templates && t !in Recent(history)) ==> forall s :: s in r ==> s !in Recent(history)
    ensures forall s :: s in r ==> s in templates
    ensures templates != [] ==> r != []
  {
    var unused := Unrepeated(templates, Recent(history));
    if unused == [] then templates else unused
  }

  /** The history after a reply: appended, then the oldest dropped beyond ten. */
  function Record(history: seq<string>, reply: string): (r: seq<string>)
    ensures |history| <= HistoryLimit ==> |r| <= HistoryLimit
    ensures r != [] && r[|r| - 1] == reply
    ensures |history| < HistoryLimit ==> r == history + [reply]
    ensures |history| >= HistoryLimit ==> |r| == |history| && r == history[1..] + [reply]
  {
    var h := history + [reply];
    if |h| > HistoryLimit then h[1..] else h
  }

  class Personality {
    var sassLevel: Level
    var history: seq<string>
    const table: Templates

    /** At most ten replies are remembered. */
    ghost predicate Valid()
      reads this
    {
      |history| <= HistoryLimit
    }

    /** __init__: MEDIUM by default, with no history. */
    constructor (table0: Templates, level: Level)
      ensures Valid() && table == table0 && sassLevel == level && history == []
    {
      table := table0;
      sassLevel := level;
      history := [];
    }

    /**
     * get_response: a reply from the templates for the context at the given
     * level, else the default level; not one of the last three replies when
     * some template is not; recorded in the history.
     */
    method GetResponse(context: Context, level: Option<Level>) returns (r: Result<string>)
      requires Valid()
      modifies this
      ensures Valid() && sassLevel == old(sassLevel)
      ensures var ts := TemplatesFor(table, context, if level.Some? then level.value else old(sassLevel));
        ts.Err? ==> r == Err(ts.error) && history == old(history)
      ensures var ts := TemplatesFor(table, context, if level.Some? then level.value else old(sassLevel));
        ts.Ok? && ts.value == [] ==> r.Err? && history == old(history)
      ensures var ts := TemplatesFor(table, context, if level.Some? then level.value else old(sassLevel));
        ts.Ok? && ts.value != [] ==> (r.Ok? && r.value in ts.value && history == Record(old(history), r.value))
      ensures var ts := TemplatesFor(table, context, if level.Some? then level.value else old(sassLevel));
        ts.Ok? && (exists t :: t in ts.value && t !in Recent(old(history))) ==> (r.Ok? && r.value !in Recent(old(history)))
    {
      var templates :- TemplatesFor(table, context, if level.Some? then level.value else sassLevel);
      var available := Candidates(templates, history);
      if available == [] {
        return Err(IndexError("Cannot choose from an empty sequence"));
      }
      assert available[0] in available;
      var reply :| reply in available;
      history := Record(history, reply);
      return Ok(reply);
    }

    /** set_sass_level: only the default level changes. */
    method SetSassLevel(level: Level)
      modifies this
      ensures sassLevel == level && history == old(history)
    {
      sassLevel := level;
    }

    /** get_clearance_text: a reply at the LIGHT level whatever the default. */
    method GetClearanceText(context: Context) returns (r: Result<string>)
      requires Valid()
      modifies this
      ensures Valid() && sassLevel == old(sassLevel)
      ensures var ts := TemplatesFor(table, context, Light);
        ts.Ok? && ts.value != [] ==> (r.Ok? && r.value in ts.value && history == Record(old(history), r.value))
      ensures TemplatesFor(table, context, Light).Err? ==> r.Err? && history == old(history)
    {
      r := GetResponse(context, Some(Light));
    }
  }
}

=== FILE: seqs.dfy ===
/** Small facts about sequence concatenation, shared by the tree edits. */
module Seqs {

  /** A non-empty left part gives the head and the rest of the concatenation. */
  lemma SplitHead<T>(a: seq<T>, b: seq<T>)
    requires a != []
    ensures (a + b)[0] == a[0] && (a + b)[1..] == a[1..] + b
  {
  }

  lemma HeadTail<T>(a: seq<T>)
    requires a != []
    ensures [a[0]] + a[1..] == a
  {
  }

  lemma Assoc<T>(x: seq<T>, a: seq<T>, b: seq<T>)
    ensures (x + a) + b == x + (a + b)
  {
  }
}

=== FILE: sorting.dfy ===
// Python's sorted(..., key=...) over string keys, in either direction, and
// over numeric keys: a stable insertion sort.
module Sorting {
  import opened Text

  /** The elements of s whose key is k, in the order s has them. */
  function Keyed<T, K(==,!new)>(s: seq<T>, key: T -> K, k: K): seq<T>
  {
    if s == [] then [] else Keyed(s[..|s| - 1], key, k) + KeyedOne(s[|s| - 1], key, k)
  }

  /** [x] when x's key is k, otherwise []. */
  function KeyedOne<T, K(==,!new)>(x: T, key: T -> K, k: K): seq<T>
  {
    if key(x) == k then [x] else []
  }

  /** r keeps the elements of s that share a key in the order s has them (sorting is stable). */
  ghost predicate StableBy<T, K(!new)>(s: seq<T>, r: seq<T>, key: T -> K)
  {
    forall k :: Keyed(r, key, k) == Keyed(s, key, k)
  }

  /** Appending one element appends it to its key's elements. */
  lemma KeyedSnoc<T, K(!new)>(s: seq<T>, x: T, key: T -> K, k: K)
    ensures Keyed(s + [x], key, k) == Keyed(s, key, k) + KeyedOne(x, key, k)
  {
    assert (s + [x])[..|s|] == s;
  }

  /** An element placed before `last` of another key keeps the order of every key's elements. */
  lemma KeyedSwap<T, K(!new)>(r: seq<T>, init: seq<T>, x: T, last: T, key: T -> K, k: K)
    requires Keyed(r, key, k) == Keyed(init, key, k) + KeyedOne(x, key, k)
    requires key(last) != key(x)
    ensures Keyed(r + [last], key, k) == Keyed(init + [last], key, k) + KeyedOne(x, key, k)
  {
    KeyedSnoc(r, last, key, k);
    KeyedSnoc(init, last, key, k);
  }

  /** The keys never decrease along the sequence. */
  predicate SortedBy<T>(s: seq<T>, key: T -> string)
  {
    forall i, j :: 0 <= i < j < |s| ==> LessOrEqual(key(s[i]), key(s[j]))
  }

  /** Inserts x after every element whose key is at most x's key. */
  function InsertBy<T>(x: T, s: seq<T>, key: T -> string): (r: seq<T>)
    requires SortedBy(s, key)
    ensures multiset(r) == multiset(s) + multiset{x}
    ensures SortedBy(r, key)
  {
    if s == [] then [x]
    else if LessOrEqual(key(s[|s| - 1]), key(x)) then
      forall i | 0 <= i < |s| - 1
        ensures LessOrEqual(key(s[i]), key(x))
      {
        LessOrEqualTransitive(key(s[i]), key(s[|s| - 1]), key(x));
      }
      SnocSorted(s, x, key);
      s + [x]
    else
      var init, last := s[..|s| - 1], s[|s| - 1];
      assert s == init + [last];
      var r' := InsertBy(x, init, key);
      LessOrEqualTotal(key(x), key(last));
      AllAtMost(r', init, x, last, key);
      SnocSorted(r', last, key);
      r' + [last]
  }

  /** An element whose key is at least every key in a sorted sequence can follow it. */
  lemma SnocSorted<T>(s: seq<T>, x: T, key: T -> string)
    requires SortedBy(s, key) && forall i :: 0 <= i < |s| ==> LessOrEqual(key(s[i]), key(x))
    ensures SortedBy(s + [x], key)
  {
  }

  /** Keys at most `last`'s stay so when one more such element joins. */
  lemma AllAtMost<T>(r: seq<T>, init: seq<T>, x: T, last: T, key: T -> string)
    requires multiset(r) == multiset(init) + multiset{x}
    requires LessOrEqual(key(x), key(last)) && forall i :: 0 <= i < |init| ==> LessOrEqual(key(init[i]), key(last))
    ensures forall i :: 0 <= i < |r| ==> LessOrEqual(key(r[i]), key(last))
  {
    forall i | 0 <= i < |r|
      ensures LessOrEqual(key(r[i]), key(last))
    {
      var y := r[i];
      assert y in multiset(r);
      if y != x {
        assert y in multiset(init);
        var k :| 0 <= k < |init| && init[k] == y;
      }
    }
  }

  /** x lands after the elements that share its key. */
  lemma {:induction false} InsertByKeyed<T>(x: T, s: seq<T>, key: T -> string, k: string)
    requires SortedBy(s, key)
    ensures Keyed(InsertBy(x, s, key), key, k) == Keyed(s, key, k) + KeyedOne(x, key, k)
  {
    if s == [] {
      KeyedSnoc([], x, key, k);
    } else if LessOrEqual(key(s[|s| - 1]), key(x)) {
      KeyedSnoc(s, x, key, k);
    } else {
      var init, last := s[..|s| - 1], s[|s| - 1];
      assert s == init + [last];
      assert key(last) != key(x) by { LessOrEqualTotal(key(x), key(x)); }
      InsertByKeyed(x, init, key, k);
      KeyedSwap(InsertBy(x, init, key), init, x, last, key, k);
    }
  }

  /** sorted(s, key=key) */
  method SortBy<T>(s: seq<T>, key: T -> string) returns (r: seq<T>)
    ensures SortedBy(r, key)
    ensures multiset(r) == multiset(s)
    ensures StableBy(s, r, key)
  {
    r := [];
    for i := 0 to |s|
      invariant SortedBy(r, key)
      invariant multiset(r) == multiset(s[..i])
      invariant StableBy(s[..i], r, key)
    {
      assert s[..i + 1] == s[..i] + [s[i]];
      var r' := InsertBy(s[i], r, key);
      forall k
        ensures Keyed(r', key, k) == Keyed(s[..i + 1], key, k)
      {
        InsertByKeyed(s[i], r, key, k);
        KeyedSnoc(s[..i], s[i], key, k);
      }
      r := r';
    }
    assert s[..|s|] == s;
  }

  /** Sorting keeps exactly the elements it was given. */
  lemma SortedMembers<T>(s: seq<T>, r: seq<T>)
    requires multiset(r) == multiset(s)
    ensures forall x :: x in r <==> x in s
  {
    forall x
      ensures x in r <==> x in s
    {
      assert x in r <==> x in multiset(r);
      assert x in s <==> x in multiset(s);
    }
  }

  /** The keys never increase along the sequence. */
  predicate SortedDescBy<T>(s: seq<T>, key: T -> string)
  {
    forall i, j :: 0 <= i < j < |s| ==> LessOrEqual(key(s[j]), key(s[i]))
  }

  /** In a descending sequence every key is at least the last one. */
  lemma AboveLast<T>(s: seq<T>, key: T -> string, bound: string)
    requires s != [] && SortedDescBy(s, key) && LessOrEqual(bound, key(s[|s| - 1]))
    ensures forall i :: 0 <= i < |s| ==> LessOrEqual(bound, key(s[i]))
  {
    forall i | 0 <= i < |s|
      ensures LessOrEqual(bound, key(s[i]))
    {
      if i < |s| - 1 {
        LessOrEqualTransitive(bound, key(s[|s| - 1]), key(s[i]));
      }
    }
  }

  /** Inserts x after every element whose key is at least x's key. */
  function InsertDescBy<T>(x: T, s: seq<T>, key: T -> string): (r: seq<T>)
    requires SortedDescBy(s, key)
    ensures multiset(r) == multiset(s) + multiset{x}
    ensures SortedDescBy(r, key)
  {
    if s == [] then [x]
    else if LessOrEqual(key(x), key(s[|s| - 1])) then
      AboveLast(s, key, key(x));
      s + [x]
    else
      var init := s[..|s| - 1];
      var last := s[|s| - 1];
      assert s == init + [last];
      var r' := InsertDescBy(x, init, key);
      LessOrEqualTotal(key(x), key(last));
      LessOrEqualTotal(key(last), key(last));
      AboveLast(s, key, key(last));
      assert forall i :: 0 <= i < |r'| ==> LessOrEqual(key(last), key(r'[i])) by {
        forall i | 0 <= i < |r'|
          ensures LessOrEqual(key(last), key(r'[i]))
        {
          var y := r'[i];
          assert y in multiset(r');
          if y != x {
            assert y in multiset(init);
            var k :| 0 <= k < |init| && init[k] == y;
            assert s[k] == y;
          }
        }
      }
      r' + [last]
  }

  /** x lands after the elements that share its key. */
  lemma {:induction false} InsertDescByKeyed<T>(x: T, s: seq<T>, key: T -> string, k: string)
    requires SortedDescBy(s, key)
    ensures Keyed(InsertDescBy(x, s, key), key, k) == Keyed(s, key, k) + KeyedOne(x, key, k)
  {
    if s == [] {
      KeyedSnoc([], x, key, k);
    } else if LessOrEqual(key(x), key(s[|s| - 1])) {
      KeyedSnoc(s, x, key, k);
    } else {
      var init, last := s[..|s| - 1], s[|s| - 1];
      assert s == init + [last];
      assert key(last) != key(x) by { LessOrEqualTotal(key(x), key(x)); }
      InsertDescByKeyed(x, init, key, k);
      KeyedSwap(InsertDescBy(x, init, key), init, x, last, key, k);
    }
  }

  /** sorted(s, key=key, reverse=True): descending, equal keys in their original order. */
  method SortDescBy<T>(s: seq<T>, key: T -> string) returns (r: seq<T>)
    ensures SortedDescBy(r, key)
    ensures multiset(r) == multiset(s)
    ensures StableBy(s, r, key)
  {
    r := [];
    for i := 0 to |s|
      invariant SortedDescBy(r, key)
      invariant multiset(r) == multiset(s[..i])
      invariant StableBy(s[..i], r, key)
    {
      assert s[..i + 1] == s[..i] + [s[i]];
      var r' := InsertDescBy(s[i], r, key);
      forall k
        ensures Keyed(r', key, k) == Keyed(s[..i + 1], key, k)
      {
        InsertDescByKeyed(s[i], r, key, k);
        KeyedSnoc(s[..i], s[i], key, k);
      }
      r := r';
    }
    assert s[..|s|] == s;
  }

  /** The keys never decrease along the sequence. */
  predicate SortedByReal<T>(s: seq<T>, key: T -> real)
  {
    forall i, j :: 0 <= i < j < |s| ==> key(s[i]) <= key(s[j])
  }

  /** In a sorted sequence every key is at most the last one. */
  lemma BelowLastReal<T>(s: seq<T>, key: T -> real, bound: real)
    requires s != [] && SortedByReal(s, key) && key(s[|s| - 1]) <= bound
    ensures forall i :: 0 <= i < |s| ==> key(s[i]) <= bound
  {
    forall i | 0 <= i < |s|
      ensures key(s[i]) <= bound
    {
      if i < |s| - 1 {
        assert key(s[i]) <= key(s[|s| - 1]);
      }
    }
  }

  /** Elements drawn from a bounded sequence, plus one bounded element, are bounded. */
  lemma BoundedMembersReal<T>(r: seq<T>, init: seq<T>, x: T, key: T -> real, bound: real)
    requires multiset(r) == multiset(init) + multiset{x}
    requires key(x) <= bound && forall i :: 0 <= i < |init| ==> key(init[i]) <= bound
    ensures forall i :: 0 <= i < |r| ==> key(r[i]) <= bound
  {
    forall i | 0 <= i < |r|
      ensures key(r[i]) <= bound
    {
      var y := r[i];
      assert y in multiset(r);
      if y != x {
        assert y in multiset(init);
        var k :| 0 <= k < |init| && init[k] == y;
      }
    }
  }

  /** Inserts x after every element whose key is at most x's key. */
  function InsertByReal<T>(x: T, s: seq<T>, key: T -> real): (r: seq<T>)
    requires SortedByReal(s, key)
    ensures multiset(r) == multiset(s) + multiset{x}
    ensures SortedByReal(r, key)
  {
    if s == [] then [x]
    else if key(s[|s| - 1]) <= key(x) then
      BelowLastReal(s, key, key(x));
      s + [x]
    else
      var init := s[..|s| - 1];
      var last := s[|s| - 1];
      assert s == init + [last];
      var r' := InsertByReal(x, init, key);
      BelowLastReal(s, key, key(last));
      assert forall i :: 0 <= i < |init| ==> init[i] == s[i];
      BoundedMembersReal(r', init, x, key, key(last));
      r' + [last]
  }

  /** x lands after the elements that share its key. */
  lemma {:induction false} InsertByRealKeyed<T>(x: T, s: seq<T>, key: T -> real, k: real)
    requires SortedByReal(s, key)
    ensures Keyed(InsertByReal(x, s, key), key, k) == Keyed(s, key, k) + KeyedOne(x, key, k)
  {
    if s == [] {
      KeyedSnoc([], x, key, k);
    } else if key(s[|s| - 1]) <= key(x) {
      KeyedSnoc(s, x, key, k);
    } else {
      var init, last := s[..|s| - 1], s[|s| - 1];
      assert s == init + [last];
      InsertByRealKeyed(x, init, key, k);
      KeyedSwap(InsertByReal(x, init, key), init, x, last, key, k);
    }
  }

  /** sorted(s, key=key) for a numeric key: a stable insertion sort. */
  method SortByReal<T>(s: seq<T>, key: T -> real) returns (r: seq<T>)
    ensures SortedByReal(r, key)
    ensures multiset(r) == multiset(s)
    ensures StableBy(s, r, key)
  {
    r := [];
    for i := 0 to |s|
      invariant SortedByReal(r, key)
      invariant multiset(r) == multiset(s[..i])
      invariant StableBy(s[..i], r, key)
    {
      assert s[..i + 1] == s[..i] + [s[i]];
      var r' := InsertByReal(s[i], r, key);
      forall k
        ensures Keyed(r', key, k) == Keyed(s[..i + 1], key, k)
      {
        InsertByRealKeyed(s[i], r, key, k);
        KeyedSnoc(s[..i], s[i], key, k);
      }
      r := r';
    }
    assert s[..|s|] == s;
  }

  /** sorted() has one answer: two stable sorts of the same sequence by a numeric key agree. */
  lemma SortedByRealUnique<T>(s: seq<T>, a: seq<T>, b: seq<T>, key: T -> real)
    requires SortedByReal(a, key) && multiset(a) == multiset(s) && StableBy(s, a, key)
    requires SortedByReal(b, key) && multiset(b) == multiset(s) && StableBy(s, b, key)
    ensures a == b
  {
    SameKeyedEqual(a, b, key);
  }

  /** Two sorted permutations that keep each key's elements in the same order are equal. */
  lemma {:induction false} SameKeyedEqual<T>(a: seq<T>, b: seq<T>, key: T -> real)
    requires SortedByReal(a, key) && SortedByReal(b, key)
    requires multiset(a) == multiset(b) && StableBy(a, b, key)
    ensures a == b
    decreases |a|
  {
    assert |a| == |b| by {
      assert |multiset(a)| == |multiset(b)|;
    }
    if a != [] {
      var a', la := a[..|a| - 1], a[|a| - 1];
      var b', lb := b[..|b| - 1], b[|b| - 1];
      LastKeysEqual(a, b, key);
      assert a == a' + [la] && b == b' + [lb];
      DropLast(a', la, b', lb, key);
      PrefixSortedSame(a, b, key);
      SameKeyedEqual(a', b', key);
    }
  }

  /** The last elements of two sorted permutations have the same key. */
  lemma LastKeysEqual<T>(a: seq<T>, b: seq<T>, key: T -> real)
    requires SortedByReal(a, key) && SortedByReal(b, key)
    requires multiset(a) == multiset(b) && a != [] && b != []
    ensures key(a[|a| - 1]) == key(b[|b| - 1])
  {
    var j := IndexOfMember(b, a, b[|b| - 1]);
    if j < |a| - 1 {
      assert key(a[j]) <= key(a[|a| - 1]);
    }
    var i := IndexOfMember(a, b, a[|a| - 1]);
    if i < |b| - 1 {
      assert key(b[i]) <= key(b[|b| - 1]);
    }
  }

  /** Dropping the last element of two sorted permutations with equal last elements keeps them so. */
  lemma PrefixSortedSame<T>(a: seq<T>, b: seq<T>, key: T -> real)
    requires SortedByReal(a, key) && SortedByReal(b, key)
    requires multiset(a) == multiset(b) && a != [] && b != [] && a[|a| - 1] == b[|b| - 1]
    ensures SortedByReal(a[..|a| - 1], key) && SortedByReal(b[..|b| - 1], key)
    ensures multiset(a[..|a| - 1]) == multiset(b[..|b| - 1])
  {
    MultisetDropLast(a, b);
  }

  /** Permutations with the same last element are permutations without it. */
  lemma MultisetDropLast<T>(a: seq<T>, b: seq<T>)
    requires multiset(a) == multiset(b) && a != [] && b != [] && a[|a| - 1] == b[|b| - 1]
    ensures multiset(a[..|a| - 1]) == multiset(b[..|b| - 1])
  {
    var x := a[|a| - 1];
    assert a == a[..|a| - 1] + [x] && b == b[..|b| - 1] + [x];
    var ma, mb := multiset(a[..|a| - 1]), multiset(b[..|b| - 1]);
    assert ma + multiset{x} == mb + multiset{x};
    forall y
      ensures ma[y] == mb[y]
    {
      assert (ma + multiset{x})[y] == (mb + multiset{x})[y];
    }
  }

  /** The last elements of two stably related sequences with one key agree, and so do the rest. */
  lemma DropLast<T>(a': seq<T>, la: T, b': seq<T>, lb: T, key: T -> real)
    requires key(la) == key(lb)
    requires StableBy(a' + [la], b' + [lb], key)
    ensures la == lb && StableBy(a', b', key)
  {
    var m := key(la);
    KeyedSnoc(a', la, key, m);
    KeyedSnoc(b', lb, key, m);
    assert Keyed(b' + [lb], key, m) == Keyed(a' + [la], key, m);
    SnocInjective(Keyed(b', key, m), lb, Keyed(a', key, m), la);
    forall k
      ensures Keyed(b', key, k) == Keyed(a', key, k)
    {
      if k != m {
        KeyedSnoc(a', la, key, k);
        KeyedSnoc(b', lb, key, k);
        assert Keyed(b' + [lb], key, k) == Keyed(a' + [la], key, k);
        assert KeyedOne(la, key, k) == [] && KeyedOne(lb, key, k) == [];
        assert Keyed(a' + [la], key, k) == Keyed(a', key, k);
      }
    }
  }

  lemma SnocInjective<T>(xs: seq<T>, x: T, ys: seq<T>, y: T)
    requires xs + [x] == ys + [y]
    ensures xs == ys && x == y
  {
    assert (xs + [x])[|xs|] == x && (ys + [y])[|ys|] == y;
    assert (xs + [x])[..|xs|] == xs && (ys + [y])[..|ys|] == ys;
  }

  /** An element of one permutation sits at some position of the other. */
  lemma IndexOfMember<T>(xs: seq<T>, ys: seq<T>, x: T) returns (j: int)
    requires multiset(xs) == multiset(ys) && x in xs
    ensures 0 <= j < |ys| && ys[j] == x
  {
    assert x in multiset(xs);
    assert x in ys;
    j :| 0 <= j < |ys| && ys[j] == x;
  }

  /** A sequence without repeats holds each value at most once. */
  lemma {:induction false} NoRepeatCount<T>(s: seq<T>, x: T)
    requires forall i, j :: 0 <= i < j < |s| ==> s[i] != s[j]
    ensures multiset(s)[x] <= 1
  {
    if s != [] {
      var t := s[1..];
      assert s == [s[0]] + t;
      NoRepeatCount(t, x);
      if s[0] == x {
        assert x !in t;
        assert multiset(t)[x] == 0;
      }
    }
  }

  /** A permutation of a sequence without repeats has none either. */
  lemma PermutationDistinct<T>(s: seq<T>, r: seq<T>)
    requires multiset(r) == multiset(s)
    requires forall i, j :: 0 <= i < j < |s| ==> s[i] != s[j]
    ensures forall i, j :: 0 <= i < j < |r| ==> r[i] != r[j]
  {
    forall i, j | 0 <= i < j < |r|
      ensures r[i] != r[j]
    {
      if r[i] == r[j] {
        var x := r[i];
        assert r == r[..i] + [x] + r[i + 1..j] + [x] + r[j + 1..];
        assert multiset(r)[x] >= 2;
        NoRepeatCount(s, x);
        assert false;
      }
    }
  }

  /** list(s) for a set: every element once, in the order the set yields them. */
  method ListOf<T>(s: set<T>) returns (xs: seq<T>)
    ensures forall x :: x in xs <==> x in s
    ensures |xs| == |s|
    ensures forall i, j :: 0 <= i < j < |xs| ==> xs[i] != xs[j]
  {
    xs := [];
    var rest := s;
    while rest != {}
      invariant forall x :: x in s <==> x in xs || x in rest
      invariant forall x :: x in xs ==> x !in rest
      invariant |xs| + |rest| == |s|
      invariant forall i, j :: 0 <= i < j < |xs| ==> xs[i] != xs[j]
      decreases |rest|
    {
      var x :| x in rest;
      xs := xs + [x];
      rest := rest - {x};
    }
  }

  /** The loop that appends f(x) for each x in order. */
  method MapInOrder<A, B>(xs: seq<A>, f: A --> B) returns (ys: seq<B>)
    requires forall x :: x in xs ==> f.requires(x)
    ensures |ys| == |xs| && forall k :: 0 <= k < |xs| ==> ys[k] == f(xs[k])
  {
    ys := [];
    for i := 0 to |xs|
      invariant |ys| == i
      invariant forall k :: 0 <= k < i ==> ys[k] == f(xs[k])
    {
      ys := ys + [f(xs[i])];
    }
  }

  /** max(s, key=key): the first element whose key is greatest. */
  function FirstMaxBy<T(==)>(s: seq<T>, key: T -> real): (r: T)
    requires s != []
    ensures r in s
    ensures forall x :: x in s ==> key(x) <= key(r)
    ensures exists i :: 0 <= i < |s| && s[i] == r && forall j :: 0 <= j < i ==> key(s[j]) < key(r)
  {
    if |s| == 1 then
      assert s[0] in s;
      s[0]
    else
      var init := s[..|s| - 1];
      var last := s[|s| - 1];
      assert s == init + [last];
      var m := FirstMaxBy(init, key);
      if key(last) > key(m) then
        assert forall j :: 0 <= j < |s| - 1 ==> key(s[j]) < key(last) by {
          forall j | 0 <= j < |s| - 1
            ensures key(s[j]) < key(last)
          {
            assert s[j] == init[j] && init[j] in init;
          }
        }
        last
      else
        var i :| 0 <= i < |init| && init[i] == m && forall j :: 0 <= j < i ==> key(init[j]) < key(m);
        assert s[i] == m;
        m
  }
}

=== FILE: storage.dfy ===
// Storage: the persistent key-value store the onboarding, easter-egg and chat
// state live in.  Encryption and the file it is kept in are not modelled; a
// store is a map from keys to JSON values, shared by everyone holding it.
module Storage {
  import opened Json

  class Store {
    var data: map<string, Value>

    constructor (data0: map<string, Value>)
      ensures data == data0
    {
      data := data0;
    }

    /** get(key, default) */
    function Get(key: string, default: Value): (r: Value)
      reads this
      ensures key in data ==> r == data[key]
      ensures key !in data ==> r == default
    {
      if key in data then data[key] else default
    }

    /** set(key, value) */
    method Set(key: string, value: Value)
      modifies this
      ensures data == old(data)[key := value]
    {
      data := data[key := value];
    }
  }
}

=== FILE: tasker.dfy ===
// TaskerPlugin: Tasker projects, tasks and profiles, each an XML file in the
// Tasker folder, read into the dict form, listed, searched and edited through
// the Tasker dialect of the item walk, and written back as XML.
module TaskerSupport {
  import Seqs
  import opened Wrappers
  import opened Text
  import opened OrderedMap
  import opened Json
  import opened Files
  import opened Paths
  import opened Sorting
  import opened XmlTree
  import opened XmlItems

  const PluginName := "Tasker Support"
  const PluginVersion := "1.0.0"
  const SupportedApp := "Tasker"
  const AppPackage := "net.dinglisch.android.taskerm"
  const TaskerDir := "/storage/emulated/0/Tasker"

  /** get_element_types */
  const ElementTypes: seq<string> := ["Task", "Profile", "Action", "Event", "State", "Condition", "Variable"]

  /** The three kinds of file, in the order read_config tries them and list_configs globs them. */
  const Kinds: seq<string> := ["project", "task", "profile"]
  const Markers: seq<string> := [".prj.xml", ".tsk.xml", ".prf.xml"]
  /** What list_configs removes from a file's stem to name it. */
  const StemMarkers: seq<string> := [".prj", ".tsk", ".prf"]

  // ----- list_configs -----

  /** The entry list_configs makes for a file of the i-th kind. */
  function InfoOf(p: string, i: nat): FileInfo
    requires i < 3
  {
    FileInfo(RemoveAll(Stem(p), StemMarkers[i]), BaseName(p), p, Kinds[i])
  }

  /** The sort key (type, lower-cased name), flattened into one string. */
  function KindKey(x: FileInfo): string
  {
    x.kind + Lower(x.name)
  }

  /**
   * On the three kinds the flattened key orders entries as the tuple
   * (type, lower-cased name) does: by type, then by name within a type.
   */
  lemma KindKeyOrder(x: FileInfo, y: FileInfo)
    requires x.kind in Kinds && y.kind in Kinds
    ensures LessOrEqual(KindKey(x), KindKey(y)) <==>
      (x.kind != y.kind && LessOrEqual(x.kind, y.kind)) || (x.kind == y.kind && LessOrEqual(Lower(x.name), Lower(y.name)))
  {
    if x.kind == y.kind {
      LessOrEqualPrefix(x.kind, Lower(x.name), Lower(y.name));
    } else if x.kind[0] != y.kind[0] {
      LessOrEqualDiffer(x.kind, y.kind, Lower(x.name), Lower(y.name), 0);
    } else {
      assert {x.kind, y.kind} == {"project", "profile"};
      assert x.kind[..3] == y.kind[..3] == "pro";
      LessOrEqualDiffer(x.kind, y.kind, Lower(x.name), Lower(y.name), 3);
    }
  }

  /** Profiles sort before projects, and projects before tasks. */
  lemma KindsOrdered()
    ensures LessOrEqual("profile", "project") && LessOrEqual("project", "task")
    ensures !LessOrEqual("project", "profile") && !LessOrEqual("task", "project")
  {
    assert "profile"[1..] == "rofile" && "project"[1..] == "roject";
    assert "rofile"[1..] == "ofile" && "roject"[1..] == "oject";
    assert "ofile"[1..] == "file" && "oject"[1..] == "ject";
  }

  /** A file named `n` + marker with no dot in `n` is listed under the name `n`. */
  lemma ListedName(n: string, i: nat)
    requires i < 3 && '.' !in n && '/' !in n
    ensures InfoOf(Child(TaskerDir, n + Markers[i]), i).name == n
    ensures InfoOf(Child(TaskerDir, n + Markers[i]), i).filename == n + Markers[i]
  {
    var stem := n + StemMarkers[i];
    MarkerParts(i);
    Seqs.Assoc(n, StemMarkers[i], ['.']);
    Seqs.Assoc(n, StemMarkers[i] + ['.'], "xml");
    LastDotBefore(stem, "xml");
    BaseNameChild(TaskerDir, n + Markers[i]);
    RemoveAllSuffix(n, StemMarkers[i]);
  }

  /** Each marker is its stem marker, a dot and "xml", with no slash. */
  lemma MarkerParts(i: nat)
    requires i < 3
    ensures Markers[i] == (StemMarkers[i] + ['.']) + "xml" && '/' !in Markers[i] && '.' !in "xml"
  {
    if i == 0 {
      assert ".prj.xml" == (".prj" + ['.']) + "xml";
    } else if i == 1 {
      assert ".tsk.xml" == (".tsk" + ['.']) + "xml";
    } else {
      assert ".prf.xml" == (".prf" + ['.']) + "xml";
    }
  }

  /** In stem, a dot, then text without a dot, the last dot is the one after the stem. */
  lemma LastDotBefore(stem: string, ext: string)
    requires '.' !in ext
    ensures LastIndex(stem + ['.'] + ext, '.') == |stem| && (stem + ['.'] + ext)[..|stem|] == stem
  {
    LastIndexAppend(stem + ['.'], ext, '.');
    assert (stem + ['.'])[|stem|] == '.';
    assert (stem + ['.'] + ext)[..|stem|] == stem;
  }

  // ----- read_config's name resolution -----

  /** The name already names one of the three kinds of file. */
  predicate HasMarker(name: string)
  {
    Contains(name, ".prj.xml") || Contains(name, ".tsk.xml") || Contains(name, ".prf.xml")
  }

  class TaskerPlugin {
    var cache: map<string, XmlEntry>
    const disk: FileSystem
    /** Whether `pm list packages` mentions the package (the command runs outside the model). */
    const packageListed: bool

    constructor (disk0: FileSystem, packageListed0: bool)
      ensures cache == map[] && disk == disk0 && packageListed == packageListed0
    {
      cache := map[];
      disk := disk0;
      packageListed := packageListed0;
    }

    /** is_app_installed: the Tasker folder exists, else the package manager lists the package. */
    predicate IsAppInstalled()
      reads this, disk
    {
      disk.Exists(TaskerDir) || packageListed
    }

    /** The file of the i-th kind or later that read_config settles on: the first that exists. */
    function ResolveFrom(name: string, i: nat): (r: string)
      requires i <= 3
      reads disk
      ensures r == name || exists j :: i <= j < 3 && r == BaseName(Child(TaskerDir, name + Markers[j])) && disk.Exists(Child(TaskerDir, name + Markers[j]))
      decreases 3 - i
    {
      if i == 3 then name
      else if disk.Exists(Child(TaskerDir, name + Markers[i])) then BaseName(Child(TaskerDir, name + Markers[i]))
      else ResolveFrom(name, i + 1)
    }

    /** The name read_config reads and caches under. */
    function Resolved(name: string): string
      reads this, disk
    {
      if HasMarker(name) then name else ResolveFrom(name, 0)
    }

    /** read_config's search for a name without a marker: the first kind whose file exists, else the name itself. */
    method Resolve(name: string) returns (r: string)
      ensures r == Resolved(name)
    {
      r := name;
      if !HasMarker(name) {
        var i := 0;
        while i < 3
          invariant 0 <= i <= 3
          invariant ResolveFrom(name, 0) == ResolveFrom(name, i)
          invariant r == name
        {
          var test := Child(TaskerDir, name + Markers[i]);
          if disk.Exists(test) {
            r := BaseName(test);
            break;
          }
          i := i + 1;
        }
      }
    }

    /**
     * A name listed for a file resolves to a file of its own: the listed
     * file when no file of an earlier kind has the same name.
     */
    lemma ListedNameResolves(n: string, i: nat)
      requires i < 3 && '.' !in n && '/' !in n
      requires disk.Exists(Child(TaskerDir, n + Markers[i]))
      ensures exists j :: 0 <= j <= i && Resolved(n) == n + Markers[j] && disk.Exists(Child(TaskerDir, n + Markers[j]))
      ensures (forall j :: 0 <= j < i ==> !disk.Exists(Child(TaskerDir, n + Markers[j]))) ==> Resolved(n) == n + Markers[i]
    {
      assert !HasMarker(n) by {
        NoDotNoMarker(n, ".prj.xml");
        NoDotNoMarker(n, ".tsk.xml");
        NoDotNoMarker(n, ".prf.xml");
      }
      ResolvesTo(n, 0, i);
    }

    lemma {:induction false} ResolvesTo(n: string, k: nat, i: nat)
      requires k <= i < 3 && '.' !in n && '/' !in n
      requires disk.Exists(Child(TaskerDir, n + Markers[i]))
      ensures exists j :: k <= j <= i && ResolveFrom(n, k) == n + Markers[j] && disk.Exists(Child(TaskerDir, n + Markers[j]))
      ensures (forall j :: k <= j < i ==> !disk.Exists(Child(TaskerDir, n + Markers[j]))) ==> ResolveFrom(n, k) == n + Markers[i]
      decreases i - k
    {
      NoSlash(n, k);
      BaseNameChild(TaskerDir, n + Markers[k]);
      if !disk.Exists(Child(TaskerDir, n + Markers[k])) {
        ResolvesTo(n, k + 1, i);
      }
    }

    lemma NoSlash(n: string, k: nat)
      requires k < 3 && '/' !in n
      ensures '/' !in n + Markers[k]
    {
      var f := n + Markers[k];
      assert forall c :: c in f ==> c in n || c in Markers[k];
    }

    lemma {:induction false} NoDotNoMarker(n: string, m: string)
      requires '.' !in n && m != [] && m[0] == '.'
      ensures !Contains(n, m)
    {
      if n != [] {
        assert n[0] != '.';
        assert '.' !in n[1..];
        NoDotNoMarker(n[1..], m);
      }
    }

    // ----- reading and the cache -----

    /** read_config's outcome. */
    function LoadConfig(name: string): Result<Node>
      reads this, disk
    {
      var path := Child(TaskerDir, Resolved(name));
      if !disk.Exists(path) then Err(FileNotFound(path))
      else
        var blob :- disk.PlainAt(path);
        var root :- ParseXml(blob);
        Ok(ToNode(root))
    }

    /**
     * read_config: resolves the name, fails with FileNotFoundError when the
     * file is missing, parses it, and caches the dict form, unmodified, under
     * the resolved name.
     */
    method ReadConfig(name: string) returns (r: Result<Node>)
      modifies this
      ensures r == old(LoadConfig(name))
      ensures r.Ok? ==> cache == old(cache)[old(Resolved(name)) := XmlEntry(r.value, false)]
      ensures r.Err? ==> cache == old(cache)
    {
      var key := Resolve(name);
      var path := Child(TaskerDir, key);
      if !disk.Exists(path) {
        return Err(FileNotFound(path));
      }
      var blob :- disk.PlainAt(path);
      var root :- ParseXml(blob);
      var data := ToNode(root);
      cache := cache[key := XmlEntry(data, false)];
      return Ok(data);
    }

    /** The document the element operations work on: the one cached under the name as given, else a fresh read. */
    function Loaded(name: string): Result<Node>
      reads this, disk
    {
      if name in cache then Ok(cache[name].data) else LoadConfig(name)
    }

    /** The cache after obtaining the document. */
    function AfterLoad(name: string): map<string, XmlEntry>
      reads this, disk
    {
      if name in cache then cache
      else match LoadConfig(name)
        case Ok(v) => cache[Resolved(name) := XmlEntry(v, false)]
        case Err(_) => cache
    }

    /** The cache key under which the document the operations work on is held. */
    function Home(name: string): string
      reads this, disk
    {
      if name in cache then name else Resolved(name)
    }

    method Load(name: string) returns (r: Result<Node>)
      modifies this
      ensures r == old(Loaded(name))
      ensures cache == old(AfterLoad(name))
      ensures r.Ok? ==> old(Home(name)) in cache && cache[old(Home(name))].data == r.value
      ensures r.Ok? && old(Home(name)) != name ==> name !in cache && !cache[old(Home(name))].modified
    {
      if name in cache {
        return Ok(cache[name].data);
      }
      r := ReadConfig(name);
    }

    /** list_elements: the Tasker walk of the document from the root. */
    method ListElements(name: string, filter: Option<string>) returns (r: Result<seq<Item>>)
      modifies this
      ensures old(Loaded(name)).Err? ==> r == Err(old(Loaded(name)).error)
      ensures old(Loaded(name)).Ok? ==> r == Ok(Walk(Tasker, old(Loaded(name)).value, filter, ""))
      ensures cache == old(AfterLoad(name))
    {
      var data :- Load(name);
      return Ok(Walk(Tasker, data, filter, ""));
    }

    /** find_element: the listed items whose id, name, type or code mentions the term, case-insensitively. */
    method FindElement(name: string, term: string) returns (r: Result<seq<Item>>)
      modifies this
      ensures old(Loaded(name)).Err? ==> r == Err(old(Loaded(name)).error)
      ensures old(Loaded(name)).Ok? ==> r == Ok(Search(Walk(Tasker, old(Loaded(name)).value, None, ""), term))
      ensures cache == old(AfterLoad(name))
    {
      var all :- ListElements(name, None);
      var matching := FindMatching(all, term);
      return Ok(matching);
    }

    /**
     * modify_element as written: the first node in pre-order whose `sr`
     * (else `ve`) is the target receives the properties, in the cached
     * document; a miss is ValueError.  The entry is then marked modified
     * under the name as given, which is not the key read_config cached under
     * when resolution changed the name: that is KeyError, after the edit.
     */
    method ModifyElement(name: string, target: string, props: Dict<Value>) returns (r: Result<Node>)
      modifies this
      ensures old(Loaded(name)).Err? ==> r == Err(old(Loaded(name)).error) && cache == old(cache)
      ensures var e := EditFor(Tasker, target, props);
              old(Loaded(name)).Ok? && Update(old(Loaded(name)).value, e).0.None? ==>
                r == Err(ValueError("Element '" + target + "' not found")) && cache == old(AfterLoad(name))
      ensures var e := EditFor(Tasker, target, props);
              old(Loaded(name)).Ok? && Update(old(Loaded(name)).value, e).0.Some? && old(Home(name)) == name ==>
                r == Ok(Update(old(Loaded(name)).value, e).0.value)
                && cache == old(AfterLoad(name))[name := XmlEntry(Update(old(Loaded(name)).value, e).1, true)]
      ensures var e := EditFor(Tasker, target, props);
              old(Loaded(name)).Ok? && Update(old(Loaded(name)).value, e).0.Some? && old(Home(name)) != name ==>
                r == Err(KeyError(name))
                && cache == old(AfterLoad(name))[old(Home(name)) := XmlEntry(Update(old(Loaded(name)).value, e).1, false)]
    {
      var home := name;
      if name !in cache {
        home := Resolve(name);
      }
      var data :- Load(name);
      var (found, data') := Update(data, EditFor(Tasker, target, props));
      if found.None? {
        return Err(ValueError("Element '" + target + "' not found"));
      }
      var stored := Store(name, home, data');
      if stored.Err? {
        return Err(stored.error);
      }
      return Ok(found.value);
    }

    /**
     * A bare name whose project file exists is read and cached under the
     * file's name, so the document the operations work on is not held under
     * the name as given: every hit of ModifyElement is then KeyError.
     */
    lemma BareNameHomedElsewhere(n: string)
      requires n !in cache && '.' !in n && '/' !in n
      requires disk.Exists(Child(TaskerDir, n + ".prj.xml"))
      ensures Home(n) == n + ".prj.xml" && Home(n) != n
    {
      ListedNameResolves(n, 0);
      assert |Home(n)| == |n| + 8;
    }

    /**
     * The end of modify_element: the edited document stays in the entry that
     * holds it, and the entry under the name as given is marked modified;
     * KeyError when there is none.
     */
    method Store(name: string, home: string, doc: Node) returns (r: Result<()>)
      requires home in cache
      requires home != name ==> name !in cache
      modifies this
      ensures home == name ==> r == Ok(()) && cache == old(cache)[name := XmlEntry(doc, true)]
      ensures home != name ==> r == Err(KeyError(name)) && cache == old(cache)[home := XmlEntry(doc, old(cache)[home].modified)]
    {
      // the cached dict is edited in place
      cache := cache[home := XmlEntry(doc, cache[home].modified)];
      if name !in cache {
        return Err(KeyError(name));
      }
      cache := cache[name := XmlEntry(cache[name].data, true)];
      return Ok(());
    }

    /**
     * modify_element as evidently intended: the entry that holds the edited
     * document is the one marked modified, so a hit always succeeds.
     */
    method ModifyElementCorrected(name: string, target: string, props: Dict<Value>) returns (r: Result<Node>)
      modifies this
      ensures old(Loaded(name)).Err? ==> r == Err(old(Loaded(name)).error) && cache == old(cache)
      ensures var e := EditFor(Tasker, target, props);
              old(Loaded(name)).Ok? && Update(old(Loaded(name)).value, e).0.None? ==>
                r == Err(ValueError("Element '" + target + "' not found")) && cache == old(AfterLoad(name))
      ensures var e := EditFor(Tasker, target, props);
              r.Ok? <==> old(Loaded(name)).Ok? && Update(old(Loaded(name)).value, e).0.Some?
      ensures var e := EditFor(Tasker, target, props);
              r.Ok? ==>
                r.value == Update(old(Loaded(name)).value, e).0.value
                && cache == old(AfterLoad(name))[old(Home(name)) := XmlEntry(Update(old(Loaded(name)).value, e).1, true)]
    {
      ghost var home := Home(name);
      var key := name;
      if name !in cache {
        key := Resolve(name);
      }
      assert key == home;
      var data :- Load(name);
      var (found, data') := Update(data, EditFor(Tasker, target, props));
      if found.None? {
        return Err(ValueError("Element '" + target + "' not found"));
      }
      cache := cache[key := XmlEntry(data', true)];
      return Ok(found.value);
    }

    // ----- save_config -----

    /**
     * save_config: the path is the name as given, below the Tasker folder.
     * An existing file is first copied to its '.backup' sibling (when asked);
     * the document is written as XML and the cache entry under the name is
     * dropped.  A failed backup or a path that cannot be opened for writing
     * fails with nothing written.
     */
    method SaveConfig(name: string, data: Node, backup: bool) returns (r: Result<string>)
      modifies this, disk
      ensures disk.dirs == old(disk.dirs)
      ensures var path := Child(TaskerDir, name);
              var failure := old(disk.BackupFailure(path, WithSuffix(path, ".backup"), backup));
              r.Err? <==> failure.Some? || !Writable(old(disk.files), old(disk.dirs), path)
      ensures var path := Child(TaskerDir, name);
              var failure := old(disk.BackupFailure(path, WithSuffix(path, ".backup"), backup));
              r.Err? ==> (disk.files == old(disk.files) && cache == old(cache)
                && r.error == (if failure.Some? then failure.value else WriteError(old(disk.files), old(disk.dirs), path)))
      ensures var path := Child(TaskerDir, name);
              r.Ok? ==> (r.value == path && cache == old(cache) - {name}
                && disk.files == old(disk.BackedUp(path, WithSuffix(path, ".backup"), backup))[path := Plain(XmlText(ToElement(data)))])
      ensures r.Ok? && Normal(data) && Resolved(name) == name ==> Loaded(name) == Ok(data)
    {
      var path := Child(TaskerDir, name);
      var copied := disk.Backup(path, WithSuffix(path, ".backup"), backup);
      if copied.Err? {
        return Err(copied.error);
      }
      var written := disk.Write(path, Plain(XmlText(ToElement(data))));
      if written.Err? {
        return Err(written.error);
      }
      cache := cache - {name};
      RoundTrip(data);
      return Ok(path);
    }

    // ----- list_configs -----

    /** A file of the i-th kind directly inside the Tasker folder. */
    ghost predicate Listed(p: string, i: nat)
      reads this, disk
    {
      i < 3 && disk.Exists(TaskerDir) && p in disk.files && InGlob(p, TaskerDir, Markers[i])
    }

    /**
     * What list_configs returns: one entry per project, task and profile
     * file, describing that file, no file twice, sorted by type and then
     * lower-cased name; [] when the folder is missing.
     */
    ghost predicate IsListing(r: seq<FileInfo>)
      reads this, disk
    {
      SortedBy(r, KindKey)
      && (forall x :: x in r ==> Describes(x))
      && (forall a, b :: 0 <= a < b < |r| ==> r[a].path != r[b].path)
      && (forall p, i :: Listed(p, i) ==> InfoOf(p, i) in r)
      && (!disk.Exists(TaskerDir) ==> r == [])
    }

    /** The entries for the files of the i-th kind, in glob order. */
    method Describe(i: nat) returns (infos: seq<FileInfo>)
      requires i < 3
      ensures forall x :: x in infos ==> Listed(x.path, i) && x == InfoOf(x.path, i)
      ensures disk.Exists(TaskerDir) ==> forall p :: Listed(p, i) ==> InfoOf(p, i) in infos
      ensures forall a, b :: 0 <= a < b < |infos| ==> infos[a].path != infos[b].path
    {
      var ps := disk.Glob(TaskerDir, Markers[i]);
      infos := MapInOrder(ps, p requires i < 3 => InfoOf(p, i));
      if !disk.Exists(TaskerDir) {
        infos := [];
      } else {
        DescribedOf(i, ps, infos);
      }
    }

    /** The infos of the globbed files of the i-th kind describe exactly those files. */
    lemma DescribedOf(i: nat, ps: seq<string>, infos: seq<FileInfo>)
      requires i < 3 && disk.Exists(TaskerDir)
      requires forall p :: p in ps <==> p in disk.files && InGlob(p, TaskerDir, Markers[i])
      requires |infos| == |ps| && forall j :: 0 <= j < |ps| ==> infos[j] == InfoOf(ps[j], i)
      ensures forall x :: x in infos ==> Listed(x.path, i) && x == InfoOf(x.path, i)
      ensures forall p :: Listed(p, i) ==> InfoOf(p, i) in infos
    {
      forall p | Listed(p, i)
        ensures InfoOf(p, i) in infos
      {
        var j :| 0 <= j < |ps| && ps[j] == p;
        assert infos[j] == InfoOf(p, i);
      }
    }

    /** A listed file is listed under one kind only: the markers end differently. */
    lemma ListedOnce(p: string, i: nat, j: nat)
      requires Listed(p, i) && Listed(p, j)
      ensures i == j
    {
      var q := p[|TaskerDir| + 1..];
      assert q[|q| - 8..] == Markers[i] && q[|q| - 8..] == Markers[j];
    }

    /** An entry describing a file listed under one of the three kinds. */
    ghost predicate Describes(x: FileInfo)
      reads this, disk
    {
      exists i :: 0 <= i < 3 && Listed(x.path, i) && x == InfoOf(x.path, i)
    }

    /** Two entries describing the same listed path are the same entry. */
    lemma SamePathSameEntry(x: FileInfo, y: FileInfo)
      requires Describes(x) && Describes(y) && x.path == y.path
      ensures x == y
    {
      var i :| 0 <= i < 3 && Listed(x.path, i) && x == InfoOf(x.path, i);
      var j :| 0 <= j < 3 && Listed(y.path, j) && y == InfoOf(y.path, j);
      ListedOnce(x.path, i, j);
    }

    /** The three kinds' entries together list no file twice. */
    lemma ConcatDistinct(projects: seq<FileInfo>, tasks: seq<FileInfo>, profiles: seq<FileInfo>)
      requires forall x :: x in projects ==> Listed(x.path, 0)
      requires forall x :: x in tasks ==> Listed(x.path, 1)
      requires forall x :: x in profiles ==> Listed(x.path, 2)
      requires forall a, b :: 0 <= a < b < |projects| ==> projects[a].path != projects[b].path
      requires forall a, b :: 0 <= a < b < |tasks| ==> tasks[a].path != tasks[b].path
      requires forall a, b :: 0 <= a < b < |profiles| ==> profiles[a].path != profiles[b].path
      ensures var s := projects + tasks + profiles; forall a, b :: 0 <= a < b < |s| ==> s[a] != s[b]
    {
      var s := projects + tasks + profiles;
      var n0, n1 := |projects|, |projects| + |tasks|;
      forall a, b | 0 <= a < b < |s|
        ensures s[a] != s[b]
      {
        var ka := if a < n0 then 0 else if a < n1 then 1 else 2;
        var kb := if b < n0 then 0 else if b < n1 then 1 else 2;
        assert Listed(s[a].path, ka) && Listed(s[b].path, kb);
        if s[a].path == s[b].path {
          ListedOnce(s[a].path, ka, kb);
        }
      }
    }

    /** list_configs */
    method ListConfigs() returns (r: seq<FileInfo>)
      ensures IsListing(r)
    {
      if !disk.Exists(TaskerDir) {
        return [];
      }
      var projects := Describe(0);
      var tasks := Describe(1);
      var profiles := Describe(2);
      var infos := projects + tasks + profiles;
      r := SortBy(infos, KindKey);
      SortedMembers(infos, r);
      forall x | x in r
        ensures Describes(x)
      {
        assert x in infos;
        if x in projects {
        } else if x in tasks {
        } else {
          assert x in profiles;
        }
      }
      forall p, i | Listed(p, i)
        ensures InfoOf(p, i) in r
      {
        if i == 0 {
          assert InfoOf(p, i) in projects;
        } else if i == 1 {
          assert InfoOf(p, i) in tasks;
        } else {
          assert InfoOf(p, i) in profiles;
        }
        assert InfoOf(p, i) in multiset(infos);
      }
      ConcatDistinct(projects, tasks, profiles);
      PermutationDistinct(infos, r);
      forall a, b | 0 <= a < b < |r|
        ensures r[a].path != r[b].path
      {
        if r[a].path == r[b].path {
          SamePathSameEntry(r[a], r[b]);
        }
      }
    }
  }

  // ----- create_simple_task -----

  /** The i-th action: `sr` 'act<i>' and the action's code, '1' when it has none. */
  function ActionNode(i: nat, action: Dict<Value>): Node
  {
    Node("Action", [Entry("sr", "act" + NatToString(i)), Entry("code", Show(GetOr(action, "code", Str("1"))))], None, [])
  }

  function ActionNodes(actions: seq<Dict<Value>>): (r: seq<Node>)
    ensures |r| == |actions| && forall i :: 0 <= i < |actions| ==> r[i] == ActionNode(i, actions[i])
  {
    seq(|actions|, i requires 0 <= i < |actions| => ActionNode(i, actions[i]))
  }

  function TaskNode(taskName: string, actions: seq<Dict<Value>>): Node
  {
    Node("Task", [Entry("sr", "task1"), Entry("name", taskName)], None, ActionNodes(actions))
  }

  /** The document create_simple_task builds: a TaskerData root holding one task with the actions in order. */
  function SimpleTask(taskName: string, actions: seq<Dict<Value>>): Node
  {
    Node("TaskerData", [Entry("sr", ""), Entry("dvi", "1"), Entry("tv", "6.3.16")], None, [TaskNode(taskName, actions)])
  }

  /** create_simple_task: the task, then each action appended in turn. */
  method CreateSimpleTask(taskName: string, actions: seq<Dict<Value>>) returns (task: Node)
    ensures task == SimpleTask(taskName, actions)
  {
    var steps: seq<Node> := [];
    for i := 0 to |actions|
      invariant steps == ActionNodes(actions[..i])
    {
      assert actions[..i + 1][..i] == actions[..i];
      steps := steps + [ActionNode(i, actions[i])];
    }
    assert actions[..|actions|] == actions;
    task := SimpleTask(taskName, actions);
    assert task.children[0].children == steps;
  }

  /** The root of a created task is not reported: its walk is the walk of the task. */
  lemma RootWalk(taskName: string, actions: seq<Dict<Value>>)
    ensures Walk(Tasker, SimpleTask(taskName, actions), None, "") == Walk(Tasker, TaskNode(taskName, actions), None, "TaskerData[0]")
  {
    var root := SimpleTask(taskName, actions);
    assert ChildPath("", "TaskerData", 0) == "TaskerData[0]";
    assert !Emitted(Tasker, root, None);
    assert WalkChildren(Tasker, root.children, 0, "TaskerData", None, "")
      == Walk(Tasker, TaskNode(taskName, actions), None, "TaskerData[0]") + WalkChildren(Tasker, [], 1, "TaskerData", None, "");
  }

  /** A created task is reported, followed by the walk of its actions. */
  lemma TaskWalk(taskName: string, actions: seq<Dict<Value>>)
    ensures Walk(Tasker, TaskNode(taskName, actions), None, "TaskerData[0]")
      == [Describe(Tasker, TaskNode(taskName, actions), "TaskerData[0]")]
         + WalkChildren(Tasker, ActionNodes(actions), 0, "Task", None, "TaskerData[0]")
  {
    assert Tags(Tasker)[0] == "Task";
    assert Emitted(Tasker, TaskNode(taskName, actions), None);
  }

  /** The walk of a created task: the task, then its actions. */
  lemma SimpleTaskWalk(taskName: string, actions: seq<Dict<Value>>)
    ensures Walk(Tasker, SimpleTask(taskName, actions), None, "")
      == [Describe(Tasker, TaskNode(taskName, actions), "TaskerData[0]")]
         + WalkChildren(Tasker, ActionNodes(actions), 0, "Task", None, "TaskerData[0]")
  {
    RootWalk(taskName, actions);
    TaskWalk(taskName, actions);
  }

  /** How a created action is described. */
  lemma ActionDescribed(i: nat, action: Dict<Value>, path: string)
    ensures var e := Describe(Tasker, ActionNode(i, action), path);
      e.kind == "Action" && e.id == "act" + NatToString(i)
      && e.extra == Code(Show(GetOr(action, "code", Str("1")))) && e.path == path
  {
    var n := ActionNode(i, action);
    assert Get(n.attributes, "sr") == Some("act" + NatToString(i));
    assert Get(n.attributes, "code") == Some(Show(GetOr(action, "code", Str("1"))));
  }

  lemma TaskDescribed(taskName: string, actions: seq<Dict<Value>>, path: string)
    ensures var e := Describe(Tasker, TaskNode(taskName, actions), path);
      e.kind == "Task" && e.id == "task1" && e.name == taskName
      && e.extra == ActionsCount(|actions|) && e.path == path
  {
    var n := TaskNode(taskName, actions);
    assert Get(n.attributes, "sr") == Some("task1");
    assert Get(n.attributes, "name") == Some(taskName);
    assert CountTag(n.children, "Action") == |actions|;
  }

  lemma ActionNodesLeaves(actions: seq<Dict<Value>>)
    ensures forall j :: 0 <= j < |actions| ==> ActionNodes(actions)[j].children == [] && Emitted(Tasker, ActionNodes(actions)[j], None)
  {
    forall j | 0 <= j < |actions|
      ensures ActionNodes(actions)[j].children == [] && Emitted(Tasker, ActionNodes(actions)[j], None)
    {
      assert ActionNodes(actions)[j] == ActionNode(j, actions[j]);
      assert Tags(Tasker)[2] == "Action";
    }
  }

  lemma ActionPath(i: nat)
    ensures ChildPath("TaskerData[0]", "Task", i) == "TaskerData[0]/Task[" + NatToString(i) + "]"
  {
    var d := NatToString(i);
    assert "TaskerData[0]" + "/" + ("Task" + "[" + d + "]") == "TaskerData[0]/Task[" + d + "]";
  }

  /** The items list the actions in order: item i is action i, with id 'act<i>', its code and its path below the task. */
  ghost predicate ListsActions(rest: seq<Item>, actions: seq<Dict<Value>>)
  {
    |rest| == |actions|
    && forall i :: 0 <= i < |actions| ==>
      rest[i].kind == "Action" && rest[i].id == "act" + NatToString(i)
      && rest[i].extra == Code(Show(GetOr(actions[i], "code", Str("1"))))
      && rest[i].path == "TaskerData[0]/Task[" + NatToString(i) + "]"
  }

  /** The walk of a created task's actions lists them. */
  lemma ActionsListed(actions: seq<Dict<Value>>, rest: seq<Item>)
    requires rest == WalkChildren(Tasker, ActionNodes(actions), 0, "Task", None, "TaskerData[0]")
    ensures ListsActions(rest, actions)
  {
    ActionNodesLeaves(actions);
    WalkLeaves(Tasker, ActionNodes(actions), 0, "Task", None, "TaskerData[0]");
    forall i | 0 <= i < |actions|
      ensures rest[i].kind == "Action" && rest[i].id == "act" + NatToString(i)
        && rest[i].extra == Code(Show(GetOr(actions[i], "code", Str("1"))))
        && rest[i].path == "TaskerData[0]/Task[" + NatToString(i) + "]"
    {
      assert rest[i] == LeafItem(Tasker, "Task", "TaskerData[0]")(ActionNodes(actions)[i], 0 + i);
      ActionListed(actions, rest[i], i);
    }
  }

  /** One listed action of a created task. */
  lemma ActionListed(actions: seq<Dict<Value>>, e: Item, i: nat)
    requires i < |actions|
    requires e == Describe(Tasker, ActionNodes(actions)[i], ChildPath("TaskerData[0]", "Task", i))
    ensures e.kind == "Action" && e.id == "act" + NatToString(i)
      && e.extra == Code(Show(GetOr(actions[i], "code", Str("1"))))
      && e.path == "TaskerData[0]/Task[" + NatToString(i) + "]"
  {
    assert ActionNodes(actions)[i] == ActionNode(i, actions[i]);
    ActionPath(i);
    ActionDescribed(i, actions[i], ChildPath("TaskerData[0]", "Task", i));
  }

  /**
   * Listing a created task reports the task (id 'task1', its name, one
   * action per given action) and then each action in order, with id
   * 'act<i>' and its code.
   */
  lemma SimpleTaskListed(taskName: string, actions: seq<Dict<Value>>)
    ensures var items := Walk(Tasker, SimpleTask(taskName, actions), None, "");
      |items| == |actions| + 1
      && items[0].kind == "Task" && items[0].id == "task1" && items[0].name == taskName
      && items[0].extra == ActionsCount(|actions|) && items[0].path == "TaskerData[0]"
      && ListsActions(items[1..], actions)
  {
    var items := Walk(Tasker, SimpleTask(taskName, actions), None, "");
    var rest := WalkChildren(Tasker, ActionNodes(actions), 0, "Task", None, "TaskerData[0]");
    SimpleTaskWalk(taskName, actions);
    TaskDescribed(taskName, actions, "TaskerData[0]");
    ActionsListed(actions, rest);
    assert items[1..] == rest;
  }
}

=== FILE: text.dfy ===
// Character and string helpers standing in for the Python str methods the core uses.
// Case mapping covers ASCII letters only.
module Text {

  predicate IsUpper(c: char) { 'A' <= c <= 'Z' }
  predicate IsLower(c: char) { 'a' <= c <= 'z' }

  function LowerChar(c: char): char
  {
    if IsUpper(c) then (c as int + 32) as char else c
  }

  function UpperChar(c: char): char
  {
    if IsLower(c) then (c as int - 32) as char else c
  }

  /** str.lower() */
  function Lower(s: string): (r: string)
    ensures |r| == |s|
    ensures forall i :: 0 <= i < |s| ==> r[i] == LowerChar(s[i])
    ensures forall i :: 0 <= i < |r| ==> !IsUpper(r[i])
  {
    if s == [] then [] else [LowerChar(s[0])] + Lower(s[1..])
  }

  /** str.upper() */
  function Upper(s: string): (r: string)
    ensures |r| == |s|
    ensures forall i :: 0 <= i < |s| ==> r[i] == UpperChar(s[i])
    ensures forall i :: 0 <= i < |r| ==> !IsLower(r[i])
  {
    if s == [] then [] else [UpperChar(s[0])] + Upper(s[1..])
  }

  /** `sub in s` */
  predicate Contains(s: string, sub: string)
  {
    StartsWith(s, sub) || (s != [] && Contains(s[1..], sub))
  }

  /** `any(word in text for word in words)` */
  predicate ContainsAny(text: string, words: seq<string>)
  {
    exists i :: 0 <= i < |words| && Contains(text, words[i])
  }

  /** A text mentions a word of two lists laid end to end exactly when it mentions a word of one of them. */
  lemma ContainsAnyAppend(text: string, a: seq<string>, b: seq<string>)
    ensures ContainsAny(text, a + b) <==> ContainsAny(text, a) || ContainsAny(text, b)
  {
    if ContainsAny(text, a + b) {
      var i :| 0 <= i < |a + b| && Contains(text, (a + b)[i]);
      if i >= |a| {
        assert b[i - |a|] == (a + b)[i];
      }
    }
    if ContainsAny(text, a) {
      var i :| 0 <= i < |a| && Contains(text, a[i]);
      assert (a + b)[i] == a[i];
    }
    if ContainsAny(text, b) {
      var i :| 0 <= i < |b| && Contains(text, b[i]);
      assert (a + b)[|a| + i] == b[i];
    }
  }

  /** s.startswith(p) */
  predicate StartsWith(s: string, p: string)
  {
    |p| <= |s| && s[..|p|] == p
  }

  /** s.endswith(p) */
  predicate EndsWith(s: string, p: string)
  {
    |p| <= |s| && s[|s| - |p|..] == p
  }

  /** The characters str.isspace() accepts. */
  predicate IsSpace(c: char)
  {
    c == ' ' || '\t' <= c <= '\r' || '\U{1C}' <= c <= '\U{1F}' || c == '\U{85}' || c == '\U{A0}'
    || c == '\U{1680}' || '\U{2000}' <= c <= '\U{200A}' || c == '\U{2028}' || c == '\U{2029}'
    || c == '\U{202F}' || c == '\U{205F}' || c == '\U{3000}'
  }

  function TrimLeft(s: string): (r: string)
    ensures |r| <= |s| && r == s[|s| - |r|..]
    ensures r == [] || !IsSpace(r[0])
  {
    if s != [] && IsSpace(s[0]) then TrimLeft(s[1..]) else s
  }

  function TrimRight(s: string): (r: string)
    ensures |r| <= |s| && r == s[..|r|]
    ensures r == [] || !IsSpace(r[|r| - 1])
  {
    if s != [] && IsSpace(s[|s| - 1]) then TrimRight(s[..|s| - 1]) else s
  }

  /** str.strip() */
  function Strip(s: string): (r: string)
    ensures |r| <= |s|
    ensures r == [] || (!IsSpace(r[0]) && !IsSpace(r[|r| - 1]))
  {
    TrimRight(TrimLeft(s))
  }

  lemma {:induction false} TrimLeftNoop(s: string)
    requires s == [] || !IsSpace(s[0])
    ensures TrimLeft(s) == s
  {
  }

  lemma {:induction false} TrimRightNoop(s: string)
    requires s == [] || !IsSpace(s[|s| - 1])
    ensures TrimRight(s) == s
  {
  }

  /** Stripping twice is stripping once. */
  lemma StripIdempotent(s: string)
    ensures Strip(Strip(s)) == Strip(s)
  {
    var r := Strip(s);
    TrimLeftNoop(r);
    TrimRightNoop(r);
  }

  /** sep.join(parts) */
  function Join(parts: seq<string>, sep: string): string
  {
    if parts == [] then ""
    else if |parts| == 1 then parts[0]
    else parts[0] + sep + Join(parts[1..], sep)
  }

  lemma JoinTwo(parts: seq<string>, sep: string)
    requires |parts| == 2
    ensures Join(parts, sep) == parts[0] + sep + parts[1]
  {
    assert parts[1..] == [parts[1]];
  }

  lemma EndsWithJoined(s: string, sep: string, p: string)
    ensures EndsWith(s + sep + p, sep + p)
  {
    assert (s + sep + p)[|s|..] == sep + p;
  }

  /** s.replace(c, d) for single characters. */
  function ReplaceChar(s: string, c: char, d: char): (r: string)
    ensures |r| == |s|
    ensures forall i :: 0 <= i < |s| ==> r[i] == (if s[i] == c then d else s[i])
  {
    if s == [] then [] else [if s[0] == c then d else s[0]] + ReplaceChar(s[1..], c, d)
  }

  function DigitChar(d: nat): char
    requires d < 10
  {
    ('0' as int + d) as char
  }

  /** str(n) for a non-negative int. */
  function NatToString(n: nat): (r: string)
    ensures |r| >= 1
    ensures forall i :: 0 <= i < |r| ==> '0' <= r[i] <= '9'
  {
    if n < 10 then [DigitChar(n)] else NatToString(n / 10) + [DigitChar(n % 10)]
  }

  /** str(n) for an int. */
  function IntToString(n: int): string
  {
    if n < 0 then "-" + NatToString(-n) else NatToString(n)
  }

  /** Python's default ordering of str values (code point by code point). */
  predicate LessOrEqual(a: string, b: string)
  {
    if a == [] then true
    else if b == [] then false
    else if a[0] != b[0] then a[0] < b[0]
    else LessOrEqual(a[1..], b[1..])
  }

  lemma {:induction false} LessOrEqualTotal(a: string, b: string)
    ensures LessOrEqual(a, b) || LessOrEqual(b, a)
  {
    if a != [] && b != [] && a[0] == b[0] {
      LessOrEqualTotal(a[1..], b[1..]);
    }
  }

  lemma {:induction false} LessOrEqualTransitive(a: string, b: string, c: string)
    requires LessOrEqual(a, b) && LessOrEqual(b, c)
    ensures LessOrEqual(a, c)
  {
    if a != [] && b != [] && c != [] && a[0] == b[0] && b[0] == c[0] {
      LessOrEqualTransitive(a[1..], b[1..], c[1..]);
    }
  }

  lemma {:induction false} LessOrEqualAntisymmetric(a: string, b: string)
    requires LessOrEqual(a, b) && LessOrEqual(b, a)
    ensures a == b
  {
    if a != [] && b != [] {
      LessOrEqualAntisymmetric(a[1..], b[1..]);
    }
  }

  /** A common prefix does not change the comparison. */
  lemma {:induction false} LessOrEqualPrefix(p: string, x: string, y: string)
    ensures LessOrEqual(p + x, p + y) == LessOrEqual(x, y)
  {
    if p == [] {
      assert p + x == x && p + y == y;
    } else {
      assert (p + x)[0] == p[0] == (p + y)[0];
      assert (p + x)[1..] == p[1..] + x && (p + y)[1..] == p[1..] + y;
      LessOrEqualPrefix(p[1..], x, y);
    }
  }

  /** Two strings that differ within both decide the comparison whatever follows them. */
  lemma {:induction false} LessOrEqualDiffer(a: string, b: string, x: string, y: string, k: nat)
    requires k < |a| && k < |b| && a[k] != b[k] && a[..k] == b[..k]
    ensures LessOrEqual(a + x, b + y) == LessOrEqual(a, b)
  {
    if k > 0 {
      assert a[0] == a[..k][0] == b[..k][0] == b[0];
      assert a[1..][..k - 1] == a[..k][1..] && b[1..][..k - 1] == b[..k][1..];
      assert (a + x)[1..] == a[1..] + x && (b + y)[1..] == b[1..] + y;
      LessOrEqualDiffer(a[1..], b[1..], x, y, k - 1);
    }
  }

  /** s.replace(pat, ''): occurrences removed left to right, without overlap. */
  function RemoveAll(s: string, pat: string): (r: string)
    requires pat != []
    ensures |r| <= |s|
    decreases |s|
  {
    if StartsWith(s, pat) then RemoveAll(s[|pat|..], pat)
    else if s == [] then []
    else [s[0]] + RemoveAll(s[1..], pat)
  }

  /** A pattern that begins with a character the string lacks is removed only at the end. */
  lemma {:induction false} RemoveAllSuffix(n: string, pat: string)
    requires pat != [] && pat[0] !in n
    ensures RemoveAll(n + pat, pat) == n
  {
    if n == [] {
      assert n + pat == pat;
      assert StartsWith(pat, pat);
      assert pat[|pat|..] == [];
    } else {
      assert (n + pat)[0] == n[0] != pat[0];
      assert (n + pat)[1..] == n[1..] + pat;
      RemoveAllSuffix(n[1..], pat);
    }
  }
}

=== FILE: theme_matcher.dfy ===
// ThemeMatcher: derives the app's colour palette from a preset.  It collects
// every colour code of the preset, orders the colours by perceived
// brightness, and picks a background, a primary, a secondary and an accent
// colour.  Brightness and saturation are computed over exact reals rather
// than binary floating point.
module ThemeMatcher {
  import opened Wrappers
  import opened Text
  import opened Json
  import opened Storage
  import opened Sorting

  datatype Rgb = Rgb(r: int, g: int, b: int)

  predicate IsByte(n: int) { 0 <= n <= 255 }

  predicate IsByteRgb(c: Rgb) { IsByte(c.r) && IsByte(c.g) && IsByte(c.b) }

  /** What int(s, 16) can return for two characters: a byte, or a signed single digit. */
  predicate IsParsed(n: int) { -15 <= n <= 255 }

  predicate IsParsedRgb(c: Rgb) { IsParsed(c.r) && IsParsed(c.g) && IsParsed(c.b) }

  /** The value of one hexadecimal digit, either case. */
  function HexValue(c: char): (r: Option<nat>)
    ensures r.Some? ==> r.value < 16
  {
    if '0' <= c <= '9' then Some(c as int - '0' as int)
    else if 'a' <= c <= 'f' then Some(c as int - 'a' as int + 10)
    else if 'A' <= c <= 'F' then Some(c as int - 'A' as int + 10)
    else None
  }

  /**
   * The characters int() strips from both ends of its argument.  These are
   * the characters str.isspace accepts except the four ASCII separators
   * 0x1C to 0x1F.
   */
  predicate IsIntSpace(c: char)
  {
    c == ' ' || '\t' <= c <= '\r' || c == '\U{85}' || c == '\U{A0}'
    || c == '\U{1680}' || '\U{2000}' <= c <= '\U{200A}' || c == '\U{2028}' || c == '\U{2029}'
    || c == '\U{202F}' || c == '\U{205F}' || c == '\U{3000}'
  }

  /**
   * The two-character strings int(s, 16) accepts (ASCII digits only): two
   * digits, one digit with a blank before or after it, or one digit after a
   * sign.
   */
  predicate IsHexLiteral2(s: string)
    requires |s| == 2
  {
    (HexValue(s[0]).Some? && HexValue(s[1]).Some?)
    || (HexValue(s[0]).Some? && IsIntSpace(s[1]))
    || ((IsIntSpace(s[0]) || s[0] == '+' || s[0] == '-') && HexValue(s[1]).Some?)
  }

  /** int(s, 16) on a two-character string. */
  function ParseByte(s: string): (r: Result<int>)
    requires |s| == 2
    ensures r.Ok? <==> IsHexLiteral2(s)
    ensures r.Ok? ==> IsParsed(r.value)
    ensures HexValue(s[0]).Some? && HexValue(s[1]).Some? ==> r == Ok(16 * HexValue(s[0]).value + HexValue(s[1]).value)
    ensures HexValue(s[0]).Some? && IsIntSpace(s[1]) ==> r == Ok(HexValue(s[0]).value)
    ensures (IsIntSpace(s[0]) || s[0] == '+') && HexValue(s[1]).Some? ==> r == Ok(HexValue(s[1]).value)
    ensures s[0] == '-' && HexValue(s[1]).Some? ==> r == Ok(-(HexValue(s[1]).value as int))
    ensures r.Err? ==> r.error.ValueError?
  {
    match (HexValue(s[0]), HexValue(s[1]))
    case (Some(hi), Some(lo)) => Ok(16 * hi + lo)
    case (Some(d), None) => if IsIntSpace(s[1]) then Ok(d) else Err(ValueError("invalid literal for int() with base 16: " + s))
    case (None, Some(d)) =>
      if IsIntSpace(s[0]) || s[0] == '+' then Ok(d)
      else if s[0] == '-' then Ok(-(d as int))
      else Err(ValueError("invalid literal for int() with base 16: " + s))
    case _ => Err(ValueError("invalid literal for int() with base 16: " + s))
  }

  /** s.lstrip('#') */
  function StripHashes(s: string): (r: string)
    ensures |r| <= |s| && r == s[|s| - |r|..]
    ensures r == [] || r[0] != '#'
    ensures forall i :: 0 <= i < |s| - |r| ==> s[i] == '#'
  {
    if s != [] && s[0] == '#' then StripHashes(s[1..]) else s
  }

  /** The mid grey _hex_to_rgb falls back to. */
  const Grey := Rgb(128, 128, 128)

  /** Six digits read as three pairs; the first pair that int() rejects fails. */
  function ReadPairs(body: string): (r: Result<Rgb>)
    requires |body| == 6
    ensures r.Ok? <==> ParseByte(body[0..2]).Ok? && ParseByte(body[2..4]).Ok? && ParseByte(body[4..6]).Ok?
    ensures r.Ok? ==> r.value == Rgb(ParseByte(body[0..2]).value, ParseByte(body[2..4]).value, ParseByte(body[4..6]).value)
    ensures r.Err? ==> r.error.ValueError?
  {
    var r :- ParseByte(body[0..2]);
    var g :- ParseByte(body[2..4]);
    var b :- ParseByte(body[4..6]);
    Ok(Rgb(r, g, b))
  }

  /**
   * _hex_to_rgb: after the leading '#'s, eight digits lose their alpha pair,
   * six digits are read as three pairs, and any other length gives grey.
   */
  function HexToRgb(hex: string): (r: Result<Rgb>)
    ensures r.Ok? ==> IsParsedRgb(r.value)
    ensures r.Err? ==> r.error.ValueError?
    ensures |StripHashes(hex)| == 6 ==> r == ReadPairs(StripHashes(hex))
    ensures |StripHashes(hex)| == 8 ==> r == ReadPairs(StripHashes(hex)[2..])
    ensures |StripHashes(hex)| != 6 && |StripHashes(hex)| != 8 ==> r == Ok(Grey)
  {
    var digits := StripHashes(hex);
    var body := if |digits| == 8 then digits[2..] else digits;
    if |body| == 6 then ReadPairs(body) else Ok(Grey)
  }

  /** An upper-case hexadecimal digit, as the X format writes it. */
  predicate IsHexDigit(c: char)
  {
    '0' <= c <= '9' || 'A' <= c <= 'F'
  }

  /** The upper-case digit of a value below 16. */
  function HexDigit(d: nat): (c: char)
    requires d < 16
    ensures IsHexDigit(c) && HexValue(c) == Some(d)
  {
    if d < 10 then ('0' as int + d) as char else ('A' as int + d - 10) as char
  }

  function Hex2(n: int): (r: string)
    requires IsByte(n)
    ensures |r| == 2 && IsHexDigit(r[0]) && IsHexDigit(r[1])
  {
    [HexDigit(n / 16), HexDigit(n % 16)]
  }

  /** _rgb_to_hex: "#RRGGBB" in upper-case hexadecimal. */
  function RgbToHex(c: Rgb): (r: string)
    requires IsByteRgb(c)
    ensures |r| == 7 && r[0] == '#'
    ensures forall i :: 1 <= i < 7 ==> IsHexDigit(r[i])
  {
    "#" + Hex2(c.r) + Hex2(c.g) + Hex2(c.b)
  }

  lemma Hex2Value(n: int)
    requires IsByte(n)
    ensures ParseByte(Hex2(n)) == Ok(n)
  {
    var s := Hex2(n);
    assert HexValue(s[0]) == Some(n / 16) && HexValue(s[1]) == Some(n % 16);
  }

  /** Reading back a colour written by _rgb_to_hex gives the colour. */
  lemma HexRoundTrip(c: Rgb)
    requires IsByteRgb(c)
    ensures HexToRgb(RgbToHex(c)) == Ok(c)
  {
    var s := RgbToHex(c);
    var body := s[1..];
    assert body == Hex2(c.r) + Hex2(c.g) + Hex2(c.b);
    assert body[0] != '#';
    StripHashesStops(s, body);
    assert body[0..2] == Hex2(c.r) && body[2..4] == Hex2(c.g) && body[4..6] == Hex2(c.b);
    Hex2Value(c.r);
    Hex2Value(c.g);
    Hex2Value(c.b);
  }

  /** One leading '#' followed by a character other than '#' strips to the rest. */
  lemma StripHashesStops(s: string, body: string)
    requires |s| > 1 && s[0] == '#' && body == s[1..] && body[0] != '#'
    ensures StripHashes(s) == body
  {
  }

  /** A code of the canonical form "#RRGGBB" (upper case). */
  predicate Canonical(s: string)
  {
    |s| == 7 && s[0] == '#' && forall i :: 1 <= i < 7 ==> IsHexDigit(s[i])
  }

  lemma DigitOfValue(c: char)
    requires IsHexDigit(c)
    ensures HexValue(c).Some? && HexDigit(HexValue(c).value) == c
  {
  }

  lemma ValueHex2(s: string)
    requires |s| == 2 && IsHexDigit(s[0]) && IsHexDigit(s[1])
    ensures ParseByte(s).Ok? && IsByte(ParseByte(s).value) && Hex2(ParseByte(s).value) == s
  {
    DigitOfValue(s[0]);
    DigitOfValue(s[1]);
    var n := ParseByte(s).value;
    assert n / 16 == HexValue(s[0]).value && n % 16 == HexValue(s[1]).value;
  }

  /** Writing out a canonical code after reading it gives the same code. */
  lemma CanonicalRoundTrip(s: string)
    requires Canonical(s)
    ensures HexToRgb(s).Ok? && IsByteRgb(HexToRgb(s).value) && RgbToHex(HexToRgb(s).value) == s
  {
    var body := s[1..];
    assert body[0] == s[1] && IsHexDigit(s[1]);
    StripHashesStops(s, body);
    ValueHex2(body[0..2]);
    ValueHex2(body[2..4]);
    ValueHex2(body[4..6]);
    assert s == "#" + body[0..2] + body[2..4] + body[4..6];
  }

  /** _get_brightness: perceived brightness, 0 to 255. */
  function Brightness(c: Rgb): real
  {
    0.299 * (c.r as real) + 0.587 * (c.g as real) + 0.114 * (c.b as real)
  }

  function Max3(a: int, b: int, c: int): int
  {
    if a >= b && a >= c then a else if b >= c then b else c
  }

  function Min3(a: int, b: int, c: int): int
  {
    if a <= b && a <= c then a else if b <= c then b else c
  }

  /** _get_saturation: (max - min) / max, and 0 for black. */
  function Saturation(c: Rgb): real
  {
    var mx := Max3(c.r, c.g, c.b);
    var mn := Min3(c.r, c.g, c.b);
    if mx == 0 then 0.0 else (mx - mn) as real / mx as real
  }

  /** Brightness and saturation of any byte colour lie in their ranges. */
  lemma Ranges(c: Rgb)
    requires IsByteRgb(c)
    ensures 0.0 <= Brightness(c) <= 255.0
    ensures 0.0 <= Saturation(c) <= 1.0
  {
    var mx := Max3(c.r, c.g, c.b);
    var mn := Min3(c.r, c.g, c.b);
    assert 0 <= mn <= mx <= 255;
    if mx != 0 {
      RatioAtMostOne((mx - mn) as real, mx as real);
    }
  }

  /** A share of a positive whole lies between 0 and 1. */
  lemma RatioAtMostOne(a: real, m: real)
    requires 0.0 <= a <= m && m > 0.0
    ensures 0.0 <= a / m <= 1.0
  {
    var q := a / m;
    assert q * m == a;
    assert (1.0 - q) * m == m - a;
  }

  /** One channel of _lighten_color with amount 0.1. */
  function LightenChannel(x: int): (r: int)
    requires IsParsed(x)
    ensures IsByte(r)
  {
    var v := x + (255 - x) / 10;
    if v < 255 then v else 255
  }

  /** One channel of _darken_color with amount 0.1. */
  function DarkenChannel(x: int): (r: int)
    requires IsParsed(x)
    ensures IsByte(r)
  {
    var v := x * 9 / 10;
    if v > 0 then v else 0
  }

  function LightenRgb(c: Rgb): (r: Rgb)
    requires IsParsedRgb(c)
    ensures IsByteRgb(r)
  {
    Rgb(LightenChannel(c.r), LightenChannel(c.g), LightenChannel(c.b))
  }

  function DarkenRgb(c: Rgb): (r: Rgb)
    requires IsParsedRgb(c)
    ensures IsByteRgb(r)
  {
    Rgb(DarkenChannel(c.r), DarkenChannel(c.g), DarkenChannel(c.b))
  }

  /** Lightening moves every channel towards white and darkening towards black, never past either. */
  lemma LightenDarkenDirection(c: Rgb)
    requires IsByteRgb(c)
    ensures c.r <= LightenRgb(c).r && c.g <= LightenRgb(c).g && c.b <= LightenRgb(c).b
    ensures DarkenRgb(c).r <= c.r && DarkenRgb(c).g <= c.g && DarkenRgb(c).b <= c.b
    ensures Brightness(DarkenRgb(c)) <= Brightness(c) <= Brightness(LightenRgb(c))
  {
  }

  /** _lighten_color(hex, 0.1) */
  function Lighten(hex: string): (r: string)
    requires HexToRgb(hex).Ok?
    ensures Canonical(r)
  {
    RgbToHex(LightenRgb(HexToRgb(hex).value))
  }

  /** _darken_color(hex, 0.1) */
  function Darken(hex: string): (r: string)
    requires HexToRgb(hex).Ok?
    ensures Canonical(r)
  {
    RgbToHex(DarkenRgb(HexToRgb(hex).value))
  }

  // ---------------------------------------------------------------------
  // Collecting the colours of a preset
  // ---------------------------------------------------------------------

  /** The keys whose values are taken as colours. */
  const ColorKeys := ["color", "bgcolor", "background_color", "stroke_color", "shadow_color", "text_color", "fill_color"]

  /** Objects deeper than this are not visited. */
  const MaxDepth := 20

  /** A collected colour: it starts with '#' and has no lower-case letter. */
  predicate IsColorCode(c: string)
  {
    |c| >= 1 && c[0] == '#' && forall i :: 0 <= i < |c| ==> !IsLower(c[i])
  }

  /** The colour an object holds under one key, if any: a truthy string starting with '#', upper-cased. */
  function ColorAt(v: Value, key: string): (r: Option<string>)
    ensures r.Some? ==> IsColorCode(r.value)
  {
    var x := Field(v, key);
    if Truthy(x) && x.Str? && StartsWith(x.s, "#") then
      assert x.s[0] == x.s[..1][0] == '#';
      Some(Upper(x.s))
    else None
  }

  /** The colours an object holds under the given keys. */
  function OwnColors(v: Value, keys: seq<string>): (r: set<string>)
    ensures forall c :: c in r ==> IsColorCode(c)
    ensures forall c :: c in r <==> exists k :: k in keys && ColorAt(v, k) == Some(c)
  {
    if keys == [] then {}
    else
      var here := ColorAt(v, keys[0]);
      (if here.Some? then {here.value} else {}) + OwnColors(v, keys[1..])
  }

  /**
   * Where traverse finds a colour: under a colour key of an object at most
   * MaxDepth levels down, reached through object values and list items.
   */
  ghost predicate Holds(v: Value, c: string, depth: nat)
    decreases v
  {
    depth <= MaxDepth
    && match v
      case Obj(fs) =>
        (exists k :: k in ColorKeys && ColorAt(v, k) == Some(c))
        || (exists i :: 0 <= i < |fs| && Holds(fs[i].val, c, depth + 1))
      case Arr(xs) => exists i :: 0 <= i < |xs| && Holds(xs[i], c, depth + 1)
      case _ => false
  }

  /** traverse(obj, depth): the colours found at or below a value visited at the given depth. */
  function Collect(v: Value, depth: nat): (r: set<string>)
    ensures forall c :: c in r ==> IsColorCode(c)
    ensures forall c :: c in r <==> Holds(v, c, depth)
    ensures depth > MaxDepth ==> r == {}
    decreases v, 1
  {
    if depth > MaxDepth then {}
    else match v
      case Obj(fs) => OwnColors(v, ColorKeys) + CollectFields(fs, depth + 1)
      case Arr(xs) => CollectItems(xs, depth + 1)
      case _ => {}
  }

  function CollectFields(fs: seq<OrderedMap.Entry<Value>>, depth: nat): (r: set<string>)
    ensures forall c :: c in r ==> IsColorCode(c)
    ensures forall c :: c in r <==> exists i :: 0 <= i < |fs| && Holds(fs[i].val, c, depth)
    decreases fs, 0
  {
    if fs == [] then {}
    else
      var head := Collect(fs[0].val, depth);
      var rest := CollectFields(fs[1..], depth);
      var r := head + rest;
      assert forall c :: c in r <==> exists i :: 0 <= i < |fs| && Holds(fs[i].val, c, depth) by {
        forall c
          ensures c in r <==> exists i :: 0 <= i < |fs| && Holds(fs[i].val, c, depth)
        {
          if c in rest {
            var i :| 0 <= i < |fs[1..]| && Holds(fs[1..][i].val, c, depth);
            assert fs[1..][i] == fs[i + 1];
          }
          if exists i :: 0 <= i < |fs| && Holds(fs[i].val, c, depth) {
            var i :| 0 <= i < |fs| && Holds(fs[i].val, c, depth);
            if i > 0 {
              assert fs[1..][i - 1] == fs[i];
            }
          }
        }
      }
      r
  }

  function CollectItems(xs: seq<Value>, depth: nat): (r: set<string>)
    ensures forall c :: c in r ==> IsColorCode(c)
    ensures forall c :: c in r <==> exists i :: 0 <= i < |xs| && Holds(xs[i], c, depth)
    decreases xs, 0
  {
    if xs == [] then {}
    else
      var head := Collect(xs[0], depth);
      var rest := CollectItems(xs[1..], depth);
      var r := head + rest;
      assert forall c :: c in r <==> exists i :: 0 <= i < |xs| && Holds(xs[i], c, depth) by {
        forall c
          ensures c in r <==> exists i :: 0 <= i < |xs| && Holds(xs[i], c, depth)
        {
          if c in rest {
            var i :| 0 <= i < |xs[1..]| && Holds(xs[1..][i], c, depth);
            assert xs[1..][i] == xs[i + 1];
          }
          if exists i :: 0 <= i < |xs| && Holds(xs[i], c, depth) {
            var i :| 0 <= i < |xs| && Holds(xs[i], c, depth);
            if i > 0 {
              assert xs[1..][i - 1] == xs[i];
            }
          }
        }
      }
      r
  }

  /** _collect_all_colors: the distinct colours of a preset, each found by the traversal. */
  function CollectAllColors(data: Value): (r: set<string>)
    ensures forall c :: c in r ==> IsColorCode(c)
    ensures forall c :: c in r <==> Holds(data, c, 0)
    ensures data.Obj? ==> forall k :: k in ColorKeys && ColorAt(data, k).Some? ==> ColorAt(data, k).value in r
  {
    Collect(data, 0)
  }

  /** A colour held by any item of a list is collected, as long as the item is within reach. */
  lemma {:induction false} ItemColorsCollected(xs: seq<Value>, depth: nat, i: nat)
    requires i < |xs|
    ensures Collect(xs[i], depth) <= CollectItems(xs, depth)
  {
    if i > 0 {
      ItemColorsCollected(xs[1..], depth, i - 1);
    }
  }

  /** The colours of every item of a preset's items list are collected (the list sits at depth 1, its items at depth 2). */
  lemma ItemsCollected(data: Value, i: nat)
    requires data.Obj? && Field(data, "items").Arr? && i < |Field(data, "items").items|
    ensures Collect(Field(data, "items").items[i], 2) <= CollectAllColors(data)
  {
    var items := Field(data, "items");
    FieldCollected(data.fields, "items", 1);
    ItemColorsCollected(items.items, 2, i);
  }

  /** The value of a key is visited at the depth below its object. */
  lemma {:induction false} FieldCollected(fs: seq<OrderedMap.Entry<Value>>, k: string, depth: nat)
    ensures Collect(OrderedMap.GetOr(fs, k, Null), depth) <= CollectFields(fs, depth)
  {
    if fs != [] && fs[0].key != k {
      FieldCollected(fs[1..], k, depth);
    }
  }

  // ---------------------------------------------------------------------
  // Categorising colours into a palette
  // ---------------------------------------------------------------------

  datatype Palette = Palette(
    primary: string,
    secondary: string,
    accent: string,
    background: string,
    surface: string,
    textPrimary: string,
    textSecondary: string)

  /** _get_default_palette */
  const DefaultPalette := Palette("#2196F3", "#00BCD4", "#FF4081", "#121212", "#1E1E1E", "#FFFFFF", "#B0B0B0")

  /** A colour code together with its channels. */
  datatype Swatch = Swatch(hex: string, rgb: Rgb)

  /** `[(c, _hex_to_rgb(c)) for c in colors]`: the first unreadable code aborts. */
  function ParseAll(cs: seq<string>): (r: Result<seq<Swatch>>)
    ensures r.Ok? <==> forall i :: 0 <= i < |cs| ==> HexToRgb(cs[i]).Ok?
    ensures r.Ok? ==> |r.value| == |cs| && forall i :: 0 <= i < |cs| ==> HexToRgb(cs[i]).Ok? && r.value[i] == Swatch(cs[i], HexToRgb(cs[i]).value)
    ensures r.Err? ==> r.error.ValueError?
  {
    var r := SwatchesBy(cs, HexToRgb);
    assert r.Err? ==> r.error.ValueError? by {
      if r.Err? {
        var i :| 0 <= i < |cs| && HexToRgb(cs[i]).Err? && r.error == HexToRgb(cs[i]).error;
      }
    }
    r
  }

  /** `[(c, parse(c)) for c in cs]`, stopping at the first code the parser rejects. */
  function SwatchesBy(cs: seq<string>, parse: string -> Result<Rgb>): (r: Result<seq<Swatch>>)
    ensures r.Ok? <==> forall i :: 0 <= i < |cs| ==> parse(cs[i]).Ok?
    ensures r.Ok? ==> |r.value| == |cs| && forall i :: 0 <= i < |cs| ==> r.value[i] == Swatch(cs[i], parse(cs[i]).value)
    ensures r.Err? ==> exists i :: 0 <= i < |cs| && parse(cs[i]).Err? && r.error == parse(cs[i]).error
  {
    if cs == [] then Ok([])
    else
      var first := parse(cs[0]);
      if first.Err? then Err(first.error)
      else
        var rest := SwatchesBy(cs[1..], parse);
        assert forall i :: 1 <= i < |cs| ==> cs[1..][i - 1] == cs[i];
        if rest.Err? then Err(rest.error) else Ok([Swatch(cs[0], first.value)] + rest.value)
  }

  /** The brightness of a swatch, the key color_rgb is sorted by. */
  function SwatchBrightness(x: Swatch): real
  {
    Brightness(x.rgb)
  }

  /** The saturation of a swatch, the key the accent is chosen by. */
  function SwatchSaturation(x: Swatch): real
  {
    Saturation(x.rgb)
  }

  /** max(color_rgb, key=saturation): the first swatch of greatest saturation. */
  function MostSaturated(s: seq<Swatch>): (r: Swatch)
    requires s != []
    ensures r in s
    ensures forall x :: x in s ==> Saturation(x.rgb) <= Saturation(r.rgb)
    ensures exists i :: 0 <= i < |s| && s[i] == r && forall j :: 0 <= j < i ==> Saturation(s[j].rgb) < Saturation(r.rgb)
  {
    var r := FirstMaxBy(s, SwatchSaturation);
    assert forall x :: SwatchSaturation(x) == Saturation(x.rgb);
    r
  }

  /** The colour's channels, for a code that reads; black otherwise. */
  function RgbOf(hex: string): (r: Rgb)
    ensures IsParsedRgb(r)
  {
    var c := HexToRgb(hex);
    if c.Ok? then c.value else Rgb(0, 0, 0)
  }

  /** The background, primary, secondary and accent are colours of the preset; with two colours or fewer the secondary is the primary. */
  ghost predicate RolesDrawn(p: Palette, cs: seq<string>)
  {
    && p.background in cs && p.primary in cs && p.secondary in cs && p.accent in cs
    && (|cs| <= 2 ==> p.secondary == p.primary)
  }

  /** No colour is more saturated than the accent. */
  ghost predicate AccentFits(p: Palette, cs: seq<string>)
  {
    forall c :: c in cs ==> Saturation(RgbOf(c)) <= Saturation(RgbOf(p.accent))
  }

  /** Some colour is darker than the middle of the range, which makes the theme dark. */
  ghost predicate IsDark(cs: seq<string>)
  {
    exists c :: c in cs && Brightness(RgbOf(c)) < 128.0
  }

  /** A dark theme: the darkest colour as background, the brightest as primary, light text. */
  ghost predicate DarkRoles(p: Palette, cs: seq<string>)
  {
    && p.textPrimary == "#FFFFFF" && p.textSecondary == "#B0B0B0"
    && p.surface == RgbToHex(LightenRgb(RgbOf(p.background)))
    && forall c :: c in cs ==> Brightness(RgbOf(p.background)) <= Brightness(RgbOf(c)) <= Brightness(RgbOf(p.primary))
  }

  /** A light theme: the lightest colour as background, the darkest as primary, dark text. */
  ghost predicate LightRoles(p: Palette, cs: seq<string>)
  {
    && p.textPrimary == "#000000" && p.textSecondary == "#505050"
    && p.surface == RgbToHex(DarkenRgb(RgbOf(p.background)))
    && forall c :: c in cs ==> Brightness(RgbOf(p.primary)) <= Brightness(RgbOf(c)) <= Brightness(RgbOf(p.background))
  }

  /** Whether the palette's roles fit the colours it was made from. */
  ghost predicate RolesFit(p: Palette, cs: seq<string>)
  {
    RolesDrawn(p, cs) && AccentFits(p, cs) && (if IsDark(cs) then DarkRoles(p, cs) else LightRoles(p, cs))
  }

  /** The roles read off a list sorted by brightness. */
  function Roles(sorted: seq<Swatch>): (p: Palette)
    requires sorted != [] && forall x :: x in sorted ==> IsParsedRgb(x.rgb)
  {
    var first := sorted[0];
    var last := sorted[|sorted| - 1];
    var mid := sorted[|sorted| / 2];
    var accent := MostSaturated(sorted).hex;
    if Brightness(first.rgb) < 128.0 then
      Palette(last.hex, if |sorted| > 2 then mid.hex else last.hex, accent,
              first.hex, RgbToHex(LightenRgb(first.rgb)), "#FFFFFF", "#B0B0B0")
    else
      Palette(first.hex, if |sorted| > 2 then mid.hex else first.hex, accent,
              last.hex, RgbToHex(DarkenRgb(last.rgb)), "#000000", "#505050")
  }

  /** The sorted swatches are exactly the codes of cs, each with its own channels. */
  lemma SortedCovers(cs: seq<string>, parsed: seq<Swatch>, sorted: seq<Swatch>)
    requires ParseAll(cs) == Ok(parsed) && multiset(sorted) == multiset(parsed)
    ensures |sorted| == |cs|
    ensures forall x :: x in sorted ==> x.hex in cs && x.rgb == RgbOf(x.hex) && IsParsedRgb(x.rgb)
    ensures forall c :: c in cs ==> exists j :: 0 <= j < |sorted| && sorted[j].hex == c && sorted[j].rgb == RgbOf(c)
  {
    SortedSound(cs, parsed, sorted);
    forall c | c in cs
      ensures exists j :: 0 <= j < |sorted| && sorted[j].hex == c && sorted[j].rgb == RgbOf(c)
    {
      var i :| 0 <= i < |cs| && cs[i] == c;
      assert parsed[i] in multiset(parsed);
      assert parsed[i] in sorted;
      var j :| 0 <= j < |sorted| && sorted[j] == parsed[i];
    }
  }

  /** Each sorted swatch is one of the codes with its own channels. */
  lemma SortedSound(cs: seq<string>, parsed: seq<Swatch>, sorted: seq<Swatch>)
    requires ParseAll(cs) == Ok(parsed) && multiset(sorted) == multiset(parsed)
    ensures |sorted| == |cs|
    ensures forall x :: x in sorted ==> x.hex in cs && x.rgb == RgbOf(x.hex) && IsParsedRgb(x.rgb)
  {
    assert |sorted| == |parsed| by {
      assert |multiset(sorted)| == |multiset(parsed)|;
    }
    forall x | x in sorted
      ensures x.hex in cs && x.rgb == RgbOf(x.hex) && IsParsedRgb(x.rgb)
    {
      var i := IndexInPermutation(parsed, sorted, x);
      ParsedSwatch(cs, parsed, i);
    }
  }

  /** An element of a permutation of xs sits at some position of xs. */
  lemma IndexInPermutation<T>(xs: seq<T>, r: seq<T>, x: T) returns (i: int)
    requires multiset(r) == multiset(xs) && x in r
    ensures 0 <= i < |xs| && xs[i] == x
  {
    assert x in multiset(r);
    assert x in xs;
    i :| 0 <= i < |xs| && xs[i] == x;
  }

  /** The i-th parsed swatch is the i-th code with its own channels. */
  lemma ParsedSwatch(cs: seq<string>, parsed: seq<Swatch>, i: int)
    requires ParseAll(cs) == Ok(parsed) && 0 <= i < |parsed|
    ensures parsed[i].hex == cs[i] && parsed[i].rgb == RgbOf(cs[i]) && IsParsedRgb(parsed[i].rgb)
  {
    var h := HexToRgb(cs[i]);
    assert h.Ok? && parsed[i] == Swatch(cs[i], h.value);
  }

  /** Every code lies between the first and the last swatch in brightness. */
  lemma BrightnessExtremes(cs: seq<string>, sorted: seq<Swatch>)
    requires sorted != [] && SortedByReal(sorted, SwatchBrightness)
    requires forall c :: c in cs ==> exists j :: 0 <= j < |sorted| && sorted[j].hex == c && sorted[j].rgb == RgbOf(c)
    ensures forall c :: c in cs ==> SwatchBrightness(sorted[0]) <= Brightness(RgbOf(c)) <= SwatchBrightness(sorted[|sorted| - 1])
  {
    forall c | c in cs
      ensures SwatchBrightness(sorted[0]) <= Brightness(RgbOf(c)) <= SwatchBrightness(sorted[|sorted| - 1])
    {
      var j :| 0 <= j < |sorted| && sorted[j].hex == c && sorted[j].rgb == RgbOf(c);
      assert SwatchBrightness(sorted[j]) == Brightness(RgbOf(c));
      if 0 < j {
        assert SwatchBrightness(sorted[0]) <= SwatchBrightness(sorted[j]);
      }
      if j < |sorted| - 1 {
        assert SwatchBrightness(sorted[j]) <= SwatchBrightness(sorted[|sorted| - 1]);
      }
    }
  }

  /** No code is more saturated than the most saturated swatch. */
  lemma SaturationExtreme(cs: seq<string>, sorted: seq<Swatch>)
    requires sorted != []
    requires forall c :: c in cs ==> exists j :: 0 <= j < |sorted| && sorted[j].hex == c && sorted[j].rgb == RgbOf(c)
    ensures forall c :: c in cs ==> Saturation(RgbOf(c)) <= Saturation(MostSaturated(sorted).rgb)
  {
    forall c | c in cs
      ensures Saturation(RgbOf(c)) <= Saturation(MostSaturated(sorted).rgb)
    {
      var j :| 0 <= j < |sorted| && sorted[j].hex == c && sorted[j].rgb == RgbOf(c);
      assert sorted[j] in sorted;
    }
  }

  /** The facts about a sorted list of the parsed colours the palette roles rest on. */
  ghost predicate Covering(cs: seq<string>, sorted: seq<Swatch>)
  {
    && sorted != [] && |sorted| == |cs| && SortedByReal(sorted, SwatchBrightness)
    && (forall x :: x in sorted ==> x.hex in cs && x.rgb == RgbOf(x.hex))
    && (forall c :: c in cs ==> SwatchBrightness(sorted[0]) <= Brightness(RgbOf(c)) <= SwatchBrightness(sorted[|sorted| - 1]))
    && (forall c :: c in cs ==> Saturation(RgbOf(c)) <= Saturation(MostSaturated(sorted).rgb))
  }

  lemma DrawnOfSorted(cs: seq<string>, sorted: seq<Swatch>)
    requires sorted != [] && |sorted| == |cs|
    requires forall x :: x in sorted ==> x.hex in cs && IsParsedRgb(x.rgb)
    ensures RolesDrawn(Roles(sorted), cs)
  {
    var first, last, mid := sorted[0], sorted[|sorted| - 1], sorted[|sorted| / 2];
    assert first in sorted && last in sorted && mid in sorted;
    var m := MostSaturated(sorted);
    assert m.hex in cs;
    var p := Roles(sorted);
    assert p.accent == m.hex;
    assert p.background in {first.hex, last.hex} && p.primary in {first.hex, last.hex};
    assert p.secondary in {mid.hex, p.primary};
  }

  lemma AccentOfSorted(cs: seq<string>, sorted: seq<Swatch>)
    requires Covering(cs, sorted)
    ensures AccentFits(Roles(sorted), cs)
  {
    var m := MostSaturated(sorted);
    assert m in sorted;
    assert RgbOf(Roles(sorted).accent) == m.rgb;
  }

  lemma ShadesOfSorted(cs: seq<string>, sorted: seq<Swatch>)
    requires Covering(cs, sorted)
    ensures IsDark(cs) ==> DarkRoles(Roles(sorted), cs)
    ensures !IsDark(cs) ==> LightRoles(Roles(sorted), cs)
  {
    var first, last := sorted[0], sorted[|sorted| - 1];
    assert first in sorted && last in sorted;
    assert IsDark(cs) <==> SwatchBrightness(first) < 128.0 by {
      assert first.hex in cs && first.rgb == RgbOf(first.hex);
    }
  }

  /** A sorted list of the parsed colours yields a palette whose roles fit the colours. */
  lemma RolesOfSorted(cs: seq<string>, parsed: seq<Swatch>, sorted: seq<Swatch>)
    requires cs != [] && ParseAll(cs) == Ok(parsed)
    requires SortedByReal(sorted, SwatchBrightness) && multiset(sorted) == multiset(parsed)
    ensures forall x :: x in sorted ==> IsParsedRgb(x.rgb)
    ensures RolesFit(Roles(sorted), cs)
  {
    SortedCovers(cs, parsed, sorted);
    BrightnessExtremes(cs, sorted);
    SaturationExtreme(cs, sorted);
    assert Covering(cs, sorted);
    DrawnOfSorted(cs, sorted);
    AccentOfSorted(cs, sorted);
    ShadesOfSorted(cs, sorted);
  }

  /**
   * The list _categorize_colors sorts by brightness: the parsed colours in
   * order of brightness, colours of equal brightness in the order cs lists
   * them (list.sort is stable).
   */
  ghost predicate BrightnessSorted(cs: seq<string>, sorted: seq<Swatch>)
  {
    && ParseAll(cs).Ok?
    && SortedByReal(sorted, SwatchBrightness)
    && multiset(sorted) == multiset(ParseAll(cs).value)
    && StableBy(ParseAll(cs).value, sorted, SwatchBrightness)
  }

  /** The colours have one brightness order, so the middle colour is determined by cs. */
  lemma BrightnessSortedUnique(cs: seq<string>, a: seq<Swatch>, b: seq<Swatch>)
    requires BrightnessSorted(cs, a) && BrightnessSorted(cs, b)
    ensures a == b
  {
    SortedByRealUnique(ParseAll(cs).value, a, b, SwatchBrightness);
  }

  /**
   * _categorize_colors: the default palette for no colours; otherwise the
   * roles read off the colours sorted by brightness, with the middle one as
   * the secondary when there are more than two, or the first code's error.
   */
  method CategorizeColors(cs: seq<string>) returns (r: Result<Palette>, ghost sorted: seq<Swatch>)
    ensures cs == [] ==> r == Ok(DefaultPalette)
    ensures r.Ok? <==> forall c :: c in cs ==> HexToRgb(c).Ok?
    ensures r.Err? ==> r.error.ValueError?
    ensures r.Ok? && cs != [] ==> RolesFit(r.value, cs)
    ensures r.Ok? && cs != [] ==>
      && BrightnessSorted(cs, sorted) && |sorted| == |cs|
      && (|cs| > 2 ==> r.value.secondary == sorted[|cs| / 2].hex)
    ensures r.Ok? && cs != [] ==>
      sorted != [] && (forall x :: x in sorted ==> IsParsedRgb(x.rgb)) && r.value == Roles(sorted)
  {
    if cs == [] {
      return Ok(DefaultPalette), [];
    }
    var parsed := ParseAll(cs);
    if parsed.Err? {
      return Err(parsed.error), [];
    }
    var xs := SortByReal(parsed.value, SwatchBrightness);
    RolesOfSorted(cs, parsed.value, xs);
    sorted := xs;
    r := Ok(Roles(xs));
  }

  /**
   * extract_color_palette: the default palette for a preset without colours;
   * otherwise a palette whose roles fit the preset's colours, listed in the
   * order `listing` gives them, or the error of the first colour that does
   * not read.
   */
  method ExtractColorPalette(data: Value) returns (r: Result<Palette>, ghost listing: seq<string>, ghost sorted: seq<Swatch>)
    ensures forall c :: c in listing <==> c in CollectAllColors(data)
    ensures CollectAllColors(data) == {} ==> r == Ok(DefaultPalette)
    ensures r.Ok? <==> forall c :: c in CollectAllColors(data) ==> HexToRgb(c).Ok?
    ensures r.Err? ==> r.error.ValueError?
    ensures r.Ok? && CollectAllColors(data) != {} ==> RolesFit(r.value, listing)
    ensures r.Ok? && CollectAllColors(data) != {} ==>
      && BrightnessSorted(listing, sorted) && |sorted| == |listing|
      && (|listing| > 2 ==> r.value.secondary == sorted[|listing| / 2].hex)
    ensures r.Ok? && CollectAllColors(data) != {} ==>
      sorted != [] && (forall x :: x in sorted ==> IsParsedRgb(x.rgb)) && r.value == Roles(sorted)
  {
    var colors := CollectAllColors(data);
    if colors == {} {
      return Ok(DefaultPalette), [], [];
    }
    var xs := ListOf(colors);
    NonEmptyListing(colors, xs);
    listing := xs;
    r, sorted := CategorizeColors(xs);
    ListingReads(colors, xs);
  }

  /** A listing of a set that is not empty is not empty. */
  lemma NonEmptyListing(colors: set<string>, xs: seq<string>)
    requires colors != {} && forall c :: c in xs <==> c in colors
    ensures xs != []
  {
    var c :| c in colors;
    assert c in xs;
  }

  /** Every code of a listing reads exactly when every code of the set reads. */
  lemma ListingReads(colors: set<string>, xs: seq<string>)
    requires forall c :: c in xs <==> c in colors
    ensures (forall c :: c in xs ==> HexToRgb(c).Ok?) <==> (forall c :: c in colors ==> HexToRgb(c).Ok?)
  {
  }

  // ---------------------------------------------------------------------
  // The closest Material Design colour
  // ---------------------------------------------------------------------

  /** The Material Design colours _closest_md_palette compares against, in its order. */
  const MdColors: seq<(string, Rgb)> := [
    ("Red", Rgb(0xF4, 0x43, 0x36)),
    ("Pink", Rgb(0xE9, 0x1E, 0x63)),
    ("Purple", Rgb(0x9C, 0x27, 0xB0)),
    ("DeepPurple", Rgb(0x67, 0x3A, 0xB7)),
    ("Indigo", Rgb(0x3F, 0x51, 0xB5)),
    ("Blue", Rgb(0x21, 0x96, 0xF3)),
    ("LightBlue", Rgb(0x03, 0xA9, 0xF4)),
    ("Cyan", Rgb(0x00, 0xBC, 0xD4)),
    ("Teal", Rgb(0x00, 0x96, 0x88)),
    ("Green", Rgb(0x4C, 0xAF, 0x50)),
    ("LightGreen", Rgb(0x8B, 0xC3, 0x4A)),
    ("Lime", Rgb(0xCD, 0xDC, 0x39)),
    ("Yellow", Rgb(0xFF, 0xEB, 0x3B)),
    ("Amber", Rgb(0xFF, 0xC1, 0x07)),
    ("Orange", Rgb(0xFF, 0x98, 0x00)),
    ("DeepOrange", Rgb(0xFF, 0x57, 0x22)),
    ("Brown", Rgb(0x79, 0x55, 0x48)),
    ("Gray", Rgb(0x9E, 0x9E, 0x9E)),
    ("BlueGray", Rgb(0x60, 0x7D, 0x8B))]

  /** The square of the Euclidean distance, which orders colours as the distance does. */
  function SquaredDistance(a: Rgb, b: Rgb): nat
  {
    (a.r - b.r) * (a.r - b.r) + (a.g - b.g) * (a.g - b.g) + (a.b - b.b) * (a.b - b.b)
  }

  /** min(items, key=distance): the first item of least distance. */
  function Closest(t: Rgb, items: seq<(string, Rgb)>): (r: (string, Rgb))
    requires items != []
    ensures r in items
    ensures forall x :: x in items ==> SquaredDistance(t, r.1) <= SquaredDistance(t, x.1)
    ensures exists i :: 0 <= i < |items| && items[i] == r && forall j :: 0 <= j < i ==> SquaredDistance(t, items[j].1) > SquaredDistance(t, r.1)
  {
    if |items| == 1 then
      assert items[0] in items;
      items[0]
    else
      var init := items[..|items| - 1];
      var last := items[|items| - 1];
      assert items == init + [last];
      var m := Closest(t, init);
      if SquaredDistance(t, last.1) < SquaredDistance(t, m.1) then
        assert forall j :: 0 <= j < |items| - 1 ==> SquaredDistance(t, items[j].1) > SquaredDistance(t, last.1) by {
          forall j | 0 <= j < |items| - 1
            ensures SquaredDistance(t, items[j].1) > SquaredDistance(t, last.1)
          {
            assert items[j] == init[j] && init[j] in init;
          }
        }
        last
      else
        var i :| 0 <= i < |init| && init[i] == m && forall j :: 0 <= j < i ==> SquaredDistance(t, init[j].1) > SquaredDistance(t, m.1);
        assert items[i] == m;
        m
  }

  /** _closest_md_palette: the name of the nearest Material Design colour. */
  function ClosestMdPalette(hex: string): (r: Result<string>)
    ensures r.Ok? <==> HexToRgb(hex).Ok?
    ensures r.Ok? ==> var t := HexToRgb(hex).value;
      exists i :: 0 <= i < |MdColors| && MdColors[i].0 == r.value
        && (forall y :: y in MdColors ==> SquaredDistance(t, MdColors[i].1) <= SquaredDistance(t, y.1))
        && (forall j :: 0 <= j < i ==> SquaredDistance(t, MdColors[j].1) > SquaredDistance(t, MdColors[i].1))
  {
    var t :- HexToRgb(hex);
    Ok(Closest(t, MdColors).0)
  }

  /** A signed pair reads as a negative channel, which lightening brings back into range. */
  lemma SignedCode()
    ensures HexToRgb("#-1-1-1") == Ok(Rgb(-1, -1, -1))
    ensures Lighten("#-1-1-1") == "#181818"
  {
    var body := "-1-1-1";
    StripHashesStops("#-1-1-1", body);
    assert body[0..2] == "-1" && body[2..4] == "-1" && body[4..6] == "-1";
    assert LightenRgb(Rgb(-1, -1, -1)) == Rgb(24, 24, 24);
    assert Hex2(24) == "18";
  }

  /** Colours at distance zero are the same colour. */
  lemma ZeroDistance(a: Rgb, b: Rgb)
    requires SquaredDistance(a, b) == 0
    ensures a == b
  {
    var dr, dg, db := a.r - b.r, a.g - b.g, a.b - b.b;
    assert dr * dr >= 0 && dg * dg >= 0 && db * db >= 0;
    assert dr * dr == 0 && dg * dg == 0 && db * db == 0;
  }

  /** The Material Design colours are byte colours, pairwise different. */
  lemma MdColorsDistinct()
    ensures forall i :: 0 <= i < |MdColors| ==> IsByteRgb(MdColors[i].1)
    ensures forall i, j :: 0 <= i < j < |MdColors| ==> MdColors[i].1 != MdColors[j].1
  {
  }

  /** Among items of pairwise different colours, an item of exactly the target colour is the closest. */
  lemma ClosestExact(t: Rgb, items: seq<(string, Rgb)>, i: nat)
    requires i < |items| && items[i].1 == t
    requires forall j, k :: 0 <= j < k < |items| ==> items[j].1 != items[k].1
    ensures Closest(t, items) == items[i]
  {
    var best := Closest(t, items);
    assert items[i] in items;
    assert SquaredDistance(t, t) == 0;
    ZeroDistance(t, best.1);
    var k :| 0 <= k < |items| && items[k] == best && forall j :: 0 <= j < k ==> SquaredDistance(t, items[j].1) > SquaredDistance(t, best.1);
    if k < i {
      assert items[k].1 == items[i].1;
    } else if k > i {
      assert items[k].1 == items[i].1;
    }
  }

  /** A Material Design colour is its own closest match. */
  lemma MdColorMatchesItself(i: nat)
    requires i < |MdColors|
    ensures IsByteRgb(MdColors[i].1)
    ensures ClosestMdPalette(RgbToHex(MdColors[i].1)) == Ok(MdColors[i].0)
  {
    MdColorsDistinct();
    HexRoundTrip(MdColors[i].1);
    ClosestExact(MdColors[i].1, MdColors, i);
  }

  // ---------------------------------------------------------------------
  // Saved theme presets
  // ---------------------------------------------------------------------

  const ThemePrefix := "theme_"

  function ThemeKey(name: string): string
  {
    ThemePrefix + name
  }

  /** save_theme_preset: stores the palette under "theme_<name>". */
  method SaveThemePreset(store: Store, name: string, palette: Value)
    modifies store
    ensures store.data == old(store.data)[ThemeKey(name) := palette]
    ensures LoadThemePreset(store, name) == palette
  {
    store.Set(ThemeKey(name), palette);
  }

  /** load_theme_preset: the stored palette, or None. */
  function LoadThemePreset(store: Store, name: string): (r: Value)
    reads store
    ensures ThemeKey(name) in store.data ==> r == store.data[ThemeKey(name)]
    ensures ThemeKey(name) !in store.data ==> r == Null
  {
    store.Get(ThemeKey(name), Null)
  }

  /**
   * get_saved_themes as written: it reads an attribute `storage` of the
   * store object, which the store does not have, so every call fails before
   * any key is looked at.
   */
  method GetSavedThemes(store: Store) returns (r: Result<seq<string>>)
    ensures r == Err(AttributeError("'SecureStorage' object has no attribute 'storage'"))
  {
    r := Err(AttributeError("'SecureStorage' object has no attribute 'storage'"));
  }

  /** get_saved_themes as intended: every "theme_" key with the prefix removed. */
  function SavedThemeNames(store: Store): (r: set<string>)
    reads store
    ensures forall n :: n in r ==> exists k :: k in store.data && StartsWith(k, ThemePrefix) && RemoveAll(k, ThemePrefix) == n
  {
    set k | k in store.data && StartsWith(k, ThemePrefix) :: RemoveAll(k, ThemePrefix)
  }

  /** Removing a pattern from a string that nowhere holds it changes nothing. */
  lemma {:induction false} RemoveAllAbsent(s: string, pat: string)
    requires pat != []
    requires forall i :: 0 <= i <= |s| ==> !StartsWith(s[i..], pat)
    ensures RemoveAll(s, pat) == s
  {
    if s != [] {
      assert !StartsWith(s, pat) by { assert s[0..] == s; }
      forall i | 0 <= i <= |s| - 1
        ensures !StartsWith(s[1..][i..], pat)
      {
        assert s[1..][i..] == s[i + 1..];
      }
      RemoveAllAbsent(s[1..], pat);
    }
  }

  /** A theme saved under a name that does not itself hold "theme_" is listed under that name. */
  lemma SavedThemeListed(store: Store, name: string)
    requires ThemeKey(name) in store.data
    requires forall i :: 0 <= i <= |name| ==> !StartsWith(name[i..], ThemePrefix)
    ensures name in SavedThemeNames(store)
  {
    var k := ThemeKey(name);
    assert k[..|ThemePrefix|] == ThemePrefix && k[|ThemePrefix|..] == name;
    RemoveAllAbsent(name, ThemePrefix);
    assert RemoveAll(k, ThemePrefix) == name;
  }
}

=== FILE: total_launcher.dfy ===
// TotalLauncherSupport: layouts are '.tl' ZIP archives in the Total Launcher
// folder whose first XML member is the layout.  The plugin caches the dict
// form of a layout under the name with its extension, lists and searches the
// launcher items of the tree, and writes a layout back as 'layout.xml'
// followed by the old archive's non-XML members.
module TotalLauncherSupport {
  import opened Wrappers
  import opened Text
  import opened OrderedMap
  import opened Json
  import opened Files
  import opened Paths
  import opened Sorting
  import opened XmlTree
  import opened XmlItems

  const PluginName := "Total Launcher Support"
  const PluginVersion := "1.0.0"
  const SupportedApp := "Total Launcher"
  const AppPackage := "com.fs.tbrowser"
  const LayoutsDir := "/storage/emulated/0/TotalLauncher"
  const Extension := ".tl"
  const LayoutFile := "layout.xml"

  /** get_element_types */
  const ElementTypes: seq<string> := ["app", "widget", "folder", "shortcut", "icon", "panel"]

  /** The item types offered to callers are exactly the tags the walk reports. */
  lemma ElementTypesListed()
    ensures ElementTypes == Tags(TotalLauncher)
  {
  }

  /** A member name read_config considers an XML file. */
  predicate IsXmlName(name: string)
  {
    EndsWith(name, ".xml")
  }

  /** The XML member names of an archive, in archive order. */
  function XmlNames(ns: seq<string>): (r: seq<string>)
    ensures forall x :: x in r <==> x in ns && IsXmlName(x)
    ensures |r| <= |ns|
  {
    if ns == [] then []
    else (if IsXmlName(ns[0]) then [ns[0]] else []) + XmlNames(ns[1..])
  }

  /** The file a layout name denotes: the name with '.tl' appended unless it already ends with it. */
  function Key(name: string): (r: string)
    ensures EndsWith(r, Extension)
  {
    EnsureExtension(name, Extension)
  }

  /** The listing entry for a layout file. */
  function InfoOf(p: string): FileInfo
  {
    FileInfo(Stem(p), BaseName(p), p, "total_launcher")
  }

  class TotalLauncherPlugin {
    var cache: map<string, XmlEntry>
    const disk: FileSystem
    /** Whether `pm list packages` mentions the package (the command runs outside the model). */
    const packageListed: bool

    constructor (disk0: FileSystem, packageListed0: bool)
      ensures cache == map[] && disk == disk0 && packageListed == packageListed0
    {
      cache := map[];
      disk := disk0;
      packageListed := packageListed0;
    }

    /** is_app_installed: the layouts folder exists, else the package manager lists the package. */
    predicate IsAppInstalled()
      reads this, disk
    {
      disk.Exists(LayoutsDir) || packageListed
    }

    // ----- reading and the cache -----

    /** read_config's outcome. */
    function LoadConfig(name: string): (r: Result<Node>)
      reads this, disk
      ensures var path := Child(LayoutsDir, Key(name));
        r.Ok? ==> disk.ArchiveAt(path).Ok? && XmlNames(Names(disk.ArchiveAt(path).value)) != []
    {
      var path := Child(LayoutsDir, Key(name));
      if !disk.Exists(path) then Err(FileNotFound(path))
      else
        var ms :- disk.ArchiveAt(path);
        var xmls := XmlNames(Names(ms));
        if xmls == [] then Err(ValueError("No XML files found in " + Key(name)))
        else
          var root :- ParseXml(MemberBlob(ms, xmls[0]));
          Ok(ToNode(root))
    }

    /**
     * read_config: appends '.tl' when missing, fails with FileNotFoundError
     * when the layout is missing and with ValueError when the archive holds
     * no XML member, parses the first XML member, and caches the dict form,
     * unmodified, under the name with its extension.
     */
    method ReadConfig(name: string) returns (r: Result<Node>)
      modifies this
      ensures r == old(LoadConfig(name))
      ensures r.Ok? ==> cache == old(cache)[Key(name) := XmlEntry(r.value, false)]
      ensures r.Err? ==> cache == old(cache)
    {
      var key := name;
      if !EndsWith(name, Extension) {
        key := name + Extension;
      }
      var path := Child(LayoutsDir, key);
      if !disk.Exists(path) {
        return Err(FileNotFound(path));
      }
      var ms :- disk.ArchiveAt(path);
      var xmls := XmlNames(Names(ms));
      if xmls == [] {
        return Err(ValueError("No XML files found in " + key));
      }
      var root :- ParseXml(MemberBlob(ms, xmls[0]));
      var data := ToNode(root);
      cache := cache[key := XmlEntry(data, false)];
      return Ok(data);
    }

    /** The document the item operations work on: the one cached under the name as given, else a fresh read. */
    function Loaded(name: string): Result<Node>
      reads this, disk
    {
      if name in cache then Ok(cache[name].data) else LoadConfig(name)
    }

    /** The cache after obtaining the document. */
    function AfterLoad(name: string): map<string, XmlEntry>
      reads this, disk
    {
      if name in cache then cache
      else match LoadConfig(name)
        case Ok(v) => cache[Key(name) := XmlEntry(v, false)]
        case Err(_) => cache
    }

    /** The cache key under which the document the operations work on is held. */
    function Home(name: string): string
      reads this
    {
      if name in cache then name else Key(name)
    }

    method Load(name: string) returns (r: Result<Node>)
      modifies this
      ensures r == old(Loaded(name))
      ensures cache == old(AfterLoad(name))
      ensures r.Ok? ==> old(Home(name)) in cache && cache[old(Home(name))].data == r.value
      ensures r.Ok? && old(Home(name)) != name ==> name !in cache && !cache[old(Home(name))].modified
    {
      if name in cache {
        return Ok(cache[name].data);
      }
      r := ReadConfig(name);
    }

    /** list_elements: the Total Launcher walk of the layout from the root. */
    method ListElements(name: string, filter: Option<string>) returns (r: Result<seq<Item>>)
      modifies this
      ensures old(Loaded(name)).Err? ==> r == Err(old(Loaded(name)).error)
      ensures old(Loaded(name)).Ok? ==> r == Ok(Walk(TotalLauncher, old(Loaded(name)).value, filter, ""))
      ensures cache == old(AfterLoad(name))
    {
      var data :- Load(name);
      return Ok(Walk(TotalLauncher, data, filter, ""));
    }

    /** find_element: the listed items whose id, label, package or type mentions the term, case-insensitively. */
    method FindElement(name: string, term: string) returns (r: Result<seq<Item>>)
      modifies this
      ensures old(Loaded(name)).Err? ==> r == Err(old(Loaded(name)).error)
      ensures old(Loaded(name)).Ok? ==> r == Ok(Search(Walk(TotalLauncher, old(Loaded(name)).value, None, ""), term))
      ensures cache == old(AfterLoad(name))
    {
      var all :- ListElements(name, None);
      var matching := FindMatching(all, term);
      return Ok(matching);
    }

    // ----- modify_element -----

    /**
     * modify_element as written: the first node in pre-order whose `id`
     * (else `name`) is the target receives the properties, in the cached
     * layout; a miss is ValueError.  The entry is then marked modified under
     * the name as given, which is not the key read_config cached under when
     * '.tl' was appended: that is KeyError, after the edit.
     */
    method ModifyElement(name: string, target: string, props: Dict<Value>) returns (r: Result<Node>)
      modifies this
      ensures old(Loaded(name)).Err? ==> r == Err(old(Loaded(name)).error) && cache == old(cache)
      ensures var e := EditFor(TotalLauncher, target, props);
              old(Loaded(name)).Ok? && Update(old(Loaded(name)).value, e).0.None? ==>
                r == Err(ValueError("Item '" + target + "' not found")) && cache == old(AfterLoad(name))
      ensures var e := EditFor(TotalLauncher, target, props);
              old(Loaded(name)).Ok? && Update(old(Loaded(name)).value, e).0.Some? && old(Home(name)) == name ==>
                r == Ok(Update(old(Loaded(name)).value, e).0.value)
                && cache == old(AfterLoad(name))[name := XmlEntry(Update(old(Loaded(name)).value, e).1, true)]
      ensures var e := EditFor(TotalLauncher, target, props);
              old(Loaded(name)).Ok? && Update(old(Loaded(name)).value, e).0.Some? && old(Home(name)) != name ==>
                r == Err(KeyError(name))
                && cache == old(AfterLoad(name))[old(Home(name)) := XmlEntry(Update(old(Loaded(name)).value, e).1, false)]
    {
      var home := Home(name);
      var data :- Load(name);
      var (found, data') := Update(data, EditFor(TotalLauncher, target, props));
      if found.None? {
        return Err(ValueError("Item '" + target + "' not found"));
      }
      var stored := Store(name, home, data');
      if stored.Err? {
        return Err(stored.error);
      }
      return Ok(found.value);
    }

    /**
     * A name without '.tl' that is not cached is read and cached under the
     * file's name, so every hit of ModifyElement on it is KeyError.
     */
    lemma BareNameHomedElsewhere(n: string)
      requires n !in cache && !EndsWith(n, Extension)
      ensures Home(n) == n + Extension && Home(n) != n
    {
      assert |Home(n)| == |n| + 3;
    }

    /**
     * The end of modify_element: the edited layout stays in the entry that
     * holds it, and the entry under the name as given is marked modified;
     * KeyError when there is none.
     */
    method Store(name: string, home: string, doc: Node) returns (r: Result<()>)
      requires home in cache
      requires home != name ==> name !in cache
      modifies this
      ensures home == name ==> r == Ok(()) && cache == old(cache)[name := XmlEntry(doc, true)]
      ensures home != name ==> r == Err(KeyError(name)) && cache == old(cache)[home := XmlEntry(doc, old(cache)[home].modified)]
    {
      // the cached dict is edited in place
      cache := cache[home := XmlEntry(doc, cache[home].modified)];
      if name !in cache {
        return Err(KeyError(name));
      }
      cache := cache[name := XmlEntry(cache[name].data, true)];
      return Ok(());
    }

    /**
     * modify_element as evidently intended: the entry that holds the edited
     * layout is the one marked modified, so a hit always succeeds.
     */
    method ModifyElementCorrected(name: string, target: string, props: Dict<Value>) returns (r: Result<Node>)
      modifies this
      ensures old(Loaded(name)).Err? ==> r == Err(old(Loaded(name)).error) && cache == old(cache)
      ensures var e := EditFor(TotalLauncher, target, props);
              old(Loaded(name)).Ok? && Update(old(Loaded(name)).value, e).0.None? ==>
                r == Err(ValueError("Item '" + target + "' not found")) && cache == old(AfterLoad(name))
      ensures var e := EditFor(TotalLauncher, target, props);
              r.Ok? <==> old(Loaded(name)).Ok? && Update(old(Loaded(name)).value, e).0.Some?
      ensures var e := EditFor(TotalLauncher, target, props);
              r.Ok? ==>
                r.value == Update(old(Loaded(name)).value, e).0.value
                && cache == old(AfterLoad(name))[old(Home(name)) := XmlEntry(Update(old(Loaded(name)).value, e).1, true)]
    {
      var key := Home(name);
      var data :- Load(name);
      var (found, data') := Update(data, EditFor(TotalLauncher, target, props));
      if found.None? {
        return Err(ValueError("Item '" + target + "' not found"));
      }
      cache := cache[key := XmlEntry(data', true)];
      return Ok(found.value);
    }

    // ----- save_config -----

    /** The archive members save_config writes: the layout, then the old archive's non-XML members. */
    static function SavedMembers(data: Node, prior: Option<seq<Member>>): seq<Member>
    {
      Rewritten(Member(LayoutFile, XmlText(ToElement(data))), IsXmlName, prior)
    }

    /** In a saved layout, 'layout.xml' is the first XML member, and reading it gives the layout's XML text. */
    static lemma SavedLayoutFirst(data: Node, prior: Option<seq<Member>>)
      ensures var ms := SavedMembers(data, prior);
        XmlNames(Names(ms)) != [] && XmlNames(Names(ms))[0] == LayoutFile
        && LayoutFile in Names(ms) && MemberBlob(ms, LayoutFile) == XmlText(ToElement(data))
    {
      var head := Member(LayoutFile, XmlText(ToElement(data)));
      var ms := SavedMembers(data, prior);
      assert IsXmlName(LayoutFile) by {
        assert LayoutFile[|LayoutFile| - 4..] == ".xml";
      }
      RewrittenReadsHead(head, IsXmlName, prior);
      assert Names(ms)[0] == LayoutFile;
      assert XmlNames(Names(ms))[0] == LayoutFile;
    }

    /** Reading a saved layout finds 'layout.xml' first among the XML members and gets the document back. */
    static lemma SavedReadsBack(data: Node, prior: Option<seq<Member>>)
      requires Normal(data)
      ensures var ms := SavedMembers(data, prior);
        XmlNames(Names(ms)) != [] && XmlNames(Names(ms))[0] == LayoutFile
        && ParseXml(MemberBlob(ms, LayoutFile)) == Ok(ToElement(data))
        && ToNode(ToElement(data)) == data
    {
      SavedLayoutFirst(data, prior);
      RoundTrip(data);
    }

    /** The old archive's members other than XML ones all survive a save, in order, after the layout. */
    static lemma SavedKeepsOthers(data: Node, ms: seq<Member>)
      requires DistinctNames(ms)
      ensures SavedMembers(data, Some(ms)) == [Member(LayoutFile, XmlText(ToElement(data)))] + Kept(ms, IsXmlName)
      ensures forall x :: x in Kept(ms, IsXmlName) <==> x in ms && !IsXmlName(x.name)
    {
      CarryOverDistinct(ms, IsXmlName);
      KeptComplete(ms, IsXmlName);
    }

    /** Where save_config puts the layout of a name. */
    function SavePath(name: string): string
    {
      Child(LayoutsDir, Key(name))
    }

    /**
     * Whether save_config raises: the backup copy fails, the '.tmp' sibling
     * cannot be opened for writing once the backup is made, or an existing
     * old layout does not open as an archive.
     */
    predicate SaveFails(name: string, backup: bool)
      reads disk
    {
      var path := SavePath(name);
      || disk.BackupFailure(path, WithSuffix(path, ".tl.backup"), backup).Some?
      || !Writable(disk.BackedUp(path, WithSuffix(path, ".tl.backup"), backup), disk.dirs, WithSuffix(path, ".tmp"))
      || disk.OldMembers(path).Err?
    }

    /**
     * save_config: appends '.tl' when missing; an existing layout is first
     * copied to its '.tl.backup' sibling (when asked); 'layout.xml' and the old
     * archive's non-XML members are written to the '.tmp' sibling, which then
     * replaces the layout; the cache entry under the name with its extension
     * is dropped.  A failed backup, or a '.tmp' sibling that cannot be
     * written, fails before anything more is written; an old file that is no
     * archive fails after the '.tmp' file was written.
     */
    method SaveConfig(name: string, data: Node, backup: bool) returns (r: Result<string>)
      modifies this, disk
      ensures disk.dirs == old(disk.dirs)
      ensures r.Err? <==> old(SaveFails(name, backup))
      ensures r.Err? ==> cache == old(cache)
      ensures var path := SavePath(name);
              r.Ok? ==> (r.value == path && cache == old(cache) - {Key(name)}
                && disk.files == (old(disk.BackedUp(path, WithSuffix(path, ".tl.backup"), backup)) - {WithSuffix(path, ".tmp")})[path := Archive(SavedMembers(data, old(disk.OldMembers(path)).value))])
      ensures var path := SavePath(name);
              var failure := old(disk.BackupFailure(path, WithSuffix(path, ".tl.backup"), backup));
              failure.Some? ==> r == Err(failure.value) && disk.files == old(disk.files)
      ensures var path := SavePath(name);
              var failure := old(disk.BackupFailure(path, WithSuffix(path, ".tl.backup"), backup));
              var backed := old(disk.BackedUp(path, WithSuffix(path, ".tl.backup"), backup));
              failure.None? && !Writable(backed, old(disk.dirs), WithSuffix(path, ".tmp")) ==>
                r == Err(WriteError(backed, old(disk.dirs), WithSuffix(path, ".tmp"))) && disk.files == backed
      ensures var path := SavePath(name);
              var failure := old(disk.BackupFailure(path, WithSuffix(path, ".tl.backup"), backup));
              var backed := old(disk.BackedUp(path, WithSuffix(path, ".tl.backup"), backup));
              failure.None? && Writable(backed, old(disk.dirs), WithSuffix(path, ".tmp")) && r.Err? ==>
                r.error == old(disk.OldMembers(path)).error
                && disk.files == backed[WithSuffix(path, ".tmp") := Archive([Member(LayoutFile, XmlText(ToElement(data)))])]
      ensures r.Ok? && Normal(data) && name !in cache ==> Loaded(name) == Ok(data)
    {
      var key := Key(name);
      var path := Child(LayoutsDir, key);
      ghost var before := disk.OldMembers(path);
      var copied := disk.Backup(path, WithSuffix(path, ".tl.backup"), backup);
      if copied.Err? {
        return Err(copied.error);
      }
      assert disk.OldMembers(path) == before;
      var written := disk.RewriteArchive(path, WithSuffix(path, ".tmp"), Member(LayoutFile, XmlText(ToElement(data))), IsXmlName);
      if written.Err? {
        return Err(written.error);
      }
      cache := cache - {key};
      if Normal(data) {
        SavedReadsBack(data, before.value);
      }
      return Ok(path);
    }

    // ----- list_configs -----

    /** A layout file directly inside the layouts folder. */
    ghost predicate Listed(p: string)
      reads this, disk
    {
      disk.Exists(LayoutsDir) && p in disk.files && InGlob(p, LayoutsDir, Extension)
    }

    /**
     * What list_configs returns: one entry per layout file, describing that
     * file, no file twice, sorted by lower-cased name; [] when the folder is
     * missing.
     */
    ghost predicate IsListing(r: seq<FileInfo>)
      reads this, disk
    {
      SortedBy(r, LowerName)
      && (forall x :: x in r ==> Listed(x.path) && x == InfoOf(x.path))
      && (forall i, j :: 0 <= i < j < |r| ==> r[i].path != r[j].path)
      && (forall p :: Listed(p) ==> InfoOf(p) in r)
      && (!disk.Exists(LayoutsDir) ==> r == [])
    }

    /** list_configs */
    method ListConfigs() returns (r: seq<FileInfo>)
      ensures IsListing(r)
    {
      if !disk.Exists(LayoutsDir) {
        return [];
      }
      var ps := disk.Glob(LayoutsDir, Extension);
      var infos := MapInOrder(ps, InfoOf);
      r := SortBy(infos, LowerName);
      ListingOf(ps, infos, r);
    }

    /** A sorted permutation of the infos of the globbed files is the listing. */
    lemma ListingOf(ps: seq<string>, infos: seq<FileInfo>, r: seq<FileInfo>)
      requires disk.Exists(LayoutsDir)
      requires forall p :: p in ps <==> p in disk.files && InGlob(p, LayoutsDir, Extension)
      requires forall i, j :: 0 <= i < j < |ps| ==> ps[i] != ps[j]
      requires |infos| == |ps| && forall k :: 0 <= k < |ps| ==> infos[k] == InfoOf(ps[k])
      requires SortedBy(r, LowerName) && multiset(r) == multiset(infos)
      ensures IsListing(r)
    {
      SortedMembers(infos, r);
      forall p | Listed(p)
        ensures InfoOf(p) in r
      {
        var k :| 0 <= k < |ps| && ps[k] == p;
        assert infos[k] == InfoOf(p);
      }
      forall x | x in r
        ensures Listed(x.path) && x == InfoOf(x.path)
      {
        var k :| 0 <= k < |infos| && infos[k] == x;
      }
      forall i, j | 0 <= i < j < |r|
        ensures r[i].path != r[j].path
      {
        assert r[i] in r && r[j] in r;
        if r[i].path == r[j].path {
          PermutationDistinct(infos, r);
        }
      }
    }
  }
}

=== FILE: value_order.dfy ===
// Python's ordering of the JSON values it can order: two strings by code
// point, two numbers numerically (a boolean counts as 0 or 1).  `<` on any
// other pair raises TypeError, so sorted() succeeds exactly when every two
// of the values it compares are of one of these two kinds.
module ValueOrder {
  import opened Text
  import opened Json
  import opened Sorting

  /** An int or a bool: the values Python compares as numbers. */
  predicate IsNumber(v: Value)
  {
    v.Num? || v.Bool?
  }

  /** The number a value stands for in a comparison. */
  function NumberOf(v: Value): int
    requires IsNumber(v)
  {
    if v.Num? then v.n else if v.b then 1 else 0
  }

  /** Whether `a < b` is defined: two strings or two numbers. */
  predicate Comparable(a: Value, b: Value)
  {
    (a.Str? && b.Str?) || (IsNumber(a) && IsNumber(b))
  }

  /** `a <= b` for two values Python can compare. */
  predicate AtMost(a: Value, b: Value)
  {
    || (a.Str? && b.Str? && LessOrEqual(a.s, b.s))
    || (IsNumber(a) && IsNumber(b) && NumberOf(a) <= NumberOf(b))
  }

  /** Every value compared with itself. */
  function Itself(v: Value): Value
  {
    v
  }

  /** Every two entries at different positions have keys Python can compare. */
  predicate OrderableBy<T>(xs: seq<T>, key: T -> Value)
  {
    forall i, j :: 0 <= i < j < |xs| ==> Comparable(key(xs[i]), key(xs[j]))
  }

  /** Every two distinct values of the set can be compared: what sorted() of the set needs. */
  predicate OrderableSet(s: set<Value>)
  {
    forall a, b :: a in s && b in s && a != b ==> Comparable(a, b)
  }

  /** The keys never decrease along the sequence, in Python's order. */
  predicate AscendingBy<T>(xs: seq<T>, key: T -> Value)
  {
    forall i, j :: 0 <= i < j < |xs| ==> AtMost(key(xs[i]), key(xs[j]))
  }

  /** The keys never increase along the sequence, in Python's order. */
  predicate DescendingBy<T>(xs: seq<T>, key: T -> Value)
  {
    forall i, j :: 0 <= i < j < |xs| ==> AtMost(key(xs[j]), key(xs[i]))
  }

  /** Comparable keys are all strings or all numbers, unless there are fewer than two. */
  lemma OneKind<T>(xs: seq<T>, key: T -> Value)
    ensures OrderableBy(xs, key) <==>
      || |xs| < 2
      || (forall i :: 0 <= i < |xs| ==> key(xs[i]).Str?)
      || (forall i :: 0 <= i < |xs| ==> IsNumber(key(xs[i])))
  {
    if OrderableBy(xs, key) && |xs| >= 2 {
      assert Comparable(key(xs[0]), key(xs[1]));
      if key(xs[0]).Str? {
        forall i | 0 < i < |xs| ensures key(xs[i]).Str? {
          assert Comparable(key(xs[0]), key(xs[i]));
        }
      } else {
        forall i | 0 < i < |xs| ensures IsNumber(key(xs[i])) {
          assert Comparable(key(xs[0]), key(xs[i]));
        }
      }
    }
  }

  /** A listing of a set, without repeats, is orderable exactly when the set is. */
  lemma OrderableListing(s: set<Value>, xs: seq<Value>)
    requires forall x :: x in xs <==> x in s
    requires forall i, j :: 0 <= i < j < |xs| ==> xs[i] != xs[j]
    ensures OrderableBy(xs, Itself) <==> OrderableSet(s)
  {
    if OrderableBy(xs, Itself) {
      forall a, b | a in s && b in s && a != b
        ensures Comparable(a, b)
      {
        var i :| 0 <= i < |xs| && xs[i] == a;
        var j :| 0 <= j < |xs| && xs[j] == b;
        if i < j {
          assert Comparable(Itself(xs[i]), Itself(xs[j]));
        } else {
          assert Comparable(Itself(xs[j]), Itself(xs[i]));
        }
      }
    }
  }

  /** The string a key stands for when every key is a string. */
  function StringKey<T>(key: T -> Value): T -> string
  {
    (x: T) => if key(x).Str? then key(x).s else ""
  }

  /** The number a key stands for when every key is a number, ascending or negated for descending. */
  function NumberKey<T>(key: T -> Value, negate: bool): T -> real
  {
    (x: T) => if IsNumber(key(x)) then (if negate then -NumberOf(key(x)) as real else NumberOf(key(x)) as real) else 0.0
  }

  /** The value Python's `==` takes v for: a boolean is the number 0 or 1. */
  function TieOf(v: Value): Value
  {
    if IsNumber(v) then Num(NumberOf(v)) else v
  }

  /** The key under which Python sees two entries as tied. */
  function TieKey<T>(key: T -> Value): T -> Value
  {
    (x: T) => TieOf(key(x))
  }

  /** Two values Python can compare are tied exactly when each is at most the other. */
  lemma TieIsMutualAtMost(a: Value, b: Value)
    requires Comparable(a, b)
    ensures TieOf(a) == TieOf(b) <==> AtMost(a, b) && AtMost(b, a)
  {
    if a.Str? {
      LessOrEqualTotal(a.s, a.s);
      if AtMost(a, b) && AtMost(b, a) {
        LessOrEqualAntisymmetric(a.s, b.s);
      }
    }
  }

  /** With string keys only, the entries tied with v are those whose string key is v's string. */
  lemma {:induction false} StringTies<T>(s: seq<T>, key: T -> Value, v: Value)
    requires forall i :: 0 <= i < |s| ==> key(s[i]).Str?
    ensures Keyed(s, TieKey(key), v) == if v.Str? then Keyed(s, StringKey(key), v.s) else []
  {
    if s != [] {
      StringTies(s[..|s| - 1], key, v);
    }
  }

  /** With number keys only, the entries tied with v are those whose numeric key is v's number. */
  lemma {:induction false} NumberTies<T>(s: seq<T>, key: T -> Value, negate: bool, v: Value)
    requires forall i :: 0 <= i < |s| ==> IsNumber(key(s[i]))
    ensures Keyed(s, TieKey(key), v) ==
      if v.Num? then Keyed(s, NumberKey(key, negate), if negate then (-v.n) as real else v.n as real) else []
  {
    if s != [] {
      NumberTies(s[..|s| - 1], key, negate, v);
    }
  }

  /** A permutation of a sequence keeps every property its elements have. */
  lemma PermutationKeeps<T>(xs: seq<T>, r: seq<T>, i: int)
    requires multiset(r) == multiset(xs) && 0 <= i < |r|
    ensures r[i] in xs
  {
    assert r[i] in multiset(r);
  }

  /** sorted(xs, key=key) when Python can compare every two keys; entries Python sees as tied keep their order. */
  method SortByValue<T>(xs: seq<T>, key: T -> Value) returns (r: seq<T>)
    requires OrderableBy(xs, key)
    ensures multiset(r) == multiset(xs)
    ensures AscendingBy(r, key)
    ensures StableBy(xs, r, TieKey(key))
  {
    OneKind(xs, key);
    if |xs| < 2 {
      return xs;
    }
    if forall i :: 0 <= i < |xs| ==> key(xs[i]).Str? {
      r := SortBy(xs, StringKey(key));
      forall i | 0 <= i < |r| ensures key(r[i]).Str? {
        PermutationKeeps(xs, r, i);
      }
      forall v ensures Keyed(r, TieKey(key), v) == Keyed(xs, TieKey(key), v) {
        StringTies(r, key, v);
        StringTies(xs, key, v);
      }
    } else {
      r := SortByReal(xs, NumberKey(key, false));
      forall i | 0 <= i < |r| ensures IsNumber(key(r[i])) {
        PermutationKeeps(xs, r, i);
      }
      forall v ensures Keyed(r, TieKey(key), v) == Keyed(xs, TieKey(key), v) {
        NumberTies(r, key, false, v);
        NumberTies(xs, key, false, v);
      }
    }
  }

  /** sorted(xs, key=key, reverse=True) when Python can compare every two keys; tied entries keep their order, as reverse=True does. */
  method SortDescByValue<T>(xs: seq<T>, key: T -> Value) returns (r: seq<T>)
    requires OrderableBy(xs, key)
    ensures multiset(r) == multiset(xs)
    ensures DescendingBy(r, key)
    ensures StableBy(xs, r, TieKey(key))
  {
    OneKind(xs, key);
    if |xs| < 2 {
      return xs;
    }
    if forall i :: 0 <= i < |xs| ==> key(xs[i]).Str? {
      r := SortDescBy(xs, StringKey(key));
      forall i | 0 <= i < |r| ensures key(r[i]).Str? {
        PermutationKeeps(xs, r, i);
      }
      forall v ensures Keyed(r, TieKey(key), v) == Keyed(xs, TieKey(key), v) {
        StringTies(r, key, v);
        StringTies(xs, key, v);
      }
    } else {
      r := SortByReal(xs, NumberKey(key, true));
      forall i | 0 <= i < |r| ensures IsNumber(key(r[i])) {
        PermutationKeeps(xs, r, i);
      }
      forall v ensures Keyed(r, TieKey(key), v) == Keyed(xs, TieKey(key), v) {
        NumberTies(r, key, true, v);
        NumberTies(xs, key, true, v);
      }
    }
  }

  /** The first ten of an ascending sequence are at most every element left out. */
  lemma FirstTen(all: seq<Value>, cs: seq<Value>)
    requires AscendingBy(all, Itself) && cs == all[..if |all| <= 10 then |all| else 10]
    ensures forall c :: c in all && c !in cs ==> |cs| == 10 && forall d :: d in cs ==> AtMost(d, c)
  {
    forall c | c in all && c !in cs
      ensures |cs| == 10 && forall d :: d in cs ==> AtMost(d, c)
    {
      var k :| 0 <= k < |all| && all[k] == c;
      assert forall j :: 0 <= j < |cs| ==> cs[j] == all[j];
      assert k >= |cs|;
      forall d | d in cs
        ensures AtMost(d, c)
      {
        var j :| 0 <= j < |cs| && cs[j] == d;
        assert AtMost(Itself(all[j]), Itself(all[k]));
      }
    }
  }
}

=== FILE: wrappers.dfy ===
// Option and Result wrappers, and the Python exception kinds the core raises.
module Wrappers {

  datatype Option<T> = None | Some(value: T)

  /** The Python exceptions the modelled code raises or lets escape. */
  datatype Error =
    | FileNotFound(path: string)   // FileNotFoundError
    | ValueError(detail: string)   // ValueError
    | KeyError(key: string)        // KeyError (a missing dict key)
    | TypeError(detail: string)    // TypeError (unhashable or unorderable values)
    | BadZip(path: string)         // zipfile.BadZipFile: the file is not an archive
    | JsonDecode(detail: string)   // json.JSONDecodeError
    | XmlParse(detail: string)     // xml.etree.ElementTree.ParseError
    | AttributeError(detail: string)
    | IsADirectory(path: string)   // IsADirectoryError: a directory where a file was expected
    | NotADirectory(path: string)  // NotADirectoryError: a file where a directory was expected
    | SameFile(path: string)       // shutil.SameFileError: a copy onto its own source
    | IndexError(detail: string)   // IndexError (a choice from an empty sequence)

  datatype Result<T> = Ok(value: T) | Err(error: Error)
  {
    predicate IsFailure() { Err? }
    function PropagateFailure<U>(): Result<U>
      requires Err?
    {
      Err(error)
    }
    function Extract(): T
      requires Ok?
    {
      value
    }
  }
}

=== FILE: xml_items.dfy ===
// The item walk, search and edit the two XML-based plugins share.  Tasker and
// Total Launcher walk the dict form of a document in the same pre-order and
// differ only in which tags they report, how an item is named and labelled,
// which extra field it carries and which attributes identify it for an edit.
module XmlItems {
  import opened Wrappers
  import opened Text
  import opened OrderedMap
  import opened Json
  import opened XmlTree
  import Seqs

  datatype Dialect = Tasker | TotalLauncher

  /** tasker_tags / item_tags */
  function Tags(d: Dialect): seq<string>
  {
    match d
    case Tasker => ["Task", "Profile", "Action", "Event", "State", "Condition"]
    case TotalLauncher => ["app", "widget", "folder", "shortcut", "icon", "panel"]
  }

  /**
   * The identifier a listing reports: Tasker `sr`, else `ve`, else
   * '<tag>_0'; Total Launcher `id`, else `name`, else 'item_0'.  (The
   * counter in the fallback is the length of a list that is still empty.)
   */
  function ItemId(d: Dialect, n: Node): string
  {
    match d
    case Tasker => GetOr(n.attributes, "sr", GetOr(n.attributes, "ve", n.tag + "_0"))
    case TotalLauncher => GetOr(n.attributes, "id", GetOr(n.attributes, "name", "item_0"))
  }

  /** Tasker `name`; Total Launcher `label`, else `title`; '' when absent. */
  function Label(d: Dialect, n: Node): string
  {
    match d
    case Tasker => GetOr(n.attributes, "name", "")
    case TotalLauncher => GetOr(n.attributes, "label", GetOr(n.attributes, "title", ""))
  }

  /** The two attributes that identify a node for an edit. */
  function Primary(d: Dialect): string
  {
    if d == Tasker then "sr" else "id"
  }

  function Secondary(d: Dialect): string
  {
    if d == Tasker then "ve" else "name"
  }

  /** The type-specific field of an item. */
  datatype Extra =
    | NoExtra
    | ActionsCount(count: nat)   // a Tasker Task: its direct Action children
    | Code(code: string)         // a Tasker Action: its `code` attribute
    | Package(package: string)   // a Total Launcher app: its `package` attribute
    | ItemsCount(count: nat)     // a Total Launcher folder: its direct children

  /** The number of nodes in `ns` with the given tag. */
  function CountTag(ns: seq<Node>, tag: string): (r: nat)
    ensures r <= |ns|
    ensures r == 0 <==> forall i :: 0 <= i < |ns| ==> ns[i].tag != tag
    ensures (forall i :: 0 <= i < |ns| ==> ns[i].tag == tag) ==> r == |ns|
  {
    if ns == [] then 0 else (if ns[0].tag == tag then 1 else 0) + CountTag(ns[1..], tag)
  }

  function ExtraOf(d: Dialect, n: Node): Extra
  {
    match d
    case Tasker =>
      if n.tag == "Task" then ActionsCount(CountTag(n.children, "Action"))
      else if n.tag == "Action" then Code(GetOr(n.attributes, "code", ""))
      else NoExtra
    case TotalLauncher =>
      if n.tag == "app" then Package(GetOr(n.attributes, "package", ""))
      else if n.tag == "folder" then ItemsCount(|n.children|)
      else NoExtra
  }

  /** Total Launcher's `x`/`y`: the attribute string when present, else the number 0. */
  function Coordinate(n: Node, k: string): Value
  {
    match Get(n.attributes, k)
    case Some(s) => Str(s)
    case None => Num(0)
  }

  /** An item descriptor; Tasker items carry no position. */
  datatype Item = Item(id: string, kind: string, path: string, name: string, position: Option<(Value, Value)>, extra: Extra, data: Node)

  function Describe(d: Dialect, n: Node, path: string): Item
  {
    var position := if d == TotalLauncher then Some((Coordinate(n, "x"), Coordinate(n, "y"))) else None;
    Item(ItemId(d, n), n.tag, path, Label(d, n), position, ExtraOf(d, n), n)
  }

  /** The node is reported: its tag is one of the dialect's and passes the type filter. */
  predicate Emitted(d: Dialect, n: Node, filter: Option<string>)
  {
    n.tag in Tags(d) && (filter.None? || filter.value == n.tag)
  }

  /** Path of the i-th child of a node with the given tag, below `path`. */
  function ChildPath(path: string, tag: string, i: nat): string
  {
    var step := tag + "[" + NatToString(i) + "]";
    if path == "" then step else path + "/" + step
  }

  /** _find_tasker_elements / _find_items_recursive */
  function Walk(d: Dialect, n: Node, filter: Option<string>, path: string): seq<Item>
  {
    (if Emitted(d, n, filter) then [Describe(d, n, path)] else []) + WalkChildren(d, n.children, 0, n.tag, filter, path)
  }

  /** The walks of the children from the i-th on, of a parent with the given tag. */
  function WalkChildren(d: Dialect, cs: seq<Node>, i: nat, tag: string, filter: Option<string>, path: string): seq<Item>
  {
    if cs == [] then []
    else Walk(d, cs[0], filter, ChildPath(path, tag, i)) + WalkChildren(d, cs[1..], i + 1, tag, filter, path)
  }

  /** Every item reports a node of one of the dialect's tags that passes the filter, described from that node. */
  lemma {:induction false} WalkEmits(d: Dialect, n: Node, filter: Option<string>, path: string)
    ensures forall e :: e in Walk(d, n, filter, path) ==>
      e.kind == e.data.tag && e.kind in Tags(d) && (filter.None? || e.kind == filter.value)
      && e == Describe(d, e.data, e.path)
  {
    WalkChildrenEmits(d, n.children, 0, n.tag, filter, path);
  }

  lemma {:induction false} WalkChildrenEmits(d: Dialect, cs: seq<Node>, i: nat, tag: string, filter: Option<string>, path: string)
    ensures forall e :: e in WalkChildren(d, cs, i, tag, filter, path) ==>
      e.kind == e.data.tag && e.kind in Tags(d) && (filter.None? || e.kind == filter.value)
      && e == Describe(d, e.data, e.path)
  {
    if cs != [] {
      WalkEmits(d, cs[0], filter, ChildPath(path, tag, i));
      WalkChildrenEmits(d, cs[1..], i + 1, tag, filter, path);
    }
  }

  // ----- the reference traversal: every node, each before its descendants -----

  function Subtrees(n: Node): (r: seq<Node>)
    ensures |r| >= 1 && r[0] == n
  {
    [n] + SubtreesAll(n.children)
  }

  function SubtreesAll(ns: seq<Node>): seq<Node>
  {
    if ns == [] then [] else Subtrees(ns[0]) + SubtreesAll(ns[1..])
  }

  /** The node itself when the walk reports it. */
  function Own(d: Dialect, n: Node, filter: Option<string>): seq<Node>
  {
    if Emitted(d, n, filter) then [n] else []
  }

  /** The nodes of a traversal that the walk reports, in order. */
  function EmittedNodes(d: Dialect, ns: seq<Node>, filter: Option<string>): seq<Node>
  {
    if ns == [] then [] else Own(d, ns[0], filter) + EmittedNodes(d, ns[1..], filter)
  }

  lemma {:induction false} EmittedNodesConcat(d: Dialect, a: seq<Node>, b: seq<Node>, filter: Option<string>)
    ensures EmittedNodes(d, a + b, filter) == EmittedNodes(d, a, filter) + EmittedNodes(d, b, filter)
  {
    if a == [] {
      assert a + b == b;
    } else {
      Seqs.SplitHead(a, b);
      EmittedNodesConcat(d, a[1..], b, filter);
      Seqs.Assoc(Own(d, a[0], filter), EmittedNodes(d, a[1..], filter), EmittedNodes(d, b, filter));
    }
  }

  function Datas(es: seq<Item>): (r: seq<Node>)
    ensures |r| == |es| && forall i :: 0 <= i < |es| ==> r[i] == es[i].data
  {
    if es == [] then [] else [es[0].data] + Datas(es[1..])
  }

  lemma DatasConcat(a: seq<Item>, b: seq<Item>)
    ensures Datas(a + b) == Datas(a) + Datas(b)
  {
  }

  /** The walk reports exactly the emitted nodes of the pre-order traversal, in that order. */
  lemma {:induction false} WalkVisits(d: Dialect, n: Node, filter: Option<string>, path: string)
    ensures Datas(Walk(d, n, filter, path)) == EmittedNodes(d, Subtrees(n), filter)
  {
    WalkChildrenVisits(d, n.children, 0, n.tag, filter, path);
    EmittedNodesConcat(d, [n], SubtreesAll(n.children), filter);
    var own := if Emitted(d, n, filter) then [Describe(d, n, path)] else [];
    assert Datas(own) == Own(d, n, filter);
    assert EmittedNodes(d, [n], filter) == Own(d, n, filter) + EmittedNodes(d, [], filter);
    assert Datas(own + WalkChildren(d, n.children, 0, n.tag, filter, path))
      == Datas(own) + Datas(WalkChildren(d, n.children, 0, n.tag, filter, path));
  }

  lemma {:induction false} WalkChildrenVisits(d: Dialect, cs: seq<Node>, i: nat, tag: string, filter: Option<string>, path: string)
    ensures Datas(WalkChildren(d, cs, i, tag, filter, path)) == EmittedNodes(d, SubtreesAll(cs), filter)
  {
    if cs != [] {
      var first := Walk(d, cs[0], filter, ChildPath(path, tag, i));
      var rest := WalkChildren(d, cs[1..], i + 1, tag, filter, path);
      WalkVisits(d, cs[0], filter, ChildPath(path, tag, i));
      WalkChildrenVisits(d, cs[1..], i + 1, tag, filter, path);
      EmittedNodesConcat(d, Subtrees(cs[0]), SubtreesAll(cs[1..]), filter);
      DatasConcat(first, rest);
      assert WalkChildren(d, cs, i, tag, filter, path) == first + rest;
      assert SubtreesAll(cs) == Subtrees(cs[0]) + SubtreesAll(cs[1..]);
    }
  }

  // ----- the type filter -----

  /** The items of one type, in order. */
  function OfKind(es: seq<Item>, t: string): seq<Item>
  {
    if es == [] then []
    else (if es[0].kind == t then [es[0]] else []) + OfKind(es[1..], t)
  }

  lemma {:induction false} OfKindConcat(a: seq<Item>, b: seq<Item>, t: string)
    ensures OfKind(a + b, t) == OfKind(a, t) + OfKind(b, t)
  {
    if a == [] {
      assert a + b == b;
    } else {
      var rest := a[1..] + b;
      assert a + b == [a[0]] + rest;
      OfKindConcat(a[1..], b, t);
      var h := if a[0].kind == t then [a[0]] else [];
      assert OfKind(a + b, t) == h + OfKind(rest, t);
      assert OfKind(a, t) == h + OfKind(a[1..], t);
    }
  }

  /** Listing with a type filter is the unfiltered listing restricted to that type, in the same order. */
  lemma {:induction false} FilteredWalk(d: Dialect, n: Node, t: string, path: string)
    ensures Walk(d, n, Some(t), path) == OfKind(Walk(d, n, None, path), t)
  {
    FilteredWalkChildren(d, n.children, 0, n.tag, t, path);
    OfKindConcat(if Emitted(d, n, None) then [Describe(d, n, path)] else [], WalkChildren(d, n.children, 0, n.tag, None, path), t);
  }

  lemma {:induction false} FilteredWalkChildren(d: Dialect, cs: seq<Node>, i: nat, tag: string, t: string, path: string)
    ensures WalkChildren(d, cs, i, tag, Some(t), path) == OfKind(WalkChildren(d, cs, i, tag, None, path), t)
  {
    if cs != [] {
      FilteredWalk(d, cs[0], t, ChildPath(path, tag, i));
      FilteredWalkChildren(d, cs[1..], i + 1, tag, t, path);
      OfKindConcat(Walk(d, cs[0], None, ChildPath(path, tag, i)), WalkChildren(d, cs[1..], i + 1, tag, None, path), t);
    }
  }

  // ----- search -----

  /** `search_lower in str(x).lower()` */
  predicate Mentions(x: string, term: string)
  {
    Contains(Lower(x), Lower(term))
  }

  /** The extra field find_element looks at: an Action's code or an app's package, else ''. */
  function ExtraText(x: Extra): string
  {
    match x
    case Code(c) => c
    case Package(p) => p
    case _ => ""
  }

  /** find_element's test: id, name/label, type or code/package mentions the term. */
  predicate Hit(e: Item, term: string)
  {
    Mentions(e.id, term) || Mentions(e.name, term) || Mentions(e.kind, term) || Mentions(ExtraText(e.extra), term)
  }

  /** The listed items that the term hits, in listing order. */
  function Search(es: seq<Item>, term: string): (r: seq<Item>)
    ensures |r| <= |es|
  {
    if es == [] then []
    else Search(es[..|es| - 1], term) + (if Hit(es[|es| - 1], term) then [es[|es| - 1]] else [])
  }

  /** An item is found exactly when it is listed and the term hits it. */
  lemma {:induction false} SearchMembership(es: seq<Item>, term: string)
    ensures forall e :: e in Search(es, term) <==> e in es && Hit(e, term)
  {
    if es != [] {
      var init := es[..|es| - 1];
      SearchMembership(init, term);
      assert es == init + [es[|es| - 1]];
    }
  }

  /** find_element's loop over the listing. */
  method FindMatching(all: seq<Item>, term: string) returns (matching: seq<Item>)
    ensures matching == Search(all, term)
  {
    matching := [];
    for i := 0 to |all|
      invariant matching == Search(all[..i], term)
    {
      assert all[..i + 1][..i] == all[..i];
      if Hit(all[i], term) {
        matching := matching + [all[i]];
      }
    }
    assert all[..|all|] == all;
  }

  // ----- editing -----

  /** The edit modify_element performs: the target is matched on the dialect's identifier attributes and the values are stored as str(value). */
  function EditFor(d: Dialect, target: string, props: Dict<Value>): Edit
  {
    Edit(Primary(d), Secondary(d), target, Stringify(props))
  }

  /**
   * A listed identifier addresses its node for an edit exactly when the node
   * carries one of the identifier attributes: the listing's fallback
   * ('<tag>_0' or 'item_0') is never the '' the edit compares with.
   */
  lemma ListedIdTargets(d: Dialect, n: Node, props: Dict<Value>)
    ensures Matches(HeadOf(n), EditFor(d, ItemId(d, n), props))
      <==> HasKey(n.attributes, Primary(d)) || HasKey(n.attributes, Secondary(d))
  {
    var attrs := n.attributes;
    if !HasKey(attrs, Primary(d)) && !HasKey(attrs, Secondary(d)) {
      assert IdOf(attrs, Primary(d), Secondary(d)) == "";
      assert ItemId(d, n) != "" by {
        if d == Tasker {
          assert |n.tag + "_0"| >= 2;
        } else {
          assert |"item_0"| == 6;
        }
      }
    }
  }

  /** A loaded document and whether it has been edited since it was read. */
  datatype XmlEntry = XmlEntry(data: Node, modified: bool)

  /** A reported node without children is listed alone. */
  lemma WalkLeaf(d: Dialect, n: Node, filter: Option<string>, path: string)
    requires n.children == [] && Emitted(d, n, filter)
    ensures Walk(d, n, filter, path) == [Describe(d, n, path)]
  {
    assert WalkChildren(d, [], 0, n.tag, filter, path) == [];
  }

  /** Item j is f of node j and its position k + j. */
  ghost predicate ListsEach<T, U>(ws: seq<U>, cs: seq<T>, k: nat, f: (T, nat) -> U)
  {
    |ws| == |cs| && forall j {:trigger ws[j]} :: 0 <= j < |cs| ==> ws[j] == f(cs[j], k + j)
  }

  lemma ListsEachCons<T, U>(x: U, rest: seq<U>, cs: seq<T>, k: nat, f: (T, nat) -> U)
    requires cs != [] && x == f(cs[0], k) && ListsEach(rest, cs[1..], k + 1, f)
    ensures ListsEach([x] + rest, cs, k, f)
  {
    var ws := [x] + rest;
    forall j | 0 <= j < |cs|
      ensures ws[j] == f(cs[j], k + j)
    {
      if j > 0 {
        assert ws[j] == rest[j - 1] && cs[1..][j - 1] == cs[j];
      }
    }
  }

  /** How a childless node at child position i below `path` is described. */
  function LeafItem(d: Dialect, tag: string, path: string): (Node, nat) -> Item
  {
    (c: Node, i: nat) => Describe(d, c, ChildPath(path, tag, i))
  }

  /** Walking childless reported nodes describes each one, in order, at its child path. */
  lemma {:induction false} WalkLeaves(d: Dialect, cs: seq<Node>, k: nat, tag: string, filter: Option<string>, path: string)
    requires forall j :: 0 <= j < |cs| ==> cs[j].children == [] && Emitted(d, cs[j], filter)
    ensures ListsEach(WalkChildren(d, cs, k, tag, filter, path), cs, k, LeafItem(d, tag, path))
  {
    if cs != [] {
      var x := Describe(d, cs[0], ChildPath(path, tag, k));
      var rest := WalkChildren(d, cs[1..], k + 1, tag, filter, path);
      WalkLeaf(d, cs[0], filter, ChildPath(path, tag, k));
      WalkLeaves(d, cs[1..], k + 1, tag, filter, path);
      assert WalkChildren(d, cs, k, tag, filter, path) == [x] + rest;
      ListsEachCons(x, rest, cs, k, LeafItem(d, tag, path));
    }
  }
}

=== FILE: xml_tree.dfy ===
// XML documents (as xml.etree.ElementTree elements) and the dict form the
// Tasker and Total Launcher adapters work on: {tag, attributes, text, children}.
// Both adapters convert with the same pair of functions and edit attributes
// with the same first-match update, parameterised by the two attributes that
// carry a node's identifier.
module XmlTree {
  import opened Wrappers
  import opened Text
  import opened OrderedMap
  import opened Json
  import Seqs

  /** An ElementTree element: tag, attribute dict, text (None when absent) and children. */
  datatype Element = Element(tag: string, attrib: Dict<string>, text: Option<string>, children: seq<Element>)

  /** The dict form of an element. */
  datatype Node = Node(tag: string, attributes: Dict<string>, text: Option<string>, children: seq<Node>)

  /** The text the dict form keeps: the stripped text when the element has a non-empty one, else None. */
  function NodeText(t: Option<string>): Option<string>
  {
    if t.Some? && t.value != "" then Some(Strip(t.value)) else None
  }

  /** _xml_to_dict */
  function ToNode(e: Element): (n: Node)
    ensures n.tag == e.tag && n.attributes == e.attrib && n.text == NodeText(e.text)
    ensures |n.children| == |e.children|
  {
    Node(e.tag, e.attrib, NodeText(e.text), ToNodes(e.children))
  }

  function ToNodes(es: seq<Element>): (ns: seq<Node>)
    ensures |ns| == |es|
  {
    if es == [] then [] else [ToNode(es[0])] + ToNodes(es[1..])
  }

  /** _dict_to_xml: the text is set only when it is non-empty. */
  function ToElement(n: Node): (e: Element)
    ensures e.tag == n.tag && e.attrib == n.attributes && |e.children| == |n.children|
  {
    Element(n.tag, n.attributes, if n.text.Some? && n.text.value != "" then n.text else None, ToElements(n.children))
  }

  function ToElements(ns: seq<Node>): (es: seq<Element>)
    ensures |es| == |ns|
  {
    if ns == [] then [] else [ToElement(ns[0])] + ToElements(ns[1..])
  }

  /** A text survives the round trip: absent, or non-empty and already stripped. */
  predicate NormalText(t: Option<string>)
  {
    t.None? || (t.value != "" && Strip(t.value) == t.value)
  }

  predicate Normal(n: Node)
  {
    NormalText(n.text) && NormalAll(n.children)
  }

  predicate NormalAll(ns: seq<Node>)
  {
    ns == [] || (Normal(ns[0]) && NormalAll(ns[1..]))
  }

  /** Converting a node to an element and back gives the node exactly when all its texts are normal. */
  lemma {:induction false} RoundTrip(n: Node)
    ensures ToNode(ToElement(n)) == n <==> Normal(n)
  {
    RoundTripAll(n.children);
    var t := n.text;
    var t' := NodeText(ToElement(n).text);
    if t.Some? && t.value != "" {
      assert t' == Some(Strip(t.value));
    } else {
      assert t' == None;
    }
    assert t' == t <==> NormalText(t);
  }

  lemma {:induction false} RoundTripAll(ns: seq<Node>)
    ensures ToNodes(ToElements(ns)) == ns <==> NormalAll(ns)
  {
    if ns != [] {
      RoundTrip(ns[0]);
      RoundTripAll(ns[1..]);
      var rs := ToNodes(ToElements(ns));
      assert rs == [ToNode(ToElement(ns[0]))] + ToNodes(ToElements(ns[1..]));
      if rs == ns {
        assert rs[1..] == ns[1..];
      }
    }
  }

  /** The texts of a converted element are always stripped, so one more round trip can only drop empty texts. */
  lemma ToNodeStripped(e: Element)
    ensures ToNode(e).text.Some? ==> Strip(ToNode(e).text.value) == ToNode(e).text.value
  {
    if e.text.Some? && e.text.value != "" {
      StripIdempotent(e.text.value);
    }
  }

  /** A node without its children: what an attribute edit can touch. */
  datatype Head = Head(tag: string, attributes: Dict<string>, text: Option<string>)

  function HeadOf(n: Node): Head
  {
    Head(n.tag, n.attributes, n.text)
  }

  /** The nodes in pre-order (a parent before its descendants, children in document order). */
  function Heads(n: Node): (r: seq<Head>)
    ensures |r| >= 1 && r[0] == HeadOf(n)
  {
    [HeadOf(n)] + HeadsAll(n.children)
  }

  function HeadsAll(ns: seq<Node>): seq<Head>
  {
    if ns == [] then [] else Heads(ns[0]) + HeadsAll(ns[1..])
  }

  /**
   * An attribute edit: the node whose identifier (attribute `primary`, else
   * attribute `secondary`, else "") equals `target` receives `props`.
   */
  datatype Edit = Edit(primary: string, secondary: string, target: string, props: Dict<string>)

  /** attrs.get(primary, attrs.get(secondary, '')) */
  function IdOf(attrs: Dict<string>, primary: string, secondary: string): string
  {
    GetOr(attrs, primary, GetOr(attrs, secondary, ""))
  }

  predicate Matches(h: Head, e: Edit)
  {
    IdOf(h.attributes, e.primary, e.secondary) == e.target
  }

  /** The stored form of property values: attrs[key] = str(value). */
  function Stringify(props: Dict<Value>): (r: Dict<string>)
    ensures Keys(r) == Keys(props)
    ensures forall i :: 0 <= i < |props| ==> r[i].val == Show(props[i].val)
  {
    if props == [] then [] else [Entry(props[0].key, Show(props[0].val))] + Stringify(props[1..])
  }

  /** Storing every property in turn is dict.update with the stringified properties. */
  function Apply(h: Head, e: Edit): Head
  {
    Head(h.tag, Merge(h.attributes, e.props), h.text)
  }

  predicate AnyMatch(hs: seq<Head>, e: Edit)
  {
    hs != [] && (Matches(hs[0], e) || AnyMatch(hs[1..], e))
  }

  /** The first node in the sequence that the edit targets. */
  function FirstMatch(hs: seq<Head>, e: Edit): Head
    requires AnyMatch(hs, e)
  {
    if Matches(hs[0], e) then hs[0] else FirstMatch(hs[1..], e)
  }

  /** Reference definition of the edit on the pre-order sequence: only the first targeted node changes. */
  function ReplaceFirst(hs: seq<Head>, e: Edit): (r: seq<Head>)
    ensures |r| == |hs|
  {
    if hs == [] then []
    else if Matches(hs[0], e) then [Apply(hs[0], e)] + hs[1..]
    else [hs[0]] + ReplaceFirst(hs[1..], e)
  }

  /** _find_and_update_element: the updated node (if any) and the new tree. */
  function Update(n: Node, e: Edit): (Option<Node>, Node)
  {
    if Matches(HeadOf(n), e) then
      var n' := Node(n.tag, Merge(n.attributes, e.props), n.text, n.children);
      (Some(n'), n')
    else
      var (found, cs) := UpdateAll(n.children, e);
      (found, Node(n.tag, n.attributes, n.text, cs))
  }

  function UpdateAll(ns: seq<Node>, e: Edit): (Option<Node>, seq<Node>)
  {
    if ns == [] then (None, [])
    else
      var (found, n') := Update(ns[0], e);
      if found.Some? then (found, [n'] + ns[1..])
      else
        var (found', rest) := UpdateAll(ns[1..], e);
        (found', [ns[0]] + rest)
  }

  lemma {:induction false} AnyMatchConcat(a: seq<Head>, b: seq<Head>, e: Edit)
    ensures AnyMatch(a + b, e) <==> AnyMatch(a, e) || AnyMatch(b, e)
  {
    if a == [] {
      assert a + b == b;
    } else {
      assert (a + b)[0] == a[0] && (a + b)[1..] == a[1..] + b;
      AnyMatchConcat(a[1..], b, e);
    }
  }

  lemma {:induction false} ReplaceFirstConcat(a: seq<Head>, b: seq<Head>, e: Edit)
    ensures AnyMatch(a, e) ==> ReplaceFirst(a + b, e) == ReplaceFirst(a, e) + b
    ensures !AnyMatch(a, e) ==> ReplaceFirst(a + b, e) == a + ReplaceFirst(b, e)
  {
    if AnyMatch(a, e) {
      ReplaceFirstConcatHit(a, b, e);
    } else {
      ReplaceFirstConcatMiss(a, b, e);
    }
  }

  /** A match in the first part: the second part is left as it is. */
  lemma {:induction false} ReplaceFirstConcatHit(a: seq<Head>, b: seq<Head>, e: Edit)
    requires AnyMatch(a, e)
    ensures ReplaceFirst(a + b, e) == ReplaceFirst(a, e) + b
  {
    Seqs.SplitHead(a, b);
    if Matches(a[0], e) {
      Seqs.Assoc([Apply(a[0], e)], a[1..], b);
    } else {
      ReplaceFirstConcatHit(a[1..], b, e);
      Seqs.Assoc([a[0]], ReplaceFirst(a[1..], e), b);
    }
  }

  /** No match in the first part: it is kept and the replacement happens in the second. */
  lemma {:induction false} ReplaceFirstConcatMiss(a: seq<Head>, b: seq<Head>, e: Edit)
    requires !AnyMatch(a, e)
    ensures ReplaceFirst(a + b, e) == a + ReplaceFirst(b, e)
  {
    if a == [] {
      assert a + b == b;
    } else {
      Seqs.SplitHead(a, b);
      Seqs.HeadTail(a);
      ReplaceFirstConcatMiss(a[1..], b, e);
      Seqs.Assoc([a[0]], a[1..], ReplaceFirst(b, e));
    }
  }

  lemma {:induction false} FirstMatchConcat(a: seq<Head>, b: seq<Head>, e: Edit)
    requires AnyMatch(a, e)
    ensures AnyMatch(a + b, e) && FirstMatch(a + b, e) == FirstMatch(a, e)
  {
    var t := a[1..] + b;
    assert a + b == [a[0]] + t;
    if !Matches(a[0], e) {
      FirstMatchConcat(a[1..], b, e);
    }
  }

  lemma {:induction false} FirstMatchSkip(a: seq<Head>, b: seq<Head>, e: Edit)
    requires !AnyMatch(a, e) && AnyMatch(b, e)
    ensures AnyMatch(a + b, e) && FirstMatch(a + b, e) == FirstMatch(b, e)
  {
    if a == [] {
      assert a + b == b;
    } else {
      assert a + b == [a[0]] + (a[1..] + b);
      FirstMatchSkip(a[1..], b, e);
    }
  }

  lemma {:induction false} ReplaceFirstNoMatch(hs: seq<Head>, e: Edit)
    requires !AnyMatch(hs, e)
    ensures ReplaceFirst(hs, e) == hs
  {
    if hs != [] {
      ReplaceFirstNoMatch(hs[1..], e);
    }
  }

  /**
   * The update finds a node exactly when some node in pre-order is targeted;
   * the node it returns is the first such node with the properties stored; in
   * the new tree that node alone changed; with no target the tree is unchanged.
   */
  lemma {:induction false} UpdateSpec(n: Node, e: Edit)
    ensures Update(n, e).0.Some? <==> AnyMatch(Heads(n), e)
    ensures Update(n, e).0.Some? ==> HeadOf(Update(n, e).0.value) == Apply(FirstMatch(Heads(n), e), e)
    ensures Heads(Update(n, e).1) == ReplaceFirst(Heads(n), e)
    ensures Update(n, e).0.None? ==> Update(n, e).1 == n
  {
    var hs := Heads(n);
    assert hs == [HeadOf(n)] + HeadsAll(n.children);
    AnyMatchConcat([HeadOf(n)], HeadsAll(n.children), e);
    ReplaceFirstConcat([HeadOf(n)], HeadsAll(n.children), e);
    if !Matches(HeadOf(n), e) {
      assert !AnyMatch([HeadOf(n)], e);
      UpdateAllSpec(n.children, e);
    } else {
      assert AnyMatch([HeadOf(n)], e) by {
        assert [HeadOf(n)][0] == HeadOf(n);
      }
    }
  }

  lemma {:induction false} UpdateAllSpec(ns: seq<Node>, e: Edit)
    ensures UpdateAll(ns, e).0.Some? <==> AnyMatch(HeadsAll(ns), e)
    ensures UpdateAll(ns, e).0.Some? ==> HeadOf(UpdateAll(ns, e).0.value) == Apply(FirstMatch(HeadsAll(ns), e), e)
    ensures HeadsAll(UpdateAll(ns, e).1) == ReplaceFirst(HeadsAll(ns), e)
    ensures |UpdateAll(ns, e).1| == |ns|
    ensures UpdateAll(ns, e).0.None? ==> UpdateAll(ns, e).1 == ns
  {
    if ns != [] {
      UpdateSpec(ns[0], e);
      UpdateAllSpec(ns[1..], e);
      AnyMatchConcat(Heads(ns[0]), HeadsAll(ns[1..]), e);
      ReplaceFirstConcat(Heads(ns[0]), HeadsAll(ns[1..]), e);
      if AnyMatch(Heads(ns[0]), e) {
        FirstMatchConcat(Heads(ns[0]), HeadsAll(ns[1..]), e);
      }
      var (found, n') := Update(ns[0], e);
      var result := UpdateAll(ns, e).1;
      if found.Some? {
        assert result == [n'] + ns[1..];
        assert result[1..] == ns[1..];
      } else {
        var rest := UpdateAll(ns[1..], e).1;
        assert result == [ns[0]] + rest;
        assert result[1..] == rest;
        if AnyMatch(HeadsAll(ns[1..]), e) {
          FirstMatchSkip(Heads(ns[0]), HeadsAll(ns[1..]), e);
        }
        ReplaceFirstNoMatch(Heads(ns[0]), e);
      }
    }
  }

  /** No attribute dict in the tree repeats a key. */
  predicate UniqueAttributes(n: Node)
  {
    UniqueKeys(n.attributes) && forall i :: 0 <= i < |n.children| ==> UniqueAttributes(n.children[i])
  }

  /** The edit leaves the identifier attributes alone. */
  predicate KeepsIds(e: Edit)
  {
    !HasKey(e.props, e.primary) && !HasKey(e.props, e.secondary)
  }

  lemma IdAfterMerge(attrs: Dict<string>, e: Edit)
    requires KeepsIds(e) && UniqueKeys(e.props)
    ensures IdOf(Merge(attrs, e.props), e.primary, e.secondary) == IdOf(attrs, e.primary, e.secondary)
  {
    MergeGet(attrs, e.props, e.primary);
    MergeGet(attrs, e.props, e.secondary);
  }

  /** Repeating an edit that does not touch the identifier attributes changes nothing further. */
  lemma {:induction false} UpdateIdempotent(n: Node, e: Edit)
    requires UniqueAttributes(n) && UniqueKeys(e.props) && KeepsIds(e)
    ensures Update(Update(n, e).1, e) == Update(n, e)
  {
    var (found, n') := Update(n, e);
    if Matches(HeadOf(n), e) {
      IdAfterMerge(n.attributes, e);
      MergeIdempotent(n.attributes, e.props);
    } else {
      UpdateAllIdempotent(n.children, e);
    }
  }

  lemma {:induction false} UpdateAllIdempotent(ns: seq<Node>, e: Edit)
    requires forall i :: 0 <= i < |ns| ==> UniqueAttributes(ns[i])
    requires UniqueKeys(e.props) && KeepsIds(e)
    ensures UpdateAll(UpdateAll(ns, e).1, e) == UpdateAll(ns, e)
  {
    if ns != [] {
      var (found, n') := Update(ns[0], e);
      UpdateIdempotent(ns[0], e);
      if found.Some? {
        var r := [n'] + ns[1..];
        assert r[0] == n' && r[1..] == ns[1..];
      } else {
        UpdateSpec(ns[0], e);
        UpdateAllIdempotent(ns[1..], e);
        var rest := UpdateAll(ns[1..], e).1;
        var r := [ns[0]] + rest;
        assert r[0] == ns[0] && r[1..] == rest;
      }
    }
  }
}
